=== FILE: README.md ===
# A verified model of the mtx crowdfunding backend

This project models the decision and state-transition logic of the mtx
crowdfunding backend in Dafny. That backend is a Node.js/Express service over
MongoDB. The model covers:

- **Pledges and settlement.** A pledge is checked and recorded as a pending
  payment. The payment webhook then settles it: the project's funding is
  credited, a backer is appended, the reward tier is bumped and the project
  moves from active to funded. The status poll updates the payment as well.
- **Project lifecycle.** A project moves draft → pending → (scheduled | active |
  draft) → canceled. Once a project leaves review, only some fields may still
  be edited, and a user's project listing hides drafts from other viewers. The
  record itself provides the progress, ended, successful and remaining-days
  helpers.
- **Authentication state.** This covers the per-identifier login limiter,
  account lockout and address blocking, two-factor set-up with one-use backup
  codes, SMS code expiry, and the user record's helpers for permissions, login
  history and devices.
- **Internationalisation.** Nested translation files are flattened into
  dotted-key records and rebuilt into the in-memory cache. The service also
  keeps the language table with its single default, and it answers
  translation export and import. The middleware negotiates the language from
  the request and looks up dotted keys.
- **Payment signing.** This covers the canonical `k=v&…&key=secret` strings of
  the WeChat Pay client and the generic gateway client, including what each
  one omits. It also covers the fen/yuan conversion, the trade-type choice and
  the rule for accepting a notification.
- **Smaller rule sets.** These are comment likes, visibility and listing, the
  admin's role, permission and status updates, privacy policies and
  per-user privacy settings, interest ranking and recommendation top-up,
  the daily statistics tallies, and the key-value cache.

Collections are in-memory maps or sequences in storage order, and each handler
is one atomic transition. Several inputs become explicit parameters or oracle
values:

- the clock (`now`, in milliseconds) and the server's time-zone offset;
- random draws and nonces;
- gateway replies;
- the MD5 digest, TOTP check and password comparison.

Where the code writes to the database before it throws, the operation returns
the state after those writes together with its error.

The record's status enum in `models/Project.js` has no `scheduled` value, yet
the review handler assigns it. The model's `Status` type includes `Scheduled`.
It models the enum as written through `ProjectModel.InSchemaEnum`, and a row
under Findings records the consequence.

Several paths the code writes are not declared by their schemas, so Mongoose's
strict mode drops them: `reviewFeedback`, `cancelReason` and `canceledAt` on a
project, and `loginAttempts`, `accountLocked`, `lockUntil` and `lastLoginAt` on
a user. Where that changes an operation's outcome, the model has a member for
the code as written and a corrected member with the path declared, and
Findings lists both.

The schemas' `trim: true` setters cut white space off the language's code,
name and native name and off a project's title and tags as they are assigned,
before validation and before the comparison that decides what `save()` writes.
`JsStrings.Trim` models JavaScript's `String.prototype.trim` over the white
space and line terminators of section 12.2 and 12.3 of ECMA-262. The
middleware's header parsing uses the same function.

## Model

| member | source | states |
|---|---|---|
| Users.ParseRole | mtx/src/backend/models/User.js:52-56 | a role string is accepted exactly when it is 'user', 'creator' or 'admin', and it then names that role |
| Users.DefaultPermissions | mtx/src/backend/models/User.js:79-92 | the declared permissions are exactly canCreateProjects, canComment and canDonate, each granted by default |
| Users.NewUser | mtx/src/backend/models/User.js:52-92 | a new account is an active 'user' holding every declared permission, with 2FA off and no login history or devices |
| Users.AdminHoldsEveryPermission | mtx/src/backend/models/User.js:163-166 | an admin passes every permission check, whatever is stored |
| Users.NonAdminPermissionIsStoredFlag | mtx/src/backend/models/User.js:163-166 | anyone else holds a permission exactly when it is stored as `true`; a missing key is denied |
| Users.KeepRecent | mtx/src/backend/models/User.js:169-178 | the kept history is the last min(n+1, 10) entries of the old history followed by the new record |
| Users.AddLoginRecord | mtx/src/backend/models/User.js:168-181 | the history never exceeds ten entries, ends with the new record, keeps the most recent older records in order, and nothing else on the user changes |
| Users.FindDevice | mtx/src/backend/models/User.js:184 | the index found is the first device with the token; none is found only when no device has it |
| Users.RegisterDevice | mtx/src/backend/models/User.js:183-198 | a known token refreshes only the first matching device's lastActive; an unknown token appends one device; afterwards a device with the token is active now |
| Users.RegisterDeviceKeepsTokensUnique | mtx/src/backend/models/User.js:183-198 | registering keeps device tokens unique |
| Users.RegisterDeviceTwiceAddsOnce | mtx/src/backend/models/User.js:183-198 | registering the same token again adds no second device |
| ProjectModel.Progress | mtx/src/backend/models/Project.js:134-136 | the percentage is at most 100, non-negative for non-negative funding, and below 100 exactly when the funding is more than half a percent short of the goal; exactly 100 once the goal is reached, and otherwise the integer nearest to 100·current/goal with halves rounded up |
| ProjectModel.RoundingBounds | mtx/src/backend/models/Project.js:135 | the integer formula used for `Math.round(100·c/g)` lies within half a step of the exact quotient, ties going up |
| ProjectModel.RemainingDays | mtx/src/backend/models/Project.js:149-157 | zero once the project has ended, otherwise the number of started days left: the smallest r with end − now ≤ r days |
| ProjectModel.CeilBounds | mtx/src/backend/models/Project.js:154 | the integer formula used for `Math.ceil(d/k)` is the smallest r with d ≤ r·k |
| ProjectModel.NoDaysLeftIffReached | mtx/src/backend/models/Project.js:139-157 | a project shows no remaining days exactly when the clock has reached its end date |
| ProjectModel.EndedStaysEnded | mtx/src/backend/models/Project.js:139-141 | a project that has ended (strictly after its end date) stays ended at every later instant, with no days left |
| ProjectModel.SuccessShowsFullProgress | mtx/src/backend/models/Project.js:134-146 | a successful project (funding at least the goal) shows 100 percent; a project showing less has not succeeded; 100 percent without success happens exactly between 99.5 and 100 percent of the goal |
| Payments.CheckPledge | mtx/src/backend/controllers/paymentController.js:12-53 | the guards in the handler's order: a missing project, a non-active project and an ended project are refused with their own errors; a pledge passes exactly when the project is active and running, the user may donate, and a given tier exists, is not full (unset or 0 maxBackers means unlimited) and is not above the amount; an unknown tier is refused as such |
| Payments.CreatePayment | mtx/src/backend/controllers/paymentController.js:7-95 | a refused pledge changes nothing; an accepted one leaves a pending payment for the user, project, amount and tier carrying the gateway's transaction id; with a valid amount and message it succeeds exactly when the gateway does; at most one pending payment is appended and projects and users are untouched |
| Payments.FindByTransaction | mtx/src/backend/controllers/paymentController.js:106 | `findOne({ transactionId })` finds the first payment carrying the id, and none only when no payment carries it |
| Payments.FindById | mtx/src/backend/controllers/paymentController.js:173 | `findById` finds a payment with the id, and none only when no payment has it |
| Payments.Credit | mtx/src/backend/controllers/paymentController.js:127-149 | a completed payment adds its amount to the funding and one backer record (so funding still equals the backers' sum), counts one more backer on the referenced tier only if it exists, moves an active project that reached its goal to funded, and changes nothing else |
| Payments.AddSupported | mtx/src/backend/controllers/paymentController.js:154-157 | `$addToSet`: the backer's supported projects afterwards are those before, in order, with the project appended only when it was absent; the backer's other fields and every other user are unchanged |
| Payments.AddSupportedIdempotent | mtx/src/backend/controllers/paymentController.js:154-157 | adding the same project twice is adding it once |
| Payments.Settle | mtx/src/backend/controllers/paymentController.js:117-160 | settling rewrites only that payment's status (completed exactly on success); a success credits the project and adds it to the backer's supported projects, and a missing project ends in an error after the status was saved, with users unchanged |
| Payments.Notify | mtx/src/backend/controllers/paymentController.js:98-165 | an unknown transaction is answered not-found and an already settled payment SUCCESS, both with nothing changed; a pending payment becomes completed exactly when the report says 'success', and only then are its project credited and the backer's supported projects extended; a failure report changes nothing else |
| Payments.NotifyIdempotent | mtx/src/backend/controllers/paymentController.js:112-115 | a replayed notification, whatever it reports, changes nothing and is acknowledged |
| Payments.SameTransactionIndex | mtx/src/backend/controllers/paymentController.js:106 | rewriting the status of the payment found by a transaction id keeps it the one found |
| Payments.PollAsWritten | mtx/src/backend/controllers/paymentController.js:168-214 | the status query as written: an unknown payment is not-found and a stranger who is not an admin is refused, changing nothing; an allowed viewer of a settled payment, or of a pending one the gateway still calls pending, gets it back with nothing changed; a gateway error is reported and changes nothing; otherwise only that payment's status is rewritten (completed on success, failed otherwise), never projects or users |
| Payments.Poll | mtx/src/backend/controllers/paymentController.js:168-214 | the status query with the settlement it refers to: an unknown payment is not-found, a stranger who is not an admin is refused, a gateway error is reported; a settled payment, or one the gateway still calls pending, comes back unchanged; otherwise the state is exactly the webhook's settlement and the reply is the settled payment; every reply is the payment as stored afterwards |
| Payments.SettlePreservesConsistency | mtx/src/backend/controllers/paymentController.js:117-158 | settling keeps every project's funding equal to the sum of its backers and to the total of its completed payments |
| Payments.NotifyPreservesConsistency | mtx/src/backend/controllers/paymentController.js:98-165 | the webhook keeps that funding invariant |
| Payments.PollPreservesConsistency | mtx/src/backend/controllers/paymentController.js:184-198 | the corrected status query keeps the funding invariant, and a pending payment it sees succeed is completed with its amount credited to its project |
| Payments.CreatePaymentPreservesConsistency | mtx/src/backend/controllers/paymentController.js:56-81 | recording a pending payment keeps that funding invariant |
| Payments.CompletedTotalUpdate | mtx/src/backend/controllers/paymentController.js:118 | changing one pending payment's status moves its project's completed total by its amount exactly when it becomes completed |
| Payments.PollAsWrittenLosesCredit | mtx/src/backend/controllers/paymentController.js:194-197 | as written, a payment the status query marks completed is never credited: the later webhook is a no-op and the funding invariant is broken |
| Payments.SettlementDoesNotRecheckTierCap | mtx/src/backend/controllers/paymentController.js:139-144 | settlement does not re-check maxBackers, so two pledges accepted for a tier's last place leave it above its cap |
| ProjectLifecycle.CreateProject | mtx/src/backend/controllers/projectController.js:6-59 | creation is refused without canCreateProjects; the schema trims the title and every tag, and creation succeeds exactly when the validators pass on the trimmed title and the other fields; the new project is a draft of the requester with the trimmed title and tags, no funding, backers or images, one stored tier per requested tier with the requested id, amount and limit, and the client's backer counter kept (0 when absent); its id is appended to the creator's createdProjects |
| ProjectLifecycle.CreatedTierCanStartFull | mtx/src/backend/controllers/projectController.js:21-43 | a tier requested with its backer counter already at its limit is created full |
| ProjectLifecycle.BlankTitleRefused | mtx/src/backend/models/Project.js:4-8 | a title of nothing but white space is refused; a created project's title is non-empty and its own trim |
| ProjectLifecycle.FilterUpdate | mtx/src/backend/controllers/projectController.js:110-118 | while draft or pending the update passes whole; afterwards exactly its faq and updates keys survive, with their values |
| ProjectLifecycle.UpdateProject | mtx/src/backend/controllers/projectController.js:92-147 | a missing project is not-found; the update is sent exactly when the viewer is the creator or an admin; once the project has left review it can only touch faq and updates |
| ProjectLifecycle.FilterUpdateIdempotent | mtx/src/backend/controllers/projectController.js:110-118 | filtering twice equals filtering once, and after review neither status nor fundingGoal can get through |
| ProjectLifecycle.FilterFalsy | mtx/src/backend/controllers/projectController.js:215 | the kept fields are exactly the listed fields that are falsy on the project |
| ProjectLifecycle.MissingFields | mtx/src/backend/controllers/projectController.js:210-215 | the missing fields are required fields, and there are none exactly when title, description, short description and category are non-empty and the goal is non-zero |
| ProjectLifecycle.CompleteIffNothingFalsy | mtx/src/backend/controllers/projectController.js:210-217 | no required field is falsy exactly when the five fields that can be falsy are filled |
| ProjectLifecycle.SubmitForReview | mtx/src/backend/controllers/projectController.js:188-245 | submission succeeds exactly for the creator's complete draft with a reward tier and an image, and yields the same project as pending; a non-draft is a wrong-status error; an incompleteness error lists the missing fields |
| ProjectLifecycle.Decide | mtx/src/backend/controllers/projectController.js:270-286 | with reviewFeedback declared: approval makes the project scheduled when its start lies ahead and active otherwise, changing nothing else; rejection makes it a draft and records the feedback exactly when some is given |
| ProjectLifecycle.DecideAsWritten | mtx/src/backend/controllers/projectController.js:270-286 | the verdict as written never changes reviewFeedback, and is the declared verdict with the feedback left as it was, whatever feedback is given |
| ProjectLifecycle.ReviewGuard | mtx/src/backend/controllers/projectController.js:254-268 | the review goes ahead exactly for an admin on an existing pending project; a non-admin is forbidden |
| ProjectLifecycle.ReviewAsWritten | mtx/src/backend/controllers/projectController.js:248-297 | the review as written: guard failures are answered as such; it succeeds exactly when the guard passes and the verdict does not schedule; a success changes only the status, to active for an approval and draft for a rejection, so the feedback is never stored |
| ProjectLifecycle.ReviewAsWrittenCannotSchedule | mtx/src/backend/controllers/projectController.js:273-288 | as written, approving a project whose start lies ahead always fails on save |
| ProjectLifecycle.ReviewAsWrittenLosesFeedback | mtx/src/backend/controllers/projectController.js:278-286 | a rejection with feedback succeeds as written but does not store the feedback, while the corrected review stores it |
| ProjectLifecycle.Review | mtx/src/backend/controllers/projectController.js:248-297 | the review with 'scheduled' accepted: it succeeds exactly when the guard passes, applies the verdict, and an approval is scheduled exactly when the start lies ahead, active otherwise |
| ProjectLifecycle.ReviewAgreesUnlessScheduled | mtx/src/backend/controllers/projectController.js:270-288 | the review as written and the corrected one give the same answer on every verdict that does not schedule, and the same project up to the dropped feedback |
| ProjectLifecycle.CancelGuard | mtx/src/backend/controllers/projectController.js:369-388 | the cancel goes ahead exactly for an existing project managed by the viewer (creator or admin) that is active or scheduled; a stranger is forbidden |
| ProjectLifecycle.CancelProjectAsWritten | mtx/src/backend/controllers/projectController.js:369-405 | cancelling as written succeeds exactly when the guard passes, answers the guard's error otherwise, and changes only the status, to canceled |
| ProjectLifecycle.CancelProject | mtx/src/backend/controllers/projectController.js:369-405 | with cancelReason and canceledAt declared: cancelling succeeds exactly for the creator or an admin on an active or scheduled project, a stranger is forbidden, and the project becomes canceled with the reason or the default and the time, nothing else changing |
| ProjectLifecycle.CancelAsWrittenLosesReason | mtx/src/backend/controllers/projectController.js:390-396 | the two cancels give the same answers and statuses, but as written the reason and time are not stored: a project without a reason still has none |
| ProjectLifecycle.HandlersFollowStatusMachine | mtx/src/backend/controllers/projectController.js:188-405 | every successful submit, review and cancel takes a step of the draft → pending → scheduled/active/draft → canceled machine |
| ProjectLifecycle.SubmitThenReview | mtx/src/backend/controllers/projectController.js:188-297 | a submitted project can always be reviewed by an admin, and a rejection takes it back to draft |
| ProjectLifecycle.SortNewest | mtx/src/backend/controllers/projectController.js:419 | sorting by createdAt descending is a permutation of the listing with newer projects first |
| ProjectLifecycle.UserProjects | mtx/src/backend/controllers/projectController.js:408-419 | the listing is newest first by createdAt, holds only the owner's stored projects, and hides drafts and pending projects from anyone but the owner and admins |
| ProjectLifecycle.UserProjectsExact | mtx/src/backend/controllers/projectController.js:410-419 | each project appears in the listing exactly as often as it is stored when it is the owner's and visible to the viewer, and not at all otherwise |
| RateLimiter.Identifier | mtx/src/backend/middleware/rateLimiter.js:6-7 | attempts are counted against the email when present, else the phone number, else the client address |
| RateLimiter.Attempt | mtx/src/backend/middleware/rateLimiter.js:4-62 | while a lock runs the attempt is refused and nothing changes; otherwise the count becomes one more than before, or one after an expired lock; the attempt is refused exactly when the new count reaches 5, which locks the identifier until now + 15 minutes |
| RateLimiter.AttemptPreservesBounded | mtx/src/backend/middleware/rateLimiter.js:14-53 | every attempt keeps the count within 0..5, keeps "locked exactly at 5 with an end time", and lets through only counts of at most 4 |
| RateLimiter.FifthAttemptLocks | mtx/src/backend/middleware/rateLimiter.js:24-51 | on a fresh identifier four attempts pass and the fifth is refused with a fifteen-minute lock, during which every attempt is refused without changing the record |
| RateLimiter.ExpiredLockRestartsCount | mtx/src/backend/middleware/rateLimiter.js:33-39 | once the lock has run out the next attempt passes with the count starting again from one |
| Security.CountRecentFailures | mtx/src/backend/services/securityService.js:111-118 | the count of failed login attempts from the address strictly inside the last thirty minutes never exceeds the log's length |
| Security.CountIsMatchingPositions | mtx/src/backend/services/securityService.js:113-118 | the count equals the number of log positions holding such a failure |
| Security.IsIPBlocked | mtx/src/backend/services/securityService.js:108-126 | an address is blocked exactly when at least five such failures are logged; a failing query answers not blocked |
| Security.IsAccountLocked | mtx/src/backend/services/securityService.js:129-156 | a missing or unlocked account reads unlocked and unchanged; a lock past its end time is lifted (count 0, unlocked, no end) and reads unlocked; a lock with no end time holds; a locked answer changes nothing |
| Security.IncrementLoginAttempts | mtx/src/backend/services/securityService.js:159-183 | a failure adds one to the count; from the fifth on it locks the account for thirty minutes from now, otherwise only the count changes; a missing user changes nothing |
| Security.ResetLoginAttempts | mtx/src/backend/services/securityService.js:186-196 | a reset leaves count 0, unlocked and no end time, which reads as unlocked |
| Security.FailuresCount | mtx/src/backend/services/securityService.js:159-179 | from a reset account, k failures count k and the account is locked exactly when k ≥ 5, until thirty minutes after the last |
| Security.FiveFailuresLock | mtx/src/backend/services/securityService.js:129-179 | after five failures the account reads locked for thirty minutes, and the first check after that unlocks it |
| Security.PlusOne | mtx/src/backend/services/securityService.js:168 | `loginAttempts + 1` is a number exactly when the field holds a number, one more than it; `undefined + 1` and `NaN + 1` are NaN |
| Security.IncrementLoginAttemptsAsWritten | mtx/src/backend/services/securityService.js:159-183 | as written, the update sent carries the count plus one and the lock exactly when that count reaches 5; a user loaded with no lockout fields sends a NaN count without lock; strict mode stores none of it, so the document is left as it was |
| Security.IsAccountLockedIn | mtx/src/backend/services/securityService.js:129-151 | the lock check over a loaded document: it answers locked only when `accountLocked` is present and true, and always when it is true with no end time |
| Security.IsAccountLockedInAgrees | mtx/src/backend/services/securityService.js:129-151 | on a document that declares the fields, the document reader answers exactly as the lock check over the declared record |
| Security.FailuresAsWrittenKeep | mtx/src/backend/services/securityService.js:159-183 | as written, any number of failures leaves the stored document as it was loaded |
| Security.LockNeverEngagesAsWritten | mtx/src/backend/services/securityService.js:129-183 | with the fields declared, five or more failures read as locked; as written, after any number of failures the stored document is the field-less one, its next count is NaN and never reaches the lock, and the account never reads as locked |
| TwoFactor.Setup | mtx/src/backend/controllers/twoFactorAuthController.js:9-37 | set-up stores the fresh secret and codes with 2FA off, and changes nothing else on the user |
| TwoFactor.Enable | mtx/src/backend/controllers/twoFactorAuthController.js:40-67 | enabling needs a stored secret (else not-set-up) and succeeds exactly when the token is valid for it, turning only the enabled flag on |
| TwoFactor.Disable | mtx/src/backend/controllers/twoFactorAuthController.js:70-103 | disabling is refused on a wrong password; it succeeds exactly when the password is right and, while 2FA is on, the token is valid; it wipes the secret and codes |
| TwoFactor.IndexOf | mtx/src/backend/controllers/twoFactorAuthController.js:121 | `indexOf` finds the first position of the code, and none exactly when it is not listed |
| TwoFactor.RemoveAt | mtx/src/backend/controllers/twoFactorAuthController.js:128 | `splice(i, 1)` removes exactly that element and keeps the others in order |
| TwoFactor.UseBackupCode | mtx/src/backend/controllers/twoFactorAuthController.js:106-148 | a missing user is not-found and a user without 2FA not-enabled; a code is accepted exactly when it is listed, and then its first occurrence is spliced out, the other codes keeping their order and nothing else changing |
| TwoFactor.BackupCodeSingleUse | mtx/src/backend/controllers/twoFactorAuthController.js:121-128 | a code listed once is accepted once; its second use is refused |
| TwoFactor.SetupThenEnable | mtx/src/backend/controllers/twoFactorAuthController.js:9-67 | after set-up a valid token enables 2FA, and then exactly the codes handed out at set-up are accepted |
| TwoFactor.DisableWipes | mtx/src/backend/controllers/twoFactorAuthController.js:90-97 | after disabling, enabling needs a new set-up and no backup code is accepted |
| Sms.GenerateCode | mtx/src/backend/utils/smsService.js:4-6 | for a draw in [0, 1) the code is the floor of 100000 + 900000·r, so it always has six digits |
| Sms.EveryCodeReachable | mtx/src/backend/utils/smsService.js:5 | every six-digit code is produced by some draw |
| Sms.VerifySmsCode | mtx/src/backend/utils/smsService.js:30-42 | a code is accepted exactly when one is stored (non-empty), it has not expired (still good at exactly expiresAt, never expiring without one) and it equals the input |
| Sms.VerifyMonotoneInTime | mtx/src/backend/utils/smsService.js:36-38 | a code accepted at some moment is accepted at every earlier moment |
| Sms.IssuedCodeWindow | mtx/src/backend/utils/smsService.js:30-42 | a code issued with a lifetime is accepted exactly for itself and exactly until it runs out |
| Signing.Lookup | mtx/src/backend/services/wechatPayService.js:31 | a lookup finds a value only under its own key, and finds nothing exactly when no property has that key |
| Signing.LookupUnique | mtx/src/backend/services/wechatPayService.js:31 | in an object with unique keys, looking up the i-th key finds the i-th value |
| Signing.LookupWithout | mtx/src/backend/services/wechatPayService.js:181-183 | deleting one property leaves every other key's value as it was, and the deleted key reads as missing |
| Signing.BelowIrreflexive | mtx/src/backend/services/wechatPayService.js:30 | no key sorts strictly before itself in the default string order of `sort()` |
| Signing.BelowAsymmetric | mtx/src/backend/services/wechatPayService.js:30 | two keys never sort strictly before each other |
| Signing.BelowTransitive | mtx/src/backend/services/wechatPayService.js:30 | the string order of `sort()` is transitive |
| Signing.BelowTotal | mtx/src/backend/services/wechatPayService.js:30 | any two different keys are ordered one way or the other |
| Signing.SortByKey | mtx/src/backend/services/wechatPayService.js:30 | sorting by key is a permutation of the properties: same length, same multiset |
| Signing.SortSorted | mtx/src/backend/services/wechatPayService.js:30 | the sorted properties of an object appear in strictly ascending key order |
| Signing.SortedUnique | mtx/src/backend/services/wechatPayService.js:30 | two strictly key-sorted lists with the same members are identical, so the sorted order is determined by the set of properties |
| Signing.SortIgnoresOrder | mtx/src/backend/services/wechatPayService.js:30 | two objects holding the same properties in any insertion order sort to the same list |
| Signing.SortFilterCommute | mtx/src/backend/services/wechatPayService.js:30-35 | dropping properties after sorting gives the same list as sorting after dropping them |
| Signing.Kept | mtx/src/backend/services/wechatPayService.js:31 | a property survives exactly when the rule keeps it: WeChat drops `undefined`, the empty string and the `sign` key; the gateway (paymentGateway.js:22) drops `undefined` and `null` |
| Signing.SignString | mtx/src/backend/services/wechatPayService.js:38-42 | the string handed to the digest always ends with `key=` followed by the secret |
| Signing.SignIgnoresOrder | mtx/src/backend/services/wechatPayService.js:28-42 | the signing string depends only on which properties the object holds, not on the order they were assigned in |
| Signing.WechatIgnoresSign | mtx/src/backend/services/wechatPayService.js:31 | WeChat's signing string is the same with or without the `sign` field, so a signature never covers itself |
| Signing.SignStringInjective | mtx/src/backend/services/wechatPayService.js:38-42 | when no key holds `&` or `=` and no value or secret holds `&`, two objects share a signing string exactly when they keep the same keys with the same value texts |
| Signing.OmittedFieldIgnored | mtx/src/backend/services/wechatPayService.js:31 | adding a property the rule omits leaves the signing string unchanged |
| Signing.KeptFieldCounts | mtx/src/backend/utils/paymentGateway.js:21-25 | adding a property the rule keeps changes the signing string, when the keys and texts are separable |
| Signing.WithoutAppended | mtx/src/backend/services/wechatPayService.js:72 | deleting a property that was added under a fresh key gives back the original object |
| WechatPay.Fen | mtx/src/backend/services/wechatPayService.js:60 | the fee in fen is the yuan amount times 100 rounded down: never above it and less than one fen below |
| WechatPay.FenOfYuan | mtx/src/backend/services/wechatPayService.js:60 | a whole number of fen survives conversion to yuan and back |
| WechatPay.YuanOfFen | mtx/src/backend/services/wechatPayService.js:60 | converting an amount to fen and back loses less than 0.01 yuan and never adds anything |
| WechatPay.TradeType | mtx/src/backend/services/wechatPayService.js:63 | the trade type is 'JSAPI' exactly when an openid is given, otherwise 'NATIVE' |
| WechatPay.BaseOrderParams | mtx/src/backend/services/wechatPayService.js:54-64 | the fixed unified-order fields have unique keys, no `sign` and no `openid`, and carry the trade type, the fee in fen and the order id |
| WechatPay.WithOpenid | mtx/src/backend/services/wechatPayService.js:67-69 | adding the openid makes it readable and leaves every other field's value as it was |
| WechatPay.OrderParams | mtx/src/backend/services/wechatPayService.js:54-69 | the unified-order parameters have no `sign` field; they carry the trade type, the fee in fen and the order id, and an openid exactly for JSAPI |
| WechatPay.OrderParamsUnique | mtx/src/backend/services/wechatPayService.js:54-69 | the unified-order parameters never repeat a key |
| WechatPay.Signed | mtx/src/backend/services/wechatPayService.js:72 | removing `sign` from a signed request gives back the unsigned parameters, and `sign` is the digest of WeChat's signing string of those parameters |
| WechatPay.FirstMessage | mtx/src/backend/services/wechatPayService.js:90 | the error carries the first truthy message field, and it is the fixed fallback exactly when neither is truthy |
| WechatPay.OrderRequest | mtx/src/backend/services/wechatPayService.js:54-72 | removing `sign` from the request gives back the unified-order parameters, and `sign` is the digest of their signing string |
| WechatPay.CreateOrder | mtx/src/backend/services/wechatPayService.js:77-125 | the call succeeds exactly when both return_code and result_code are SUCCESS; a JSAPI answer comes exactly when an openid was given, and a failure carries return_msg, then err_code_des, then the fallback; a success passes on the reply's prepay id, and a NATIVE answer its code_url |
| WechatPay.JsapiParams | mtx/src/backend/services/wechatPayService.js:104-112 | the payment sheet's `package` names the prepay id and its paySign is the digest of the signing string of the other sheet fields |
| WechatPay.QueryParams | mtx/src/backend/services/wechatPayService.js:131-136 | the query parameters name the order and carry no `sign` |
| WechatPay.QueryRequest | mtx/src/backend/services/wechatPayService.js:131-139 | the signed query names the order, and its `sign` is the digest of the signing string of the other fields |
| WechatPay.QueryOrder | mtx/src/backend/services/wechatPayService.js:128-172 | the signed query names the order; the result depends on return_code only; a missing or empty fee reads as 0, otherwise as parseInt of the fee divided by 100 |
| WechatPay.QueryReadsOrderedFee | mtx/src/backend/services/wechatPayService.js:60 | a fee echoed back in fen reads as the order amount less than one fen below the amount that was asked for |
| WechatPay.VerifyNotification | mtx/src/backend/services/wechatPayService.js:175-209 | a notification is verified exactly when its `sign` matches the digest of the other fields and both codes are SUCCESS; a bad signature is reported exactly when the signature does not match |
| WechatPay.SignedNotificationVerified | mtx/src/backend/services/wechatPayService.js:181-204 | a successful notification signed by WeChat with the merchant key is always accepted and reports its out_trade_no |
| WechatPay.ForgeryNeedsCollision | mtx/src/backend/services/wechatPayService.js:181-187 | a notification that reuses a genuine `sign` with different signed fields passes only if the digest maps two different signing strings to the same value |
| PaymentGateway.FixedTwoRoundTrip | mtx/src/backend/utils/paymentGateway.js:41 | the two-decimal amount text sent to the gateway reads back as the amount in cents |
| PaymentGateway.Signed | mtx/src/backend/utils/paymentGateway.js:50 | removing `sign` from a signed request gives back the unsigned parameters, and `sign` is the digest of the gateway's signing string of them |
| PaymentGateway.CreateParams | mtx/src/backend/utils/paymentGateway.js:38-47 | the create-order parameters have unique keys and no `sign`; the amount is the two-decimal text and the timestamp is in whole seconds |
| PaymentGateway.Check | mtx/src/backend/utils/paymentGateway.js:55-57 | a reply is accepted exactly when its code is the number 0 and a payload is present; any other code fails with the gateway's message |
| PaymentGateway.CreatePaymentOrder | mtx/src/backend/utils/paymentGateway.js:33-67 | the request is the signed create-order parameters; the call succeeds exactly when the reply check does and then reports the payload's transaction_id |
| PaymentGateway.QueryPaymentStatus | mtx/src/backend/utils/paymentGateway.js:70-98 | the signed query names the transaction; the call succeeds exactly when the reply check does and then reports the payload's trade_status |
| PaymentGateway.GatewayCoversEmptyField | mtx/src/backend/utils/paymentGateway.js:22 | adding an empty-string field changes the gateway's signing string but not WeChat's |
| PaymentGateway.GatewayOmitsNull | mtx/src/backend/utils/paymentGateway.js:22 | adding a `null` field leaves the gateway's signing string unchanged |
| TranslationTree.Find | mtx/src/backend/services/i18nService.js:273 | an object's lookup finds the first, and in a well-formed object the only, entry holding the key, and finds nothing exactly when no entry holds it |
| TranslationTree.PutFind | mtx/src/backend/services/i18nService.js:274 | after an assignment the key holds the new value, at its old position or appended at the end, and every other key is found where it was |
| TranslationTree.Split | mtx/src/backend/services/i18nService.js:268 | splitting a key on dots gives at least one part, and no part contains a dot |
| TranslationTree.SplitJoin | mtx/src/backend/services/i18nService.js:268 | splitting undoes joining one or more dot-free parts with dots |
| TranslationTree.JoinSplit | mtx/src/backend/services/i18nService.js:268 | joining the parts of a split with dots gives back the key |
| TranslationTree.Insert | mtx/src/backend/services/i18nService.js:268-279 | writing a dotted key into an object leaves an object |
| TranslationTree.InsertSets | mtx/src/backend/services/i18nService.js:271-279 | unless a non-empty string sits on the path, the write stores the value at the key's path; when one does, the write either throws or changes nothing |
| TranslationTree.InsertLeavesOthers | mtx/src/backend/services/i18nService.js:271-279 | a write leaves every path that is neither a prefix nor an extension of the written one as it was |
| TranslationTree.FlatPaths | mtx/src/backend/services/i18nService.js:195-212 | every leaf of a translation object is reached by a path of at least one key |
| TranslationTree.FlattenIsJoinedPaths | mtx/src/backend/services/i18nService.js:195-212 | when keys are non-empty, each flattened record's key is its leaf's path joined by dots under the prefix, in depth-first key order |
| TranslationTree.RebuildFlattened | mtx/src/backend/services/i18nService.js:195-212 | inserting the flattened leaves of a well-formed tree one by one into an object holding none of its keys rebuilds exactly that tree |
| TranslationRecords.NsRecords | mtx/src/backend/services/i18nService.js:195-212 | every record flattened from a namespace carries that language and namespace |
| TranslationRecords.Flatten | mtx/src/backend/services/i18nService.js:214-217 | every record flattened from a file carries the file's language |
| TranslationRecords.FindSlot | mtx/src/backend/services/i18nService.js:224-228 | a slot is found only where language, namespace and key all match, and nothing is found exactly when no record matches all three |
| TranslationRecords.Upsert | mtx/src/backend/services/i18nService.js:222-231 | an upsert adds at most one record, introduces no record but the written one, keeps the (language, namespace, key) index unique, stores the written record and leaves the records of other slots in place |
| TranslationRecords.UpsertAll | mtx/src/backend/services/i18nService.js:234 | a bulk write introduces no records other than the existing and the written ones |
| TranslationRecords.Import | mtx/src/backend/services/i18nService.js:190-242 | an import adds or changes records of the imported language only |
| TranslationRecords.UpsertAllKeepsUnique | mtx/src/backend/services/i18nService.js:222-234 | a bulk write of upserts keeps the (language, namespace, key) index unique |
| TranslationRecords.UpsertAllFresh | mtx/src/backend/services/i18nService.js:222-234 | upserting records whose slots are all new and distinct appends them in order |
| TranslationRecords.RecPaths | mtx/src/backend/services/i18nService.js:255-268 | each record is written at language, then namespace, then the parts of its key split at the dots |
| TranslationRecords.InsertUntil | mtx/src/backend/services/i18nService.js:254-280 | the load runs to the end exactly when no record hits a string on its path, and it then yields the rebuilt cache |
| TranslationRecords.FlatPathsDistinct | mtx/src/backend/services/i18nService.js:195-212 | in a well-formed translation object no two leaves share a path |
| TranslationRecords.FlattenUnique | mtx/src/backend/services/i18nService.js:195-217 | the records flattened from a well-formed file occupy distinct (language, namespace, key) slots |
| TranslationRecords.ImportLoadRoundTrip | mtx/src/backend/services/i18nService.js:190-287 | importing a well-formed file of object namespaces into an empty collection and reloading the cache gives back exactly that file under its language |
| I18nService.Enabled | mtx/src/backend/services/i18nService.js:32 | the query returns only languages with isEnabled set, never more of them than are stored |
| I18nService.EnabledMembers | mtx/src/backend/services/i18nService.js:32 | a language is returned by the query exactly when it is stored and has isEnabled set |
| I18nService.FirstDefault | mtx/src/backend/services/i18nService.js:43 | the default found is a default-flagged cached language, and none is found exactly when no cached language is flagged |
| I18nService.IndexOfCode | mtx/src/backend/services/i18nService.js:471 | a language is found only under its own code, and nothing is found exactly when no language has the code |
| I18nService.ClearDefaults | mtx/src/backend/services/i18nService.js:478 | clearing defaults keeps every language and changes only its isDefault flag, to false |
| I18nService.InitializeDefaultTranslations | mtx/src/backend/services/i18nService.js:92-187 | seeding the translations changes only the files and records; both built-in files then exist, an existing file is kept, and every new record belongs to zh-CN or en-US |
| I18nService.InitializeDefaultLanguages | mtx/src/backend/services/i18nService.js:56-89 | seeding succeeds exactly when neither built-in code is taken, and then appends Chinese and English; a taken zh-CN changes nothing; existing languages stay in place |
| I18nService.PickDefault | mtx/src/backend/services/i18nService.js:43-46 | the default code becomes the first cached default's code, and stays unchanged when no cached language is a default |
| I18nService.LoadLanguages | mtx/src/backend/services/i18nService.js:29-53 | after loading, the cache is exactly the enabled languages and is never empty; stored languages are only ever extended, and left alone when some language is enabled |
| I18nService.LoadCache | mtx/src/backend/services/i18nService.js:245-287 | reloading changes only the translation cache; it succeeds exactly when every record can be written and then equals the tree rebuilt from the records |
| I18nService.Initialize | mtx/src/backend/services/i18nService.js:12-26 | after a successful start, the language cache holds the enabled languages and the translation cache is rebuilt from the records |
| I18nService.GetSupportedLanguages | mtx/src/backend/services/i18nService.js:290-302 | a non-empty language cache is served unchanged; a successful answer is never an empty list |
| I18nService.Child | mtx/src/backend/services/i18nService.js:318-327 | reading one member of a cached value is a one-step path lookup |
| I18nService.ServedCode | mtx/src/backend/services/i18nService.js:318-320 | a request is served from its own language when that language's cache entry is truthy, otherwise from the default code |
| I18nService.EnsureCache | mtx/src/backend/services/i18nService.js:313-315 | a non-empty cache is used as is; an empty one is reloaded first |
| I18nService.GetTranslations | mtx/src/backend/services/i18nService.js:310-332 | the answer is the served language's namespace object when it is truthy and `{}` otherwise; the call fails exactly when the served code has no cache entry |
| I18nService.UpdateTranslation | mtx/src/backend/services/i18nService.js:335-372 | the record is upserted whatever happens to the cache; when no string blocks the path, the value is readable at language, namespace and split key; when one does, the cache is unchanged |
| I18nService.ExportTranslations | mtx/src/backend/services/i18nService.js:375-405 | a successful export writes the served language's cache entry to `<code>.json` and changes nothing else |
| I18nService.ImportTranslations | mtx/src/backend/services/i18nService.js:408-425 | an unreadable file changes nothing; otherwise the file's records are upserted and the cache is reloaded from the collection |
| I18nService.AddLanguage | mtx/src/backend/services/i18nService.js:428-463 | a code taken once both are trimmed changes nothing; success comes exactly when the code is free and the document, with code, name and native name trimmed by the schema, is valid, so a name of white space fails; the enabled language is appended after clearing other defaults when isDefault is true; a failed save still keeps the cleared defaults |
| I18nService.Assigned | mtx/src/backend/services/i18nService.js:482-486 | the update keeps the code, takes a given isDefault flag and keeps the stored one when absent; name and native name are taken trimmed, as the schema setters store them |
| I18nService.SaveModified | mtx/src/backend/services/i18nService.js:488 | the save writes isDefault only when the new value differs from the value loaded, and otherwise leaves the current row's value |
| I18nService.UpdateLanguageAsWritten | mtx/src/backend/services/i18nService.js:466-498 | the code is looked up trimmed; a missing code changes nothing; an invalid assignment fails after the clear; success comes exactly when the trimmed assignment is valid and the reload succeeds, and the table then has each other row as cleared and the language's row written only where the trimmed assigned values differ from the ones loaded |
| I18nService.WrittenTable | mtx/src/backend/services/i18nService.js:476-488 | the table the update as written saves keeps its length, and every other row is the stored one, cleared of default when isDefault is true |
| I18nService.UpdateLanguage | mtx/src/backend/services/i18nService.js:466-498 | the code is looked up trimmed; a missing code changes nothing; success comes exactly when the trimmed assigned document is valid and the reload succeeds, which it always does when the language stays enabled; the language's row then holds the assigned values, other defaults cleared when isDefault is true |
| I18nService.BlankNameRefused | mtx/src/backend/models/Language.js:14-18 | a name of white space only is trimmed to the empty string and refused, by addLanguage and by both forms of updateLanguage |
| I18nService.PaddedNameNotWritten | mtx/src/backend/services/i18nService.js:482-488 | a name equal to the loaded one once trimmed is not written by the save |
| I18nService.UpdatedTable | mtx/src/backend/services/i18nService.js:476-488 | the table the corrected update saves keeps its length, holds the assigned values at the language's row, and every other row is the stored one, cleared of default when isDefault is true |
| I18nService.WithoutLanguage | mtx/src/backend/services/i18nService.js:518 | no translation of the deleted language is left |
| I18nService.WithoutLanguageMembers | mtx/src/backend/services/i18nService.js:518 | a translation is kept exactly when it was stored and belongs to another language |
| I18nService.DeleteLanguage | mtx/src/backend/services/i18nService.js:501-529 | the code is looked up trimmed; a missing code changes nothing; the default language is refused exactly when it is the target, and then nothing changes; any other target goes on to the removal |
| I18nService.RemoveLanguage | mtx/src/backend/services/i18nService.js:514-522 | the removal drops that language alone, keeping the others in order (the reloads may only append), leaves no translation of the code unless it is a built-in one that a reload re-seeds, fails only on a duplicate key or a cache type error, and keeps a default when a non-default language goes |
| I18nService.Reload | mtx/src/backend/services/i18nService.js:521-522 | the reloads only add built-in records and only append languages, and fail only on a duplicate key or a cache type error |
| I18nService.AddLanguageKeepsOneDefault | mtx/src/backend/services/i18nService.js:438-453 | adding a language never leaves two defaults, whether the save succeeds or fails |
| I18nService.UpdateLanguageMakesDefault | mtx/src/backend/services/i18nService.js:476-491 | a successful update with isDefault true that leaves the language enabled makes it the only default and the served default code |
| I18nService.DeleteLanguageKeepsDefault | mtx/src/backend/services/i18nService.js:509-512 | a table that has a default keeps one after any delete attempt |
| I18nService.UpdateTranslationKeepsCacheInSync | mtx/src/backend/services/i18nService.js:335-372 | writing a new translation keeps the cache equal to a reload of the collection: both fail together or agree |
| I18nService.ImportThenGetTranslations | mtx/src/backend/services/i18nService.js:310-332 | after importing a well-formed file into an empty collection, asking for one of its namespaces in that language returns that namespace as written in the file, and `{}` for a namespace the file lacks |
| I18nService.UpdateLanguageAsWrittenDropsDefault | mtx/src/backend/services/i18nService.js:476-488 | for any table whose only language is the enabled, valid default with untrimmable code, name and native name, an update that only re-asserts isDefault leaves the table with no default as written, after which the language can be deleted; the corrected update keeps it the default |
| JsStrings.TrimStartDrops | mtx/src/backend/middleware/i18nMiddleware.js:14 | trimming the front keeps a suffix of the input that does not start with white space, and drops only white space |
| JsStrings.TrimEndDrops | mtx/src/backend/middleware/i18nMiddleware.js:14 | trimming the end keeps a prefix of the input that does not end with white space, and drops only white space |
| JsStrings.Trim | mtx/src/backend/middleware/i18nMiddleware.js:14 | a trimmed string is no longer than the input and neither starts nor ends with white space |
| JsStrings.TrimIsInfix | mtx/src/backend/middleware/i18nMiddleware.js:14 | what `trim()` keeps is the infix of the input that starts after the white space dropped at the front, and everything dropped on either side is white space |
| JsStrings.TrimEmpty | mtx/src/backend/models/Language.js:6-25 | a string trims to the empty string exactly when it is all white space, so a `required` path set to white space fails validation |
| JsStrings.TrimKeepsOut | mtx/src/backend/middleware/i18nMiddleware.js:14 | trimming adds no character: a character absent from the input is absent from the result |
| JsStrings.TrimKeeps | mtx/src/backend/middleware/i18nMiddleware.js:14 | a string with no white space at either end is its own trim |
| JsStrings.TrimIdempotent | mtx/src/backend/middleware/i18nMiddleware.js:14 | trimming twice is trimming once |
| I18nMiddleware.RequestedCode | mtx/src/backend/middleware/i18nMiddleware.js:7-10 | the requested code is the first non-empty of the Accept-Language header, the `lang` query, the `lang` cookie, and the default |
| I18nMiddleware.FirstOption | mtx/src/backend/middleware/i18nMiddleware.js:13-20 | the code kept holds no comma and no semicolon; a code with neither is kept unchanged; otherwise it is the part before the first comma, cut again before the first semicolon, trimmed once |
| I18nMiddleware.TrimThenCut | mtx/src/backend/middleware/i18nMiddleware.js:13-20 | trimming the part before the first comma and then, when a semicolon is left, cutting and trimming again equals cutting at the semicolon first and trimming once |
| I18nMiddleware.FirstStartingWith | mtx/src/backend/middleware/i18nMiddleware.js:30 | a match is a supported code starting with the main part, and there is none exactly when no supported code starts with it |
| I18nMiddleware.Resolve | mtx/src/backend/middleware/i18nMiddleware.js:27-38 | a supported code is kept; the result is always supported or the default; a different supported code shares the requested code's part before the first `-`; with no match it is the default |
| I18nMiddleware.Negotiate | mtx/src/backend/middleware/i18nMiddleware.js:4-90 | a request gets a language exactly when the supported languages can be loaded; the language is supported or the default, resolved from the first present of header, query, cookie and default; the `lang` cookie is set exactly when the query named the chosen code |
| I18nMiddleware.WalkIsLookup | mtx/src/backend/middleware/i18nMiddleware.js:49-60 | the walk of `req.t` answers exactly when the key's path leads to a string, and then answers that string |
| I18nMiddleware.Translate | mtx/src/backend/middleware/i18nMiddleware.js:44-65 | `req.t` answers the string at the key's path in the served namespace, and the default value when there is none or the lookup throws |
| I18nMiddleware.LookupPathAppend | mtx/src/backend/middleware/i18nMiddleware.js:52-58 | looking up a concatenated path is looking up its first part, then the rest |
| I18nMiddleware.UpdateThenTranslate | mtx/src/backend/middleware/i18nMiddleware.js:44-65 | after an unblocked `updateTranslation`, `req.t` for that language, namespace and key answers the value just written |
| Comments.AddComment | mtx/src/backend/controllers/commentController.js:7-76 | a missing project is a 404 and a poster without canComment a 403; otherwise the comment has the given id, content, parent and time, belongs to the poster and project, and is unliked and visible; a reply notifies the parent's author and a top-level comment the project's creator, never the poster |
| Comments.AddedCommentIsListed | mtx/src/backend/controllers/commentController.js:7-76 | a new top-level comment is found by the project's top-level query for every reader, and a new reply by its parent's thread query |
| Comments.SortOrderOf | mtx/src/backend/controllers/commentController.js:103-114 | 'oldest' and 'mostLiked' select their orders and every other value selects newest first |
| Comments.SortOrderAsWritten | mtx/src/backend/controllers/commentController.js:103-114 | as written, 'oldest' sorts oldest first and every other value, mostLiked included, newest first, since `likes.length` names no stored path |
| Comments.SortBy | mtx/src/backend/controllers/commentController.js:117-118 | the listing is a permutation of the matching comments, sorted by the chosen order |
| Comments.SortedMeaning | mtx/src/backend/controllers/commentController.js:105-113 | in a sorted listing oldest puts earlier comments first, newest later ones first, and mostLiked more likes first with ties newest first |
| Comments.Window | mtx/src/backend/controllers/commentController.js:119-120 | a page holds at most `limit` comments: the consecutive run of the listing that starts `(page − 1)·limit` in |
| Comments.Pages | mtx/src/backend/controllers/commentController.js:156 | the page count is the least number of pages of `limit` comments that holds all of them |
| Comments.OnItsPage | mtx/src/backend/controllers/commentController.js:119-120 | each comment appears on the page its position gives, at its position within that page, and that page is within the page count |
| Comments.RepliesOfExact | mtx/src/backend/controllers/commentController.js:128-132 | a comment is among a thread's replies exactly when it is stored, belongs to the project, answers that comment and is visible |
| Comments.TopLevelExact | mtx/src/backend/controllers/commentController.js:86-100 | a comment is listed exactly when it is stored, belongs to the project, is top-level, and is visible or the viewer moderates |
| Comments.ThreadOf | mtx/src/backend/controllers/commentController.js:127-148 | a thread counts every visible reply to that comment in the project, and shows min(count, 3) of them, oldest first, each a visible reply taken at most as often as it is stored, none older than a visible reply left out |
| Comments.ThreadReplies | mtx/src/backend/controllers/commentController.js:127-148 | the replies a thread shows are visible replies to the comment, oldest first, and no visible reply left out is older than one shown |
| Comments.ListingIn | mtx/src/backend/controllers/commentController.js:116-160 | the listing is the page window of the sorted top-level comments, each with its thread, with the total, page, limit and page count |
| Comments.ListingSorted | mtx/src/backend/controllers/commentController.js:116-121 | the threads on a page are in the chosen order |
| Comments.ListingMatches | mtx/src/backend/controllers/commentController.js:86-121 | every thread on a page is for a stored comment the query admits |
| Comments.ProjectCommentsAsWritten | mtx/src/backend/controllers/commentController.js:79-162 | the listing as written: a missing project is exactly the 404 case, otherwise the window of the listing sorted by the as-written order |
| Comments.ProjectComments | mtx/src/backend/controllers/commentController.js:79-162 | with `likes.length` read as the number of likes: a missing project is exactly the 404 case; otherwise the page is the window of the listed top-level comments sorted by the chosen order, each with its thread, and the total counts every listed comment; for every sort but mostLiked it is the handler as written |
| Comments.MostLikedIsNewestAsWritten | mtx/src/backend/controllers/commentController.js:102-114 | as written, asking for mostLiked gives exactly the newest-first answer |
| Comments.MostLikedAsWrittenIgnoresLikes | mtx/src/backend/controllers/commentController.js:109 | an older comment with two likes and a newer one with none: as written the newer comes first, by like count the older one does |
| Comments.HiddenStayHidden | mtx/src/backend/controllers/commentController.js:91-100 | a viewer who is neither an admin nor the project's creator never sees a hidden comment or a hidden reply |
| Comments.CommentReplies | mtx/src/backend/controllers/commentController.js:165-210 | a missing comment is a 404; a deleted project fails exactly for a signed-in non-admin, and every other case answers; the page is the window of the matching replies sorted oldest first, at most limit of them, each a reply to that comment (hidden ones only for the admin or the project's creator); the total counts every matching reply and the page count is its ceiling over limit |
| Comments.ReplyWindow | mtx/src/backend/controllers/commentController.js:176-193 | a page of replies holds only replies the query matches, oldest first |
| Comments.RepliesComplete | mtx/src/backend/controllers/commentController.js:165-210 | every reply the query matches, hidden ones included for the admin or the project's creator, is listed on one of the pages the count announces |
| Comments.InSomePage | mtx/src/backend/controllers/commentController.js:119-120 | every comment of a sorted listing is on some page within the page count |
| Comments.Unlike | mtx/src/backend/controllers/commentController.js:228 | unliking removes exactly the user, and from a duplicate-free list exactly one entry |
| Comments.ToggleLike | mtx/src/backend/controllers/commentController.js:224-237 | a liker is removed and anyone else appended once; a list without duplicates stays without, and its length moves by exactly one |
| Comments.ToggleTwice | mtx/src/backend/controllers/commentController.js:224-237 | liking then unliking gives back the same list, and any two toggles keep the same set of likers |
| Comments.LikeComment | mtx/src/backend/controllers/commentController.js:213-262 | a missing comment is a 404; the answer is the toggled like count; a notice goes to the author exactly for a new like by someone else |
| Comments.ToggleVisibility | mtx/src/backend/controllers/commentController.js:265-292 | a missing comment is a 404; a non-moderator gets a 403; with the project gone only an admin succeeds; a success flips isHidden and nothing else |
| Admin.ListUsers | mtx/src/backend/controllers/adminController.js:4-29 | a non-admin is refused with 403 and nothing else is; the listing holds exactly the users matching every given status and role filter, and all users when neither is given |
| Admin.Matching | mtx/src/backend/controllers/adminController.js:14-22 | a user is kept exactly when they match the filters, each as often as stored, and all users are kept when no filter is given |
| Admin.MatchingAppend | mtx/src/backend/controllers/adminController.js:14-22 | the filter keeps stored order: filtering a concatenation is concatenating the filtered parts |
| Admin.MergePermissions | mtx/src/backend/controllers/adminController.js:79-84 | the merged permissions hold every key of either map, given keys take the given value and other stored keys keep theirs |
| Admin.MergeIdempotent | mtx/src/backend/controllers/adminController.js:79-84 | merging the same permissions twice is the same as merging them once |
| Admin.MergedPermissionCheck | mtx/src/backend/controllers/adminController.js:79-84 | after the merge a non-admin's permission check follows the given value for a given key and the old answer for any other |
| Admin.UpdateUserRole | mtx/src/backend/controllers/adminController.js:56-102 | a non-admin gets 403 and a missing user 404; success comes exactly when any given role is one of the three roles; only that user's role and permissions change |
| Admin.PromotedAdminHoldsEverything | mtx/src/backend/controllers/adminController.js:74-76 | granting the admin role makes every permission check of that user pass |
| Admin.ParseStatus | mtx/src/backend/controllers/adminController.js:115-117 | a status is accepted exactly when it is active, suspended or deactivated, and it then names that status |
| Admin.RequestFor | mtx/src/backend/controllers/adminController.js:129-139 | activating clears the deactivation request; suspending or deactivating records the time and a non-empty reason (the given one if any), and only deactivating schedules the deactivation |
| Admin.UpdateUserStatus | mtx/src/backend/controllers/adminController.js:105-155 | refusals come in the source's order: 403, then 400 for an unknown status, then 404; a success sets that user's status and deactivation request and changes nothing else |
| Admin.ReactivationRestores | mtx/src/backend/controllers/adminController.js:127-139 | suspending or deactivating an active account and then reactivating it gives back the account as it was |
| Admin.UpdateStatusIdempotent | mtx/src/backend/controllers/adminController.js:105-155 | repeating a successful status update with the same request and time changes nothing further |
| Privacy.ClearCurrent | mtx/src/backend/services/privacyService.js:35 | clearing keeps every policy and unmarks it as current, changing nothing else |
| Privacy.IndexOfVersion | mtx/src/backend/services/privacyService.js:62 | a policy is found only under its own version, and nothing is found exactly when no policy has that version |
| Privacy.CurrentPolicy | mtx/src/backend/services/privacyService.js:6-14 | the policy returned is stored and marked current, and there is none exactly when no policy is marked current |
| Privacy.CreatePrivacyPolicy | mtx/src/backend/services/privacyService.js:29-54 | a creation succeeds exactly when version and content are given and the version is new; a current request clears the other policies even when the creation then fails; the new policy is current exactly when asked |
| Privacy.CreateKeepsInvariants | mtx/src/backend/services/privacyService.js:29-54 | creating a policy keeps versions unique and at most one policy current, and a policy created as current becomes the current policy |
| Privacy.RejectedCurrentCreateLeavesNoCurrent | mtx/src/backend/services/privacyService.js:34-47 | a creation asked to be current that fails validation leaves no policy current |
| Privacy.Assigned | mtx/src/backend/services/privacyService.js:74-76 | the update keeps version, author and publication date, takes given content and a given isCurrent flag, keeps the old ones otherwise, and stamps the update time |
| Privacy.UpdatePrivacyPolicyAsWritten | mtx/src/backend/services/privacyService.js:57-85 | a missing version throws and changes nothing; an empty content fails after the clear; a success returns the assigned policy, leaves other policies as cleared, stores the assigned values, and stores the policy as current exactly when it is returned current and was not already current before a current request |
| Privacy.UpdatePrivacyPolicy | mtx/src/backend/services/privacyService.js:57-85 | a missing version changes nothing; success comes exactly when the resulting content is non-empty, and the policy then holds exactly the assigned values, other policies cleared when isCurrent is true |
| Privacy.UpdateKeepsOneCurrent | mtx/src/backend/services/privacyService.js:68-78 | the update keeps at most one policy current, and a policy marked current by it becomes the current policy |
| Privacy.UpdateAsWrittenDropsCurrent | mtx/src/backend/services/privacyService.js:62-78 | re-marking the current policy as current leaves no policy current while the returned policy claims to be current |
| Privacy.SetFits | mtx/src/backend/services/privacyService.js:160 | setting a path to a value its schema accepts keeps the record valid |
| Privacy.DefaultSettings | mtx/src/backend/services/privacyService.js:106-135 | a fresh record belongs to the user, is schema-valid, is public, holds every flag's default, and agrees to the current policy's version or to none |
| Privacy.GetUserPrivacySettings | mtx/src/backend/services/privacyService.js:88-103 | a stored record is returned unchanged; a missing one is created with the defaults and stored |
| Privacy.Overwrite | mtx/src/backend/services/privacyService.js:149-153 | the copy writes every given schema path, whether or not the stored record holds a value for it, and keeps every other path the record has, since `key in` holds for every schema path of a document |
| Privacy.UpdateUserPrivacySettings | mtx/src/backend/services/privacyService.js:138-167 | the defaults are saved before any failure; a success keeps the owner, writes every given path, keeps each other path, stamps the update time and sets the agreement date for a truthy agreed version, on any stored record |
| Privacy.UpdateWritesMissingPath | mtx/src/backend/services/privacyService.js:149-160 | a stored record lacking a path takes the requested value for it and gets the agreement date when a version is agreed |
| Privacy.NoSettingsMeansNotAgreed | mtx/src/backend/services/privacyService.js:170-191 | a user without a settings record agrees exactly when no policy is current |
| Privacy.AgreedMeansNamesCurrent | mtx/src/backend/services/privacyService.js:170-191 | with at most one current policy, a user has agreed to the latest policy exactly when none is current or their record names the current policy's version |
| Privacy.AgreeingMakesAgreed | mtx/src/backend/services/privacyService.js:138-191 | agreeing to the current version through a settings update makes the user agreed, whether or not they had a record |
| Privacy.OverwriteFits | mtx/src/backend/services/privacyService.js:149-153 | writing accepted values over a valid record leaves only accepted values |
| Privacy.FreshRecordAgrees | mtx/src/backend/services/privacyService.js:94-96 | a user who gets a fresh record counts as agreeing to the current policy |
| Privacy.NewCurrentPolicyNeedsAgreement | mtx/src/backend/services/privacyService.js:29-54 | after a new current version is published, a user agrees exactly when their record names that new version |
| Privacy.Merged | mtx/src/backend/services/privacyService.js:149-160 | the saved record has the record's paths, the given paths, the update stamp and, for a truthy agreed version, the agreement date; each given path takes the given value, other paths keep theirs, and a given agreement date stands only without a truthy agreed version |
| Privacy.MergedFits | mtx/src/backend/services/privacyService.js:149-160 | saving accepted values over a valid record leaves only values the schema accepts |
| Recommendation.Where | mtx/src/backend/services/recommendationService.js:124-136 | filtering keeps exactly the elements that pass the test, never more than given, and keeps duplicate-free input duplicate-free |
| Recommendation.SortDesc | mtx/src/backend/services/recommendationService.js:139-140 | sorting by a key gives a permutation of the input with non-increasing keys |
| Recommendation.Limit | mtx/src/backend/services/recommendationService.js:53-54 | a query limit keeps a prefix of the results: at most n of them when n is positive, all of them when n is zero |
| Recommendation.Ranked | mtx/src/backend/services/recommendationService.js:139-140 | ranking the entries of a count is a permutation of them in non-increasing frequency |
| Recommendation.RankedTally | mtx/src/backend/services/recommendationService.js:139-140 | ranking a count of some keys is still a count of the same keys |
| Recommendation.TopOfCount | mtx/src/backend/services/recommendationService.js:139-147 | the top n keys of a count are distinct keys that occur, at most n of them, in non-increasing frequency; every key left out occurs at most as often as every key kept; all keys are kept when fewer than n are returned |
| Recommendation.TopIsRankedPrefix | mtx/src/backend/services/recommendationService.js:139-142 | the kept keys are the first keys of the ranking, with their counts, and no ranked entry after them has a larger count |
| Recommendation.CategoryKeys | mtx/src/backend/services/recommendationService.js:124-128 | the categories counted are exactly the non-empty categories of the viewed projects |
| Recommendation.TagKeys | mtx/src/backend/services/recommendationService.js:124-136 | the tags counted are exactly the tags carried by the viewed projects |
| Recommendation.UserInterests | mtx/src/backend/services/recommendationService.js:95-157 | without a counted activity in the last thirty days the interests are empty; there are never more than 5 categories and 10 tags |
| Recommendation.InterestsAreRanked | mtx/src/backend/services/recommendationService.js:120-147 | the interest categories are distinct categories of the viewed projects, most frequent first, and no category left out is more frequent than one kept |
| Recommendation.Popular | mtx/src/backend/services/recommendationService.js:78-92 | the popular list holds only available catalog projects not excluded, best funded first, at most limit of them, without repeated ids; an available project is left out only when the list is full of projects funded at least as well |
| Recommendation.UniqueFromCatalog | mtx/src/backend/services/recommendationService.js:78-92 | a duplicate-free selection from a catalog with unique ids has unique ids |
| Recommendation.Matching | mtx/src/backend/services/recommendationService.js:31-56 | the interest query returns available, not excluded projects in one of the interest categories or tags, best funded first, at most limit of them; a matching project is left out only when the list is full of projects funded at least as well |
| Recommendation.LimitDominates | mtx/src/backend/services/recommendationService.js:49-51 | cutting a ranked list at n leaves an element out only when n elements were kept, all ranked at least as high |
| Recommendation.TopUp | mtx/src/backend/services/recommendationService.js:58-67 | a short list is kept as the prefix and padded only with available catalog projects whose ids are not on it, up to the limit; a full list is left as it is |
| Recommendation.RecommendedProjects | mtx/src/backend/services/recommendationService.js:7-75 | no user id, an unknown user, a user without interests or a failing query give the popular list; every recommendation is an available, not excluded catalog project, and there are at most limit of them |
| Recommendation.TopUpIsDisjoint | mtx/src/backend/services/recommendationService.js:26-67 | for a user with interests, the list starts with the projects that match those interests, and the top-up never repeats one of them |
| Statistics.TodayStart | mtx/src/backend/services/statisticsService.js:8-11 | today is the local midnight at or before now, less than a day before it |
| Statistics.DayWindowIsToday | mtx/src/backend/services/statisticsService.js:64-66 | an instant lies in the 24-hour window of today exactly when its own local day is today |
| Statistics.SameDay | mtx/src/backend/services/statisticsService.js:64-66 | every instant in a local day's window has that day as its today |
| Statistics.LastOfCount | mtx/src/backend/services/statisticsService.js:44-61 | assigning each group's count in turn leaves every status field holding the number of documents with that status |
| Statistics.TallyProjects | mtx/src/backend/services/statisticsService.js:36-61 | the project total grows by every group's count, and the four status fields never add up to more than the total |
| Statistics.TallyProjectsFields | mtx/src/backend/services/statisticsService.js:44-61 | each of the four status fields ends up holding the last count grouped under that status, or its reset value |
| Statistics.TallyPayments | mtx/src/backend/services/statisticsService.js:146-159 | the payment total grows by every group's count, and successful plus failed never exceed the total |
| Statistics.TallyPaymentsFields | mtx/src/backend/services/statisticsService.js:151-159 | successful holds the count grouped under 'completed' and failed the count under 'failed' |
| Statistics.MethodStep | mtx/src/backend/services/statisticsService.js:183-187 | a group under a method outside the four known keys changes nothing |
| Statistics.TallyMethodsFields | mtx/src/backend/services/statisticsService.js:175-187 | each of the four method fields holds the last count grouped under that method |
| Statistics.UnknownMethodsIgnored | mtx/src/backend/services/statisticsService.js:183-187 | groups under unknown methods only leave the method counts as they were |
| Statistics.CompletedMethods | mtx/src/backend/services/statisticsService.js:162-172 | one method is counted per completed payment |
| Statistics.ProjectFigures | mtx/src/backend/services/statisticsService.js:25-66 | the project total is the number of projects, each status field is the number of projects with that status, and neither the status fields together nor today's new projects exceed the total |
| Statistics.PaymentFigures | mtx/src/backend/services/statisticsService.js:135-187 | the payment total is the number of payments, successful and failed count the payments with those statuses, and each method field counts the completed payments made with it |
| Statistics.MethodsWithinSuccessful | mtx/src/backend/services/statisticsService.js:162-187 | the four method counts together never exceed the successful payments |
| Statistics.FundingFigures | mtx/src/backend/services/statisticsService.js:82-133 | the funding total is the sum of project funding and daily the sum of today's completed payments; each average times its divisor is the amount it averages, and an average whose divisor is zero keeps its previous value |
| Statistics.UpdateDailyStatistics | mtx/src/backend/services/statisticsService.js:14-217 | the corrected update, with `lastLoginAt` declared: the record stored under today's date has every figure recomputed from the collections, the active users being those whose last login falls in today's window (Statistics.CountActiveExtremes), with today's new and active users never exceeding the user total, and no other day's record changes |
| Statistics.UpdateDailyStatisticsAsWritten | mtx/src/backend/services/statisticsService.js:14-217 | as written, the stored record agrees with the corrected one in every figure but the active users, which are all users when `strictQuery` drops the unknown filter and none when it keeps it |
| Statistics.CountActiveExtremes | mtx/src/backend/services/statisticsService.js:76-80 | the corrected active count is the user total exactly when every user's last login falls in today's window, and 0 exactly when none does |
| Statistics.StoredAsWritten | mtx/src/backend/services/trackingService.js:39-44 | as written, the stored users keep their creation time and carry no login time, since the undeclared `lastLoginAt` write is stripped |
| Statistics.CountActiveAsWritten | mtx/src/backend/services/statisticsService.js:76-80 | as written, the range filter on the undeclared `lastLoginAt` counts every user when `strictQuery` drops it and no user when it is kept |
| Statistics.ActiveAsWrittenRightOnlyAtExtremes | mtx/src/backend/services/statisticsService.js:76-80 | the as-written figure equals the true count exactly when all users logged in today (filter dropped) or none did (filter kept) |
| Statistics.ActiveAsWrittenMiscounts | mtx/src/backend/services/statisticsService.js:76-80 | one user logged in today and one never: one active user, while as written the figure is 2 or 0 |
| Statistics.RerunSameDay | mtx/src/backend/services/statisticsService.js:14-217 | running the update again on the same day over unchanged collections stores the same record |
| Statistics.RerunOn | mtx/src/backend/services/statisticsService.js:14-217 | repeating the update for one day over unchanged collections leaves the store as the first update left it |
| Cache.Get | mtx/backend/src/services/cacheService.ts:17-24 | a key reads as its stored value when that value is truthy, and as null when it is missing or falsy |
| Cache.Set | mtx/backend/src/services/cacheService.ts:34-41 | writing succeeds, stores the value under the key and leaves every other entry as it was |
| Cache.Del | mtx/backend/src/services/cacheService.ts:49-56 | deleting removes exactly that key, reports 1 when it was present and 0 otherwise, and keeps every other entry |
| Cache.Flush | mtx/backend/src/services/cacheService.ts:61-67 | after a flush every key reads as null |
| Cache.GetOrSet | mtx/backend/src/services/cacheService.ts:78-88 | the callback runs exactly when the key reads as null; a hit returns the cached value without writing, and a miss stores and returns the callback's value |
| Cache.SetThenGet | mtx/backend/src/services/cacheService.ts:17-41 | reading right after a write gives the written value back, unless it is falsy, which reads as null |
| Cache.SetLeavesOthers | mtx/backend/src/services/cacheService.ts:34-41 | writing one key leaves every other key's reading unchanged |
| Cache.DelOnlyThatKey | mtx/backend/src/services/cacheService.ts:49-56 | a deleted key reads as null and every other key reads as before |
| Cache.DelUndoesSet | mtx/backend/src/services/cacheService.ts:34-56 | deleting a key just written to a cache without it gives back the cache as it was |
| Cache.GetOrSetCaches | mtx/backend/src/services/cacheService.ts:78-88 | after a miss with a truthy result, a second call with the same key is a hit that returns the same value and skips the callback |
| Cache.FalsyResultIsRecomputed | mtx/backend/src/services/cacheService.ts:78-88 | after a miss, a falsy result is stored but never served, so the next call runs the callback again |
| Tallies.Bump | mtx/src/backend/services/recommendationService.js:127 | bumping a key adds one to its count, appending it with count 1 when it is new, and leaves every other key and count as it was |
| Tallies.Count | mtx/src/backend/services/recommendationService.js:121-136 | counting gives one entry per distinct key, holding how often that key occurs |
| Tallies.CountOfTally | mtx/src/backend/services/recommendationService.js:121-136 | the count of any key, zero for keys never seen, is its number of occurrences |
| Tallies.SumOfCount | mtx/src/backend/services/statisticsService.js:44-46 | the counts of all groups add up to the number of keys counted |

## Left out

- Database, network and SDK calls are left out. This covers Mongoose queries, aggregation pipelines, `save`, unique indexes and `populate`/`select` projections. It also covers axios, the Alipay, Stripe and SMS APIs, and geoip. Each handler is one atomic transition over in-memory collections.
- Concurrency is left out: the read-then-write race between two deliveries of the same payment notification is not modelled.
- MD5, bcrypt, JWT, TOTP and QR-code generation are foreign code. They enter as parameters or oracle booleans.
- Random numbers are parameters. These are the SMS draw, the WeChat nonce and the backup codes.
- Wall-clock time is an integer parameter.
- Calendar arithmetic is simplified. "Thirty days ago" in the recommendation service is modelled as `now - 30 days` of milliseconds, so daylight-saving shifts are left out. Local midnight in the statistics service uses one fixed time-zone offset.
- Floating point is not modelled:
  - Amounts are integers, except the WeChat fen/yuan conversion, which uses exact reals. Binary rounding such as `Math.floor(0.29 * 100)` is therefore not modelled.
  - The statistics averages are exact reals.
  - `toFixed(2)` is modelled only on whole numbers of cents (`PaymentGateway.FixedTwo`); its rounding of other binary fractions is left out.
  - NaN is left out, including in the cache's truthiness rule.
- XML building and parsing in the WeChat client are left out. A reply is the object the parser would produce.
- JavaScript property order for integer-like keys is left out. `for...in` and `Object.entries` visit integer-like keys first; the model keeps insertion order for every key. This affects the signing parameters, the translation trees and the interest tallies.
- String comparison is by UTF-16 code unit, as JavaScript's default sort does. Characters outside the Basic Multilingual Plane are not modelled.
- `parseInt` is modelled on decimal digit strings. Leading whitespace, signs and hexadecimal prefixes are left out.
- The SMS code is modelled as the integer it is, not its decimal string.
- The lockout fields `loginAttempts`, `accountLocked` and `lockUntil` are not declared in the user schema, although the security service reads and writes them. As written the lock therefore never engages (see Findings). `Security.IncrementLoginAttempts`, `Security.IsAccountLocked` and their lemmas model the lockout with the fields declared, as a separate `AccountLock` record.
- Comments.ProjectComments: page and limit are required to be at least 1, because NaN and zero page sizes are not modelled.
- Comments.CommentReplies: page and limit are required to be at least 1, because NaN and zero page sizes are not modelled.
- The `trim` setters of the translation schema (`languageCode`, `key`, `namespace`) are not applied. Translation records keep these strings as given, which agrees with the program whenever they have no white space at either end.
- Users.NewUser: the `trim` setters of `username` and `email` and the `lowercase` setter of `email` are not applied. Both strings are stored as given.
- Mongoose casts a query filter through the schema, so a filter on a trimmed path is trimmed too. This is modelled for the language code filters of the i18n service only; every other filter is matched as given.
- ProjectLifecycle.UpdateProject: the `$set` document is modelled as sent. The trimming Mongoose applies to `title` and `tags` when it casts the update is left out.
- The comment schema file is not part of this model. Comment fields are taken from the controller's use of them.
- Admin.ListUsers: the search regex, the `createdAt` sort and the page window are left out. Only the status and role filters are modelled.
- Admin.MergePermissions: Mongoose strict-mode dropping of unknown permission keys and boolean casting of the given values are left out.
- TranslationTree.Insert: a path that goes on through a string is modelled as the `TypeError`. JavaScript first indexes into the string, so when the next part is a character index or another property a string has (such as `length`), the walk goes on and ends in a silently ignored write, leaving the tree unchanged, instead of failing.
- TranslationTree.Insert: property names every plain object inherits (`constructor`, `toString` and the like) are treated as absent keys; in JavaScript they read as truthy functions.
- Tallies.Bump: keys naming inherited object properties (`constructor` and the like) are treated as absent. In JavaScript `(counts[k] || 0) + 1` on such a key concatenates a function's source text with 1.
- I18nMiddleware.Translate: the `in` test of `req.t` also sees inherited object properties; the model sees only own keys.
- The i18n middleware's `getCurrentLanguage`, its `Content-Language` header and its cookie options are left out.
- The i18n service's logging and file-system errors are left out. An unreadable translation file is treated as absent.
- Privacy.UpdateUserPrivacySettings: the request is a map over the schema's paths. Request keys that name no schema path are left out, although the `in` test also accepts other properties of a Mongoose document.
- Privacy.UpdateUserPrivacySettings: Mongoose casting is left out. A given value is accepted only when it already has its path's type, so `null` on a boolean path or on `visibility`, the strings 'true'/'false' and the numbers 1/0 for a boolean path, and numbers or booleans for a string path are modelled as validation failures, although Mongoose would cast or accept them.
- The built-in translation objects that `initializeDefaultTranslations` writes are carried in the service state as `Service.builtIn`. `I18nService.Initial` fills in the source's own content, and every proof holds for any content.
- The privacy service's policy history listing and the anonymisation of user data are left out, because they only issue queries.
- Recommendation: when MongoDB sorts by `currentFunding`, the order among equal values is unspecified; the model uses a stable sort.
- Recommendation.RecommendedProjects: a thrown query is the boolean parameter `fault`, and an invalid ObjectId is one such fault.
- ProjectLifecycle.UserProjects: projects created at the same instant keep their stored order; MongoDB leaves the order among equal `createdAt` values unspecified.
- Statistics: the category aggregation is left out. Its `$sort` by count leaves the order among equal counts unspecified.
- Statistics: `$group` results are in first-seen order in the model; MongoDB gives no order.
- `getStatisticsByDateRange` is left out, because it only issues a query.
- Cache: entry lifetimes (TTL) and node-cache's cloning of stored values are left out. The callback of `getOrSet` is the value it resolves to, and a callback that throws is left out.
- The other controllers and services are left out, because they only build queries or call SDKs. So are report generation, scheduling, activity tracking, routes, authentication middleware and the mobile client.
- Statistics.UpdateDailyStatistics: which `strictQuery` setting applies is not known, since the program pins no Mongoose version, so the as-written active-user figure is modelled for both settings. The tracking service that writes `lastLoginAt` is modelled only through the stored users it leaves.
- I18nService.ImportTranslations: translation files are modelled with string leaves only. A number or boolean value, which Mongoose casts to a string in the stored record, a `null` value, which the record's required `value` rejects, and an array, which the import walks under the keys "0", "1", …, cannot be represented.
- Comments.SortBy: the order among comments with equal sort keys (equal `createdAt`, and for mostLiked equal like counts) is the model's own choice. MongoDB leaves it unspecified, and the page window, OnItsPage and ListingIn depend on it.

## Findings

| source | as written | input that shows it | evidently intended | confidence | as-written member | corrected member |
|---|---|---|---|---|---|---|
| mtx/src/backend/controllers/paymentController.js:194-197 | the status poll marks a pending payment completed but never credits the project, adds the backer or bumps the tier; the webhook that follows sees a non-pending payment and does nothing | a pending 100 payment on a project with funding 0, polled with gateway status "success" and then notified: the payment is completed and the project's funding stays 0 | a poll that completes a payment settles it exactly as the webhook does, so completed payments always add up to the project's funding | not executed | Payments.PollAsWritten (Payments.PollAsWrittenLosesCredit) | Payments.Poll (Payments.PollPreservesConsistency) |
| mtx/src/backend/controllers/projectController.js:274 | approving a project whose start date lies ahead sets status 'scheduled', which the status enum of models/Project.js:88-92 does not list, so the save fails validation | any pending project with startDate > now, approved by an admin: the handler answers 500 and the project stays pending | 'scheduled' is a valid status, as the cancel handler at projectController.js:387 also assumes | not executed | ProjectLifecycle.ReviewAsWritten (ProjectLifecycle.ReviewAsWrittenCannotSchedule) | ProjectLifecycle.Review (ProjectLifecycle.ReviewAgreesUnlessScheduled) |
| mtx/src/backend/services/i18nService.js:476-488 | with isDefault true, the update first clears every default with updateMany and then assigns isDefault = true on a document loaded before that; if the language was already the default, Mongoose sees no change and does not write the field | a table whose only language zh-CN is the default, updated with { isDefault: true }: afterwards no language is the default, and zh-CN can then be deleted | the updated language ends up the only default | not executed | I18nService.UpdateLanguageAsWritten (I18nService.UpdateLanguageAsWrittenDropsDefault) | I18nService.UpdateLanguage (I18nService.UpdateLanguageMakesDefault) |
| mtx/src/backend/services/privacyService.js:62-78 | with isCurrent true, the update clears every current flag with updateMany and then assigns isCurrent = true on the policy loaded before that; for the policy that was already current, the field is not written | the current policy updated with isCurrent true: the returned policy says it is current, but no stored policy is current | the updated policy ends up the only current one | not executed | Privacy.UpdatePrivacyPolicyAsWritten (Privacy.UpdateAsWrittenDropsCurrent) | Privacy.UpdatePrivacyPolicy (Privacy.UpdateKeepsOneCurrent) |
| mtx/src/backend/controllers/projectController.js:282-284, 391-393 | the review assigns `reviewFeedback`, and the cancel assigns `cancelReason` and `canceledAt`; models/Project.js declares none of these paths, so strict mode drops them and only the status is saved | a pending project rejected with feedback "too short": the save succeeds and the project has no feedback; an active project cancelled with a reason: it is canceled with no reason and no time | the feedback, reason and cancel time are stored with the project | not executed | ProjectLifecycle.ReviewAsWritten (ProjectLifecycle.ReviewAsWrittenLosesFeedback), ProjectLifecycle.CancelProjectAsWritten (ProjectLifecycle.CancelAsWrittenLosesReason) | ProjectLifecycle.Review (ProjectLifecycle.Decide), ProjectLifecycle.CancelProject |
| mtx/src/backend/services/securityService.js:168-178 | the user schema declares no `loginAttempts`, `accountLocked` or `lockUntil`; `user.loginAttempts + 1` is `undefined + 1`, which is NaN, so `NaN >= 5` never locks, and strict mode strips the update | five failed logins for an existing user: nothing is stored and the account still reads as unlocked | the fifth failure locks the account for thirty minutes | not executed | Security.IncrementLoginAttemptsAsWritten (Security.LockNeverEngagesAsWritten) | Security.IncrementLoginAttempts (Security.FiveFailuresLock) |
| mtx/src/backend/controllers/commentController.js:109 | the mostLiked order sorts on the path `likes.length`, which names no stored field of a likes array, so MongoDB sorts on `createdAt` alone and mostLiked is newest first | an older comment with two likes and a newer one with none, listed mostLiked: the newer comes first | comments with more likes come first, ties newest first | not executed | Comments.ProjectCommentsAsWritten (Comments.MostLikedAsWrittenIgnoresLikes) | Comments.ProjectComments (Comments.ListingSorted) |
| mtx/src/backend/services/statisticsService.js:76-80 | the daily active-user figure filters users on `lastLoginAt`, which models/User.js does not declare; strict mode strips the tracking service's write of it (trackingService.js:39-44), and the filter on the undeclared path is either dropped by `strictQuery` (count every user) or kept (match no user) | two users, one who logged in today and one who never did: the figure is 2 with the filter dropped, 0 with it kept | the number of users whose last login falls in today's window, here 1 | not executed | Statistics.CountActiveAsWritten (Statistics.ActiveAsWrittenMiscounts, Statistics.UpdateDailyStatisticsAsWritten) | Statistics.CountActive (Statistics.CountActiveExtremes, Statistics.UpdateDailyStatistics) |

=== FILE: admin.dfy ===
/** The account administration handlers of controllers/adminController.js: the
    admin guard every handler starts with, the user listing's filters, the
    role and permission update and the status update. The user collection is
    a map from id to record; the clock is a parameter `now`. */
module Admin {
  import opened Wrappers
  import opened Users

  type Store = map<UserId, User>

  datatype AdminError =
    | Forbidden      // 403: the requester is not an admin
    | InvalidStatus  // 400: a status outside the three the schema knows
    | UserNotFound   // 404
    | ServerError    // 500: the role enum rejects the saved value

  /** The guard at the head of every handler: `req.user.role !== 'admin'`. */
  predicate IsAdmin(requester: User) {
    requester.role == Admin
  }

  // ---------------------------------------------------------------------------
  // Listing

  /** A user matches the listing's filters: a given (non-empty) status or role
      must equal the user's. */
  predicate MatchesFilters(u: User, status: Option<string>, role: Option<string>) {
    && (Present(status) ==> StatusName(u.status) == status.value)
    && (Present(role) ==> RoleName(u.role) == role.value)
  }

  function StatusName(s: AccountStatus): string {
    match s
    case Active => "active"
    case Suspended => "suspended"
    case Deactivated => "deactivated"
  }

  /** `getAllUsers` up to the page window: non-admins are refused; otherwise the
      users that match the filters, in their stored order. */
  function ListUsers(requester: User, users: seq<User>, status: Option<string>, role: Option<string>): (r: Result<seq<User>, AdminError>)
    ensures r.Err? <==> !IsAdmin(requester)
    ensures r.Err? ==> r.error == Forbidden
    ensures r.Ok? ==> forall u :: u in r.value <==> u in users && MatchesFilters(u, status, role)
    ensures r.Ok? && !Present(status) && !Present(role) ==> r.value == users
  {
    if !IsAdmin(requester) then Err(Forbidden)
    else Ok(Matching(users, status, role))
  }

  /** The query's filter over the stored users: each matching user as often as
      it is stored, in the stored order (see `MatchingAppend`). */
  function Matching(users: seq<User>, status: Option<string>, role: Option<string>): (r: seq<User>)
    ensures forall u :: u in r <==> u in users && MatchesFilters(u, status, role)
    ensures forall u :: multiset(r)[u] == if MatchesFilters(u, status, role) then multiset(users)[u] else 0
    ensures |r| <= |users|
    ensures !Present(status) && !Present(role) ==> r == users
  {
    if |users| == 0 then []
    else
      var rest := Matching(users[1..], status, role);
      assert users == [users[0]] + users[1..];
      if MatchesFilters(users[0], status, role) then [users[0]] + rest else rest
  }

  /** The filter keeps the stored order: filtering two runs of users one after
      the other is filtering their concatenation. */
  lemma {:induction false} MatchingAppend(a: seq<User>, b: seq<User>, status: Option<string>, role: Option<string>)
    ensures Matching(a + b, status, role) == Matching(a, status, role) + Matching(b, status, role)
    decreases |a|
  {
    if |a| > 0 {
      assert (a + b)[1..] == a[1..] + b;
      MatchingAppend(a[1..], b, status, role);
    } else {
      assert a + b == b;
    }
  }

  // ---------------------------------------------------------------------------
  // Role and permissions

  /** `{ ...current, ...given }`: every given key takes the given value, every
      other stored key keeps its value. */
  function MergePermissions(current: map<string, bool>, given: map<string, bool>): (m: map<string, bool>)
    ensures m.Keys == current.Keys + given.Keys
    ensures forall k :: k in given ==> m[k] == given[k]
    ensures forall k :: k in current && k !in given ==> m[k] == current[k]
  {
    current + given
  }

  /** Merging the same permissions a second time changes nothing. */
  lemma MergeIdempotent(current: map<string, bool>, given: map<string, bool>)
    ensures MergePermissions(MergePermissions(current, given), given) == MergePermissions(current, given)
  {
    var once := MergePermissions(current, given);
    var twice := MergePermissions(once, given);
    assert twice.Keys == once.Keys;
    forall k | k in once
      ensures twice[k] == once[k]
    {
      if k in given {
        assert twice[k] == given[k] == once[k];
      } else {
        assert twice[k] == once[k];
      }
    }
  }

  /** A non-admin's permission check after the merge follows the given value
      for every given key and the old answer for every other key. */
  lemma MergedPermissionCheck(u: User, given: map<string, bool>, p: string)
    requires u.role != Admin
    ensures var v := u.(permissions := MergePermissions(u.permissions, given));
      && (p in given ==> (HasPermission(v, p) <==> given[p]))
      && (p !in given ==> (HasPermission(v, p) <==> HasPermission(u, p)))
  {
  }

  /** `updateUserRole`. A present role replaces the stored one, present
      permissions are merged in; a role outside the enum fails validation on
      save and nothing is written. */
  function UpdateUserRole(requester: User, users: Store, userId: UserId, role: Option<string>,
                          permissions: Option<map<string, bool>>): (r: Result<Store, AdminError>)
    ensures !IsAdmin(requester) ==> r == Err(Forbidden)
    ensures IsAdmin(requester) && userId !in users ==> r == Err(UserNotFound)
    ensures r.Ok? <==> IsAdmin(requester) && userId in users && (Present(role) ==> ParseRole(role.value).Some?)
    ensures r.Err? && IsAdmin(requester) && userId in users ==> r.error == ServerError
    ensures r.Ok? ==>
      && userId in r.value
      && r.value == users[userId := r.value[userId]]
      && r.value[userId].role == (if Present(role) then ParseRole(role.value).value else users[userId].role)
      && r.value[userId].permissions == (if permissions.Some? then MergePermissions(users[userId].permissions, permissions.value)
                                         else users[userId].permissions)
      && r.value[userId] == users[userId].(role := r.value[userId].role, permissions := r.value[userId].permissions)
  {
    if !IsAdmin(requester) then Err(Forbidden)
    else if userId !in users then Err(UserNotFound)
    else
      var u := users[userId];
      var newRole := if Present(role) then ParseRole(role.value) else Some(u.role);
      if newRole.None? then Err(ServerError)
      else
        var perms := if permissions.Some? then MergePermissions(u.permissions, permissions.value) else u.permissions;
        Ok(users[userId := u.(role := newRole.value, permissions := perms)])
  }

  /** Granting the admin role makes every permission check pass. */
  lemma PromotedAdminHoldsEverything(requester: User, users: Store, userId: UserId,
                                     permissions: Option<map<string, bool>>, p: string)
    requires IsAdmin(requester) && userId in users
    ensures var r := UpdateUserRole(requester, users, userId, Some("admin"), permissions);
      r.Ok? && HasPermission(r.value[userId], p)
  {
  }

  // ---------------------------------------------------------------------------
  // Status

  /** The reason recorded when the request gives none ("administrator action"). */
  const DefaultReason: string := "管理员操作"

  /** The status strings the handler accepts; anything else is a 400. */
  function ParseStatus(s: Option<string>): (r: Option<AccountStatus>)
    ensures r.Some? <==> s.Some? && s.value in {"active", "suspended", "deactivated"}
    ensures r.Some? ==> StatusName(r.value) == s.value
  {
    if s == Some("active") then Some(Active)
    else if s == Some("suspended") then Some(Suspended)
    else if s == Some("deactivated") then Some(Deactivated)
    else None
  }

  /** The deactivation request a status leaves on the record: suspending or
      deactivating records the time and the reason (or the default), and only
      deactivating schedules the deactivation; activating clears it. */
  function RequestFor(status: AccountStatus, reason: Option<string>, now: int): (d: Option<DeactivationRequest>)
    ensures d.None? <==> status == Active
    ensures d.Some? ==> d.value.requestedAt == now && d.value.reason != ""
    ensures d.Some? ==> (d.value.scheduledDate.Some? <==> status == Deactivated)
    ensures d.Some? && Present(reason) ==> d.value.reason == reason.value
  {
    match status
    case Active => None
    case Suspended => Some(DeactivationRequest(now, OrElse(reason, DefaultReason), None))
    case Deactivated => Some(DeactivationRequest(now, OrElse(reason, DefaultReason), Some(now)))
  }

  /** `updateUserStatus`: the guard, the status check, the lookup, then the new
      status with its deactivation request; nothing else on any user changes. */
  function UpdateUserStatus(requester: User, users: Store, userId: UserId, status: Option<string>,
                            reason: Option<string>, now: int): (r: Result<Store, AdminError>)
    ensures !IsAdmin(requester) ==> r == Err(Forbidden)
    ensures IsAdmin(requester) && ParseStatus(status).None? ==> r == Err(InvalidStatus)
    ensures IsAdmin(requester) && ParseStatus(status).Some? && userId !in users ==> r == Err(UserNotFound)
    ensures r.Ok? <==> IsAdmin(requester) && ParseStatus(status).Some? && userId in users
    ensures r.Ok? ==>
      && userId in r.value
      && r.value == users[userId := r.value[userId]]
      && StatusName(r.value[userId].status) == status.value
      && r.value[userId] == users[userId].(status := r.value[userId].status,
                                           deactivationRequest := RequestFor(r.value[userId].status, reason, now))
  {
    if !IsAdmin(requester) then Err(Forbidden)
    else match ParseStatus(status)
      case None => Err(InvalidStatus)
      case Some(st) =>
        if userId !in users then Err(UserNotFound)
        else Ok(users[userId := users[userId].(status := st, deactivationRequest := RequestFor(st, reason, now))])
  }

  /** Suspending or deactivating an active account and then reactivating it
      gives back the account as it was. */
  lemma ReactivationRestores(requester: User, users: Store, userId: UserId, status: string,
                             reason: Option<string>, now: int, later: int)
    requires IsAdmin(requester) && userId in users
    requires users[userId].status == Active && users[userId].deactivationRequest.None?
    requires status in {"suspended", "deactivated"}
    ensures var off := UpdateUserStatus(requester, users, userId, Some(status), reason, now);
      && off.Ok? && off.value[userId].deactivationRequest.Some?
      && UpdateUserStatus(requester, off.value, userId, Some("active"), None, later) == Ok(users)
  {
    var off := UpdateUserStatus(requester, users, userId, Some(status), reason, now);
    var on := UpdateUserStatus(requester, off.value, userId, Some("active"), None, later);
    assert on.value[userId] == users[userId];
    assert on.value == users;
  }

  /** Repeating a status update with the same request and time changes nothing
      further. */
  lemma UpdateStatusIdempotent(requester: User, users: Store, userId: UserId, status: Option<string>,
                               reason: Option<string>, now: int)
    ensures var once := UpdateUserStatus(requester, users, userId, status, reason, now);
      once.Ok? ==> UpdateUserStatus(requester, once.value, userId, status, reason, now) == once
  {
    var once := UpdateUserStatus(requester, users, userId, status, reason, now);
    if once.Ok? {
      var twice := UpdateUserStatus(requester, once.value, userId, status, reason, now);
      assert twice.value[userId] == once.value[userId];
      assert twice.value == once.value;
    }
  }
}

=== FILE: cache.dfy ===
/** The general-purpose cache of services/cacheService.ts: `get`, `set`,
    `del`, `flush` and `getOrSet` over an in-memory key-value store. Entry
    lifetimes are not modelled, so every entry stays until it is deleted or
    the cache is flushed; the callback of `getOrSet` is given as the value it
    would produce. */
module Cache {
  import opened Wrappers

  /** A JavaScript value as far as the cache can tell values apart. */
  datatype Value =
    | Undefined
    | Null
    | Bool(b: bool)
    | Num(n: int)
    | Str(s: string)
    | Obj(id: nat)   // any object or array, by identity

  /** JavaScript truthiness (NaN is not modelled). */
  predicate Truthy(v: Value) {
    match v
    case Undefined => false
    case Null => false
    case Bool(b) => b
    case Num(n) => n != 0
    case Str(s) => s != ""
    case Obj(_) => true
  }

  type Store = map<string, Value>

  /** `get`: `cache.get(key) || null`, so a missing key and a stored falsy
      value both read as `null` (here `None`). */
  function Get(c: Store, key: string): (r: Option<Value>)
    ensures r.Some? <==> key in c && Truthy(c[key])
    ensures r.Some? ==> r.value == c[key]
  {
    if key in c && Truthy(c[key]) then Some(c[key]) else None
  }

  /** `set`: store the value under the key and report success. */
  function Set(c: Store, key: string, v: Value): (r: (Store, bool))
    ensures r.1
    ensures r.0.Keys == c.Keys + {key} && r.0[key] == v
    ensures forall k :: k in c && k != key ==> r.0[k] == c[k]
  {
    (c[key := v], true)
  }

  /** `del`: remove the key; the result is the number of keys removed. */
  function Del(c: Store, key: string): (r: (Store, nat))
    ensures r.0.Keys == c.Keys - {key}
    ensures forall k :: k in r.0 ==> r.0[k] == c[k]
    ensures r.1 == if key in c then 1 else 0
  {
    (c - {key}, if key in c then 1 else 0)
  }

  /** `flush`: drop every entry. */
  function Flush(c: Store): (r: Store)
    ensures forall k :: Get(r, k).None?
  {
    map[]
  }

  /** What `getOrSet` did: the value it resolves to and whether it ran the
      callback. */
  datatype Outcome = Outcome(store: Store, value: Value, calledBack: bool)

  /** `getOrSet`: a cached (truthy) value is returned without running the
      callback; otherwise the callback's value is stored and returned. */
  function GetOrSet(c: Store, key: string, produced: Value): (r: Outcome)
    ensures r.calledBack <==> Get(c, key).None?
    ensures !r.calledBack ==> r.store == c && Get(c, key) == Some(r.value)
    ensures r.calledBack ==> r.value == produced && r.store == c[key := produced]
  {
    match Get(c, key)
    case Some(v) => Outcome(c, v, false)
    case None => Outcome(Set(c, key, produced).0, produced, true)
  }

  /** Reading right after writing gives the written value back, except that a
      falsy value reads as `null`. */
  lemma SetThenGet(c: Store, key: string, v: Value)
    ensures Get(Set(c, key, v).0, key) == if Truthy(v) then Some(v) else None
  {
  }

  /** Writing one key leaves every other key's reading unchanged. */
  lemma SetLeavesOthers(c: Store, key: string, v: Value, other: string)
    requires other != key
    ensures Get(Set(c, key, v).0, other) == Get(c, other)
  {
  }

  /** Deleting a key makes it read as `null` and leaves every other key's
      reading unchanged. */
  lemma DelOnlyThatKey(c: Store, key: string, other: string)
    ensures Get(Del(c, key).0, key).None?
    ensures other != key ==> Get(Del(c, key).0, other) == Get(c, other)
  {
  }

  /** Deleting a key that was just written undoes the write. */
  lemma DelUndoesSet(c: Store, key: string, v: Value)
    requires key !in c
    ensures Del(Set(c, key, v).0, key).0 == c
  {
    assert Del(Set(c, key, v).0, key).0.Keys == c.Keys;
  }

  /** After a miss with a truthy result, a second `getOrSet` on the key is a
      hit: it returns the same value, changes nothing and skips the callback. */
  lemma GetOrSetCaches(c: Store, key: string, produced: Value, later: Value)
    requires Truthy(produced)
    ensures var first := GetOrSet(c, key, produced);
      GetOrSet(first.store, key, later) == Outcome(first.store, first.value, false)
  {
  }

  /** On a miss, a falsy result is stored but never served: the next
      `getOrSet` on the key runs the callback again. */
  lemma FalsyResultIsRecomputed(c: Store, key: string, produced: Value, later: Value)
    requires Get(c, key).None? && !Truthy(produced)
    ensures var first := GetOrSet(c, key, produced);
      first.calledBack && first.store[key] == produced && GetOrSet(first.store, key, later).calledBack
  {
  }
}

=== FILE: comments.dfy ===
/** Project comments (controllers/commentController.js): posting with its
    notification, the top-level listing with its visibility filter, sort order
    and pages, the reply listing, the like toggle and the moderator's
    visibility switch. The comment collection is a sequence; the queries the
    controller sends to it are written out as filters, a sort and a window. */
module Comments {
  import opened Wrappers
  import opened Users
  import ProjectModel

  datatype Comment = Comment(
    id: string,
    project: string,
    user: UserId,
    content: string,
    parent: Option<string>,
    likes: seq<UserId>,
    isHidden: bool,
    createdAt: int)

  /** How a handler ends when it does not answer 2xx: 404, 403, or a 500 from a
      `TypeError` on a missing record. */
  datatype CommentError = NotFound | Forbidden | ServerError

  datatype NoticeKind = CommentReply | NewComment | CommentLike

  /** A notification handed to the notification service. */
  datatype Notice = Notice(recipient: UserId, kind: NoticeKind, commentId: string)

  /** The admin or the project's creator may see hidden comments and switch
      visibility. */
  predicate Moderates(viewer: User, creator: UserId) {
    viewer.role == Admin || viewer.id == creator
  }

  // ---------------------------------------------------------------------------
  // Posting

  /** `addComment`: the project must exist and the poster must hold
      `canComment`. A reply notifies the parent's author, a top-level comment
      the project's creator, unless that is the poster. A missing parent sends
      nothing. */
  function AddComment(project: Option<ProjectModel.Project>, projectId: string, viewer: User, id: string,
                      content: string, parentId: Option<string>, parent: Option<Comment>, now: int): (r: Result<(Comment, Option<Notice>), CommentError>)
    ensures project.None? ==> r == Err(NotFound)
    ensures project.Some? && !HasPermission(viewer, "canComment") ==> r == Err(Forbidden)
    ensures r.Ok? <==> project.Some? && HasPermission(viewer, "canComment")
    ensures r.Ok? ==> var (c, n) := r.value;
      && c.id == id && c.content == content && c.parent == parentId && c.createdAt == now
      && c.user == viewer.id && c.project == projectId && c.likes == [] && !c.isHidden
      && (n.Some? ==> n.value.recipient != viewer.id && n.value.commentId == id)
      && (Present(parentId) ==>
            (n.Some? <==> parent.Some? && parent.value.user != viewer.id)
            && (n.Some? ==> n.value == Notice(parent.value.user, CommentReply, id)))
      && (!Present(parentId) ==>
            (n.Some? <==> project.value.creator != viewer.id)
            && (n.Some? ==> n.value == Notice(project.value.creator, NewComment, id)))
  {
    if project.None? then Err(NotFound)
    else if !HasPermission(viewer, "canComment") then Err(Forbidden)
    else
      var c := Comment(id, projectId, viewer.id, content, parentId, [], false, now);
      var n :=
        if Present(parentId) then
          (if parent.Some? && parent.value.user != viewer.id then Some(Notice(parent.value.user, CommentReply, id)) else None)
        else if project.value.creator != viewer.id then Some(Notice(project.value.creator, NewComment, id))
        else None;
      Ok((c, n))
  }

  /** A new comment is found by the queries that list it: a top-level one by
      the project's top-level query, for every viewer; a reply by the thread
      query of its parent. */
  lemma AddedCommentIsListed(project: ProjectModel.Project, projectId: string, viewer: User, id: string,
                             content: string, parentId: Option<string>, parent: Option<Comment>, now: int,
                             all: seq<Comment>, reader: Option<User>)
    requires AddComment(Some(project), projectId, viewer, id, content, parentId, parent, now).Ok?
    ensures var c := AddComment(Some(project), projectId, viewer, id, content, parentId, parent, now).value.0;
      && (parentId.None? ==> c in TopLevel(all + [c], projectId, reader, project.creator))
      && (parent.Some? && parentId == Some(parent.value.id) ==> c in RepliesOf(all + [c], projectId, parent.value))
  {
    var c := AddComment(Some(project), projectId, viewer, id, content, parentId, parent, now).value.0;
    TopLevelExact(all + [c], projectId, reader, project.creator, c);
    if parent.Some? {
      RepliesOfExact(all + [c], projectId, parent.value, c);
    }
  }

  // ---------------------------------------------------------------------------
  // Sort order

  datatype SortOrder = Oldest | MostLiked | Newest

  /** The `sort` query: 'oldest', 'mostLiked', and everything else is newest. */
  function SortOrderOf(sort: string): (o: SortOrder)
    ensures o == Oldest <==> sort == "oldest"
    ensures o == MostLiked <==> sort == "mostLiked"
    ensures o == Newest <==> sort != "oldest" && sort != "mostLiked"
  {
    if sort == "oldest" then Oldest else if sort == "mostLiked" then MostLiked else Newest
  }

  /** The order MongoDB actually applies. In `{ 'likes.length': -1, createdAt: -1 }`
      the path `likes.length` on an array of user ids names a `length` field of
      each element; no element has one, so every comment ties on that key and
      the 'mostLiked' listing comes out newest first. */
  function SortOrderAsWritten(sort: string): (o: SortOrder)
    ensures o == Oldest <==> sort == "oldest"
    ensures o == Newest <==> sort != "oldest"
  {
    if sort == "oldest" then Oldest else Newest
  }

  /** The sort specification as a key compared lexicographically:
      `{createdAt: 1}`, `{likes.length: -1, createdAt: -1}`, `{createdAt: -1}`. */
  function Key(o: SortOrder, c: Comment): (int, int) {
    match o
    case Oldest => (c.createdAt, 0)
    case MostLiked => (-|c.likes|, -c.createdAt)
    case Newest => (-c.createdAt, 0)
  }

  predicate KeyLe(a: (int, int), b: (int, int)) {
    a.0 < b.0 || (a.0 == b.0 && a.1 <= b.1)
  }

  predicate SortedBy(o: SortOrder, cs: seq<Comment>) {
    forall i, j :: 0 <= i < j < |cs| ==> KeyLe(Key(o, cs[i]), Key(o, cs[j]))
  }

  /** Insert before the first comment whose key is larger. */
  function InsertBy(o: SortOrder, c: Comment, cs: seq<Comment>): (r: seq<Comment>)
    ensures |r| == |cs| + 1 && multiset(r) == multiset(cs) + multiset{c}
  {
    if |cs| == 0 then [c]
    else if !KeyLe(Key(o, cs[0]), Key(o, c)) then [c] + cs
    else
      var r := [cs[0]] + InsertBy(o, c, cs[1..]);
      assert cs == [cs[0]] + cs[1..];
      r
  }

  lemma {:induction false} InsertBySorted(o: SortOrder, c: Comment, cs: seq<Comment>)
    requires SortedBy(o, cs)
    ensures SortedBy(o, InsertBy(o, c, cs))
    decreases |cs|
  {
    if |cs| > 0 && KeyLe(Key(o, cs[0]), Key(o, c)) {
      InsertBySorted(o, c, cs[1..]);
      var r := InsertBy(o, c, cs[1..]);
      forall x | x in r
        ensures KeyLe(Key(o, cs[0]), Key(o, x))
      {
        assert x in multiset(r);
        if x != c {
          assert x in cs[1..];
          var j :| 0 <= j < |cs[1..]| && cs[1..][j] == x;
          assert cs[j + 1] == x;
        }
      }
    }
  }

  /** The order the database returns the matching comments in. */
  function SortBy(o: SortOrder, cs: seq<Comment>): (r: seq<Comment>)
    ensures |r| == |cs| && multiset(r) == multiset(cs)
    ensures SortedBy(o, r)
  {
    if |cs| == 0 then []
    else
      var rest := SortBy(o, cs[1..]);
      InsertBySorted(o, cs[0], rest);
      assert cs == [cs[0]] + cs[1..];
      InsertBy(o, cs[0], rest)
  }

  /** Sequences with the same multiset have the same members. */
  lemma SameMembers(a: seq<Comment>, b: seq<Comment>)
    requires multiset(a) == multiset(b)
    ensures forall x :: x in a <==> x in b
  {
    assert forall x :: x in a <==> x in multiset(a);
    assert forall x :: x in b <==> x in multiset(b);
  }

  /** What each order means for the listing: oldest first, newest first, or
      most likes first with the newest first among equals. */
  lemma SortedMeaning(o: SortOrder, cs: seq<Comment>, i: int, j: int)
    requires SortedBy(o, cs) && 0 <= i < j < |cs|
    ensures o == Oldest ==> cs[i].createdAt <= cs[j].createdAt
    ensures o == Newest ==> cs[i].createdAt >= cs[j].createdAt
    ensures o == MostLiked ==> |cs[i].likes| >= |cs[j].likes|
    ensures o == MostLiked && |cs[i].likes| == |cs[j].likes| ==> cs[i].createdAt >= cs[j].createdAt
  {
  }

  // ---------------------------------------------------------------------------
  // Pages

  /** Where `skip((page - 1) * limit)` starts, clipped to the end. */
  function WindowStart(n: nat, page: nat, limit: nat): (from: nat)
    requires page >= 1
    ensures from <= n
  {
    if (page - 1) * limit < n then (page - 1) * limit else n
  }

  /** `skip((page - 1) * limit).limit(limit)`. */
  function Window(cs: seq<Comment>, page: nat, limit: nat): (r: seq<Comment>)
    requires page >= 1 && limit >= 1
    ensures |r| <= limit
    ensures forall x :: x in r ==> x in cs
    ensures WindowStart(|cs|, page, limit) + |r| <= |cs|
    ensures forall i :: 0 <= i < |r| ==> r[i] == cs[WindowStart(|cs|, page, limit) + i]
  {
    var from := WindowStart(|cs|, page, limit);
    var to := if from + limit < |cs| then from + limit else |cs|;
    cs[from..to]
  }

  /** `Math.ceil(total / limit)`. */
  function Pages(total: nat, limit: nat): (pages: nat)
    requires limit >= 1
    ensures total <= pages * limit
    ensures pages == 0 || (pages - 1) * limit < total
  {
    (total + limit - 1) / limit
  }

  /** Every matching comment is on exactly the page its position says, and that
      page is within the page count. */
  lemma OnItsPage(cs: seq<Comment>, limit: nat, i: nat)
    requires limit >= 1 && i < |cs|
    ensures 1 <= i / limit + 1 <= Pages(|cs|, limit)
    ensures var w := Window(cs, i / limit + 1, limit);
      i % limit < |w| && w[i % limit] == cs[i]
  {
    var p, q := i / limit, i % limit;
    Euclid(i, limit);
    PageWithin(|cs|, limit, p);
    WindowAt(cs, p, limit, q);
  }

  lemma Euclid(i: nat, l: nat)
    requires l >= 1
    ensures i == (i / l) * l + i % l && 0 <= i % l < l
  {
  }

  /** A page that starts before the end is within the page count. */
  lemma PageWithin(total: nat, limit: nat, p: nat)
    requires limit >= 1 && p * limit < total
    ensures p < Pages(total, limit)
  {
    var pages := Pages(total, limit);
    LessMul(p, pages, limit);
  }

  /** Position `q` of page `p + 1` is element `p * limit + q`. */
  lemma WindowAt(cs: seq<Comment>, p: nat, limit: nat, q: nat)
    requires limit >= 1 && q < limit && p * limit + q < |cs|
    ensures var w := Window(cs, p + 1, limit);
      q < |w| && w[q] == cs[p * limit + q]
  {
    assert (p + 1 - 1) * limit == p * limit;
  }

  lemma LessMul(a: int, b: int, l: int)
    requires l > 0 && a * l < b * l
    ensures a < b
  {
    assert (b - a) * l > 0;
  }

  // ---------------------------------------------------------------------------
  // Listings

  /** A top-level comment with its first three visible replies and their count. */
  datatype Thread = Thread(comment: Comment, replies: seq<Comment>, repliesCount: nat)

  datatype Listing = Listing(threads: seq<Thread>, total: nat, page: nat, limit: nat, pages: nat)

  /** The top-level query: this project, no parent, and not hidden unless the
      viewer moderates the project. */
  predicate ListedTopLevel(c: Comment, projectId: string, viewer: Option<User>, creator: UserId) {
    c.project == projectId && c.parent.None? && (!c.isHidden || (viewer.Some? && Moderates(viewer.value, creator)))
  }

  /** The reply query inside a thread: this project, this parent, not hidden. */
  predicate ShownReply(x: Comment, projectId: string, c: Comment) {
    x.project == projectId && x.parent == Some(c.id) && !x.isHidden
  }

  function RepliesOf(all: seq<Comment>, projectId: string, c: Comment): (r: seq<Comment>)
    ensures |r| <= |all|
  {
    if |all| == 0 then []
    else (if ShownReply(all[0], projectId, c) then [all[0]] else []) + RepliesOf(all[1..], projectId, c)
  }

  lemma {:induction false} RepliesOfExact(all: seq<Comment>, projectId: string, c: Comment, x: Comment)
    ensures x in RepliesOf(all, projectId, c) <==> x in all && ShownReply(x, projectId, c)
  {
    if |all| > 0 {
      RepliesOfExact(all[1..], projectId, c, x);
      assert all == [all[0]] + all[1..];
    }
  }

  /** The first three of a sequence, or all of it when shorter. */
  function UpToThree(rs: seq<Comment>): (r: seq<Comment>)
    ensures |r| == if |rs| <= 3 then |rs| else 3
    ensures r == rs[..|r|]
    ensures multiset(r) <= multiset(rs)
  {
    if |rs| <= 3 then rs
    else
      assert rs == rs[..3] + rs[3..];
      rs[..3]
  }

  /** The replies a thread shows are visible replies to the comment, oldest
      first, and no visible reply left out is older than one shown. */
  lemma ThreadReplies(all: seq<Comment>, projectId: string, c: Comment)
    ensures var shown := UpToThree(SortBy(Oldest, RepliesOf(all, projectId, c)));
      && SortedBy(Oldest, shown)
      && (forall x :: x in shown ==> x in all && ShownReply(x, projectId, c))
      && (forall x, y :: x in shown && y in all && ShownReply(y, projectId, c) && y !in shown ==>
            x.createdAt <= y.createdAt)
  {
    var matching := RepliesOf(all, projectId, c);
    var rs := SortBy(Oldest, matching);
    var shown := UpToThree(rs);
    forall i, j | 0 <= i < j < |shown|
      ensures KeyLe(Key(Oldest, shown[i]), Key(Oldest, shown[j]))
    {
      assert shown[i] == rs[i] && shown[j] == rs[j];
    }
    forall x | x in shown
      ensures x in all && ShownReply(x, projectId, c)
    {
      assert x in multiset(rs);
      RepliesOfExact(all, projectId, c, x);
    }
    forall x, y | x in shown && y in all && ShownReply(y, projectId, c) && y !in shown
      ensures x.createdAt <= y.createdAt
    {
      RepliesOfExact(all, projectId, c, y);
      assert y in multiset(matching);
      OldestPrefixFirst(rs, |shown|, x, y);
    }
  }

  /** In a sequence sorted oldest first, a member of a prefix is no newer than
      a member outside it. */
  lemma OldestPrefixFirst(rs: seq<Comment>, n: nat, x: Comment, y: Comment)
    requires SortedBy(Oldest, rs) && n <= |rs|
    requires x in rs[..n] && y in rs && y !in rs[..n]
    ensures x.createdAt <= y.createdAt
  {
    var j :| 0 <= j < |rs| && rs[j] == y;
    var i :| 0 <= i < n && rs[..n][i] == x;
    assert KeyLe(Key(Oldest, rs[i]), Key(Oldest, rs[j]));
  }

  /** A thread: the three oldest visible replies, oldest first, and the number
      of visible replies. Hidden replies are left out for every viewer,
      moderators included. */
  function ThreadOf(all: seq<Comment>, projectId: string, c: Comment): (t: Thread)
    ensures t.comment == c
    ensures t.repliesCount == |RepliesOf(all, projectId, c)|
    ensures |t.replies| == if t.repliesCount <= 3 then t.repliesCount else 3
    ensures SortedBy(Oldest, t.replies)
    ensures multiset(t.replies) <= multiset(RepliesOf(all, projectId, c))
    ensures forall x :: x in t.replies ==> x in all && ShownReply(x, projectId, c)
    ensures forall x, y :: x in t.replies && y in all && ShownReply(y, projectId, c) && y !in t.replies ==>
      x.createdAt <= y.createdAt
  {
    var rs := SortBy(Oldest, RepliesOf(all, projectId, c));
    ThreadReplies(all, projectId, c);
    Thread(c, UpToThree(rs), |rs|)
  }

  /** The top-level query of the listing. */
  function TopLevel(all: seq<Comment>, projectId: string, viewer: Option<User>, creator: UserId): (r: seq<Comment>)
    ensures |r| <= |all|
  {
    if |all| == 0 then []
    else (if ListedTopLevel(all[0], projectId, viewer, creator) then [all[0]] else []) + TopLevel(all[1..], projectId, viewer, creator)
  }

  lemma {:induction false} TopLevelExact(all: seq<Comment>, projectId: string, viewer: Option<User>, creator: UserId, x: Comment)
    ensures x in TopLevel(all, projectId, viewer, creator) <==> x in all && ListedTopLevel(x, projectId, viewer, creator)
  {
    if |all| > 0 {
      TopLevelExact(all[1..], projectId, viewer, creator, x);
      assert all == [all[0]] + all[1..];
    }
  }

  /** One page of the top-level comments of a project in order `o`, each with
      its thread. */
  function ListingIn(all: seq<Comment>, projectId: string, viewer: Option<User>, creator: UserId,
                     o: SortOrder, page: nat, limit: nat): (l: Listing)
    requires page >= 1 && limit >= 1
    ensures var sorted := SortBy(o, TopLevel(all, projectId, viewer, creator));
      var shown := Window(sorted, page, limit);
      && l.total == |sorted| && l.page == page && l.limit == limit && l.pages == Pages(l.total, limit)
      && |l.threads| == |shown|
      && (forall i :: 0 <= i < |l.threads| ==> l.threads[i] == ThreadOf(all, projectId, shown[i]))
  {
    var matching := TopLevel(all, projectId, viewer, creator);
    var sorted := SortBy(o, matching);
    var shown := Window(sorted, page, limit);
    var threads := seq(|shown|, i requires 0 <= i < |shown| => ThreadOf(all, projectId, shown[i]));
    Listing(threads, |matching|, page, limit, Pages(|matching|, limit))
  }

  /** The listing's threads are sorted by the order: the page is a run of the
      sorted matching comments. */
  lemma ListingSorted(all: seq<Comment>, projectId: string, viewer: Option<User>, creator: UserId,
                      o: SortOrder, page: nat, limit: nat, i: int, j: int)
    requires page >= 1 && limit >= 1
    requires 0 <= i < j < |ListingIn(all, projectId, viewer, creator, o, page, limit).threads|
    ensures var ts := ListingIn(all, projectId, viewer, creator, o, page, limit).threads;
      KeyLe(Key(o, ts[i].comment), Key(o, ts[j].comment))
  {
    var sorted := SortBy(o, TopLevel(all, projectId, viewer, creator));
    var from := WindowStart(|sorted|, page, limit);
    assert KeyLe(Key(o, sorted[from + i]), Key(o, sorted[from + j]));
  }

  /** Every listed thread's comment is a matching top-level comment. */
  lemma ListingMatches(all: seq<Comment>, projectId: string, viewer: Option<User>, creator: UserId,
                       o: SortOrder, page: nat, limit: nat, t: Thread)
    requires page >= 1 && limit >= 1
    requires t in ListingIn(all, projectId, viewer, creator, o, page, limit).threads
    ensures t.comment in all && ListedTopLevel(t.comment, projectId, viewer, creator)
  {
    var l := ListingIn(all, projectId, viewer, creator, o, page, limit);
    var sorted := SortBy(o, TopLevel(all, projectId, viewer, creator));
    var shown := Window(sorted, page, limit);
    var i :| 0 <= i < |l.threads| && l.threads[i] == t;
    var x := shown[i];
    assert x in sorted;
    assert x in multiset(sorted);
    TopLevelExact(all, projectId, viewer, creator, x);
  }

  /** `getProjectComments` as written: 'mostLiked' lists newest first. */
  function ProjectCommentsAsWritten(project: Option<ProjectModel.Project>, projectId: string, viewer: Option<User>,
                                    all: seq<Comment>, sort: string, page: nat, limit: nat): (r: Result<Listing, CommentError>)
    requires page >= 1 && limit >= 1
    ensures project.None? <==> r == Err(NotFound)
    ensures r.Ok? ==> r.value == ListingIn(all, projectId, viewer, project.value.creator, SortOrderAsWritten(sort), page, limit)
  {
    if project.None? then Err(NotFound)
    else Ok(ListingIn(all, projectId, viewer, project.value.creator, SortOrderAsWritten(sort), page, limit))
  }

  /** `getProjectComments` with the most-liked order the 'mostLiked' option
      names: most likes first, the newest first among equals. */
  function ProjectComments(project: Option<ProjectModel.Project>, projectId: string, viewer: Option<User>,
                           all: seq<Comment>, sort: string, page: nat, limit: nat): (r: Result<Listing, CommentError>)
    requires page >= 1 && limit >= 1
    ensures project.None? <==> r == Err(NotFound)
    ensures r.Ok? ==> r.value == ListingIn(all, projectId, viewer, project.value.creator, SortOrderOf(sort), page, limit)
    ensures r.Ok? ==>
      && |r.value.threads| <= limit
      && r.value.total == |TopLevel(all, projectId, viewer, project.value.creator)|
    ensures sort != "mostLiked" ==> r == ProjectCommentsAsWritten(project, projectId, viewer, all, sort, page, limit)
  {
    if project.None? then Err(NotFound)
    else Ok(ListingIn(all, projectId, viewer, project.value.creator, SortOrderOf(sort), page, limit))
  }

  /** As written, asking for the most-liked order gives the newest-first
      listing. */
  lemma MostLikedIsNewestAsWritten(project: Option<ProjectModel.Project>, projectId: string, viewer: Option<User>,
                                   all: seq<Comment>, page: nat, limit: nat)
    requires page >= 1 && limit >= 1
    ensures ProjectCommentsAsWritten(project, projectId, viewer, all, "mostLiked", page, limit) ==
            ProjectCommentsAsWritten(project, projectId, viewer, all, "newest", page, limit)
  {
  }

  /** An older comment with likes and a newer one without: as written the newer
      one is listed first under 'mostLiked', with the like order the older one. */
  lemma MostLikedAsWrittenIgnoresLikes(project: ProjectModel.Project, viewer: User)
    requires project.creator != viewer.id && viewer.role != Admin
    ensures var a := Comment("a", "p", "u", "old", None, ["v", "w"], false, 1);
      var b := Comment("b", "p", "u", "new", None, [], false, 2);
      var w := ProjectCommentsAsWritten(Some(project), "p", Some(viewer), [a, b], "mostLiked", 1, 20);
      var c := ProjectComments(Some(project), "p", Some(viewer), [a, b], "mostLiked", 1, 20);
      && w.Ok? && |w.value.threads| == 2 && w.value.threads[0].comment == b
      && c.Ok? && |c.value.threads| == 2 && c.value.threads[0].comment == a
  {
    MostLikedAsWrittenShowsNewer(project, viewer);
    MostLikedShowsLiked(project, viewer);
  }

  /** The as-written half of MostLikedAsWrittenIgnoresLikes. */
  lemma MostLikedAsWrittenShowsNewer(project: ProjectModel.Project, viewer: User)
    requires project.creator != viewer.id && viewer.role != Admin
    ensures var a := Comment("a", "p", "u", "old", None, ["v", "w"], false, 1);
      var b := Comment("b", "p", "u", "new", None, [], false, 2);
      var w := ProjectCommentsAsWritten(Some(project), "p", Some(viewer), [a, b], "mostLiked", 1, 20);
      w.Ok? && |w.value.threads| == 2 && w.value.threads[0].comment == b
  {
    var a := Comment("a", "p", "u", "old", None, ["v", "w"], false, 1);
    var b := Comment("b", "p", "u", "new", None, [], false, 2);
    assert [a, b][1..] == [b];
    assert TopLevel([a, b], "p", Some(viewer), project.creator) == [a, b];
    assert SortBy(Newest, [b]) == [b];
    assert SortBy(Newest, [a, b]) == [b, a];
    assert WindowStart(2, 1, 20) == 0;
    assert Window([b, a], 1, 20) == [b, a];
  }

  /** The corrected half of MostLikedAsWrittenIgnoresLikes. */
  lemma MostLikedShowsLiked(project: ProjectModel.Project, viewer: User)
    requires project.creator != viewer.id && viewer.role != Admin
    ensures var a := Comment("a", "p", "u", "old", None, ["v", "w"], false, 1);
      var b := Comment("b", "p", "u", "new", None, [], false, 2);
      var c := ProjectComments(Some(project), "p", Some(viewer), [a, b], "mostLiked", 1, 20);
      c.Ok? && |c.value.threads| == 2 && c.value.threads[0].comment == a
  {
    var a := Comment("a", "p", "u", "old", None, ["v", "w"], false, 1);
    var b := Comment("b", "p", "u", "new", None, [], false, 2);
    assert [a, b][1..] == [b];
    assert TopLevel([a, b], "p", Some(viewer), project.creator) == [a, b];
    assert SortBy(MostLiked, [b]) == [b];
    assert KeyLe(Key(MostLiked, a), Key(MostLiked, b));
    assert SortBy(MostLiked, [a, b]) == [a, b];
    assert WindowStart(2, 1, 20) == 0;
    assert Window([a, b], 1, 20) == [a, b];
  }

  /** A viewer who does not moderate the project never sees a hidden comment,
      neither at the top level nor among a thread's replies. */
  lemma HiddenStayHidden(project: ProjectModel.Project, projectId: string, viewer: Option<User>,
                         all: seq<Comment>, sort: string, page: nat, limit: nat)
    requires page >= 1 && limit >= 1
    requires viewer.None? || !Moderates(viewer.value, project.creator)
    ensures var r := ProjectComments(Some(project), projectId, viewer, all, sort, page, limit);
      r.Ok? && forall t :: t in r.value.threads ==> !t.comment.isHidden && forall x :: x in t.replies ==> !x.isHidden
  {
    var r := ProjectComments(Some(project), projectId, viewer, all, sort, page, limit);
    forall t | t in r.value.threads
      ensures !t.comment.isHidden && forall x :: x in t.replies ==> !x.isHidden
    {
      ListingMatches(all, projectId, viewer, project.creator, SortOrderOf(sort), page, limit, t);
      var i :| 0 <= i < |r.value.threads| && r.value.threads[i] == t;
    }
  }

  /** One page of replies with its pagination block. */
  datatype ReplyPage = ReplyPage(replies: seq<Comment>, total: nat, page: nat, limit: nat, pages: nat)

  /** The reply query: replies to `c` in any project, hidden ones only when
      `seesHidden`. */
  predicate ReplyMatches(x: Comment, c: Comment, seesHidden: bool) {
    x.parent == Some(c.id) && (seesHidden || !x.isHidden)
  }

  /** The viewer may see hidden replies: a signed-in admin, or the project's
      creator. */
  predicate SeesHidden(viewer: Option<User>, project: Option<ProjectModel.Project>) {
    viewer.Some? && (viewer.value.role == Admin || (project.Some? && viewer.value.id == project.value.creator))
  }

  /** The comments the reply query matches, in stored order. */
  function RepliesTo(all: seq<Comment>, c: Comment, seesHidden: bool): (r: seq<Comment>)
    ensures |r| <= |all|
  {
    if |all| == 0 then []
    else (if ReplyMatches(all[0], c, seesHidden) then [all[0]] else []) + RepliesTo(all[1..], c, seesHidden)
  }

  lemma {:induction false} RepliesToExact(all: seq<Comment>, c: Comment, seesHidden: bool, x: Comment)
    ensures x in RepliesTo(all, c, seesHidden) <==> x in all && ReplyMatches(x, c, seesHidden)
  {
    if |all| > 0 {
      RepliesToExact(all[1..], c, seesHidden, x);
      assert all == [all[0]] + all[1..];
    }
  }

  /** A page of the matching replies sorted oldest first holds matching replies
      only, oldest first. */
  lemma ReplyWindow(all: seq<Comment>, c: Comment, seesHidden: bool, page: nat, limit: nat)
    requires page >= 1 && limit >= 1
    ensures var m := RepliesTo(all, c, seesHidden);
      var sorted := SortBy(Oldest, m);
      var w := Window(sorted, page, limit);
      && (forall i, j :: 0 <= i < j < |w| ==> w[i].createdAt <= w[j].createdAt)
      && (forall x :: x in w ==> x in all && ReplyMatches(x, c, seesHidden))
  {
    var sorted := SortBy(Oldest, RepliesTo(all, c, seesHidden));
    var w := Window(sorted, page, limit);
    var from := WindowStart(|sorted|, page, limit);
    forall i, j | 0 <= i < j < |w|
      ensures w[i].createdAt <= w[j].createdAt
    {
      assert KeyLe(Key(Oldest, sorted[from + i]), Key(Oldest, sorted[from + j]));
    }
    forall x | x in w
      ensures x in all && ReplyMatches(x, c, seesHidden)
    {
      assert x in multiset(sorted);
      RepliesToExact(all, c, seesHidden, x);
    }
  }

  /** `getCommentReplies`: one page of the replies to the comment, oldest first,
      hidden ones only for a moderator, with the number of matching replies.
      When the project is gone, a signed-in non-admin viewer hits a `TypeError`;
      an admin never reads it. */
  function CommentReplies(parent: Option<Comment>, project: Option<ProjectModel.Project>, viewer: Option<User>,
                          all: seq<Comment>, page: nat, limit: nat): (r: Result<ReplyPage, CommentError>)
    requires page >= 1 && limit >= 1
    ensures parent.None? ==> r == Err(NotFound)
    ensures parent.Some? && project.None? ==> (r == Err(ServerError) <==> viewer.Some? && viewer.value.role != Admin)
    ensures r.Ok? <==> parent.Some? && (project.Some? || viewer.None? || viewer.value.role == Admin)
    ensures r.Ok? ==>
      var rp, see := r.value, SeesHidden(viewer, project);
      var sorted := SortBy(Oldest, RepliesTo(all, parent.value, see));
      && rp.page == page && rp.limit == limit
      && rp.total == |RepliesTo(all, parent.value, see)| && rp.pages == Pages(rp.total, limit)
      && rp.replies == Window(sorted, page, limit) && |rp.replies| <= limit
      && (forall i, j :: 0 <= i < j < |rp.replies| ==> rp.replies[i].createdAt <= rp.replies[j].createdAt)
      && (forall x :: x in rp.replies ==> x in all && ReplyMatches(x, parent.value, see))
  {
    if parent.None? then Err(NotFound)
    else if project.None? && viewer.Some? && viewer.value.role != Admin then Err(ServerError)
    else
      var c := parent.value;
      var see := SeesHidden(viewer, project);
      var matching := RepliesTo(all, c, see);
      var shown := Window(SortBy(Oldest, matching), page, limit);
      ReplyWindow(all, c, see, page, limit);
      Ok(ReplyPage(shown, |matching|, page, limit, Pages(|matching|, limit)))
  }

  /** Every reply the query matches (hidden ones too, for the admin or the
      project's creator) is listed on one of the pages the count announces. */
  lemma RepliesComplete(parent: Comment, project: Option<ProjectModel.Project>, viewer: Option<User>,
                        all: seq<Comment>, limit: nat, x: Comment)
    requires limit >= 1
    requires project.Some? || viewer.None? || viewer.value.role == Admin
    requires x in all && ReplyMatches(x, parent, SeesHidden(viewer, project))
    ensures exists p ::
      && 1 <= p <= Pages(|RepliesTo(all, parent, SeesHidden(viewer, project))|, limit)
      && x in CommentReplies(Some(parent), project, viewer, all, p, limit).value.replies
  {
    var see := SeesHidden(viewer, project);
    var sorted := SortBy(Oldest, RepliesTo(all, parent, see));
    RepliesToExact(all, parent, see, x);
    assert x in multiset(sorted);
    var p := InSomePage(sorted, limit, x);
    assert CommentReplies(Some(parent), project, viewer, all, p, limit).value.replies == Window(sorted, p, limit);
  }

  /** Every comment of a listing is on some page within the page count. */
  lemma InSomePage(cs: seq<Comment>, limit: nat, x: Comment) returns (p: nat)
    requires limit >= 1 && x in cs
    ensures 1 <= p <= Pages(|cs|, limit) && x in Window(cs, p, limit)
  {
    var i :| 0 <= i < |cs| && cs[i] == x;
    OnItsPage(cs, limit, i);
    p := i / limit + 1;
    assert Window(cs, p, limit)[i % limit] == x;
  }

  // ---------------------------------------------------------------------------
  // Likes

  predicate NoDuplicates(s: seq<UserId>) {
    forall i, j :: 0 <= i < j < |s| ==> s[i] != s[j]
  }

  lemma NoDuplicatesTail(s: seq<UserId>)
    requires |s| > 0
    ensures NoDuplicates(s) ==> NoDuplicates(s[1..]) && s[0] !in s[1..]
  {
    if NoDuplicates(s) {
      forall x | x in s[1..]
        ensures x != s[0]
      {
        var j :| 0 <= j < |s[1..]| && s[1..][j] == x;
        assert s[j + 1] == x;
      }
    }
  }

  /** `likes.filter(id => id !== user)`. */
  function Unlike(likes: seq<UserId>, user: UserId): (r: seq<UserId>)
    ensures forall x :: x in r <==> x in likes && x != user
    ensures |r| <= |likes|
    ensures user !in likes ==> r == likes
    ensures NoDuplicates(likes) ==> NoDuplicates(r)
    ensures NoDuplicates(likes) && user in likes ==> |r| == |likes| - 1
  {
    if |likes| == 0 then []
    else
      var rest := Unlike(likes[1..], user);
      NoDuplicatesTail(likes);
      assert likes == [likes[0]] + likes[1..];
      if likes[0] == user then rest
      else [likes[0]] + rest
  }

  /** The toggle: a liker is removed, anyone else appended once. */
  function ToggleLike(likes: seq<UserId>, user: UserId): (r: seq<UserId>)
    ensures user in likes ==> user !in r && forall x :: x in r <==> x in likes && x != user
    ensures user !in likes ==> r == likes + [user]
    ensures NoDuplicates(likes) ==> NoDuplicates(r)
    ensures NoDuplicates(likes) ==> |r| == if user in likes then |likes| - 1 else |likes| + 1
  {
    if user in likes then Unlike(likes, user) else likes + [user]
  }

  /** Toggling twice gives back a list without the user unchanged, and any
      duplicate-free list with the same likers. */
  lemma ToggleTwice(likes: seq<UserId>, user: UserId)
    ensures user !in likes ==> ToggleLike(ToggleLike(likes, user), user) == likes
    ensures NoDuplicates(likes) ==> forall x :: x in ToggleLike(ToggleLike(likes, user), user) <==> x in likes
  {
    if user !in likes {
      var once := likes + [user];
      assert user in once;
      UnlikeAppended(likes, user);
    }
  }

  lemma {:induction false} UnlikeAppended(likes: seq<UserId>, user: UserId)
    requires user !in likes
    ensures Unlike(likes + [user], user) == likes
    decreases |likes|
  {
    if |likes| == 0 {
      assert Unlike([user], user) == Unlike([], user);
    } else {
      assert (likes + [user])[1..] == likes[1..] + [user];
      UnlikeAppended(likes[1..], user);
      assert likes == [likes[0]] + likes[1..];
    }
  }

  /** `likeComment`: the updated comment, the like count in the answer, and the
      notification a new like sends to an author other than the liker. */
  function LikeComment(c: Option<Comment>, viewer: User): (r: Result<(Comment, nat, Option<Notice>), CommentError>)
    ensures c.None? <==> r == Err(NotFound)
    ensures r.Ok? ==> var (c', n, notice) := r.value;
      && c' == c.value.(likes := ToggleLike(c.value.likes, viewer.id))
      && n == |c'.likes|
      && (notice.Some? <==> viewer.id !in c.value.likes && c.value.user != viewer.id)
      && (notice.Some? ==> notice.value == Notice(c.value.user, CommentLike, c.value.id))
  {
    if c.None? then Err(NotFound)
    else
      var old_ := c.value;
      var likes := ToggleLike(old_.likes, viewer.id);
      var notice := if viewer.id !in old_.likes && old_.user != viewer.id then Some(Notice(old_.user, CommentLike, old_.id)) else None;
      Ok((old_.(likes := likes), |likes|, notice))
  }

  // ---------------------------------------------------------------------------
  // Visibility

  /** `toggleCommentVisibility`: a moderator flips `isHidden`. With the project
      gone, a non-admin hits a `TypeError`. */
  function ToggleVisibility(c: Option<Comment>, project: Option<ProjectModel.Project>, viewer: User): (r: Result<Comment, CommentError>)
    ensures c.None? ==> r == Err(NotFound)
    ensures c.Some? && project.Some? ==> (r == Err(Forbidden) <==> !Moderates(viewer, project.value.creator))
    ensures c.Some? && project.None? ==> (r.Ok? <==> viewer.role == Admin)
    ensures r.Ok? ==> r.value == c.value.(isHidden := !c.value.isHidden)
  {
    if c.None? then Err(NotFound)
    else if viewer.role != Admin && project.None? then Err(ServerError)
    else if viewer.role != Admin && viewer.id != project.value.creator then Err(Forbidden)
    else Ok(c.value.(isHidden := !c.value.isHidden))
  }

  /** Two switches by a moderator leave the comment as it was. */
  lemma ToggleVisibilityTwice(c: Comment, project: ProjectModel.Project, viewer: User)
    requires Moderates(viewer, project.creator)
    ensures var once := ToggleVisibility(Some(c), Some(project), viewer);
      once.Ok? && ToggleVisibility(Some(once.value), Some(project), viewer) == Ok(c)
  {
  }
}

=== FILE: i18n_middleware.dfy ===
/** Language negotiation and the translation helper `req.t` of
    middleware/i18nMiddleware.js, over the service of services/i18nService.js. */
module I18nMiddleware {
  import opened Wrappers
  import opened JsStrings
  import opened TranslationTree
  import opened TranslationRecords
  import opened I18nService

  // ---------------------------------------------------------------------------
  // Negotiation

  /** `header || query || cookie || default`. */
  function RequestedCode(header: Option<string>, query: Option<string>, cookie: Option<string>, defaultCode: string): (code: string)
    ensures Present(header) ==> code == header.value
    ensures !Present(header) && Present(query) ==> code == query.value
    ensures !Present(header) && !Present(query) && Present(cookie) ==> code == cookie.value
    ensures !Present(header) && !Present(query) && !Present(cookie) ==> code == defaultCode
  {
    OrElse(header, OrElse(query, OrElse(cookie, defaultCode)))
  }

  /** Keep the first of several comma-separated options and drop a `;q=`
      weight; a code with neither separator is kept exactly as it came. The
      two cuts and trims amount to one cut at each separator and a single
      trim. */
  function FirstOption(code: string): (r: string)
    ensures ',' !in r && ';' !in r
    ensures ',' !in code && ';' !in code ==> r == code
    ensures ',' in code || ';' in code ==> r == Trim(BeforeFirst(BeforeFirst(code, ','), ';'))
  {
    TrimKeepsOut(BeforeFirst(code, ','), ',');
    var a := if ',' in code then Trim(BeforeFirst(code, ',')) else code;
    TrimThenCut(BeforeFirst(code, ','), ';');
    if ';' in a then
      var b := BeforeFirst(a, ';');
      TrimKeepsOut(b, ',');
      TrimKeepsOut(b, ';');
      Trim(b)
    else a
  }

  /** Trimming before cutting at a separator that is not white space, and
      trimming again only if it was cut, is cutting and then trimming once. */
  lemma TrimThenCut(p: string, c: char)
    requires !IsSpace(c)
    ensures var a := Trim(p); (if c in a then Trim(BeforeFirst(a, c)) else a) == Trim(BeforeFirst(p, c))
  {
    var a := Trim(p);
    TrimIsInfix(p);
    var k := Leading(p);
    var before, after := p[..k], p[k + |a|..];
    Recompose(p, k, |a|);
    assert p == before + (a + after);
    CutPadded(before, a, after, c);
    if c in a {
      assert Trim(BeforeFirst(p, c)) == Trim(BeforeFirst(a, c));
    } else {
      assert BeforeFirst(p, c) == p;
    }
  }

  /** Cutting a text padded with white space at a separator that is not white
      space. */
  lemma CutPadded(before: string, a: string, after: string, c: char)
    requires AllSpace(before) && AllSpace(after) && !IsSpace(c)
    ensures c in a ==> Trim(BeforeFirst(before + (a + after), c)) == Trim(BeforeFirst(a, c))
    ensures c !in a ==> BeforeFirst(before + (a + after), c) == before + (a + after)
  {
    NotInSpace(before, c);
    NotInSpace(after, c);
    BeforeFirstAfterFree(before, a + after, c);
    if c in a {
      BeforeFirstOfPrefix(a, a + after, c);
      TrimStartSkipsSpace(before, BeforeFirst(a, c));
    } else {
      assert c !in a + after;
    }
  }

  lemma Recompose(p: string, k: nat, n: nat)
    requires k + n <= |p|
    ensures p == p[..k] + (p[k..k + n] + p[k + n..])
  {
  }

  /** `code.startsWith(prefix)`. */
  predicate StartsWith(code: string, prefix: string) {
    |prefix| <= |code| && code[..|prefix|] == prefix
  }

  /** The first supported code that starts with `main`. */
  function FirstStartingWith(codes: seq<string>, main: string): (r: Option<string>)
    ensures r.Some? ==> r.value in codes && StartsWith(r.value, main)
    ensures r.None? <==> forall i :: 0 <= i < |codes| ==> !StartsWith(codes[i], main)
  {
    if |codes| == 0 then None
    else if StartsWith(codes[0], main) then Some(codes[0])
    else
      var r := FirstStartingWith(codes[1..], main);
      assert forall i :: 1 <= i < |codes| ==> codes[i] == codes[1..][i - 1];
      r
  }

  /** A supported code is kept; otherwise the first supported code that starts
      with the part before the first `-`, else the default. */
  function Resolve(code: string, codes: seq<string>, defaultCode: string): (r: string)
    ensures code in codes ==> r == code
    ensures r in codes || r == defaultCode
    ensures code !in codes && FirstStartingWith(codes, BeforeFirst(code, '-')).None? ==> r == defaultCode
    ensures r != code && r != defaultCode ==> StartsWith(r, BeforeFirst(code, '-'))
  {
    if code in codes then code
    else match FirstStartingWith(codes, BeforeFirst(code, '-'))
      case Some(c) => c
      case None => defaultCode
  }

  function Codes(langs: seq<Language>): (r: seq<string>)
    ensures |r| == |langs| && forall i :: 0 <= i < |langs| ==> r[i] == langs[i].code
  {
    seq(|langs|, i requires 0 <= i < |langs| => langs[i].code)
  }

  /** The request's outcome: the language chosen, and whether the `lang` cookie
      is set. */
  datatype Negotiated = Negotiated(languageCode: string, setCookie: bool)

  /** The middleware up to `next()`. The default is read before and after the
      supported languages are fetched, which may reload it; a failure to fetch
      them is swallowed and the request goes on without a language. */
  function Negotiate(s: Service, header: Option<string>, query: Option<string>, cookie: Option<string>): (out: (Service, Option<Negotiated>))
    ensures out.0 == GetSupportedLanguages(s).s
    ensures GetSupportedLanguages(s).r.Err? <==> out.1.None?
    ensures out.1.Some? ==>
      var codes := Codes(GetSupportedLanguages(s).r.value);
      var code := out.1.value.languageCode;
      && (code in codes || code == out.0.defaultCode)
      && (out.1.value.setCookie <==> Present(query) && query.value == code)
      && (Present(header) ==> code == Resolve(FirstOption(header.value), codes, out.0.defaultCode))
      && (!Present(header) && Present(query) ==> code == Resolve(FirstOption(query.value), codes, out.0.defaultCode))
      && (!Present(header) && !Present(query) && Present(cookie) ==>
            code == Resolve(FirstOption(cookie.value), codes, out.0.defaultCode))
      && (!Present(header) && !Present(query) && !Present(cookie) ==>
            code == Resolve(FirstOption(s.defaultCode), codes, out.0.defaultCode))
  {
    var requested := FirstOption(RequestedCode(header, query, cookie, s.defaultCode));
    var sup := GetSupportedLanguages(s);
    match sup.r
    case Err(_) => (sup.s, None)
    case Ok(langs) =>
      var code := Resolve(requested, Codes(langs), sup.s.defaultCode);
      (sup.s, Some(Negotiated(code, Present(query) && query.value == code)))
  }

  // ---------------------------------------------------------------------------
  // The translation helper

  /** The loop of `req.t`: step into an object holding the part, otherwise give
      up; at the end only a string is an answer. */
  function Walk(value: Node, parts: seq<string>): Option<string>
    decreases |parts|
  {
    if |parts| == 0 then (if value.Leaf? then Some(value.value) else None)
    else match value
      case Leaf(_) => None
      case Branch(cs) =>
        match Find(cs, parts[0])
        case None => None
        case Some(i) => Walk(cs[i].node, parts[1..])
  }

  /** The walk answers exactly when the path leads to a string. */
  lemma {:induction false} WalkIsLookup(value: Node, parts: seq<string>)
    ensures Walk(value, parts) == match LookupPath(value, parts) case Some(Leaf(v)) => Some(v) case _ => None
    decreases |parts|
  {
    if |parts| > 0 {
      match value {
        case Leaf(_) =>
        case Branch(cs) =>
          match Find(cs, parts[0]) {
            case None =>
            case Some(i) => WalkIsLookup(cs[i].node, parts[1..]);
          }
      }
    }
  }

  /** `req.t(key, namespace, defaultValue)`: the string at the key's path in the
      namespace served for the request's language, or the default value when
      there is none or the lookup throws. */
  function Translate(s: Service, languageCode: string, key: string, ns: string, defaultValue: string): (out: (Service, string))
    ensures out.0 == GetTranslations(s, languageCode, ns).s
    ensures GetTranslations(s, languageCode, ns).r.Err? ==> out.1 == defaultValue
    ensures GetTranslations(s, languageCode, ns).r.Ok? ==>
      out.1 == match LookupPath(GetTranslations(s, languageCode, ns).r.value, Split(key))
               case Some(Leaf(v)) => v
               case _ => defaultValue
  {
    var g := GetTranslations(s, languageCode, ns);
    match g.r
    case Err(_) => (g.s, defaultValue)
    case Ok(n) =>
      WalkIsLookup(n, Split(key));
      (g.s, Walk(n, Split(key)).GetOr(defaultValue))
  }

  /** Looking up along a concatenated path is looking up in two steps. */
  lemma {:induction false} LookupPathAppend(n: Node, a: seq<string>, b: seq<string>)
    ensures LookupPath(n, a + b) == match LookupPath(n, a) case Some(m) => LookupPath(m, b) case None => None
    decreases |a|
  {
    if |a| == 0 {
      assert a + b == b;
    } else {
      assert (a + b)[0] == a[0] && (a + b)[1..] == a[1..] + b;
      match n {
        case Leaf(_) =>
        case Branch(cs) =>
          match Find(cs, a[0]) {
            case None =>
            case Some(i) => LookupPathAppend(cs[i].node, a[1..], b);
          }
      }
    }
  }

  /** A string stored at `[lang, ns] + parts` sits in the namespace object of the
      language object. */
  lemma {:induction false} StoredUnderNamespace(c: Node, lang: string, ns: string, parts: seq<string>, value: string)
    requires |parts| >= 1
    requires LookupPath(c, [lang, ns] + parts) == Some(Leaf(value))
    ensures Child(c, lang).Some? && Child(c, lang).value.Branch?
    ensures var l := Child(c, lang).value;
      && Child(l, ns).Some? && Child(l, ns).value.Branch?
      && LookupPath(Child(l, ns).value, parts) == Some(Leaf(value))
  {
    LookupPathAppend(c, [lang], [ns] + parts);
    assert [lang] + ([ns] + parts) == [lang, ns] + parts;
    var l := LookupPath(c, [lang]).value;
    LookupPathAppend(l, [ns], parts);
  }

  /** After an unblocked `updateTranslation`, `req.t` for that language,
      namespace and key answers the value just written. */
  lemma {:induction false} UpdateThenTranslate(s: Service, lang: string, ns: string, key: string, value: string, defaultValue: string)
    requires !Blocked(s.cache, [lang, ns] + Split(key))
    ensures var u := UpdateTranslation(s, lang, ns, key, value);
      u.r.Ok? && Translate(u.s, lang, key, ns, defaultValue).1 == value
  {
    var u := UpdateTranslation(s, lang, ns, key, value);
    StoredUnderNamespace(u.s.cache, lang, ns, Split(key), value);
    var l := Child(u.s.cache, lang).value;
    var n := Child(l, ns).value;
    assert EnsureCache(u.s) == Outcome(u.s, Ok(()));
    assert ServedCode(u.s, lang) == lang;
    assert GetTranslations(u.s, lang, ns).r == Ok(n);
  }
}

=== FILE: i18n_service.dfy ===
/** The language table, the translation collection and the two in-memory caches
    of services/i18nService.js.

    The database, the translation files and the caches are one `Service` value;
    every operation returns the service afterwards together with its answer, so
    that the writes an operation makes before it throws are kept, as they are in
    the running service. Translation files are parsed JSON values keyed by file
    name; a file that cannot be read or parsed is absent. */
module I18nService {
  import opened Wrappers
  import opened JsStrings
  import opened TranslationTree
  import opened TranslationRecords

  datatype Language = Language(code: string, name: string, nativeName: string, isDefault: bool, isEnabled: bool, direction: string)

  datatype Service = Service(
    languages: seq<Language>,          // the `Language` collection
    records: seq<Record>,              // the `Translation` collection
    files: map<string, Node>,          // data/translations/<name>
    languagesCache: seq<Language>,
    cache: Node,                       // translationsCache
    defaultCode: string,
    builtIn: BuiltIn)

  /** The translation objects the source writes out when a built-in language's
      file cannot be read. They are part of the state so that proofs about the
      service can treat them as given; `Initial` fills in the source's own. */
  datatype BuiltIn = BuiltIn(zh: Node, en: Node)

  datatype I18nError =
    | LanguageExists
    | LanguageNotFound
    | CannotDeleteDefault
    | ValidationFailed
    | DuplicateKey
    | CacheTypeError
    | FileUnreadable

  datatype Outcome<T> = Outcome(s: Service, r: Result<T, I18nError>)

  /** The state the module starts in. */
  const InitialDefaultCode := "zh-CN"

  function Initial(languages: seq<Language>, records: seq<Record>, files: map<string, Node>): Service {
    Service(languages, records, files, [], Branch([]), InitialDefaultCode, BuiltIn(BuiltInZh, BuiltInEn))
  }

  // ---------------------------------------------------------------------------
  // The built-in languages and translations

  const Chinese := Language("zh-CN", "简体中文", "简体中文", true, true, "ltr")
  const English := Language("en-US", "English (US)", "English (US)", false, true, "ltr")

  /** The codes of the two built-in languages, whose translations a reload can
      bring back. */
  predicate BuiltInCode(code: string) {
    code == "zh-CN" || code == "en-US"
  }

  /** Every record of `after` was already in `before` or belongs to a built-in
      language. Written recursively, so that proofs which do not need it leave
      it folded; `GrowsByBuiltInMeans` states it as a quantifier. */
  predicate GrowsByBuiltIn(after: seq<Record>, before: seq<Record>) {
    |after| == 0 || ((after[0] in before || BuiltInCode(after[0].languageCode)) && GrowsByBuiltIn(after[1..], before))
  }

  /** No record of `db` is a translation of `code` (recursive for the same
      reason; `NoRecordsForMeans` states it as a quantifier). */
  predicate NoRecordsFor(db: seq<Record>, code: string) {
    |db| == 0 || (db[0].languageCode != code && NoRecordsFor(db[1..], code))
  }

  lemma {:induction false} GrowsByBuiltInMeans(after: seq<Record>, before: seq<Record>)
    ensures GrowsByBuiltIn(after, before) <==> forall x :: x in after ==> x in before || BuiltInCode(x.languageCode)
  {
    if |after| > 0 {
      GrowsByBuiltInMeans(after[1..], before);
      assert forall x :: x in after <==> x == after[0] || x in after[1..];
    }
  }

  lemma {:induction false} NoRecordsForMeans(db: seq<Record>, code: string)
    ensures NoRecordsFor(db, code) <==> forall x :: x in db ==> x.languageCode != code
  {
    if |db| > 0 {
      NoRecordsForMeans(db[1..], code);
      assert forall x :: x in db <==> x == db[0] || x in db[1..];
    }
  }

  function Text(k: string, v: string): Entry { Entry(k, Leaf(v)) }

  const BuiltInZh: Node := Branch([
    Entry("common", Branch([Text("welcome", "欢迎来到众筹平台"), Text("login", "登录"), Text("register", "注册"),
                            Text("logout", "退出"), Text("search", "搜索"), Text("home", "首页")])),
    Entry("project", Branch([Text("create", "创建项目"), Text("edit", "编辑项目"), Text("delete", "删除项目"),
                             Text("back", "支持项目"), Text("share", "分享项目")])),
    Entry("user", Branch([Text("profile", "个人资料"), Text("settings", "设置"), Text("myProjects", "我的项目"),
                          Text("myBackings", "我的支持")]))])

  const BuiltInEn: Node := Branch([
    Entry("common", Branch([Text("welcome", "Welcome to Crowdfunding Platform"), Text("login", "Login"),
                            Text("register", "Register"), Text("logout", "Logout"), Text("search", "Search"),
                            Text("home", "Home")])),
    Entry("project", Branch([Text("create", "Create Project"), Text("edit", "Edit Project"),
                             Text("delete", "Delete Project"), Text("back", "Back Project"),
                             Text("share", "Share Project")])),
    Entry("user", Branch([Text("profile", "Profile"), Text("settings", "Settings"), Text("myProjects", "My Projects"),
                          Text("myBackings", "My Backings")]))])

  /** What `for...in` visits in a parsed file: the members of an object, or the
      characters of a string under their decimal indices. */
  function FileEntries(n: Node): (es: seq<Entry>)
    ensures n.Branch? ==> es == n.children
    ensures n.Leaf? ==> |es| == |n.value|
  {
    match n
    case Branch(cs) => cs
    case Leaf(s) => CharEntries(s, |s|)
  }

  /** The entries of the first `n` characters of a string, each under its
      decimal index. */
  function CharEntries(s: string, n: nat): (es: seq<Entry>)
    requires n <= |s|
    ensures |es| == n
    ensures forall i :: 0 <= i < n ==> es[i] == Entry(DecimalString(i), Leaf([s[i]]))
  {
    if n == 0 then [] else CharEntries(s, n - 1) + [Entry(DecimalString(n - 1), Leaf([s[n - 1]]))]
  }

  // ---------------------------------------------------------------------------
  // Queries on the language table

  /** `Language.find({ isEnabled: true })`, in table order. */
  function Enabled(langs: seq<Language>): (r: seq<Language>)
    ensures |r| <= |langs|
    ensures forall i :: 0 <= i < |r| ==> r[i].isEnabled
  {
    if |langs| == 0 then []
    else (if langs[0].isEnabled then [langs[0]] else []) + Enabled(langs[1..])
  }

  /** The enabled languages are exactly the stored ones with `isEnabled` set. */
  lemma {:induction false} EnabledMembers(langs: seq<Language>)
    ensures forall l :: l in Enabled(langs) <==> l in langs && l.isEnabled
  {
    if |langs| > 0 {
      EnabledMembers(langs[1..]);
      assert forall l :: l in langs <==> l == langs[0] || l in langs[1..];
    }
  }

  /** `languagesCache.find(lang => lang.isDefault)`. */
  function FirstDefault(langs: seq<Language>): (r: Option<Language>)
    ensures r.Some? ==> r.value in langs && r.value.isDefault
    ensures r.None? <==> forall i :: 0 <= i < |langs| ==> !langs[i].isDefault
    ensures r.Some? && |langs| > 0 && langs[0].isDefault ==> r.value == langs[0]
  {
    if |langs| == 0 then None
    else if langs[0].isDefault then Some(langs[0])
    else
      var r := FirstDefault(langs[1..]);
      assert forall i :: 1 <= i < |langs| ==> langs[i] == langs[1..][i - 1];
      r
  }

  /** `Language.findOne({ code })`: the position of the first language with the code. */
  function IndexOfCode(langs: seq<Language>, code: string): (r: Option<nat>)
    ensures r.Some? ==> r.value < |langs| && langs[r.value].code == code
    ensures r.None? <==> forall i :: 0 <= i < |langs| ==> langs[i].code != code
  {
    if |langs| == 0 then None
    else if langs[0].code == code then Some(0)
    else match IndexOfCode(langs[1..], code)
      case None =>
        assert forall i :: 1 <= i < |langs| ==> langs[i] == langs[1..][i - 1];
        None
      case Some(i) => Some(i + 1)
  }

  /** `updateMany({}, { $set: { isDefault: false } })`. */
  function ClearDefaults(langs: seq<Language>): (r: seq<Language>)
    ensures |r| == |langs|
    ensures forall i :: 0 <= i < |langs| ==> r[i] == langs[i].(isDefault := false)
  {
    if |langs| == 0 then [] else ClearDefaults(langs[..|langs| - 1]) + [langs[|langs| - 1].(isDefault := false)]
  }

  /** The schema's checks on save: the required strings are non-empty and the
      direction is one of the two allowed. */
  predicate ValidLanguage(l: Language) {
    l.code != "" && l.name != "" && l.nativeName != "" && (l.direction == "ltr" || l.direction == "rtl")
  }

  predicate UniqueCodes(langs: seq<Language>) {
    forall i, j :: 0 <= i < j < |langs| ==> langs[i].code != langs[j].code
  }

  predicate AtMostOneDefault(langs: seq<Language>) {
    forall i, j :: 0 <= i < j < |langs| ==> !(langs[i].isDefault && langs[j].isDefault)
  }

  predicate HasDefault(langs: seq<Language>) {
    exists i :: 0 <= i < |langs| && langs[i].isDefault
  }

  // ---------------------------------------------------------------------------
  // Loading

  /** `initializeDefaultTranslations`: each built-in file is read, or written with
      the built-in content when it cannot be read, and imported. */
  function InitializeDefaultTranslations(s: Service): (s': Service)
    ensures s'.languages == s.languages
    ensures s' == s.(files := s'.files, records := s'.records)
    ensures GrowsByBuiltIn(s'.records, s.records)
    ensures "zh-CN.json" in s'.files && "en-US.json" in s'.files
    ensures "zh-CN.json" in s.files ==> s'.files["zh-CN.json"] == s.files["zh-CN.json"]
    ensures "zh-CN.json" !in s.files ==> s'.files["zh-CN.json"] == s.builtIn.zh
  {
    var zh := if "zh-CN.json" in s.files then s.files["zh-CN.json"] else s.builtIn.zh;
    var files1 := s.files["zh-CN.json" := zh];
    var en := if "en-US.json" in files1 then files1["en-US.json"] else s.builtIn.en;
    var files2 := files1["en-US.json" := en];
    var records := Import(Import(s.records, "zh-CN", FileEntries(zh)), "en-US", FileEntries(en));
    GrowsByBuiltInMeans(records, s.records);
    s.(files := files2, records := records)
  }

  /** `initializeDefaultLanguages`: an ordered `insertMany`, which stops at the
      first code already taken, then the default translations. */
  function InitializeDefaultLanguages(s: Service): (o: Outcome<()>)
    ensures IndexOfCode(s.languages, "zh-CN").Some? ==> o == Outcome(s, Err(DuplicateKey))
    ensures o.r.Ok? <==> IndexOfCode(s.languages, "zh-CN").None? && IndexOfCode(s.languages, "en-US").None?
    ensures o.r.Ok? ==> o.s.languages == s.languages + [Chinese, English]
    ensures o.s.languagesCache == s.languagesCache && o.s.defaultCode == s.defaultCode && o.s.cache == s.cache
    ensures GrowsByBuiltIn(o.s.records, s.records)
    ensures |s.languages| <= |o.s.languages| && o.s.languages[..|s.languages|] == s.languages
  {
    GrowsByBuiltInMeans(s.records, s.records);
    if IndexOfCode(s.languages, "zh-CN").Some? then Outcome(s, Err(DuplicateKey))
    else
      var s1 := s.(languages := s.languages + [Chinese]);
      if IndexOfCode(s.languages, "en-US").Some? then Outcome(s1, Err(DuplicateKey))
      else Outcome(InitializeDefaultTranslations(s1.(languages := s1.languages + [English])), Ok(()))
  }

  /** The default-language update at the end of `loadLanguages`. */
  function PickDefault(s: Service): (s': Service)
    ensures s' == s.(defaultCode := s'.defaultCode)
    ensures FirstDefault(s.languagesCache).Some? ==> s'.defaultCode == FirstDefault(s.languagesCache).value.code
    ensures FirstDefault(s.languagesCache).None? ==> s'.defaultCode == s.defaultCode
  {
    match FirstDefault(s.languagesCache)
    case Some(l) => s.(defaultCode := l.code)
    case None => s
  }

  /** `loadLanguages`: cache the enabled languages, seeding the built-in ones
      when none is enabled, and take the first default as the default code. */
  function LoadLanguages(s: Service): (o: Outcome<seq<Language>>)
    ensures |s.languages| <= |o.s.languages| && o.s.languages[..|s.languages|] == s.languages
    ensures Enabled(s.languages) != [] ==> o.s.languages == s.languages && o.r.Ok?
    ensures o.r.Ok? ==> o.r.value == o.s.languagesCache == Enabled(o.s.languages) != []
    ensures o.r.Ok? && FirstDefault(o.s.languagesCache).Some? ==> o.s.defaultCode == FirstDefault(o.s.languagesCache).value.code
    ensures o.r.Ok? && FirstDefault(o.s.languagesCache).None? ==> o.s.defaultCode == s.defaultCode
    ensures o.s.cache == s.cache
    ensures GrowsByBuiltIn(o.s.records, s.records)
    ensures o.r.Err? ==> o.r.error == DuplicateKey
  {
    var en := Enabled(s.languages);
    if |en| == 0 then
      var init := InitializeDefaultLanguages(s);
      if init.r.Err? then
        assert init.s.languages[..|s.languages|] == s.languages;
        Outcome(init.s, Err(init.r.error))
      else
        EnabledMembers(init.s.languages);
        assert Chinese in Enabled(init.s.languages);
        assert init.s.languages[..|s.languages|] == s.languages;
        var s1 := PickDefault(init.s.(languagesCache := Enabled(init.s.languages)));
        Outcome(s1, Ok(s1.languagesCache))
    else
      assert s.languages[..|s.languages|] == s.languages;
      GrowsByBuiltInMeans(s.records, s.records);
      var s1 := PickDefault(s.(languagesCache := en));
      Outcome(s1, Ok(en))
  }

  /** `loadTranslations`: rebuild the cache from an empty object. A `TypeError`
      leaves the cache with the records before the failing one. */
  function LoadCache(s: Service): (o: Outcome<()>)
    ensures o.s == s.(cache := o.s.cache)
    ensures o.r.Ok? <==> LoadTranslations(s.records).Some?
    ensures o.r.Ok? ==> Some(o.s.cache) == LoadTranslations(s.records)
    ensures o.r.Err? ==> o.r.error == CacheTypeError
  {
    var (c, ok) := InsertUntil(Branch([]), RecPaths(s.records));
    Outcome(s.(cache := c), if ok then Ok(()) else Err(CacheTypeError))
  }

  /** `initialize`: languages, then translations. */
  function Initialize(s: Service): (o: Outcome<()>)
    ensures o.r.Ok? ==> o.s.languagesCache == Enabled(o.s.languages) && Some(o.s.cache) == LoadTranslations(o.s.records)
  {
    var l := LoadLanguages(s);
    if l.r.Err? then Outcome(l.s, Err(l.r.error)) else LoadCache(l.s)
  }

  /** `getSupportedLanguages`: the cached list, loaded when empty. */
  function GetSupportedLanguages(s: Service): (o: Outcome<seq<Language>>)
    ensures s.languagesCache != [] ==> o == Outcome(s, Ok(s.languagesCache))
    ensures o.r.Ok? ==> o.r.value == o.s.languagesCache != []
  {
    if |s.languagesCache| == 0 then LoadLanguages(s) else Outcome(s, Ok(s.languagesCache))
  }

  // ---------------------------------------------------------------------------
  // Reading and writing translations

  /** `obj[k]` on a cached value: a missing member, or any member of a string, is
      `undefined`. */
  function Child(n: Node, k: string): (r: Option<Node>)
    ensures r == LookupPath(n, [k])
  {
    match n
    case Leaf(_) => None
    case Branch(cs) =>
      match Find(cs, k)
      case None => None
      case Some(i) => Some(cs[i].node)
  }

  /** The cache entry a request for `lang` is served from: `lang` when it is
      cached, else the default code. */
  function ServedCode(s: Service, lang: string): (code: string)
    ensures Child(s.cache, lang).Some? && Truthy(Child(s.cache, lang).value) ==> code == lang
    ensures !(Child(s.cache, lang).Some? && Truthy(Child(s.cache, lang).value)) ==> code == s.defaultCode
  {
    if Child(s.cache, lang).Some? && Truthy(Child(s.cache, lang).value) then lang else s.defaultCode
  }

  /** The cache, reloaded first when it is empty. */
  function EnsureCache(s: Service): (o: Outcome<()>)
    ensures s.cache != Branch([]) ==> o == Outcome(s, Ok(()))
    ensures s.cache == Branch([]) ==> o == LoadCache(s)
  {
    if s.cache == Branch([]) then LoadCache(s) else Outcome(s, Ok(()))
  }

  /** `getTranslations(languageCode, namespace)`: the namespace object of the
      served language, `{}` when the namespace is missing or falsy; a served code
      that is not cached throws. */
  function GetTranslations(s: Service, lang: string, ns: string): (o: Outcome<Node>)
    ensures o.s == EnsureCache(s).s
    ensures EnsureCache(s).r.Err? ==> o.r.Err?
    ensures EnsureCache(s).r.Ok? ==>
      var c := EnsureCache(s).s;
      var code := ServedCode(c, lang);
      && (o.r.Ok? <==> Child(c.cache, code).Some?)
      && (o.r.Ok? ==> var v := Child(Child(c.cache, code).value, ns);
            o.r.value == if v.Some? && Truthy(v.value) then v.value else Branch([]))
  {
    var e := EnsureCache(s);
    if e.r.Err? then Outcome(e.s, Err(e.r.error))
    else
      var c := e.s;
      match Child(c.cache, ServedCode(c, lang))
      case None => Outcome(c, Err(CacheTypeError))
      case Some(l) =>
        var v := Child(l, ns);
        Outcome(c, Ok(if v.Some? && Truthy(v.value) then v.value else Branch([])))
  }

  /** `updateTranslation`: upsert the record, then write the value into the cache
      along the split key; a `TypeError` in the cache keeps the database write. */
  function UpdateTranslation(s: Service, lang: string, ns: string, key: string, value: string): (o: Outcome<()>)
    ensures o.s.records == Upsert(s.records, Record(lang, ns, key, value))
    ensures o.s.languages == s.languages && o.s.files == s.files && o.s.defaultCode == s.defaultCode
    ensures !Blocked(s.cache, [lang, ns] + Split(key)) ==>
      o.r.Ok? && LookupPath(o.s.cache, [lang, ns] + Split(key)) == Some(Leaf(value))
    ensures Blocked(s.cache, [lang, ns] + Split(key)) ==> o.s.cache == s.cache
  {
    var path := [lang, ns] + Split(key);
    var s1 := s.(records := Upsert(s.records, Record(lang, ns, key, value)));
    InsertSets(s.cache, path, value);
    match Insert(s.cache, path, value)
    case None => Outcome(s1, Err(CacheTypeError))
    case Some(c) => Outcome(s1.(cache := c), Ok(()))
  }

  /** `exportTranslations`: write the served language's cache entry to
      `<code>.json`; with no such entry the write throws. */
  function ExportTranslations(s: Service, lang: string): (o: Outcome<string>)
    ensures EnsureCache(s).r.Err? ==> o.r.Err?
    ensures o.r.Ok? ==>
      var c := EnsureCache(s).s;
      var code := ServedCode(c, lang);
      && o.r.value == code + ".json"
      && Child(c.cache, code).Some?
      && o.s == c.(files := c.files[o.r.value := Child(c.cache, code).value])
  {
    var e := EnsureCache(s);
    if e.r.Err? then Outcome(e.s, Err(e.r.error))
    else
      var c := e.s;
      var code := ServedCode(c, lang);
      match Child(c.cache, code)
      case None => Outcome(c, Err(CacheTypeError))
      case Some(n) => Outcome(c.(files := c.files[code + ".json" := n]), Ok(code + ".json"))
  }

  /** `importTranslations`: upsert the file's records, then reload the cache. */
  function ImportTranslations(s: Service, lang: string, path: string): (o: Outcome<()>)
    ensures path !in s.files ==> o == Outcome(s, Err(FileUnreadable))
    ensures path in s.files ==>
      o == LoadCache(s.(records := Import(s.records, lang, FileEntries(s.files[path]))))
  {
    if path !in s.files then Outcome(s, Err(FileUnreadable))
    else LoadCache(s.(records := Import(s.records, lang, FileEntries(s.files[path]))))
  }

  // ---------------------------------------------------------------------------
  // Managing languages

  /** The request body of `addLanguage` and `updateLanguage`; an absent member is
      `undefined`. */
  datatype LanguageData = LanguageData(code: Option<string>, name: Option<string>, nativeName: Option<string>,
                                       isDefault: Option<bool>, isEnabled: Option<bool>, direction: Option<string>)

  /** `findOne({ code })`; with no code the filter is empty and matches any
      language. Mongoose casts a filter through the schema, so the code is
      trimmed before it is matched. */
  predicate CodeTaken(langs: seq<Language>, code: Option<string>) {
    if code.None? then |langs| > 0 else IndexOfCode(langs, Trim(code.value)).Some?
  }

  /** The document `addLanguage` saves: the schema's `trim` setters apply to
      code, name and native name as they are assigned, before validation. */
  function NewLanguage(data: LanguageData): Language {
    Language(Trim(data.code.GetOr("")), Trim(data.name.GetOr("")), Trim(data.nativeName.GetOr("")),
             data.isDefault.GetOr(false), true, data.direction.GetOr("ltr"))
  }

  /** `addLanguage`: refuse a taken code; a default request clears every default
      first (even if the save then fails validation); save enabled; reload. */
  function AddLanguage(s: Service, data: LanguageData): (o: Outcome<Language>)
    ensures CodeTaken(s.languages, data.code) ==> o == Outcome(s, Err(LanguageExists))
    ensures o.r.Ok? <==> !CodeTaken(s.languages, data.code) && ValidLanguage(NewLanguage(data))
    ensures o.r.Ok? ==>
      && o.r.value == NewLanguage(data) && o.r.value.isEnabled
      && o.s.languages == (if data.isDefault == Some(true) then ClearDefaults(s.languages) else s.languages) + [o.r.value]
      && o.s.languagesCache == Enabled(o.s.languages)
    ensures o.r.Err? ==>
      o.s.languages == (if data.isDefault == Some(true) && !CodeTaken(s.languages, data.code) then ClearDefaults(s.languages) else s.languages)
  {
    if CodeTaken(s.languages, data.code) then Outcome(s, Err(LanguageExists))
    else
      var s1 := if data.isDefault == Some(true) then s.(languages := ClearDefaults(s.languages)) else s;
      var l := NewLanguage(data);
      if !ValidLanguage(l) then Outcome(s1, Err(ValidationFailed))
      else
        var s2 := s1.(languages := s1.languages + [l]);
        EnabledMembers(s2.languages);
        assert l in Enabled(s2.languages);
        var o := LoadLanguages(s2);
        assert o.r.Ok?;  // the saved language is enabled, so the reload cannot fail
        Outcome(o.s, Ok(l))
  }

  /** The values `updateLanguage` assigns: a falsy string keeps the stored one,
      an absent flag keeps the stored flag. The `trim` setters of name and
      native name run on assignment, so validation and the comparison with the
      loaded values see the trimmed strings. */
  function Assigned(loaded: Language, data: LanguageData): (l: Language)
    ensures l.code == loaded.code
    ensures data.isDefault.Some? ==> l.isDefault == data.isDefault.value
    ensures data.isDefault.None? ==> l.isDefault == loaded.isDefault
  {
    Language(loaded.code, Trim(OrElse(data.name, loaded.name)), Trim(OrElse(data.nativeName, loaded.nativeName)),
             data.isDefault.GetOr(loaded.isDefault), data.isEnabled.GetOr(loaded.isEnabled),
             OrElse(data.direction, loaded.direction))
  }

  /** What `save()` writes over the current row: only the paths whose new
      value differs from the value the document was loaded with. */
  function SaveModified(current: Language, loaded: Language, target: Language): (w: Language)
    ensures w.isDefault == if target.isDefault != loaded.isDefault then target.isDefault else current.isDefault
    ensures target.code == loaded.code ==> w.code == current.code
  {
    Language(
      if target.code != loaded.code then target.code else current.code,
      if target.name != loaded.name then target.name else current.name,
      if target.nativeName != loaded.nativeName then target.nativeName else current.nativeName,
      if target.isDefault != loaded.isDefault then target.isDefault else current.isDefault,
      if target.isEnabled != loaded.isEnabled then target.isEnabled else current.isEnabled,
      if target.direction != loaded.direction then target.direction else current.direction)
  }

  /** The table `updateLanguage` as written leaves before its reload: defaults
      cleared on request, then the row overwritten only where the assigned
      values differ from the ones loaded before the clear. */
  function WrittenTable(s: Service, i: nat, data: LanguageData): (t: seq<Language>)
    requires i < |s.languages|
    ensures |t| == |s.languages|
    ensures forall j :: 0 <= j < |t| && j != i ==>
      t[j] == if data.isDefault == Some(true) then s.languages[j].(isDefault := false) else s.languages[j]
  {
    var langs := if data.isDefault == Some(true) then ClearDefaults(s.languages) else s.languages;
    langs[i := SaveModified(langs[i], s.languages[i], Assigned(s.languages[i], data))]
  }

  /** The table the corrected `updateLanguage` leaves before its reload:
      defaults cleared on request, then every assigned value written. */
  function UpdatedTable(s: Service, i: nat, data: LanguageData): (t: seq<Language>)
    requires i < |s.languages|
    ensures |t| == |s.languages| && t[i] == Assigned(s.languages[i], data)
    ensures forall j :: 0 <= j < |t| && j != i ==>
      t[j] == if data.isDefault == Some(true) then s.languages[j].(isDefault := false) else s.languages[j]
  {
    var langs := if data.isDefault == Some(true) then ClearDefaults(s.languages) else s.languages;
    langs[i := Assigned(s.languages[i], data)]
  }

  /** `updateLanguage` as written: the language is loaded before the defaults are
      cleared, and the save only writes paths that differ from what was loaded,
      so re-asserting `isDefault: true` on the current default is not written and
      the clear wins. A failing reload is rethrown after the writes. */
  function UpdateLanguageAsWritten(s: Service, code: string, data: LanguageData): (o: Outcome<Language>)
    ensures IndexOfCode(s.languages, Trim(code)).None? ==> o == Outcome(s, Err(LanguageNotFound))
    ensures IndexOfCode(s.languages, Trim(code)).Some? && !ValidLanguage(Assigned(s.languages[IndexOfCode(s.languages, Trim(code)).value], data)) ==>
      o == Outcome(s.(languages := if data.isDefault == Some(true) then ClearDefaults(s.languages) else s.languages), Err(ValidationFailed))
    ensures o.r.Ok? <==>
      && IndexOfCode(s.languages, Trim(code)).Some?
      && ValidLanguage(Assigned(s.languages[IndexOfCode(s.languages, Trim(code)).value], data))
      && LoadLanguages(s.(languages := WrittenTable(s, IndexOfCode(s.languages, Trim(code)).value, data))).r.Ok?
    ensures o.r.Ok? ==>
      var i := IndexOfCode(s.languages, Trim(code)).value;
      && o.r.value == Assigned(s.languages[i], data)
      && |s.languages| <= |o.s.languages|
      && o.s.languages[..|s.languages|] == WrittenTable(s, i, data)
      && o.s.languages[i].code == Trim(code)
  {
    match IndexOfCode(s.languages, Trim(code))
    case None => Outcome(s, Err(LanguageNotFound))
    case Some(i) =>
      var loaded := s.languages[i];
      var langs := if data.isDefault == Some(true) then ClearDefaults(s.languages) else s.languages;
      var target := Assigned(loaded, data);
      if !ValidLanguage(target) then Outcome(s.(languages := langs), Err(ValidationFailed))
      else
        var langs' := langs[i := SaveModified(langs[i], loaded, target)];
        var o := LoadLanguages(s.(languages := langs'));
        PrefixAt(langs', o.s.languages, i);
        if o.r.Err? then Outcome(o.s, Err(o.r.error)) else Outcome(o.s, Ok(target))
  }

  /** `updateLanguage` with every target path written. A failing reload is
      rethrown after the writes; it can only fail when the update leaves no
      language enabled. */
  function UpdateLanguage(s: Service, code: string, data: LanguageData): (o: Outcome<Language>)
    ensures IndexOfCode(s.languages, Trim(code)).None? ==> o == Outcome(s, Err(LanguageNotFound))
    ensures o.r.Ok? <==>
      && IndexOfCode(s.languages, Trim(code)).Some?
      && ValidLanguage(Assigned(s.languages[IndexOfCode(s.languages, Trim(code)).value], data))
      && LoadLanguages(s.(languages := UpdatedTable(s, IndexOfCode(s.languages, Trim(code)).value, data))).r.Ok?
    ensures (IndexOfCode(s.languages, Trim(code)).Some? &&
             ValidLanguage(Assigned(s.languages[IndexOfCode(s.languages, Trim(code)).value], data)) &&
             Assigned(s.languages[IndexOfCode(s.languages, Trim(code)).value], data).isEnabled) ==> o.r.Ok?
    ensures o.r.Ok? ==>
      var i := IndexOfCode(s.languages, Trim(code)).value;
      && o.r.value == Assigned(s.languages[i], data)
      && |s.languages| <= |o.s.languages|
      && o.s.languages[..|s.languages|] == UpdatedTable(s, i, data)
  {
    match IndexOfCode(s.languages, Trim(code))
    case None => Outcome(s, Err(LanguageNotFound))
    case Some(i) =>
      var langs := if data.isDefault == Some(true) then ClearDefaults(s.languages) else s.languages;
      var target := Assigned(s.languages[i], data);
      if !ValidLanguage(target) then Outcome(s.(languages := langs), Err(ValidationFailed))
      else
        var t := langs[i := target];
        EnabledMembers(t);
        assert t[i] == target;
        assert target.isEnabled ==> target in Enabled(t);
        var o := LoadLanguages(s.(languages := t));
        if o.r.Err? then Outcome(o.s, Err(o.r.error)) else Outcome(o.s, Ok(target))
  }

  /** A name of white space only trims to nothing, so `required` refuses it,
      whether the language is added or updated. */
  lemma BlankNameRefused(s: Service, code: string, data: LanguageData)
    requires data.name.Some? && data.name.value != "" && AllSpace(data.name.value)
    ensures AddLanguage(s, data).r.Err?
    ensures UpdateLanguageAsWritten(s, code, data).r.Err?
    ensures UpdateLanguage(s, code, data).r.Err?
  {
    TrimEmpty(data.name.value);
    if IndexOfCode(s.languages, Trim(code)).Some? {
      var i := IndexOfCode(s.languages, Trim(code)).value;
      assert Assigned(s.languages[i], data).name == "";
    }
  }

  /** A name that only differs from the loaded one by white space at its ends
      is trimmed back to it, so the save does not write the name. */
  lemma PaddedNameNotWritten(s: Service, i: nat, data: LanguageData)
    requires i < |s.languages|
    requires data.name.Some? && data.name.value != "" && Trim(data.name.value) == s.languages[i].name
    ensures WrittenTable(s, i, data)[i].name == s.languages[i].name
  {
  }

  /** The translations of every language but `code`. */
  function WithoutLanguage(db: seq<Record>, code: string): (r: seq<Record>)
    ensures NoRecordsFor(r, code)
  {
    if |db| == 0 then []
    else if db[0].languageCode != code then
      var r := [db[0]] + WithoutLanguage(db[1..], code);
      assert r[1..] == WithoutLanguage(db[1..], code);
      r
    else WithoutLanguage(db[1..], code)
  }

  /** The kept translations are exactly those of the other languages. */
  lemma {:induction false} WithoutLanguageMembers(db: seq<Record>, code: string)
    ensures forall x :: x in WithoutLanguage(db, code) <==> x in db && x.languageCode != code
  {
    if |db| > 0 {
      WithoutLanguageMembers(db[1..], code);
      assert forall x :: x in db <==> x == db[0] || x in db[1..];
    }
  }

  /** `deleteLanguage`: refuse a missing or default language; delete it and its
      translations; reload both caches. */
  function DeleteLanguage(s: Service, code: string): (o: Outcome<()>)
    ensures IndexOfCode(s.languages, Trim(code)).None? ==> o == Outcome(s, Err(LanguageNotFound))
    ensures o.r == Err(CannotDeleteDefault) <==>
      IndexOfCode(s.languages, Trim(code)).Some? && s.languages[IndexOfCode(s.languages, Trim(code)).value].isDefault
    ensures IndexOfCode(s.languages, Trim(code)).Some? && s.languages[IndexOfCode(s.languages, Trim(code)).value].isDefault ==>
      o == Outcome(s, Err(CannotDeleteDefault))
    ensures IndexOfCode(s.languages, Trim(code)).Some? && !s.languages[IndexOfCode(s.languages, Trim(code)).value].isDefault ==>
      o == RemoveLanguage(s, IndexOfCode(s.languages, Trim(code)).value, Trim(code))
  {
    match IndexOfCode(s.languages, Trim(code))
    case None => Outcome(s, Err(LanguageNotFound))
    case Some(i) =>
      if s.languages[i].isDefault then Outcome(s, Err(CannotDeleteDefault))
      else RemoveLanguage(s, i, Trim(code))
  }

  /** The delete itself: drop the language at `i` and the translations of
      `code`, then reload. Only a reload that seeds the built-in languages can
      bring translations of `code` back. */
  function RemoveLanguage(s: Service, i: nat, code: string): (o: Outcome<()>)
    requires i < |s.languages|
    ensures |s.languages| - 1 <= |o.s.languages|
    ensures o.s.languages[..|s.languages| - 1] == s.languages[..i] + s.languages[i + 1..]
    ensures !BuiltInCode(code) ==> NoRecordsFor(o.s.records, code)
    ensures o.r.Err? ==> o.r.error == DuplicateKey || o.r.error == CacheTypeError
    ensures HasDefault(s.languages) && !s.languages[i].isDefault ==> HasDefault(o.s.languages)
  {
    var s1 := s.(languages := s.languages[..i] + s.languages[i + 1..], records := WithoutLanguage(s.records, code));
    var o := Reload(s1);
    GrowsByBuiltInMeans(o.s.records, s1.records);
    NoRecordsForMeans(s1.records, code);
    NoRecordsForMeans(o.s.records, code);
    if HasDefault(s.languages) && !s.languages[i].isDefault then
      RemovalKeepsDefault(s.languages, i, o.s.languages);
      o
    else o
  }

  /** The two reloads that end `deleteLanguage`. */
  function Reload(s: Service): (o: Outcome<()>)
    ensures GrowsByBuiltIn(o.s.records, s.records)
    ensures |s.languages| <= |o.s.languages| && o.s.languages[..|s.languages|] == s.languages
    ensures o.r.Err? ==> o.r.error == DuplicateKey || o.r.error == CacheTypeError
  {
    var l := LoadLanguages(s);
    if l.r.Err? then Outcome(l.s, Err(l.r.error)) else LoadCache(l.s)
  }

  // ---------------------------------------------------------------------------
  // Properties

  /** A row of a table is still in place in any table that starts with it. */
  lemma PrefixAt(a: seq<Language>, b: seq<Language>, i: nat)
    requires i < |a| <= |b| && b[..|a|] == a
    ensures b[i] == a[i]
  {
    assert b[..|a|][i] == b[i];
  }

  /** Adding a language never leaves two defaults behind, whether the save
      succeeds or not. */
  lemma AddLanguageKeepsOneDefault(s: Service, data: LanguageData)
    requires AtMostOneDefault(s.languages)
    ensures AtMostOneDefault(AddLanguage(s, data).s.languages)
  {
    var o := AddLanguage(s, data);
    var cleared := data.isDefault == Some(true) && !CodeTaken(s.languages, data.code);
    var base := if cleared then ClearDefaults(s.languages) else s.languages;
    assert cleared ==> forall i :: 0 <= i < |base| ==> !base[i].isDefault;
    if o.r.Ok? {
      AppendKeepsOneDefault(base, o.r.value);
    }
  }

  /** Appending a row keeps at most one default when the row is not a default
      or the table has none. */
  lemma AppendKeepsOneDefault(langs: seq<Language>, l: Language)
    requires AtMostOneDefault(langs)
    requires l.isDefault ==> forall i :: 0 <= i < |langs| ==> !langs[i].isDefault
    ensures AtMostOneDefault(langs + [l])
  {
    var all := langs + [l];
    assert forall i :: 0 <= i < |langs| ==> all[i] == langs[i];
  }

  /** A successful update with `isDefault: true` that leaves the language enabled
      makes it the only default in the table and the served default code. */
  lemma UpdateLanguageMakesDefault(s: Service, code: string, data: LanguageData)
    requires data.isDefault == Some(true)
    requires UpdateLanguage(s, code, data).r.Ok? && UpdateLanguage(s, code, data).r.value.isEnabled
    ensures var o := UpdateLanguage(s, code, data);
      var i := IndexOfCode(s.languages, Trim(code)).value;
      && o.s.languages[i].isDefault
      && (forall j :: 0 <= j < |o.s.languages| && j != i ==> !o.s.languages[j].isDefault)
      && o.s.defaultCode == Trim(code)
  {
    var i := IndexOfCode(s.languages, Trim(code)).value;
    var target := Assigned(s.languages[i], data);
    var langs := ClearDefaults(s.languages)[i := target];
    forall j | 0 <= j < |langs| && j != i
      ensures !langs[j].isDefault
    {
      assert langs[j] == ClearDefaults(s.languages)[j];
    }
    SoleDefaultIsFirst(langs, i);
  }

  /** When the only default row is enabled, it is the first default among the
      enabled rows. */
  lemma {:induction false} SoleDefaultIsFirst(langs: seq<Language>, i: nat)
    requires i < |langs| && langs[i].isDefault && langs[i].isEnabled
    requires forall j :: 0 <= j < |langs| && j != i ==> !langs[j].isDefault
    ensures FirstDefault(Enabled(langs)) == Some(langs[i])
  {
    var rest := Enabled(langs[1..]);
    if i == 0 {
      assert Enabled(langs) == [langs[0]] + rest;
    } else {
      forall j | 0 <= j < |langs[1..]| && j != i - 1
        ensures !langs[1..][j].isDefault
      {
        assert langs[1..][j] == langs[j + 1];
      }
      SoleDefaultIsFirst(langs[1..], i - 1);
      if langs[0].isEnabled {
        var e := [langs[0]] + rest;
        assert Enabled(langs) == e && e[1..] == rest;
      } else {
        assert Enabled(langs) == rest;
      }
    }
  }


  /** Deleting a language never removes the last default: a table that has one
      keeps one, whatever the reloads do. */
  lemma DeleteLanguageKeepsDefault(s: Service, code: string)
    requires HasDefault(s.languages)
    ensures HasDefault(DeleteLanguage(s, code).s.languages)
  {
    match IndexOfCode(s.languages, Trim(code)) {
      case None =>
      case Some(i) =>
    }
  }

  /** A table that starts with the rows of `before` minus a non-default row
      still has a default when `before` had one. */
  lemma RemovalKeepsDefault(before: seq<Language>, i: nat, after: seq<Language>)
    requires i < |before| && !before[i].isDefault && HasDefault(before)
    requires |before| - 1 <= |after| && after[..|before| - 1] == before[..i] + before[i + 1..]
    ensures HasDefault(after)
  {
    var d :| 0 <= d < |before| && before[d].isDefault;
    var rest := before[..i] + before[i + 1..];
    var k := if d < i then d else d - 1;
    assert rest[k] == before[d];
    assert after[..|rest|][k] == rest[k];
  }

  /** A write to a fresh slot keeps the cache equal to a reload of the
      collection: both fail together or agree. */
  lemma UpdateTranslationKeepsCacheInSync(s: Service, lang: string, ns: string, key: string, value: string)
    requires LoadTranslations(s.records) == Some(s.cache)
    requires FindSlot(s.records, Record(lang, ns, key, value)).None?
    ensures var o := UpdateTranslation(s, lang, ns, key, value);
      LoadTranslations(o.s.records) == if o.r.Ok? then Some(o.s.cache) else None
  {
    var r := Record(lang, ns, key, value);
    var o := UpdateTranslation(s, lang, ns, key, value);
    assert o.s.records == s.records + [r];
    RecPathsAppend(s.records, [r]);
    InsertAllAppend(Branch([]), RecPaths(s.records), RecPaths([r]));
    assert RecPaths([r])[1..] == [];
  }

  /** Importing a well-formed file into an empty collection and asking for one
      of its namespaces in that language returns the namespace as it is in the
      file. */
  lemma ImportThenGetTranslations(s: Service, lang: string, path: string, ns: string)
    requires s.records == [] && path in s.files && s.files[path].Branch?
    requires var t := s.files[path].children; WellFormed(t) && ObjectNamespaces(t) && |t| > 0
    ensures var o := ImportTranslations(s, lang, path);
      var t := s.files[path].children;
      && o.r.Ok? && o.s.cache == Branch([Entry(lang, Branch(t))])
      && GetTranslations(o.s, lang, ns).r ==
           Ok(match Find(t, ns) case Some(i) => t[i].node case None => Branch([]))
  {
    var t := s.files[path].children;
    ImportLoadRoundTrip(lang, t);
    var o := ImportTranslations(s, lang, path);
    assert o.s.cache == Branch([Entry(lang, Branch(t))]);
    assert Child(o.s.cache, lang) == Some(Branch(t));
    match Find(t, ns) {
      case None =>
      case Some(i) => assert t[i].node.Branch?;
    }
  }

  /** An update body that carries `isDefault: true` and nothing else. */
  predicate OnlyMakesDefault(data: LanguageData) {
    && data.name.None? && data.nativeName.None? && data.isDefault == Some(true)
    && data.isEnabled.None? && data.direction.None?
  }

  /** `updateLanguage` as written loses the only default when the default
      language is re-asserted as default, whichever language it is; the
      corrected update keeps it. */
  lemma UpdateLanguageAsWrittenDropsDefault(s: Service, l: Language, data: LanguageData)
    requires s.languages == [l] && l.isDefault && l.isEnabled && ValidLanguage(l)
    requires Trimmed(l.code) && Trimmed(l.name) && Trimmed(l.nativeName)
    requires OnlyMakesDefault(data)
    ensures HasDefault(s.languages)
    ensures UpdateLanguageAsWritten(s, l.code, data).r.Ok?
    ensures !HasDefault(UpdateLanguageAsWritten(s, l.code, data).s.languages)
    ensures DeleteLanguage(UpdateLanguageAsWritten(s, l.code, data).s, l.code).r != Err(CannotDeleteDefault)
    ensures UpdateLanguage(s, l.code, data).r.Ok?
    ensures HasDefault(UpdateLanguage(s, l.code, data).s.languages)
  {
    ReassertAsWritten(s, l, data);
    ReassertCorrected(s, l, data);
    var w := UpdateLanguageAsWritten(s, l.code, data);
    var c := UpdateLanguage(s, l.code, data);
    assert s.languages[0].isDefault;
    assert !HasDefault(w.s.languages) by { NoDefaultIn(l.(isDefault := false)); }
    DeleteClearedLanguage(w.s, l);
    assert c.s.languages[0].isDefault;
  }

  lemma NoDefaultIn(l: Language)
    requires !l.isDefault
    ensures !HasDefault([l])
  {
  }

  /** A language that lost its default flag can be deleted. */
  lemma DeleteClearedLanguage(s: Service, l: Language)
    requires s.languages == [l.(isDefault := false)] && Trimmed(l.code)
    ensures DeleteLanguage(s, l.code).r != Err(CannotDeleteDefault)
  {
    assert IndexOfCode(s.languages, Trim(l.code)) == Some(0) by { TrimKeeps(l.code); }
  }

  /** Re-asserting the default on a language whose strings are trimmed
      assigns what is already there. */
  lemma ReassertAssigns(l: Language, data: LanguageData)
    requires l.isDefault && Trimmed(l.name) && Trimmed(l.nativeName) && OnlyMakesDefault(data)
    ensures Assigned(l, data) == l
  {
    assert Assigned(l, data).name == l.name by { TrimKeeps(l.name); }
    assert Assigned(l, data).nativeName == l.nativeName by { TrimKeeps(l.nativeName); }
  }

  /** Re-asserting the only default as default, as written: the clear is all
      that reaches the table. */
  lemma ReassertAsWritten(s: Service, l: Language, data: LanguageData)
    requires s.languages == [l] && l.isDefault && l.isEnabled && ValidLanguage(l)
    requires Trimmed(l.code) && Trimmed(l.name) && Trimmed(l.nativeName)
    requires OnlyMakesDefault(data)
    ensures var o := UpdateLanguageAsWritten(s, l.code, data);
      o.r.Ok? && o.s.languages == [l.(isDefault := false)]
  {
    ReassertAssigns(l, data);
    assert IndexOfCode(s.languages, Trim(l.code)) == Some(0) by { TrimKeeps(l.code); }
    var cleared := l.(isDefault := false);
    assert ClearDefaults(s.languages) == [cleared];
    assert WrittenTable(s, 0, data) == [cleared];
    assert Enabled([cleared]) == [cleared];
  }

  /** Re-asserting the only default as default, corrected: the table is as
      it was. */
  lemma ReassertCorrected(s: Service, l: Language, data: LanguageData)
    requires s.languages == [l] && l.isDefault && l.isEnabled && ValidLanguage(l)
    requires Trimmed(l.code) && Trimmed(l.name) && Trimmed(l.nativeName)
    requires OnlyMakesDefault(data)
    ensures var o := UpdateLanguage(s, l.code, data);
      o.r.Ok? && o.s.languages == [l]
  {
    ReassertAssigns(l, data);
    assert IndexOfCode(s.languages, Trim(l.code)) == Some(0) by { TrimKeeps(l.code); }
    assert UpdatedTable(s, 0, data) == [l];
    assert Enabled([l]) == [l];
  }
}

=== FILE: js_strings.dfy ===
/** JavaScript's `String.prototype.trim`, used by the middleware on request
    headers and by Mongoose's `trim: true` setters on schema paths. */
module JsStrings {
  import opened Wrappers

  /** The white space `trim` removes: the white space and line terminators of
      section 12.2 and 12.3 of ECMA-262, that is tab, vertical tab, form feed,
      line feed, carriage return, the byte order mark, the line and paragraph
      separators and every space separator (category Zs) of Unicode. */
  predicate IsSpace(c: char) {
    || c == '\t' || c == '\n' || c == '\U{000B}' || c == '\U{000C}' || c == '\r'
    || c == ' ' || c == '\U{00A0}' || c == '\U{1680}'
    || ('\U{2000}' <= c <= '\U{200A}')
    || c == '\U{2028}' || c == '\U{2029}' || c == '\U{202F}' || c == '\U{205F}' || c == '\U{3000}'
    || c == '\U{FEFF}'
  }

  /** Every character of `s` is white space. */
  predicate AllSpace(s: string) {
    forall i :: 0 <= i < |s| ==> IsSpace(s[i])
  }

  /** `trimStart()`, one leading white space character at a time; what it
      computes is stated by TrimStartDrops. */
  function TrimStart(s: string): string {
    if |s| > 0 && IsSpace(s[0]) then TrimStart(s[1..]) else s
  }

  /** `trimEnd()`, one trailing white space character at a time; what it
      computes is stated by TrimEndDrops. */
  function TrimEnd(s: string): string {
    if |s| > 0 && IsSpace(s[|s| - 1]) then TrimEnd(s[..|s| - 1]) else s
  }

  /** Trimming the front keeps a suffix that does not start with white space,
      and drops only white space. */
  lemma {:induction false} TrimStartDrops(s: string)
    ensures var r := TrimStart(s);
      && |r| <= |s| && r == s[|s| - |r|..]
      && (|r| > 0 ==> !IsSpace(r[0]))
      && AllSpace(s[..|s| - |r|])
    decreases |s|
  {
    if |s| > 0 && IsSpace(s[0]) {
      TrimStartDrops(s[1..]);
      var r := TrimStart(s[1..]);
      assert s[..|s| - |r|] == [s[0]] + s[1..][..|s[1..]| - |r|];
    }
  }

  /** Trimming the end keeps a prefix that does not end with white space, and
      drops only white space. */
  lemma {:induction false} TrimEndDrops(s: string)
    ensures var r := TrimEnd(s);
      && |r| <= |s| && r == s[..|r|]
      && (|r| > 0 ==> !IsSpace(r[|r| - 1]))
      && AllSpace(s[|r|..])
    decreases |s|
  {
    if |s| > 0 && IsSpace(s[|s| - 1]) {
      TrimEndDrops(s[..|s| - 1]);
      var r := TrimEnd(s[..|s| - 1]);
      assert s[|r|..] == s[..|s| - 1][|r|..] + [s[|s| - 1]];
    }
  }

  /** `trim()`: the infix of `s` left once the white space at both ends is
      cut off (TrimIsInfix); it neither starts nor ends with white space, and
      it is empty exactly when `s` is all white space (TrimEmpty). */
  function Trim(s: string): (r: string)
    ensures |r| <= |s|
    ensures |r| > 0 ==> !IsSpace(r[0]) && !IsSpace(r[|r| - 1])
  {
    var t := TrimStart(s);
    TrimStartDrops(s);
    TrimEndDrops(t);
    TrimEnd(t)
  }

  /** Trimming adds no character. */
  lemma TrimKeepsOut(s: string, c: char)
    requires c !in s
    ensures c !in Trim(s)
  {
    TrimIsInfix(s);
  }

  /** Only white space trims away to nothing. */
  lemma TrimEmpty(s: string)
    ensures Trim(s) == "" <==> AllSpace(s)
  {
    var t := TrimStart(s);
    TrimStartDrops(s);
    TrimEndDrops(t);
    TrimFacts(s, t, TrimEnd(t));
  }

  /** No white space at either end. */
  predicate Trimmed(s: string) {
    |s| > 0 ==> !IsSpace(s[0]) && !IsSpace(s[|s| - 1])
  }

  /** A string with no white space at either end is its own trim. */
  lemma TrimKeeps(s: string)
    requires Trimmed(s)
    ensures Trim(s) == s
  {
  }

  /** How many characters `trim()` drops at the front. */
  function Leading(s: string): nat {
    TrimStartDrops(s);
    |s| - |TrimStart(s)|
  }

  /** What `trim()` keeps is the infix of `s` that starts after the white
      space it drops at the front, and all that it drops on either side is
      white space. */
  lemma TrimIsInfix(s: string)
    ensures var r, k := Trim(s), Leading(s);
      && k + |r| <= |s| && r == s[k..k + |r|]
      && AllSpace(s[..k]) && AllSpace(s[k + |r|..])
  {
    var t := TrimStart(s);
    TrimStartDrops(s);
    TrimEndDrops(t);
    TrimFacts(s, t, TrimEnd(t));
  }

  /** The two halves of the trim put together, for any `t` and `r` with the
      contracts of TrimStart and TrimEnd. */
  lemma TrimFacts(s: string, t: string, r: string)
    requires |t| <= |s| && t == s[|s| - |t|..] && (|t| > 0 ==> !IsSpace(t[0])) && AllSpace(s[..|s| - |t|])
    requires |r| <= |t| && r == t[..|r|] && AllSpace(t[|r|..])
    ensures var k := |s| - |t|; r == s[k..k + |r|] && AllSpace(s[k + |r|..])
    ensures |r| == 0 <==> AllSpace(s)
  {
    var k := |s| - |t|;
    PrefixOfSuffix(s, t, r);
    if |r| == 0 && |t| > 0 {
      assert t[0] == t[|r|..][0];
    }
    SplitAllSpace(s, k);
  }

  /** A prefix of a suffix is an infix, followed by the rest of the suffix. */
  lemma PrefixOfSuffix(s: string, t: string, r: string)
    requires |t| <= |s| && t == s[|s| - |t|..]
    requires |r| <= |t| && r == t[..|r|]
    ensures var k := |s| - |t|; r == s[k..k + |r|] && s[k + |r|..] == t[|r|..]
  {
  }

  lemma SplitAllSpace(s: string, k: nat)
    requires k <= |s|
    ensures AllSpace(s) <==> AllSpace(s[..k]) && AllSpace(s[k..])
  {
    assert s == s[..k] + s[k..];
    AllSpaceConcat(s[..k], s[k..]);
  }

  lemma AllSpaceConcat(a: string, b: string)
    ensures AllSpace(a + b) <==> AllSpace(a) && AllSpace(b)
  {
    if AllSpace(a) && AllSpace(b) {
      forall i | 0 <= i < |a + b| ensures IsSpace((a + b)[i]) {
        if i >= |a| { assert (a + b)[i] == b[i - |a|]; }
      }
    }
    if AllSpace(a + b) {
      forall i | 0 <= i < |a| ensures IsSpace(a[i]) {
        assert (a + b)[i] == a[i];
      }
      forall i | 0 <= i < |b| ensures IsSpace(b[i]) {
        assert (a + b)[|a| + i] == b[i];
      }
    }
  }

  /** A character that is not white space does not occur in white space. */
  lemma NotInSpace(sp: string, c: char)
    requires AllSpace(sp) && !IsSpace(c)
    ensures c !in sp
  {
  }

  /** White space in front changes nothing once trimmed. */
  lemma {:induction false} TrimStartSkipsSpace(sp: string, y: string)
    requires AllSpace(sp)
    ensures TrimStart(sp + y) == TrimStart(y)
    decreases |sp|
  {
    if |sp| > 0 {
      assert (sp + y)[0] == sp[0];
      assert (sp + y)[1..] == sp[1..] + y;
      TrimStartSkipsSpace(sp[1..], y);
    } else {
      assert sp + y == y;
    }
  }

  /** Trimming twice is trimming once. */
  lemma TrimIdempotent(s: string)
    ensures Trim(Trim(s)) == Trim(s)
  {
    var r := Trim(s);
    if |r| > 0 {
      assert TrimStart(r) == r;
      assert TrimEnd(r) == r;
    }
  }
}

=== FILE: payment_gateway.dfy ===
/** The generic payment gateway client (utils/paymentGateway.js): the signed
    create and query requests and the check on the gateway's reply code. The
    HTTP call is left out: the reply is a parameter, as are the MD5 digest and
    the clock. */
module PaymentGateway {
  import opened Wrappers
  import opened Signing

  /** `gatewayConfig`, read from the environment; each setting may be unset. */
  datatype Config = Config(merchantId: Value, secretKey: Value)

  /** `response.data`: the reply code and message, and the payload object, which
      may be missing. */
  datatype Reply = Reply(code: Value, message: Value, data: Option<Params>)

  datatype GatewayError =
    | Rejected(message: string)   // a nonzero code; the thrown message carries the gateway's
    | Malformed                   // code 0 without a payload: reading from it throws

  // ---------------------------------------------------------------------------
  // Amount text

  /** `amount.toFixed(2)` for an amount held in whole cents. */
  function FixedTwo(cents: nat): string {
    DecimalString(cents / 100) + "." + [Digit(cents % 100 / 10), Digit(cents % 10)]
  }

  /** Reading a `d+.dd` decimal back into cents. */
  function ParseFixedTwo(s: string): Option<nat> {
    if |s| >= 4 && s[|s| - 3] == '.' && AllDigits(s[..|s| - 3]) && IsDigit(s[|s| - 2]) && IsDigit(s[|s| - 1]) then
      Some(100 * DigitsValue(s[..|s| - 3]) + 10 * DigitValue(s[|s| - 2]) + DigitValue(s[|s| - 1]))
    else None
  }

  /** The amount the gateway is told reads back as the amount in cents. */
  lemma FixedTwoRoundTrip(cents: nat)
    ensures ParseFixedTwo(FixedTwo(cents)) == Some(cents)
  {
    var w := DecimalString(cents / 100);
    var s := FixedTwo(cents);
    assert s[..|s| - 3] == w;
    DecimalRoundTrip(cents / 100);
  }

  // ---------------------------------------------------------------------------
  // Requests

  /** `params.sign = generateSign(params, secretKey)` on an object without a
      `sign`: the signature is computed first, so it never covers itself. */
  function Signed(ps: Params, secret: Value, digest: string -> string): (r: Params)
    requires Lookup(ps, "sign").None?
    ensures Without(r, "sign") == ps
    ensures Lookup(r, "sign") == Some(Str(digest(SignString(Gateway, Without(r, "sign"), Text(secret)))))
  {
    var e := ("sign", Str(digest(SignString(Gateway, ps, Text(secret)))));
    WithoutAppended(ps, e);
    LookupAppend(ps, e);
    ps + [e]
  }

  /** The fields of `orderData` the client reads; the amount is in cents. */
  datatype Order = Order(orderId: Option<string>, cents: nat, description: Option<string>,
                         paymentMethod: Option<string>, returnUrl: Option<string>, notifyUrl: Option<string>)

  /** The create-order parameters before signing. */
  function CreateParams(cfg: Config, o: Order, nowMs: nat): (ps: Params)
    ensures UniqueKeys(ps) && Lookup(ps, "sign").None?
    ensures Lookup(ps, "total_amount") == Some(Str(FixedTwo(o.cents)))
    ensures Lookup(ps, "timestamp") == Some(Num(nowMs / 1000))
  {
    var ps := CreateFields(cfg.merchantId, Opt(o.orderId), Str(FixedTwo(o.cents)), Opt(o.description),
                           Opt(o.paymentMethod), Opt(o.returnUrl), Opt(o.notifyUrl), Num(nowMs / 1000));
    LookupUnique(ps, 2);
    LookupUnique(ps, 7);
    ps
  }

  /** The eight fields of the create request, in the order the client writes
      them. */
  function CreateFields(merchant: Value, orderId: Value, amount: Value, subject: Value,
                        payType: Value, returnUrl: Value, notifyUrl: Value, timestamp: Value): (ps: Params)
    ensures UniqueKeys(ps) && |ps| == 8
    ensures ps[2] == ("total_amount", amount) && ps[7] == ("timestamp", timestamp)
    ensures Lookup(ps, "sign").None?
  {
    [("merchant_id", merchant), ("out_trade_no", orderId), ("total_amount", amount), ("subject", subject),
     ("payment_type", payType), ("return_url", returnUrl), ("notify_url", notifyUrl), ("timestamp", timestamp)]
  }

  datatype Created = Created(transactionId: Option<Value>, paymentUrl: Option<Value>)

  /** The code check both calls make: only the number 0 is success. */
  function Check(reply: Reply): (r: Result<Params, GatewayError>)
    ensures r.Ok? <==> reply.code == Num(0) && reply.data.Some?
    ensures reply.code != Num(0) ==> r == Err(Rejected(Text(reply.message)))
    ensures r.Ok? ==> r.value == reply.data.value
  {
    if reply.code != Num(0) then Err(Rejected(Text(reply.message)))
    else if reply.data.None? then Err(Malformed)
    else Ok(reply.data.value)
  }

  /** `createPaymentOrder`: the signed request and what the call returns or
      throws given the gateway's reply. */
  function CreatePaymentOrder(cfg: Config, o: Order, nowMs: nat, digest: string -> string, reply: Reply): (out: (Params, Result<Created, GatewayError>))
    ensures Without(out.0, "sign") == CreateParams(cfg, o, nowMs)
    ensures Lookup(out.0, "sign") == Some(Str(digest(SignString(Gateway, CreateParams(cfg, o, nowMs), Text(cfg.secretKey)))))
    ensures out.1.Ok? <==> Check(reply).Ok?
    ensures out.1.Err? ==> out.1.error == Check(reply).error
    ensures out.1.Ok? ==> out.1.value.transactionId == Lookup(reply.data.value, "transaction_id")
  {
    var req := Signed(CreateParams(cfg, o, nowMs), cfg.secretKey, digest);
    match Check(reply)
    case Err(e) => (req, Err(e))
    case Ok(d) => (req, Ok(Created(Lookup(d, "transaction_id"), Lookup(d, "payment_url"))))
  }

  datatype Status = Status(status: Option<Value>, amount: Option<Value>, paidAt: Option<Value>)

  /** `queryPaymentStatus`: the signed request and the reported status. */
  function QueryPaymentStatus(cfg: Config, transactionId: Option<string>, nowMs: nat, digest: string -> string, reply: Reply): (out: (Params, Result<Status, GatewayError>))
    ensures Lookup(out.0, "transaction_id") == Some(Opt(transactionId))
    ensures Lookup(out.0, "sign") == Some(Str(digest(SignString(Gateway, Without(out.0, "sign"), Text(cfg.secretKey)))))
    ensures out.1.Ok? <==> Check(reply).Ok?
    ensures out.1.Err? ==> out.1.error == Check(reply).error
    ensures out.1.Ok? ==> out.1.value.status == Lookup(reply.data.value, "trade_status")
  {
    var ps := [("merchant_id", cfg.merchantId), ("transaction_id", Opt(transactionId)), ("timestamp", Num(nowMs / 1000))];
    assert UniqueKeys(ps);
    var req := Signed(ps, cfg.secretKey, digest);
    LookupUnique(ps, 1);
    LookupAppendOther(ps, req[3], "transaction_id");
    match Check(reply)
    case Err(e) => (req, Err(e))
    case Ok(d) => (req, Ok(Status(Lookup(d, "trade_status"), Lookup(d, "total_amount"), Lookup(d, "pay_time"))))
  }

  // ---------------------------------------------------------------------------
  // What the two rules keep

  /** Unlike WeChat's, the gateway's string covers an empty field: adding one
      changes the string the digest sees. */
  lemma GatewayCoversEmptyField(ps: Params, k: string, secret: string)
    requires UniqueKeys(ps) && Lookup(ps, k).None?
    requires Separable(Kept(Gateway, SortByKey(ps))) && Separable(Kept(Gateway, SortByKey(ps + [(k, Str(""))])))
    requires '&' !in secret
    ensures SignString(Gateway, ps + [(k, Str(""))], secret) != SignString(Gateway, ps, secret)
    ensures SignString(Wechat, ps + [(k, Str(""))], secret) == SignString(Wechat, ps, secret)
  {
    KeptFieldCounts(Gateway, ps, (k, Str("")), secret);
    OmittedFieldIgnored(Wechat, ps, (k, Str("")), secret);
  }

  /** A `null` field is left out of the gateway's string. */
  lemma GatewayOmitsNull(ps: Params, k: string, secret: string)
    requires UniqueKeys(ps) && Lookup(ps, k).None?
    ensures SignString(Gateway, ps + [(k, Null)], secret) == SignString(Gateway, ps, secret)
  {
    OmittedFieldIgnored(Gateway, ps, (k, Null), secret);
  }
}

=== FILE: payments.dfy ===
/** Pledge intake and settlement (controllers/paymentController.js).

    The database is the in-memory `State`: projects by id, payments in insertion
    order (so `findOne` is "first match"), users by id. Each handler is one atomic
    transition; the payment gateway's answers are parameters. */
module Payments {
  import opened Wrappers
  import Users
  import opened ProjectModel

  type PaymentId = string

  datatype PaymentStatus = PaymentPending | Completed | PaymentFailed | Refunded

  datatype PaymentMethod = Alipay | Wechat | CreditCard | BankTransfer

  datatype Payment = Payment(
    id: PaymentId,
    user: Users.UserId,
    project: ProjectId,
    rewardTier: Option<TierId>,
    amount: int,
    payMethod: PaymentMethod,
    status: PaymentStatus,
    anonymous: bool,
    message: string,
    transactionId: Option<string>)

  datatype State = State(
    projects: map<ProjectId, Project>,
    payments: seq<Payment>,
    users: map<Users.UserId, Users.User>)

  /** The body of a pledge request; `anonymous` and `message` are optional. */
  datatype PledgeRequest = PledgeRequest(
    projectId: ProjectId,
    rewardTierId: Option<TierId>,
    amount: int,
    payMethod: PaymentMethod,
    anonymous: Option<bool>,
    message: Option<string>)

  /** What the gateway's `createPaymentOrder` answered. */
  datatype GatewayOrder = GatewayOrder(transactionId: string, paymentUrl: string)

  datatype IntakeError =
    | ProjectNotFound
    | ProjectNotActive
    | ProjectEnded
    | DonateForbidden
    | TierNotFound
    | TierIsFull
    | AmountBelowTier(minimum: int)
    | PaymentRejectedBySchema
    | GatewayFailed(reason: string)

  /** The HTTP status each intake failure is answered with. */
  function IntakeHttpStatus(e: IntakeError): int {
    match e
    case ProjectNotFound => 404
    case ProjectNotActive => 400
    case ProjectEnded => 400
    case DonateForbidden => 403
    case TierNotFound => 404
    case TierIsFull => 400
    case AmountBelowTier(_) => 400
    case PaymentRejectedBySchema => 500
    case GatewayFailed(_) => 500
  }

  /** Longest pledge message the payment schema accepts. */
  const MaxMessage: nat := 500

  /** The payment schema's validators: `amount >= 1`, message within bounds. */
  predicate PaymentSchemaValid(p: Payment) {
    p.amount >= 1 && |p.message| <= MaxMessage
  }

  /** The guards of `createPayment`, in the order the handler checks them. */
  function CheckPledge(projects: map<ProjectId, Project>, user: Users.User, req: PledgeRequest, now: int): (r: Option<IntakeError>)
    ensures req.projectId !in projects ==> r == Some(ProjectNotFound)
    ensures req.projectId in projects && projects[req.projectId].status != Active ==> r == Some(ProjectNotActive)
    ensures req.projectId in projects && projects[req.projectId].status == Active && IsEnded(projects[req.projectId], now) ==>
      r == Some(ProjectEnded)
    ensures r.None? <==>
      && req.projectId in projects
      && projects[req.projectId].status == Active
      && !IsEnded(projects[req.projectId], now)
      && Users.HasPermission(user, "canDonate")
      && (Present(req.rewardTierId) ==>
            var tiers := projects[req.projectId].rewardTiers;
            exists i :: 0 <= i < |tiers| && tiers[i].id == req.rewardTierId.value
                        && FindTier(tiers, req.rewardTierId.value) == Some(i)
                        && !TierFull(tiers[i]) && req.amount >= tiers[i].amount)
    ensures Present(req.rewardTierId) && req.projectId in projects && r != Some(ProjectNotFound)
            && r != Some(ProjectNotActive) && r != Some(ProjectEnded) && r != Some(DonateForbidden) ==>
      (FindTier(projects[req.projectId].rewardTiers, req.rewardTierId.value).None? <==> r == Some(TierNotFound))
  {
    if req.projectId !in projects then Some(ProjectNotFound)
    else
      var p := projects[req.projectId];
      if p.status != Active then Some(ProjectNotActive)
      else if IsEnded(p, now) then Some(ProjectEnded)
      else if !Users.HasPermission(user, "canDonate") then Some(DonateForbidden)
      else if Present(req.rewardTierId) then
        match FindTier(p.rewardTiers, req.rewardTierId.value)
        case None => Some(TierNotFound)
        case Some(i) =>
          var t := p.rewardTiers[i];
          if TierFull(t) then Some(TierIsFull)
          else if req.amount < t.amount then Some(AmountBelowTier(t.amount))
          else None
      else None
  }

  /** `createPayment`: validate, save a pending payment, ask the gateway for an
      order and store its transaction id. A gateway failure happens after the first
      save, so it leaves a pending payment without a transaction id behind. */
  function CreatePayment(s: State, user: Users.User, req: PledgeRequest, now: int, newId: PaymentId,
                         gateway: Result<GatewayOrder, string>): (out: (Result<Payment, IntakeError>, State))
    ensures out.1.projects == s.projects && out.1.users == s.users
    ensures CheckPledge(s.projects, user, req, now).Some? ==>
      out.0 == Err(CheckPledge(s.projects, user, req, now).value) && out.1 == s
    ensures out.0.Ok? ==>
      && CheckPledge(s.projects, user, req, now).None?
      && gateway.Ok?
      && out.0.value.status == PaymentPending
      && out.0.value.user == user.id && out.0.value.project == req.projectId
      && out.0.value.amount == req.amount && out.0.value.rewardTier == req.rewardTierId
      && out.0.value.transactionId == Some(gateway.value.transactionId)
      && out.1.payments == s.payments + [out.0.value]
    ensures CheckPledge(s.projects, user, req, now).None? && req.amount >= 1 && |OrElse(req.message, "")| <= MaxMessage ==>
      (out.0.Ok? <==> gateway.Ok?)
    ensures out.1.payments == s.payments || (|out.1.payments| == |s.payments| + 1 && out.1.payments[..|s.payments|] == s.payments
                                             && out.1.payments[|s.payments|].status == PaymentPending)
  {
    match CheckPledge(s.projects, user, req, now)
    case Some(e) => (Err(e), s)
    case None =>
      var payment := Payment(newId, user.id, req.projectId, req.rewardTierId, req.amount, req.payMethod,
                             PaymentPending, req.anonymous.GetOr(false), OrElse(req.message, ""), None);
      if !PaymentSchemaValid(payment) then (Err(PaymentRejectedBySchema), s)
      else match gateway
        case Err(reason) => (Err(GatewayFailed(reason)), s.(payments := s.payments + [payment]))
        case Ok(order) =>
          var saved := payment.(transactionId := Some(order.transactionId));
          (Ok(saved), s.(payments := s.payments + [saved]))
  }

  /** Index of the first payment carrying `transactionId` (`findOne({ transactionId })`). */
  function FindByTransaction(ps: seq<Payment>, transactionId: string): (r: Option<nat>)
    ensures r.Some? ==> r.value < |ps| && ps[r.value].transactionId == Some(transactionId)
    ensures r.Some? ==> forall j :: 0 <= j < r.value ==> ps[j].transactionId != Some(transactionId)
    ensures r.None? ==> forall j :: 0 <= j < |ps| ==> ps[j].transactionId != Some(transactionId)
  {
    if |ps| == 0 then None
    else if ps[0].transactionId == Some(transactionId) then Some(0)
    else match FindByTransaction(ps[1..], transactionId)
      case None => None
      case Some(i) => Some(i + 1)
  }

  /** Index of the first payment with id `id` (`findById`). */
  function FindById(ps: seq<Payment>, id: PaymentId): (r: Option<nat>)
    ensures r.Some? ==> r.value < |ps| && ps[r.value].id == id
    ensures r.None? ==> forall j :: 0 <= j < |ps| ==> ps[j].id != id
  {
    if |ps| == 0 then None
    else if ps[0].id == id then Some(0)
    else match FindById(ps[1..], id)
      case None => None
      case Some(i) => Some(i + 1)
  }

  /** The effect of one completed payment on its project: credit the amount, append
      one backer, count the backer on the referenced tier if it exists, and move an
      active project to funded once the goal is reached. */
  function Credit(p: Project, pay: Payment, now: int): (p': Project)
    ensures p'.currentFunding == p.currentFunding + pay.amount
    ensures p'.backers == p.backers + [Backer(pay.user, pay.amount, pay.rewardTier, pay.anonymous, now)]
    ensures SumBackers(p'.backers) == SumBackers(p.backers) + pay.amount
    ensures |p'.rewardTiers| == |p.rewardTiers|
    ensures forall j :: 0 <= j < |p.rewardTiers| ==>
      p'.rewardTiers[j] ==
        if Present(pay.rewardTier) && FindTier(p.rewardTiers, pay.rewardTier.value) == Some(j)
        then p.rewardTiers[j].(currentBackers := p.rewardTiers[j].currentBackers + 1)
        else p.rewardTiers[j]
    ensures p'.status == if p.status == Active && p'.currentFunding >= p.fundingGoal then Funded else p.status
    ensures p' == p.(currentFunding := p'.currentFunding, backers := p'.backers,
                     rewardTiers := p'.rewardTiers, status := p'.status)
  {
    var funding := p.currentFunding + pay.amount;
    var backers := p.backers + [Backer(pay.user, pay.amount, pay.rewardTier, pay.anonymous, now)];
    assert backers[..|backers| - 1] == p.backers;
    var tiers :=
      if Present(pay.rewardTier) then
        match FindTier(p.rewardTiers, pay.rewardTier.value)
        case Some(i) => p.rewardTiers[i := p.rewardTiers[i].(currentBackers := p.rewardTiers[i].currentBackers + 1)]
        case None => p.rewardTiers
      else p.rewardTiers;
    var status := if funding >= p.fundingGoal && p.status == Active then Funded else p.status;
    p.(currentFunding := funding, backers := backers, rewardTiers := tiers, status := status)
  }

  /** `$addToSet: { supportedProjects }` on the backer, when the user exists. */
  function AddSupported(users: map<Users.UserId, Users.User>, uid: Users.UserId, pid: ProjectId): (r: map<Users.UserId, Users.User>)
    ensures r.Keys == users.Keys
    ensures forall u :: u in users && u != uid ==> r[u] == users[u]
    ensures uid in users ==> r[uid] == users[uid].(supportedProjects := r[uid].supportedProjects)
    ensures uid in users ==>
      && users[uid].supportedProjects <= r[uid].supportedProjects
      && |r[uid].supportedProjects| <= |users[uid].supportedProjects| + 1
      && forall q :: q in r[uid].supportedProjects <==> q in users[uid].supportedProjects || q == pid
    ensures uid in users && pid in users[uid].supportedProjects ==> r == users
  {
    if uid !in users then users
    else if pid in users[uid].supportedProjects then users
    else users[uid := users[uid].(supportedProjects := users[uid].supportedProjects + [pid])]
  }

  /** `$addToSet` twice is `$addToSet` once. */
  lemma AddSupportedIdempotent(users: map<Users.UserId, Users.User>, uid: Users.UserId, pid: ProjectId)
    ensures AddSupported(AddSupported(users, uid, pid), uid, pid) == AddSupported(users, uid, pid)
  {
  }

  /** The acknowledgement the webhook sends back. */
  datatype Ack = AckSuccess | AckNotFound | AckError

  /** Settle the pending payment at index `i` with the provider's verdict. This is
      the single "apply a settled payment" step; the webhook uses it, and so does the
      corrected poll path (`Poll`). */
  function Settle(s: State, i: nat, success: bool, now: int): (out: (Ack, State))
    requires i < |s.payments| && s.payments[i].status == PaymentPending
    ensures |out.1.payments| == |s.payments|
    ensures out.1.payments == s.payments[i := s.payments[i].(status := if success then Completed else PaymentFailed)]
    ensures !success ==> out == (AckSuccess, s.(payments := out.1.payments))
    ensures success && s.payments[i].project in s.projects ==>
      && out.0 == AckSuccess
      && out.1.projects == s.projects[s.payments[i].project := Credit(s.projects[s.payments[i].project], s.payments[i], now)]
      && out.1.users == AddSupported(s.users, s.payments[i].user, s.payments[i].project)
    ensures success && s.payments[i].project !in s.projects ==>
      out == (AckError, s.(payments := out.1.payments))
  {
    var pay := s.payments[i];
    var payments := s.payments[i := pay.(status := if success then Completed else PaymentFailed)];
    if !success then (AckSuccess, s.(payments := payments))
    else if pay.project !in s.projects then
      // `Project.findById` returned null: the handler throws after the payment was saved.
      (AckError, s.(payments := payments))
    else
      var projects := s.projects[pay.project := Credit(s.projects[pay.project], pay, now)];
      (AckSuccess, State(projects, payments, AddSupported(s.users, pay.user, pay.project)))
  }

  /** `paymentNotify`: the provider reports `status` for `transactionId`. Only a
      pending payment changes; for any other the answer is `SUCCESS` and nothing
      changes. The status becomes completed exactly when the report is 'success'. */
  function Notify(s: State, transactionId: string, status: string, now: int): (out: (Ack, State))
    ensures |out.1.payments| == |s.payments|
    ensures FindByTransaction(s.payments, transactionId).None? ==> out == (AckNotFound, s)
    ensures FindByTransaction(s.payments, transactionId).Some? &&
            s.payments[FindByTransaction(s.payments, transactionId).value].status != PaymentPending ==>
      out == (AckSuccess, s)
    ensures FindByTransaction(s.payments, transactionId).Some? &&
            s.payments[FindByTransaction(s.payments, transactionId).value].status == PaymentPending ==>
      var i := FindByTransaction(s.payments, transactionId).value;
      && out.1.payments[i].status == (if status == "success" then Completed else PaymentFailed)
      && (status != "success" ==> out == (AckSuccess, s.(payments := out.1.payments)))
      && (status == "success" && s.payments[i].project !in s.projects ==> out == (AckError, s.(payments := out.1.payments)))
      && (status == "success" && s.payments[i].project in s.projects ==>
            && out.0 == AckSuccess
            && out.1.projects == s.projects[s.payments[i].project := Credit(s.projects[s.payments[i].project], s.payments[i], now)]
            && out.1.users == AddSupported(s.users, s.payments[i].user, s.payments[i].project))
  {
    match FindByTransaction(s.payments, transactionId)
    case None => (AckNotFound, s)
    case Some(i) =>
      if s.payments[i].status != PaymentPending then (AckSuccess, s)
      else Settle(s, i, status == "success", now)
  }

  /** Replaying a notification changes nothing: the second delivery finds the
      payment already settled. */
  lemma NotifyIdempotent(s: State, transactionId: string, status: string, replayed: string, now: int, later: int)
    ensures var s1 := Notify(s, transactionId, status, now).1;
      Notify(s1, transactionId, replayed, later).1 == s1
    ensures var s1 := Notify(s, transactionId, status, now).1;
      FindByTransaction(s.payments, transactionId).Some? ==> Notify(s1, transactionId, replayed, later).0 == AckSuccess
  {
    var s1 := Notify(s, transactionId, status, now).1;
    match FindByTransaction(s.payments, transactionId)
    case None =>
    case Some(i) =>
      if s.payments[i].status == PaymentPending {
        SameTransactionIndex(s.payments, i, s.payments[i].(status := if status == "success" then Completed else PaymentFailed), transactionId);
      }
  }

  /** Rewriting the status of the payment found by a transaction id keeps it the one
      found. */
  lemma {:induction false} SameTransactionIndex(ps: seq<Payment>, i: nat, p: Payment, transactionId: string)
    requires FindByTransaction(ps, transactionId) == Some(i)
    requires p.transactionId == ps[i].transactionId
    ensures FindByTransaction(ps[i := p], transactionId) == Some(i)
  {
    if i > 0 {
      assert (ps[i := p])[1..] == ps[1..][i - 1 := p];
      SameTransactionIndex(ps[1..], i - 1, p, transactionId);
    }
  }

  /** The gateway's answer to `queryPaymentStatus`: a status string, or an error. */
  type GatewayStatus = Result<string, string>

  datatype PollError = PaymentNotFound | PollForbidden | PollGatewayFailed(reason: string)

  /** `getPaymentStatus` as written: a pending payment is re-queried and, when the
      gateway no longer says 'pending', its status is rewritten; the project is not
      credited (the handler leaves that step out). */
  function PollAsWritten(s: State, paymentId: PaymentId, viewer: Users.User, gateway: GatewayStatus): (out: (Result<Payment, PollError>, State))
    ensures out.1.projects == s.projects && out.1.users == s.users && |out.1.payments| == |s.payments|
    ensures FindById(s.payments, paymentId).None? ==> out == (Err(PaymentNotFound), s)
    ensures FindById(s.payments, paymentId).Some? ==>
      var i := FindById(s.payments, paymentId).value;
      var pay := s.payments[i];
      && (pay.user != viewer.id && viewer.role != Users.Admin ==> out == (Err(PollForbidden), s))
      && (pay.status != PaymentPending ==> out.1 == s && (out.0.Ok? ==> out.0.value == pay))
      && ((pay.user == viewer.id || viewer.role == Users.Admin) && pay.status != PaymentPending ==> out == (Ok(pay), s))
      && ((pay.user == viewer.id || viewer.role == Users.Admin) && pay.status == PaymentPending && gateway == Ok("pending") ==>
            out == (Ok(pay), s))
      && (gateway.Err? ==> out.1 == s && (out.0.Err? ==> out.0.error in {PollForbidden, PollGatewayFailed(gateway.error)}))
      && (gateway == Ok("pending") ==> out.1 == s)
      && ((pay.user == viewer.id || viewer.role == Users.Admin) && pay.status == PaymentPending ==>
            && (gateway.Err? ==> out.0 == Err(PollGatewayFailed(gateway.error)))
            && (gateway.Ok? ==> out.0 == Ok(out.1.payments[i]))
            && (gateway.Ok? && gateway.value != "pending" ==>
                  out.1.payments == s.payments[i := pay.(status := if gateway.value == "success" then Completed else PaymentFailed)]))
  {
    match FindById(s.payments, paymentId)
    case None => (Err(PaymentNotFound), s)
    case Some(i) =>
      var pay := s.payments[i];
      if pay.user != viewer.id && viewer.role != Users.Admin then (Err(PollForbidden), s)
      else if pay.status != PaymentPending then (Ok(pay), s)
      else match gateway
        case Err(reason) => (Err(PollGatewayFailed(reason)), s)
        case Ok(st) =>
          if st == "pending" then (Ok(pay), s)
          else
            var pay' := pay.(status := if st == "success" then Completed else PaymentFailed);
            (Ok(pay'), s.(payments := s.payments[i := pay']))
  }

  /** `getPaymentStatus` with the settlement step the handler's comment says it
      shares with the webhook: a completed poll is applied through `Settle`. */
  function Poll(s: State, paymentId: PaymentId, viewer: Users.User, gateway: GatewayStatus, now: int): (out: (Result<Payment, PollError>, State))
    ensures FindById(s.payments, paymentId).None? ==> out == (Err(PaymentNotFound), s)
    ensures FindById(s.payments, paymentId).Some? ==>
      var i := FindById(s.payments, paymentId).value;
      && (s.payments[i].user != viewer.id && viewer.role != Users.Admin ==> out == (Err(PollForbidden), s))
      && (s.payments[i].status != PaymentPending ==> out.1 == s)
      && (gateway == Ok("pending") ==> out.1 == s)
      && (gateway.Err? ==> out.1 == s)
      && (var allowed := s.payments[i].user == viewer.id || viewer.role == Users.Admin;
          allowed && s.payments[i].status == PaymentPending && gateway.Err? ==> out.0 == Err(PollGatewayFailed(gateway.error)))
      && (out.1 != s ==> s.payments[i].status == PaymentPending && gateway.Ok? && gateway.value != "pending"
                         && out.1 == Settle(s, i, gateway.value == "success", now).1)
      && (var allowed := s.payments[i].user == viewer.id || viewer.role == Users.Admin;
          && (allowed && s.payments[i].status != PaymentPending ==> out == (Ok(s.payments[i]), s))
          && (allowed && s.payments[i].status == PaymentPending && gateway == Ok("pending") ==> out == (Ok(s.payments[i]), s))
          && (allowed && s.payments[i].status == PaymentPending && gateway.Ok? && gateway.value != "pending" ==>
                var settled := Settle(s, i, gateway.value == "success", now).1;
                out == (Ok(settled.payments[i]), settled)))
    ensures out.0.Ok? ==> FindById(s.payments, paymentId).Some? && out.0.value == out.1.payments[FindById(s.payments, paymentId).value]
  {
    match FindById(s.payments, paymentId)
    case None => (Err(PaymentNotFound), s)
    case Some(i) =>
      var pay := s.payments[i];
      if pay.user != viewer.id && viewer.role != Users.Admin then (Err(PollForbidden), s)
      else if pay.status != PaymentPending then (Ok(pay), s)
      else match gateway
        case Err(reason) => (Err(PollGatewayFailed(reason)), s)
        case Ok(st) =>
          if st == "pending" then (Ok(pay), s)
          else
            var settled := Settle(s, i, st == "success", now).1;
            (Ok(settled.payments[i]), settled)
  }

  // ---------------------------------------------------------------------------
  // The funding invariant

  /** Total of the completed payments of project `pid`. */
  function CompletedTotal(ps: seq<Payment>, pid: ProjectId): int {
    if |ps| == 0 then 0
    else CompletedTotal(ps[..|ps| - 1], pid)
         + (if ps[|ps| - 1].project == pid && ps[|ps| - 1].status == Completed then ps[|ps| - 1].amount else 0)
  }

  /** Every payment names an existing project, and each project's funding equals
      both the sum of its backers and the sum of its completed payments. */
  ghost predicate Consistent(s: State) {
    && (forall i :: 0 <= i < |s.payments| ==> s.payments[i].project in s.projects)
    && (forall pid :: pid in s.projects ==>
          && s.projects[pid].currentFunding == SumBackers(s.projects[pid].backers)
          && s.projects[pid].currentFunding == CompletedTotal(s.payments, pid))
  }

  lemma {:induction false} CompletedTotalAppend(ps: seq<Payment>, p: Payment, pid: ProjectId)
    ensures CompletedTotal(ps + [p], pid) ==
      CompletedTotal(ps, pid) + (if p.project == pid && p.status == Completed then p.amount else 0)
  {
    assert (ps + [p])[..|ps + [p]| - 1] == ps;
  }

  /** Changing the status of one pending payment moves the completed total of its
      project by its amount if it became completed, and leaves every other total. */
  lemma {:induction false} CompletedTotalUpdate(ps: seq<Payment>, i: nat, st: PaymentStatus, pid: ProjectId)
    requires i < |ps| && ps[i].status == PaymentPending
    ensures CompletedTotal(ps[i := ps[i].(status := st)], pid) ==
      CompletedTotal(ps, pid) + (if ps[i].project == pid && st == Completed then ps[i].amount else 0)
    decreases |ps|
  {
    var qs := ps[i := ps[i].(status := st)];
    var n := |ps| - 1;
    assert qs[..n] == if i == n then ps[..n] else ps[..n][i := ps[i].(status := st)];
    if i < n {
      CompletedTotalUpdate(ps[..n], i, st, pid);
    }
  }

  lemma {:induction false} SettlePreservesConsistency(s: State, i: nat, success: bool, now: int)
    requires i < |s.payments| && s.payments[i].status == PaymentPending
    requires Consistent(s)
    ensures Consistent(Settle(s, i, success, now).1)
  {
    var s' := Settle(s, i, success, now).1;
    var pay := s.payments[i];
    forall pid | pid in s'.projects
      ensures s'.projects[pid].currentFunding == SumBackers(s'.projects[pid].backers)
      ensures s'.projects[pid].currentFunding == CompletedTotal(s'.payments, pid)
    {
      CompletedTotalUpdate(s.payments, i, if success then Completed else PaymentFailed, pid);
    }
  }

  lemma {:induction false} NotifyPreservesConsistency(s: State, transactionId: string, status: string, now: int)
    requires Consistent(s)
    ensures Consistent(Notify(s, transactionId, status, now).1)
  {
    match FindByTransaction(s.payments, transactionId)
    case None =>
    case Some(i) =>
      if s.payments[i].status == PaymentPending {
        SettlePreservesConsistency(s, i, status == "success", now);
      }
  }

  lemma {:induction false} PollPreservesConsistency(s: State, paymentId: PaymentId, viewer: Users.User, gateway: GatewayStatus, now: int)
    requires Consistent(s)
    ensures Consistent(Poll(s, paymentId, viewer, gateway, now).1)
    ensures FindById(s.payments, paymentId).Some? && gateway == Ok("success") ==>
      var pay := s.payments[FindById(s.payments, paymentId).value];
      var s' := Poll(s, paymentId, viewer, gateway, now).1;
      (pay.user == viewer.id || viewer.role == Users.Admin) && pay.status == PaymentPending ==>
        && s'.payments[FindById(s.payments, paymentId).value].status == Completed
        && s'.projects[pay.project].currentFunding == s.projects[pay.project].currentFunding + pay.amount
        && s'.projects[pay.project].currentFunding == CompletedTotal(s'.payments, pay.project)
  {
    match FindById(s.payments, paymentId)
    case None =>
    case Some(i) =>
      if s.payments[i].status == PaymentPending && gateway.Ok? && gateway.value != "pending" {
        SettlePreservesConsistency(s, i, gateway.value == "success", now);
      }
  }

  lemma {:induction false} CreatePaymentPreservesConsistency(s: State, user: Users.User, req: PledgeRequest, now: int,
                                                             newId: PaymentId, gateway: Result<GatewayOrder, string>)
    requires Consistent(s)
    ensures Consistent(CreatePayment(s, user, req, now, newId, gateway).1)
  {
    var s' := CreatePayment(s, user, req, now, newId, gateway).1;
    if s'.payments != s.payments {
      var p := s'.payments[|s.payments|];
      assert s'.payments == s.payments + [p];
      forall pid | pid in s'.projects
        ensures s'.projects[pid].currentFunding == CompletedTotal(s'.payments, pid)
      {
        CompletedTotalAppend(s.payments, p, pid);
      }
    }
  }

  /** The poll path as written breaks the invariant: a payment the poll marks
      completed is never credited, and the webhook that follows is a no-op. */
  lemma PollAsWrittenLosesCredit()
    ensures var p := Project("creator", "t", "d", "s", "其他", [], [], 1000, 0, [], [], 0, 10, Active,
                             None, None, None, [], [], 0);
      var pay := Payment("pay", "backer", "proj", None, 100, Alipay, PaymentPending, false, "", Some("tx"));
      var viewer := Users.NewUser("backer", "b@example.com");
      var s := State(map["proj" := p], [pay], map[]);
      var polled := PollAsWritten(s, "pay", viewer, Ok("success")).1;
      var notified := Notify(polled, "tx", "success", 5).1;
      && Consistent(s)
      && notified.payments[0].status == Completed
      && notified.projects["proj"].currentFunding == 0
      && !Consistent(notified)
  {
    var p := Project("creator", "t", "d", "s", "其他", [], [], 1000, 0, [], [], 0, 10, Active,
                     None, None, None, [], [], 0);
    var pay := Payment("pay", "backer", "proj", None, 100, Alipay, PaymentPending, false, "", Some("tx"));
    var s := State(map["proj" := p], [pay], map[]);
    var polled := PollAsWritten(s, "pay", Users.NewUser("backer", "b@example.com"), Ok("success")).1;
    assert polled.payments == [pay.(status := Completed)];
    assert CompletedTotal(polled.payments, "proj") == 100 by {
      assert polled.payments[..0] == [];
    }
    assert CompletedTotal(s.payments, "proj") == 0 by {
      assert s.payments[..0] == [];
    }
  }

  /** A pledge accepted while a tier has one place left can, once another pending
      pledge to the same tier settles first, still be settled: settlement does not
      re-check `maxBackers`, so the tier ends above its cap. */
  lemma SettlementDoesNotRecheckTierCap()
    ensures var t := RewardTier("tier", 10, 1, 1);
      var p := Project("creator", "t", "d", "s", "其他", [], [], 1000, 10, [Backer("a", 10, Some("tier"), false, 0)], [t],
                       0, 10, Active, None, None, None, [], [], 0);
      var pay := Payment("pay", "b", "proj", Some("tier"), 10, Alipay, PaymentPending, false, "", Some("tx"));
      var s := State(map["proj" := p], [pay], map[]);
      var s' := Notify(s, "tx", "success", 5).1;
      s'.projects["proj"].rewardTiers[0].currentBackers == 2 > s'.projects["proj"].rewardTiers[0].maxBackers
  {
  }
}

=== FILE: privacy.dfy ===
/** Privacy policies and per-user privacy settings (services/privacyService.js,
    over the records of models/PrivacyPolicy.js and models/UserPrivacySettings.js).
    The policy collection is a sequence in storage order, the settings
    collection a map from user id; the clock is a parameter `now`. Every write
    the service makes before it throws stays written, so each operation
    returns the collection as it is after the call together with its result. */
module Privacy {
  import opened Wrappers
  import opened Users

  // ---------------------------------------------------------------------------
  // Policies

  datatype Policy = Policy(version: string, content: string, isCurrent: bool,
                           publishedAt: int, createdBy: UserId, updatedAt: int)

  datatype PrivacyError =
    | PolicyNotFound     // the version to update does not exist
    | ValidationFailed   // a required field is missing or a value does not fit its schema path
    | DuplicateVersion   // the unique index on `version`

  predicate AtMostOneCurrent(ps: seq<Policy>) {
    forall i, j :: 0 <= i < |ps| && 0 <= j < |ps| && ps[i].isCurrent && ps[j].isCurrent ==> i == j
  }

  predicate UniqueVersions(ps: seq<Policy>) {
    forall i, j :: 0 <= i < |ps| && 0 <= j < |ps| && ps[i].version == ps[j].version ==> i == j
  }

  /** `updateMany({}, { $set: { isCurrent: false } })`. */
  function ClearCurrent(ps: seq<Policy>): (r: seq<Policy>)
    ensures |r| == |ps|
    ensures forall i :: 0 <= i < |ps| ==> r[i] == ps[i].(isCurrent := false)
  {
    seq(|ps|, i requires 0 <= i < |ps| => ps[i].(isCurrent := false))
  }

  /** `findOne({ version })`: the first policy with that version. */
  function IndexOfVersion(ps: seq<Policy>, version: string): (r: Option<nat>)
    ensures r.Some? ==> r.value < |ps| && ps[r.value].version == version
    ensures r.None? <==> forall i :: 0 <= i < |ps| ==> ps[i].version != version
  {
    if |ps| == 0 then None
    else if ps[0].version == version then Some(0)
    else match IndexOfVersion(ps[1..], version)
      case None => None
      case Some(i) => Some(i + 1)
  }

  /** `getCurrentPrivacyPolicy`: the first policy marked current. */
  function CurrentPolicy(ps: seq<Policy>): (r: Option<Policy>)
    ensures r.Some? ==> r.value in ps && r.value.isCurrent
    ensures r.None? <==> forall i :: 0 <= i < |ps| ==> !ps[i].isCurrent
  {
    if |ps| == 0 then None
    else if ps[0].isCurrent then Some(ps[0])
    else
      var r := CurrentPolicy(ps[1..]);
      assert forall i :: 1 <= i < |ps| ==> ps[i] == ps[1..][i - 1];
      r
  }

  /** `createPrivacyPolicy`. A truthy `isCurrent` clears every other policy
      first, before the new one is validated; the new policy is current only
      when asked, and not current by default. */
  function CreatePrivacyPolicy(ps: seq<Policy>, version: Option<string>, content: Option<string>,
                               isCurrent: Option<bool>, creatorId: UserId, now: int): (out: (seq<Policy>, Result<Policy, PrivacyError>))
    ensures var cleared := if isCurrent == Some(true) then ClearCurrent(ps) else ps;
      && (out.1.Err? ==> out.0 == cleared)
      && (out.1.Ok? ==> out.0 == cleared + [out.1.value])
    ensures out.1.Ok? <==> Present(version) && Present(content) && IndexOfVersion(ps, version.value).None?
    ensures !Present(version) || !Present(content) ==> out.1 == Err(ValidationFailed)
    ensures out.1.Ok? ==>
      && out.1.value.version == version.value && out.1.value.content == content.value
      && (out.1.value.isCurrent <==> isCurrent == Some(true))
      && out.1.value.publishedAt == now && out.1.value.createdBy == creatorId
  {
    var cleared := if isCurrent == Some(true) then ClearCurrent(ps) else ps;
    if !Present(version) || !Present(content) then (cleared, Err(ValidationFailed))
    else if IndexOfVersion(ps, version.value).Some? then (cleared, Err(DuplicateVersion))
    else (cleared + [Policy(version.value, content.value, isCurrent.GetOr(false), now, creatorId, now)], Ok(Policy(version.value, content.value, isCurrent.GetOr(false), now, creatorId, now)))
  }

  /** Creating a policy keeps versions unique and at most one policy current;
      a current one created becomes the current policy. */
  lemma CreateKeepsInvariants(ps: seq<Policy>, version: Option<string>, content: Option<string>,
                              isCurrent: Option<bool>, creatorId: UserId, now: int)
    requires AtMostOneCurrent(ps) && UniqueVersions(ps)
    ensures var out := CreatePrivacyPolicy(ps, version, content, isCurrent, creatorId, now);
      && AtMostOneCurrent(out.0) && UniqueVersions(out.0)
      && (out.1.Ok? && isCurrent == Some(true) ==> CurrentPolicy(out.0) == Some(out.1.value))
  {
    var out := CreatePrivacyPolicy(ps, version, content, isCurrent, creatorId, now);
    if out.1.Ok? && isCurrent == Some(true) {
      var n := |ps|;
      assert forall i :: 0 <= i < n ==> !out.0[i].isCurrent;
      CurrentIsFirstMarked(out.0, n);
    }
  }

  /** When only the policy at `k` is marked current, it is the current policy. */
  lemma {:induction false} CurrentIsFirstMarked(ps: seq<Policy>, k: nat)
    requires k < |ps| && ps[k].isCurrent
    requires forall i :: 0 <= i < k ==> !ps[i].isCurrent
    ensures CurrentPolicy(ps) == Some(ps[k])
  {
    if k > 0 {
      CurrentIsFirstMarked(ps[1..], k - 1);
    }
  }

  /** A create that asks to be current but fails validation has already
      cleared the current policy: afterwards none is current. */
  lemma RejectedCurrentCreateLeavesNoCurrent(ps: seq<Policy>, content: Option<string>, creatorId: UserId, now: int)
    ensures var out := CreatePrivacyPolicy(ps, None, content, Some(true), creatorId, now);
      out.1 == Err(ValidationFailed) && CurrentPolicy(out.0).None? && |out.0| == |ps|
  {
  }

  /** The policy as `updatePrivacyPolicy` assigns it in memory: a falsy content
      keeps the old content, an absent `isCurrent` keeps the old flag. */
  function Assigned(loaded: Policy, content: Option<string>, isCurrent: Option<bool>, now: int): (p: Policy)
    ensures p.version == loaded.version && p.createdBy == loaded.createdBy && p.publishedAt == loaded.publishedAt
    ensures p.content == if Present(content) then content.value else loaded.content
    ensures p.isCurrent == if isCurrent.Some? then isCurrent.value else loaded.isCurrent
    ensures p.updatedAt == now
  {
    loaded.(content := OrElse(content, loaded.content), isCurrent := isCurrent.GetOr(loaded.isCurrent), updatedAt := now)
  }

  /** `updatePrivacyPolicy` as written. The document is loaded before the other
      policies are cleared, and the save only writes paths whose value differs
      from what was loaded; so re-marking the current policy as current is not
      written and the clear wins. */
  function UpdatePrivacyPolicyAsWritten(ps: seq<Policy>, version: string, content: Option<string>,
                                        isCurrent: Option<bool>, now: int): (out: (seq<Policy>, Result<Policy, PrivacyError>))
    ensures IndexOfVersion(ps, version).None? ==> out == (ps, Err(PolicyNotFound))
    ensures out.1.Ok? <==> IndexOfVersion(ps, version).Some? && Assigned(ps[IndexOfVersion(ps, version).value], content, isCurrent, now).content != ""
    ensures out.1.Err? && IndexOfVersion(ps, version).Some? ==>
      out == (if isCurrent == Some(true) then ClearCurrent(ps) else ps, Err(ValidationFailed))
    ensures out.1.Ok? ==>
      var i := IndexOfVersion(ps, version).value;
      && out.1.value == Assigned(ps[i], content, isCurrent, now)
      && |out.0| == |ps|
      && (forall j :: 0 <= j < |ps| && j != i ==>
            out.0[j] == if isCurrent == Some(true) then ps[j].(isCurrent := false) else ps[j])
      && out.0[i] == out.1.value.(isCurrent := out.0[i].isCurrent)
      && (out.0[i].isCurrent <==> out.1.value.isCurrent && !(isCurrent == Some(true) && ps[i].isCurrent))
  {
    match IndexOfVersion(ps, version)
    case None => (ps, Err(PolicyNotFound))
    case Some(i) =>
      var loaded := ps[i];
      var cleared := if isCurrent == Some(true) then ClearCurrent(ps) else ps;
      var target := Assigned(loaded, content, isCurrent, now);
      if target.content == "" then (cleared, Err(ValidationFailed))
      else
        var written := cleared[i].(content := target.content, updatedAt := now,
                                   isCurrent := if target.isCurrent != loaded.isCurrent then target.isCurrent else cleared[i].isCurrent);
        (cleared[i := written], Ok(target))
  }

  /** `updatePrivacyPolicy` with every assigned path written. */
  function UpdatePrivacyPolicy(ps: seq<Policy>, version: string, content: Option<string>,
                               isCurrent: Option<bool>, now: int): (out: (seq<Policy>, Result<Policy, PrivacyError>))
    ensures IndexOfVersion(ps, version).None? ==> out == (ps, Err(PolicyNotFound))
    ensures out.1.Ok? <==> IndexOfVersion(ps, version).Some? && Assigned(ps[IndexOfVersion(ps, version).value], content, isCurrent, now).content != ""
    ensures out.1.Ok? ==>
      var i := IndexOfVersion(ps, version).value;
      var cleared := if isCurrent == Some(true) then ClearCurrent(ps) else ps;
      && out.1.value == Assigned(ps[i], content, isCurrent, now)
      && out.0 == cleared[i := out.1.value]
  {
    match IndexOfVersion(ps, version)
    case None => (ps, Err(PolicyNotFound))
    case Some(i) =>
      var cleared := if isCurrent == Some(true) then ClearCurrent(ps) else ps;
      var target := Assigned(ps[i], content, isCurrent, now);
      if target.content == "" then (cleared, Err(ValidationFailed))
      else (cleared[i := target], Ok(target))
  }

  /** Updating keeps at most one policy current, and a policy marked current
      by the update becomes the current policy. */
  lemma UpdateKeepsOneCurrent(ps: seq<Policy>, version: string, content: Option<string>, isCurrent: Option<bool>, now: int)
    requires AtMostOneCurrent(ps)
    ensures var out := UpdatePrivacyPolicy(ps, version, content, isCurrent, now);
      && AtMostOneCurrent(out.0)
      && (out.1.Ok? && isCurrent == Some(true) ==> CurrentPolicy(out.0) == Some(out.1.value))
  {
    var out := UpdatePrivacyPolicy(ps, version, content, isCurrent, now);
    if out.1.Ok? && isCurrent == Some(true) {
      var i := IndexOfVersion(ps, version).value;
      assert forall j :: 0 <= j < |ps| && j != i ==> !out.0[j].isCurrent;
      CurrentIsFirstMarked(out.0, i);
    }
  }

  /** The update as written, asked to keep the current policy current, leaves
      no policy current at all, while the policy it returns claims to be. */
  lemma UpdateAsWrittenDropsCurrent(ps: seq<Policy>, version: string, content: Option<string>, now: int)
    requires CurrentPolicy(ps).Some? && CurrentPolicy(ps).value.version == version
    requires UniqueVersions(ps)
    requires Present(content) || CurrentPolicy(ps).value.content != ""
    ensures var out := UpdatePrivacyPolicyAsWritten(ps, version, content, Some(true), now);
      && out.1.Ok? && out.1.value.isCurrent
      && CurrentPolicy(out.0).None?
  {
    var out := UpdatePrivacyPolicyAsWritten(ps, version, content, Some(true), now);
    var i := IndexOfVersion(ps, version).value;
    var c :| 0 <= c < |ps| && ps[c] == CurrentPolicy(ps).value;
    assert c == i;
    assert forall j :: 0 <= j < |out.0| ==> !out.0[j].isCurrent;
  }

  // ---------------------------------------------------------------------------
  // Settings

  /** A stored settings value: a boolean flag, a string, a date, or unset. */
  datatype Setting = Flag(b: bool) | Word(s: string) | Time(t: int) | Nothing

  /** The schema paths of a settings record other than `user`. */
  datatype Path =
    | ShowRealName | ShowEmail | ShowBackedProjects | ShowCreatedProjects | AllowEmailContact
    | ReceiveNotifications | ReceiveMarketingEmails | ReceiveProjectUpdates | ReceiveNewsletter
    | Visibility | AgreedVersion | AgreedAt | UpdatedAt

  /** The boolean paths. */
  predicate IsFlag(k: Path) {
    !(k.Visibility? || k.AgreedVersion? || k.AgreedAt? || k.UpdatedAt?)
  }

  /** The default of each boolean path. */
  function FlagDefault(k: Path): bool
    requires IsFlag(k)
  {
    match k
    case ShowRealName => false
    case ShowEmail => false
    case ReceiveMarketingEmails => false
    case ReceiveNewsletter => false
    case _ => true
  }

  /** A settings record: its owner and its other schema paths. */
  datatype Settings = Settings(user: UserId, fields: map<Path, Setting>)

  /** JS truthiness of a stored value. */
  predicate TruthySetting(v: Setting) {
    match v
    case Flag(b) => b
    case Word(s) => s != ""
    case Time(_) => true
    case Nothing => false
  }

  /** What each path's schema accepts: the visibility enum, booleans, a string
      version and dates; both optional paths may be unset. */
  predicate FitsPath(k: Path, v: Setting) {
    match k
    case Visibility => v.Word? && v.s in {"public", "registered", "private"}
    case AgreedVersion => v.Word? || v.Nothing?
    case AgreedAt => v.Time? || v.Nothing?
    case UpdatedAt => v.Time? || v.Nothing?
    case _ => v.Flag?
  }

  predicate AllFit(fields: map<Path, Setting>) {
    forall k :: k in fields ==> FitsPath(k, fields[k])
  }

  /** A record holds every path, each with a value its schema accepts. */
  predicate ValidSettings(s: Settings) {
    (forall k: Path :: k in s.fields) && AllFit(s.fields)
  }

  /** Setting a path to a value it accepts keeps every value fitting. */
  lemma SetFits(fields: map<Path, Setting>, k: Path, v: Setting)
    requires AllFit(fields) && FitsPath(k, v)
    ensures AllFit(fields[k := v])
  {
  }

  /** `createDefaultPrivacySettings`: the schema defaults, agreement to the
      current policy if there is one, agreed now. */
  function DefaultSettings(userId: UserId, current: Option<Policy>, now: int): (s: Settings)
    ensures ValidSettings(s) && s.user == userId
    ensures s.fields[AgreedVersion] == if current.Some? then Word(current.value.version) else Nothing
    ensures s.fields[Visibility] == Word("public")
    ensures forall k :: IsFlag(k) ==> s.fields[k] == Flag(FlagDefault(k))
  {
    var agreed := if current.Some? then Word(current.value.version) else Nothing;
    var fs := map k: Path :: DefaultValue(k, agreed, now);
    Settings(userId, fs)
  }

  /** The value `createDefaultPrivacySettings` gives a path; `updatedAt` is
      stamped by the save. */
  function DefaultValue(k: Path, agreed: Setting, now: int): Setting {
    match k
    case Visibility => Word("public")
    case AgreedVersion => agreed
    case AgreedAt => Time(now)
    case UpdatedAt => Time(now)
    case _ => Flag(FlagDefault(k))
  }

  type SettingsStore = map<UserId, Settings>

  /** `getUserPrivacySettings`: the stored record, or a default one, saved. */
  function GetUserPrivacySettings(store: SettingsStore, ps: seq<Policy>, userId: UserId, now: int): (out: (SettingsStore, Settings))
    ensures userId in store ==> out == (store, store[userId])
    ensures userId !in store ==> out.0 == store[userId := out.1] && out.1 == DefaultSettings(userId, CurrentPolicy(ps), now)
  {
    if userId in store then (store, store[userId])
    else (store[userId := DefaultSettings(userId, CurrentPolicy(ps), now)], DefaultSettings(userId, CurrentPolicy(ps), now))
  }

  /** The copy loop of `updateUserPrivacySettings`: `key in privacySettings`
      holds for every schema path of a document, whose accessors live on the
      prototype, so every given path is written, whether or not the stored
      record holds a value for it. */
  function Overwrite(fields: map<Path, Setting>, data: map<Path, Setting>): (m: map<Path, Setting>)
    ensures m.Keys == fields.Keys + data.Keys
    ensures forall k :: k in data ==> m[k] == data[k]
    ensures forall k :: k in fields && k !in data ==> m[k] == fields[k]
  {
    map k | k in fields.Keys + data.Keys :: if k in data then data[k] else fields[k]
  }

  /** `updateUserPrivacySettings`. A missing record is first created with the
      defaults (and that save stays); every given schema path is written,
      never `user`; a truthy agreed version sets the agreement date; the save
      stamps `updatedAt` and fails on a value its path does not accept. */
  function UpdateUserPrivacySettings(store: SettingsStore, ps: seq<Policy>, userId: UserId,
                                     data: map<Path, Setting>, now: int): (out: (SettingsStore, Result<Settings, PrivacyError>))
    ensures var base := GetUserPrivacySettings(store, ps, userId, now);
      && (out.1.Err? ==> out.0 == base.0 && out.1.error == ValidationFailed)
      && (out.1.Ok? ==> out.0 == base.0[userId := out.1.value])
    ensures out.1.Ok? ==>
      var before := GetUserPrivacySettings(store, ps, userId, now).1;
      var after := out.1.value;
      var agrees := AgreedVersion in data && TruthySetting(data[AgreedVersion]);
      && after.user == before.user
      && after.fields.Keys == before.fields.Keys + data.Keys + {UpdatedAt} + (if agrees then {AgreedAt} else {})
      && after.fields[UpdatedAt] == Time(now)
      && (forall k :: k in data && k != AgreedAt && k != UpdatedAt ==> after.fields[k] == data[k])
      && (forall k :: k in before.fields && k !in data && k != AgreedAt && k != UpdatedAt ==> after.fields[k] == before.fields[k])
      && (agrees ==> after.fields[AgreedAt] == Time(now))
      && (!agrees && AgreedAt in data ==> after.fields[AgreedAt] == data[AgreedAt])
  {
    var got := GetUserPrivacySettings(store, ps, userId, now);
    var saved := got.1.(fields := Merged(got.1.fields, data, now));
    if !AllFit(saved.fields) then (got.0, Err(ValidationFailed))
    else (got.0[userId := saved], Ok(saved))
  }

  /** The paths as saved by `updateUserPrivacySettings`: the copy loop, the
      agreement date set by a truthy agreed version, and the save's
      `updatedAt` stamp. */
  function Merged(fields: map<Path, Setting>, data: map<Path, Setting>, now: int): (m: map<Path, Setting>)
    ensures var agrees := AgreedVersion in data && TruthySetting(data[AgreedVersion]);
      && m.Keys == fields.Keys + data.Keys + {UpdatedAt} + (if agrees then {AgreedAt} else {})
      && m[UpdatedAt] == Time(now)
      && (forall k :: k in data && k != AgreedAt && k != UpdatedAt ==> m[k] == data[k])
      && (forall k :: k in fields && k !in data && k != AgreedAt && k != UpdatedAt ==> m[k] == fields[k])
      && (agrees ==> m[AgreedAt] == Time(now))
      && (!agrees && AgreedAt in data ==> m[AgreedAt] == data[AgreedAt])
  {
    var merged := Overwrite(fields, data);
    var refreshed := if AgreedVersion in data && TruthySetting(data[AgreedVersion])
                     then merged[AgreedAt := Time(now)] else merged;
    refreshed[UpdatedAt := Time(now)]
  }

  /** `hasUserAgreedToLatestPolicy`. */
  predicate HasUserAgreedToLatestPolicy(ps: seq<Policy>, store: SettingsStore, userId: UserId) {
    match CurrentPolicy(ps)
    case None => true
    case Some(p) => userId in store && AgreedVersion in store[userId].fields && store[userId].fields[AgreedVersion] == Word(p.version)
  }

  /** A user with no settings record agrees only while there is no current policy. */
  lemma NoSettingsMeansNotAgreed(ps: seq<Policy>, store: SettingsStore, userId: UserId)
    requires userId !in store
    ensures HasUserAgreedToLatestPolicy(ps, store, userId) <==> CurrentPolicy(ps).None?
  {
  }

  /** Agreeing to the current policy's version through a settings update makes
      the user agreed, whether or not they had a record before. */
  lemma AgreeingMakesAgreed(store: SettingsStore, ps: seq<Policy>, userId: UserId, now: int)
    requires CurrentPolicy(ps).Some?
    requires userId in store ==> ValidSettings(store[userId])
    ensures var out := UpdateUserPrivacySettings(store, ps, userId, map[AgreedVersion := Word(CurrentPolicy(ps).value.version)], now);
      out.1.Ok? && HasUserAgreedToLatestPolicy(ps, out.0, userId)
  {
    var data := map[AgreedVersion := Word(CurrentPolicy(ps).value.version)];
    var base := GetUserPrivacySettings(store, ps, userId, now).1;
    assert ValidSettings(base);
    MergedFits(base.fields, data, now);
    assert Merged(base.fields, data, now)[AgreedVersion] == data[AgreedVersion];
  }

  /** A stored record that holds no value for a path still takes the value
      the request gives it, and a truthy agreed version still sets the
      agreement date on it. */
  lemma UpdateWritesMissingPath(store: SettingsStore, ps: seq<Policy>, userId: UserId, version: string, now: int)
    requires userId in store && AllFit(store[userId].fields)
    requires ShowEmail !in store[userId].fields && AgreedAt !in store[userId].fields && version != ""
    ensures var out := UpdateUserPrivacySettings(store, ps, userId,
                                                 map[ShowEmail := Flag(true), AgreedVersion := Word(version)], now);
      && out.1.Ok?
      && out.1.value.fields[ShowEmail] == Flag(true)
      && out.1.value.fields[AgreedVersion] == Word(version)
      && out.1.value.fields[AgreedAt] == Time(now)
  {
    MergedFits(store[userId].fields, map[ShowEmail := Flag(true), AgreedVersion := Word(version)], now);
  }

  /** Saving accepted values over a valid record leaves only accepted values. */
  lemma MergedFits(fields: map<Path, Setting>, data: map<Path, Setting>, now: int)
    requires AllFit(fields) && AllFit(data)
    ensures AllFit(Merged(fields, data, now))
  {
    var merged := Overwrite(fields, data);
    OverwriteFits(fields, data);
    SetFits(merged, AgreedAt, Time(now));
    SetFits(merged, UpdatedAt, Time(now));
    SetFits(merged[AgreedAt := Time(now)], UpdatedAt, Time(now));
  }

  /** Overwriting fitting values with fitting values leaves fitting values. */
  lemma OverwriteFits(fields: map<Path, Setting>, data: map<Path, Setting>)
    requires AllFit(fields) && AllFit(data)
    ensures AllFit(Overwrite(fields, data))
  {
  }

  /** A user who gets a fresh record agrees to whatever policy was current. */
  lemma FreshRecordAgrees(store: SettingsStore, ps: seq<Policy>, userId: UserId, now: int)
    requires userId !in store
    ensures var out := GetUserPrivacySettings(store, ps, userId, now);
      HasUserAgreedToLatestPolicy(ps, out.0, userId)
  {
  }

  /** Publishing a new current version withdraws every agreement that named
      another version. */
  lemma NewCurrentPolicyNeedsAgreement(ps: seq<Policy>, store: SettingsStore, userId: UserId,
                                       version: string, content: string, creatorId: UserId, now: int)
    requires version != "" && content != "" && IndexOfVersion(ps, version).None?
    ensures var out := CreatePrivacyPolicy(ps, Some(version), Some(content), Some(true), creatorId, now);
      HasUserAgreedToLatestPolicy(out.0, store, userId) <==>
        userId in store && AgreedVersion in store[userId].fields && store[userId].fields[AgreedVersion] == Word(version)
  {
    var out := CreatePrivacyPolicy(ps, Some(version), Some(content), Some(true), creatorId, now);
    assert forall i :: 0 <= i < |ps| ==> !out.0[i].isCurrent;
    CurrentIsFirstMarked(out.0, |ps|);
  }

  /** Under at most one current policy, a user has agreed to the latest policy
      exactly when no policy is current or their record names the version of
      the policy that is. */
  lemma AgreedMeansNamesCurrent(ps: seq<Policy>, store: SettingsStore, userId: UserId)
    requires AtMostOneCurrent(ps)
    ensures HasUserAgreedToLatestPolicy(ps, store, userId) <==>
      || (forall j :: 0 <= j < |ps| ==> !ps[j].isCurrent)
      || (exists j :: 0 <= j < |ps| && ps[j].isCurrent &&
            userId in store && AgreedVersion in store[userId].fields && store[userId].fields[AgreedVersion] == Word(ps[j].version))
  {
    match CurrentPolicy(ps)
    case None =>
    case Some(p) =>
      var k :| 0 <= k < |ps| && ps[k] == p;
      assert forall j :: 0 <= j < |ps| && ps[j].isCurrent ==> j == k;
  }
}

=== FILE: project_lifecycle.dfy ===
/** The project lifecycle handlers of controllers/projectController.js:
    draft -> pending -> (scheduled | active | draft) -> canceled, the edit filter
    once a project has left review, and the listing visibility rule.

    `findById` is given to each handler as an `Option<Project>`; a handler answers
    with the project it saves or with the HTTP error it sends. */
module ProjectLifecycle {
  import opened Wrappers
  import Users
  import opened ProjectModel
  import opened JsStrings

  datatype LifecycleError =
    | ProjectNotFound
    | Forbidden
    | WrongStatus
    | Incomplete(fields: seq<string>)
    | NoRewardTiers
    | NoImages
    | SaveFailed

  function HttpStatus(e: LifecycleError): int {
    match e
    case ProjectNotFound => 404
    case Forbidden => 403
    case WrongStatus => 400
    case Incomplete(_) => 400
    case NoRewardTiers => 400
    case NoImages => 400
    case SaveFailed => 500
  }

  /** The documented status machine, independent of the handlers: submit, approve
      (now or later), reject, cancel, and funding. */
  predicate Step(a: Status, b: Status) {
    || (a == Draft && b == Pending)
    || (a == Pending && b in {Scheduled, Active, Draft})
    || (a in {Active, Scheduled} && b == Canceled)
    || (a == Active && b == Funded)
  }

  /** Only the creator or an admin may edit or cancel a project. */
  predicate MayManage(p: Project, viewer: Users.User) {
    p.creator == viewer.id || viewer.role == Users.Admin
  }

  // ---------------------------------------------------------------------------
  // createProject

  /** A reward tier as the request sends it: `currentBackers` may be missing. */
  datatype TierRequest = TierRequest(id: TierId, amount: int, maxBackers: int, currentBackers: Option<int>)

  /** The fields of a creation request; a missing date or goal is `None`. */
  datatype CreateRequest = CreateRequest(
    title: string,
    description: string,
    shortDescription: string,
    category: string,
    tags: seq<string>,
    fundingGoal: Option<int>,
    rewardTiers: seq<TierRequest>,
    startDate: Option<int>,
    endDate: Option<int>)

  /** The tier the schema stores for a requested one: the default 0 fills a
      missing `currentBackers`, and a counter the client sends is kept. */
  function StoredTier(t: TierRequest): RewardTier {
    RewardTier(t.id, t.amount, t.maxBackers, t.currentBackers.GetOr(0))
  }

  /** `createProject`: creators with `canCreateProjects` get a new draft with no
      funding, no backers and the requested tiers; the new id is appended to the
      creator's `createdProjects`. The schema's `trim` setters apply to the title
      and every tag before validation, so a title of white space is refused like
      an empty one. A request the schema refuses is a 500. */
  function CreateProject(users: map<Users.UserId, Users.User>, creator: Users.User, req: CreateRequest,
                         newId: ProjectId, now: int): (r: Result<(Project, map<Users.UserId, Users.User>), LifecycleError>)
    ensures !Users.HasPermission(creator, "canCreateProjects") ==> r == Err(Forbidden)
    ensures r.Ok? <==>
      && Users.HasPermission(creator, "canCreateProjects")
      && Trim(req.title) != "" && req.description != "" && req.shortDescription != ""
      && |req.shortDescription| <= MaxShortDescription && req.category in Categories
      && req.fundingGoal.Some? && req.fundingGoal.value >= 1
      && req.startDate.Some? && req.endDate.Some?
    ensures r.Ok? ==>
      var p := r.value.0;
      && p.status == Draft && p.creator == creator.id
      && p.title == Trim(req.title) && Trimmed(p.title)
      && |p.tags| == |req.tags| && (forall i :: 0 <= i < |p.tags| ==> p.tags[i] == Trim(req.tags[i]))
      && p.currentFunding == 0 && p.backers == [] && p.images == []
      && |p.rewardTiers| == |req.rewardTiers|
      && (forall i :: 0 <= i < |p.rewardTiers| ==>
            var t := req.rewardTiers[i];
            && p.rewardTiers[i].(currentBackers := 0) == RewardTier(t.id, t.amount, t.maxBackers, 0)
            && (t.currentBackers.None? ==> p.rewardTiers[i].currentBackers == 0)
            && (t.currentBackers.Some? ==> p.rewardTiers[i].currentBackers == t.currentBackers.value))
      && SchemaValid(p)
    ensures r.Ok? ==> r.value.1.Keys == users.Keys
    ensures r.Ok? && creator.id in users ==>
      r.value.1[creator.id].createdProjects == users[creator.id].createdProjects + [newId]
  {
    if !Users.HasPermission(creator, "canCreateProjects") then Err(Forbidden)
    else if req.fundingGoal.None? || req.startDate.None? || req.endDate.None? then Err(SaveFailed)
    else
      var tiers := seq(|req.rewardTiers|, i requires 0 <= i < |req.rewardTiers| => StoredTier(req.rewardTiers[i]));
      var tags := seq(|req.tags|, i requires 0 <= i < |req.tags| => Trim(req.tags[i]));
      var p := Project(creator.id, Trim(req.title), req.description, req.shortDescription, req.category, tags, [],
                       req.fundingGoal.value, 0, [], tiers, req.startDate.value, req.endDate.value, Draft,
                       None, None, None, [], [], now);
      if !SchemaValid(p) then Err(SaveFailed)
      else
        var users' := if creator.id in users
                      then users[creator.id := users[creator.id].(createdProjects := users[creator.id].createdProjects + [newId])]
                      else users;
        Ok((p, users'))
  }

  /** The creation handler does not check the counters it is sent: a tier can
      be created already full, so no pledge for it will ever pass. */
  lemma CreatedTierCanStartFull(users: map<Users.UserId, Users.User>, creator: Users.User, req: CreateRequest,
                                newId: ProjectId, now: int, i: int)
    requires CreateProject(users, creator, req, newId, now).Ok?
    requires 0 <= i < |req.rewardTiers| && req.rewardTiers[i].maxBackers > 0
    requires req.rewardTiers[i].currentBackers == Some(req.rewardTiers[i].maxBackers)
    ensures TierFull(CreateProject(users, creator, req, newId, now).value.0.rewardTiers[i])
  {
  }

  /** A title of nothing but white space trims to "", which the `required`
      validator refuses; any other title is stored with its ends trimmed. */
  lemma BlankTitleRefused(users: map<Users.UserId, Users.User>, creator: Users.User, req: CreateRequest,
                          newId: ProjectId, now: int)
    ensures AllSpace(req.title) ==> CreateProject(users, creator, req, newId, now).Err?
    ensures CreateProject(users, creator, req, newId, now).Ok? ==>
      var p := CreateProject(users, creator, req, newId, now).value.0;
      p.title != "" && Trim(p.title) == p.title
  {
    TrimEmpty(req.title);
    TrimIdempotent(req.title);
  }

  // ---------------------------------------------------------------------------
  // updateProject

  /** The keys an update may still carry once a project has left review. */
  const LockedUpdateKeys: set<string> := {"faq", "updates"}

  /** The edit filter of `updateProject`: while draft or pending every key of the
      request is kept; afterwards only `faq` and `updates` survive. */
  function FilterUpdate<V>(status: Status, update: map<string, V>): (r: map<string, V>)
    ensures status in {Draft, Pending} ==> r == update
    ensures status !in {Draft, Pending} ==> r.Keys == update.Keys * LockedUpdateKeys
    ensures forall k :: k in r ==> k in update && r[k] == update[k]
  {
    if status in {Draft, Pending} then update
    else map k | k in update && k in LockedUpdateKeys :: update[k]
  }

  /** `updateProject`: the `$set` document it sends, after the ownership check and
      the edit filter. */
  function UpdateProject<V>(p: Option<Project>, viewer: Users.User, update: map<string, V>): (r: Result<map<string, V>, LifecycleError>)
    ensures p.None? ==> r == Err(ProjectNotFound)
    ensures r.Ok? <==> p.Some? && MayManage(p.value, viewer)
    ensures r.Ok? ==> r.value.Keys <= update.Keys
    ensures r.Ok? && p.value.status !in {Draft, Pending} ==> r.value.Keys <= LockedUpdateKeys
    ensures r.Ok? && p.value.status in {Draft, Pending} ==> r.value == update
  {
    if p.None? then Err(ProjectNotFound)
    else if !MayManage(p.value, viewer) then Err(Forbidden)
    else Ok(FilterUpdate(p.value.status, update))
  }

  /** Filtering is idempotent and never lets a locked field through after approval. */
  lemma FilterUpdateIdempotent<V>(status: Status, update: map<string, V>)
    ensures FilterUpdate(status, FilterUpdate(status, update)) == FilterUpdate(status, update)
    ensures status !in {Draft, Pending} ==>
      "status" !in FilterUpdate(status, update) && "fundingGoal" !in FilterUpdate(status, update)
  {
  }

  // ---------------------------------------------------------------------------
  // submitForReview

  /** The required fields, in the order the handler lists them. */
  const RequiredFields: seq<string> := ["title", "description", "shortDescription", "category",
                                         "fundingGoal", "startDate", "endDate"]

  /** Whether a required field of a stored project is falsy. Dates are `Date`
      objects, which are always truthy; the goal is falsy only at 0. */
  predicate FieldFalsy(p: Project, field: string) {
    match field
    case "title" => p.title == ""
    case "description" => p.description == ""
    case "shortDescription" => p.shortDescription == ""
    case "category" => p.category == ""
    case "fundingGoal" => p.fundingGoal == 0
    case _ => false
  }

  function FilterFalsy(p: Project, fields: seq<string>): (r: seq<string>)
    ensures forall f :: f in r <==> f in fields && FieldFalsy(p, f)
    ensures |r| <= |fields|
  {
    if |fields| == 0 then []
    else (if FieldFalsy(p, fields[0]) then [fields[0]] else []) + FilterFalsy(p, fields[1..])
  }

  /** The `missingFields` list: the required fields that are falsy, in order. */
  function MissingFields(p: Project): (r: seq<string>)
    ensures forall f :: f in r ==> f in RequiredFields
    ensures r == [] <==>
      p.title != "" && p.description != "" && p.shortDescription != "" && p.category != "" && p.fundingGoal != 0
  {
    CompleteIffNothingFalsy(p);
    FilterFalsy(p, RequiredFields)
  }

  lemma CompleteIffNothingFalsy(p: Project)
    ensures FilterFalsy(p, RequiredFields) == [] <==>
      p.title != "" && p.description != "" && p.shortDescription != "" && p.category != "" && p.fundingGoal != 0
  {
    NothingFalsy(p, RequiredFields);
    RequiredFieldsFalsy(p);
  }

  /** The filter comes back empty exactly when no field of the list is falsy. */
  lemma {:induction false} NothingFalsy(p: Project, fields: seq<string>)
    ensures FilterFalsy(p, fields) == [] <==> forall i :: 0 <= i < |fields| ==> !FieldFalsy(p, fields[i])
    decreases |fields|
  {
    if |fields| > 0 {
      NothingFalsy(p, fields[1..]);
      assert forall i :: 1 <= i < |fields| ==> fields[i] == fields[1..][i - 1];
    }
  }

  /** Which required fields can be falsy: the five non-date ones. */
  lemma RequiredFieldsFalsy(p: Project)
    ensures (forall i :: 0 <= i < |RequiredFields| ==> !FieldFalsy(p, RequiredFields[i])) <==>
      p.title != "" && p.description != "" && p.shortDescription != "" && p.category != "" && p.fundingGoal != 0
  {
    assert FieldFalsy(p, RequiredFields[0]) <==> p.title == "";
    assert FieldFalsy(p, RequiredFields[1]) <==> p.description == "";
    assert FieldFalsy(p, RequiredFields[2]) <==> p.shortDescription == "";
    assert FieldFalsy(p, RequiredFields[3]) <==> p.category == "";
    assert FieldFalsy(p, RequiredFields[4]) <==> p.fundingGoal == 0;
    assert !FieldFalsy(p, RequiredFields[5]) && !FieldFalsy(p, RequiredFields[6]);
  }

  /** `submitForReview`: only the creator, only from draft, only a complete project
      with at least one tier and one image; the result is pending. */
  function SubmitForReview(p: Option<Project>, viewer: Users.UserId): (r: Result<Project, LifecycleError>)
    ensures r.Ok? <==>
      && p.Some? && p.value.creator == viewer && p.value.status == Draft
      && MissingFields(p.value) == [] && |p.value.rewardTiers| > 0 && |p.value.images| > 0
    ensures r.Ok? ==> r.value == p.value.(status := Pending)
    ensures p.Some? && p.value.creator == viewer && p.value.status != Draft ==> r == Err(WrongStatus)
    ensures r.Err? && r.error.Incomplete? ==> p.Some? && r.error.fields == MissingFields(p.value) != []
  {
    if p.None? then Err(ProjectNotFound)
    else
      var q := p.value;
      if q.creator != viewer then Err(Forbidden)
      else if q.status != Draft then Err(WrongStatus)
      else if MissingFields(q) != [] then Err(Incomplete(MissingFields(q)))
      else if |q.rewardTiers| == 0 then Err(NoRewardTiers)
      else if |q.images| == 0 then Err(NoImages)
      else Ok(q.(status := Pending))
  }

  // ---------------------------------------------------------------------------
  // reviewProject

  /** The project after an admin's verdict on a pending project, with the
      feedback kept in a declared `reviewFeedback` field: approval starts it now
      or schedules it for its start date; rejection returns it to draft and
      records the feedback when some is given. */
  function Decide(p: Project, approved: bool, feedback: Option<string>, now: int): (q: Project)
    ensures approved && p.startDate > now ==> q == p.(status := Scheduled)
    ensures approved && p.startDate <= now ==> q == p.(status := Active)
    ensures !approved ==> q.status == Draft
    ensures !approved && Present(feedback) ==> q == p.(status := Draft, reviewFeedback := feedback)
    ensures !approved && !Present(feedback) ==> q == p.(status := Draft)
  {
    if approved then
      if p.startDate > now then p.(status := Scheduled) else p.(status := Active)
    else if Present(feedback) then p.(status := Draft, reviewFeedback := feedback)
    else p.(status := Draft)
  }

  /** The verdict as written: the schema declares no `reviewFeedback`, so strict
      mode ignores the assignment, the feedback is neither saved nor part of the
      answer, and only the status changes. */
  function DecideAsWritten(p: Project, approved: bool, now: int): (q: Project)
    ensures q.reviewFeedback == p.reviewFeedback
    ensures forall feedback: Option<string> :: q == Decide(p, approved, feedback, now).(reviewFeedback := p.reviewFeedback)
  {
    if approved then
      if p.startDate > now then p.(status := Scheduled) else p.(status := Active)
    else p.(status := Draft)
  }

  /** The guards of `reviewProject`: admin only, existing project, pending only. */
  function ReviewGuard(p: Option<Project>, viewer: Users.User): (r: Option<LifecycleError>)
    ensures r.None? <==> viewer.role == Users.Admin && p.Some? && p.value.status == Pending
    ensures viewer.role != Users.Admin ==> r == Some(Forbidden)
  {
    if viewer.role != Users.Admin then Some(Forbidden)
    else if p.None? then Some(ProjectNotFound)
    else if p.value.status != Pending then Some(WrongStatus)
    else None
  }

  /** `reviewProject` as written: the save runs the schema validators, and the
      status enum there has no 'scheduled', so an approval of a project whose start
      lies in the future is refused and the project stays pending. The feedback
      of a rejection is dropped (see `DecideAsWritten`). */
  function ReviewAsWritten(p: Option<Project>, viewer: Users.User, approved: bool, feedback: Option<string>, now: int): (r: Result<Project, LifecycleError>)
    ensures ReviewGuard(p, viewer).Some? ==> r == Err(ReviewGuard(p, viewer).value)
    ensures r.Ok? <==> ReviewGuard(p, viewer).None? && !(approved && p.value.startDate > now)
    ensures ReviewGuard(p, viewer).None? && approved && p.value.startDate > now ==> r == Err(SaveFailed)
    ensures r.Ok? ==> InSchemaEnum(r.value.status) && r.value == p.value.(status := r.value.status)
    ensures r.Ok? ==> r.value.status == (if approved then Active else Draft)
  {
    match ReviewGuard(p, viewer)
    case Some(e) => Err(e)
    case None =>
      var q := DecideAsWritten(p.value, approved, now);
      if !InSchemaEnum(q.status) then Err(SaveFailed) else Ok(q)
  }

  /** Every approval of a future-dated project fails under the schema as written. */
  lemma ReviewAsWrittenCannotSchedule(p: Project, viewer: Users.User, feedback: Option<string>, now: int)
    requires viewer.role == Users.Admin && p.status == Pending && p.startDate > now
    ensures ReviewAsWritten(Some(p), viewer, true, feedback, now) == Err(SaveFailed)
  {
  }

  /** A rejection's feedback is lost as written, and kept once the schema
      declares the field. */
  lemma ReviewAsWrittenLosesFeedback(p: Project, viewer: Users.User, feedback: string, now: int)
    requires viewer.role == Users.Admin && p.status == Pending && feedback != ""
    requires p.reviewFeedback != Some(feedback)
    ensures ReviewAsWritten(Some(p), viewer, false, Some(feedback), now).Ok?
    ensures ReviewAsWritten(Some(p), viewer, false, Some(feedback), now).value.reviewFeedback != Some(feedback)
    ensures Review(Some(p), viewer, false, Some(feedback), now).value.reviewFeedback == Some(feedback)
  {
  }

  /** `reviewProject` with 'scheduled' accepted by the status enum, as the handler
      and the cancel rule expect, and `reviewFeedback` declared by the schema. */
  function Review(p: Option<Project>, viewer: Users.User, approved: bool, feedback: Option<string>, now: int): (r: Result<Project, LifecycleError>)
    ensures ReviewGuard(p, viewer).Some? ==> r == Err(ReviewGuard(p, viewer).value)
    ensures r.Ok? <==> ReviewGuard(p, viewer).None?
    ensures r.Ok? ==> r.value == Decide(p.value, approved, feedback, now)
    ensures r.Ok? && approved ==> r.value.status in {Active, Scheduled}
    ensures r.Ok? && approved ==> (r.value.status == Scheduled <==> p.value.startDate > now)
  {
    match ReviewGuard(p, viewer)
    case Some(e) => Err(e)
    case None => Ok(Decide(p.value, approved, feedback, now))
  }

  /** Where the two agree: every verdict that does not schedule gets the same
      answer, and the same project up to the dropped feedback. */
  lemma ReviewAgreesUnlessScheduled(p: Option<Project>, viewer: Users.User, approved: bool, feedback: Option<string>, now: int)
    requires !(approved && p.Some? && p.value.startDate > now)
    ensures ReviewAsWritten(p, viewer, approved, feedback, now).Ok? <==> Review(p, viewer, approved, feedback, now).Ok?
    ensures ReviewAsWritten(p, viewer, approved, feedback, now).Err? ==>
      ReviewAsWritten(p, viewer, approved, feedback, now) == Review(p, viewer, approved, feedback, now)
    ensures ReviewAsWritten(p, viewer, approved, feedback, now).Ok? ==>
      ReviewAsWritten(p, viewer, approved, feedback, now).value ==
      Review(p, viewer, approved, feedback, now).value.(reviewFeedback := p.value.reviewFeedback)
  {
  }

  // ---------------------------------------------------------------------------
  // cancelProject

  /** The reason recorded when the request gives none. */
  const DefaultCancelReason: string := "项目创建者取消"

  /** The guards of `cancelProject`: an existing project, its creator or an
      admin, and an active or scheduled status. */
  function CancelGuard(p: Option<Project>, viewer: Users.User): (r: Option<LifecycleError>)
    ensures r.None? <==> p.Some? && MayManage(p.value, viewer) && p.value.status in {Active, Scheduled}
    ensures p.Some? && !MayManage(p.value, viewer) ==> r == Some(Forbidden)
  {
    if p.None? then Some(ProjectNotFound)
    else if !MayManage(p.value, viewer) then Some(Forbidden)
    else if p.value.status !in {Active, Scheduled} then Some(WrongStatus)
    else None
  }

  /** `cancelProject` as written: the schema declares neither `cancelReason`
      nor `canceledAt`, so strict mode ignores both assignments and only the
      status is saved. */
  function CancelProjectAsWritten(p: Option<Project>, viewer: Users.User, reason: Option<string>, now: int): (r: Result<Project, LifecycleError>)
    ensures r.Ok? <==> CancelGuard(p, viewer).None?
    ensures r.Err? ==> r.error == CancelGuard(p, viewer).value
    ensures r.Ok? ==> r.value.status == Canceled && r.value == p.value.(status := Canceled)
  {
    match CancelGuard(p, viewer)
    case Some(e) => Err(e)
    case None => Ok(p.value.(status := Canceled))
  }

  /** `cancelProject` with `cancelReason` and `canceledAt` declared by the
      schema: the project becomes canceled with the given reason (or the
      default) and the time. */
  function CancelProject(p: Option<Project>, viewer: Users.User, reason: Option<string>, now: int): (r: Result<Project, LifecycleError>)
    ensures r.Ok? <==> p.Some? && MayManage(p.value, viewer) && p.value.status in {Active, Scheduled}
    ensures r.Err? ==> r.error == CancelGuard(p, viewer).value
    ensures r.Ok? ==>
      r.value == p.value.(status := Canceled, cancelReason := Some(OrElse(reason, DefaultCancelReason)), canceledAt := Some(now))
    ensures r.Ok? ==> r.value.cancelReason.value != ""
    ensures p.Some? && !MayManage(p.value, viewer) ==> r == Err(Forbidden)
  {
    match CancelGuard(p, viewer)
    case Some(e) => Err(e)
    case None => Ok(p.value.(status := Canceled, cancelReason := Some(OrElse(reason, DefaultCancelReason)), canceledAt := Some(now)))
  }

  /** The two cancels agree on every answer and on the status; as written the
      reason and the time are lost. */
  lemma CancelAsWrittenLosesReason(p: Option<Project>, viewer: Users.User, reason: Option<string>, now: int)
    ensures CancelProjectAsWritten(p, viewer, reason, now).Ok? <==> CancelProject(p, viewer, reason, now).Ok?
    ensures CancelProjectAsWritten(p, viewer, reason, now).Err? ==>
      CancelProjectAsWritten(p, viewer, reason, now) == CancelProject(p, viewer, reason, now)
    ensures CancelProjectAsWritten(p, viewer, reason, now).Ok? ==>
      && CancelProjectAsWritten(p, viewer, reason, now).value ==
         CancelProject(p, viewer, reason, now).value.(cancelReason := p.value.cancelReason, canceledAt := p.value.canceledAt)
      && (p.value.cancelReason.None? ==> CancelProjectAsWritten(p, viewer, reason, now).value.cancelReason.None?)
  {
  }

  /** Every successful lifecycle handler takes a step of the status machine (or,
      for a rejection, the pending -> draft step). */
  lemma HandlersFollowStatusMachine(p: Option<Project>, viewer: Users.User, approved: bool, feedback: Option<string>,
                                    reason: Option<string>, now: int)
    ensures SubmitForReview(p, viewer.id).Ok? ==> Step(p.value.status, SubmitForReview(p, viewer.id).value.status)
    ensures Review(p, viewer, approved, feedback, now).Ok? ==> Step(p.value.status, Review(p, viewer, approved, feedback, now).value.status)
    ensures CancelProject(p, viewer, reason, now).Ok? ==> Step(p.value.status, CancelProject(p, viewer, reason, now).value.status)
  {
  }

  /** A submitted project can be reviewed: submit and review compose. */
  lemma SubmitThenReview(p: Project, admin: Users.User, approved: bool, feedback: Option<string>, now: int)
    requires SubmitForReview(Some(p), p.creator).Ok?
    requires admin.role == Users.Admin
    ensures Review(Some(SubmitForReview(Some(p), p.creator).value), admin, approved, feedback, now).Ok?
    ensures !approved ==> Review(Some(SubmitForReview(Some(p), p.creator).value), admin, false, feedback, now).value.status == Draft
  {
  }

  // ---------------------------------------------------------------------------
  // getUserProjects

  /** Whether `viewer` sees project `p` in the listing of `owner`'s projects. */
  predicate Listed(p: Project, owner: Users.UserId, viewer: Users.User) {
    p.creator == owner && (viewer.id == owner || viewer.role == Users.Admin || p.status !in {Draft, Pending})
  }

  /** Newest first, the order of `sort({ createdAt: -1 })`. */
  predicate NewestFirst(ps: seq<Project>) {
    forall i, j :: 0 <= i < j < |ps| ==> ps[i].createdAt >= ps[j].createdAt
  }

  /** Insert `p` after every project at least as new. */
  function InsertNewest(p: Project, ps: seq<Project>): (r: seq<Project>)
    ensures multiset(r) == multiset(ps) + multiset{p}
  {
    if |ps| == 0 then [p]
    else if ps[0].createdAt < p.createdAt then [p] + ps
    else
      assert ps == [ps[0]] + ps[1..];
      [ps[0]] + InsertNewest(p, ps[1..])
  }

  lemma {:induction false} InsertNewestSorted(p: Project, ps: seq<Project>)
    requires NewestFirst(ps)
    ensures NewestFirst(InsertNewest(p, ps))
    decreases |ps|
  {
    if |ps| > 0 && ps[0].createdAt >= p.createdAt {
      InsertNewestSorted(p, ps[1..]);
      var r := InsertNewest(p, ps[1..]);
      forall x | x in r
        ensures ps[0].createdAt >= x.createdAt
      {
        assert x in multiset(r);
        if x != p {
          var j :| 0 <= j < |ps[1..]| && ps[1..][j] == x;
          assert ps[j + 1] == x;
        }
      }
    }
  }

  /** The listing sorted newest first; projects created at the same instant
      keep their storage order. */
  function SortNewest(ps: seq<Project>): (r: seq<Project>)
    ensures multiset(r) == multiset(ps)
    ensures NewestFirst(r)
  {
    if |ps| == 0 then []
    else
      var rest := SortNewest(ps[1..]);
      InsertNewestSorted(ps[0], rest);
      assert ps == [ps[0]] + ps[1..];
      InsertNewest(ps[0], rest)
  }

  /** The query of `getUserProjects`, in storage order. */
  function ListedOf(ps: seq<Project>, owner: Users.UserId, viewer: Users.User): (r: seq<Project>)
    ensures |r| <= |ps|
  {
    if |ps| == 0 then []
    else (if Listed(ps[0], owner, viewer) then [ps[0]] else []) + ListedOf(ps[1..], owner, viewer)
  }

  /** `getUserProjects`: the owner's projects, newest first, with drafts and
      pending ones hidden from everyone but the owner and admins. */
  function UserProjects(ps: seq<Project>, owner: Users.UserId, viewer: Users.User): (r: seq<Project>)
    ensures |r| <= |ps|
    ensures NewestFirst(r)
    ensures forall q :: q in r ==> q in ps && q.creator == owner
    ensures viewer.id != owner && viewer.role != Users.Admin ==> forall q :: q in r ==> q.status !in {Draft, Pending}
  {
    var listed := ListedOf(ps, owner, viewer);
    var r := SortNewest(listed);
    forall q | q in r
      ensures q in ps && Listed(q, owner, viewer)
    {
      assert q in multiset(r);
      ListedOfExact(ps, owner, viewer, q);
    }
    assert |r| == |multiset(r)|;
    r
  }

  lemma {:induction false} ListedOfCounts(ps: seq<Project>, owner: Users.UserId, viewer: Users.User, q: Project)
    ensures multiset(ListedOf(ps, owner, viewer))[q] == if Listed(q, owner, viewer) then multiset(ps)[q] else 0
  {
    if |ps| > 0 {
      ListedOfCounts(ps[1..], owner, viewer, q);
      assert ps == [ps[0]] + ps[1..];
    }
  }

  lemma ListedOfExact(ps: seq<Project>, owner: Users.UserId, viewer: Users.User, q: Project)
    ensures q in ListedOf(ps, owner, viewer) <==> q in ps && Listed(q, owner, viewer)
  {
    ListedOfCounts(ps, owner, viewer, q);
    assert q in ListedOf(ps, owner, viewer) <==> q in multiset(ListedOf(ps, owner, viewer));
    assert q in ps <==> q in multiset(ps);
  }

  /** The listing holds exactly the projects `Listed` admits, each as often as
      it is stored. */
  lemma UserProjectsExact(ps: seq<Project>, owner: Users.UserId, viewer: Users.User, q: Project)
    ensures multiset(UserProjects(ps, owner, viewer))[q] == if Listed(q, owner, viewer) then multiset(ps)[q] else 0
    ensures q in UserProjects(ps, owner, viewer) <==> q in ps && Listed(q, owner, viewer)
  {
    ListedOfCounts(ps, owner, viewer, q);
    ListedOfExact(ps, owner, viewer, q);
    var r := UserProjects(ps, owner, viewer);
    assert q in r <==> q in multiset(r);
    assert q in ListedOf(ps, owner, viewer) <==> q in multiset(ListedOf(ps, owner, viewer));
  }
}

=== FILE: project_model.dfy ===
/** The project record (models/Project.js): status enum, reward tiers, backers, and the
    derived values `getProgressPercentage`, `isEnded`, `isSuccessful` and
    `getRemainingDays`. The clock is the parameter `now`, in milliseconds. */
module ProjectModel {
  import opened Wrappers
  import Users

  type ProjectId = string
  type TierId = string

  /** The statuses the controllers assign. `Scheduled` is written by the review
      handler but is not one of the values of the schema enum (see `InSchemaEnum`). */
  datatype Status = Draft | Pending | Scheduled | Active | Funded | Failed | Canceled

  /** The status enum declared by the schema: every status except 'scheduled'. */
  predicate InSchemaEnum(s: Status) {
    s != Scheduled
  }

  datatype RewardTier = RewardTier(id: TierId, amount: int, maxBackers: int, currentBackers: int)

  datatype Backer = Backer(user: Users.UserId, amount: int, rewardTier: Option<TierId>, anonymous: bool, createdAt: int)

  datatype ProjectUpdate = ProjectUpdate(title: string, content: string, createdAt: int)

  datatype Faq = Faq(question: string, answer: string)

  datatype Project = Project(
    creator: Users.UserId,
    title: string,
    description: string,
    shortDescription: string,
    category: string,
    tags: seq<string>,
    images: seq<string>,
    fundingGoal: int,
    currentFunding: int,
    backers: seq<Backer>,
    rewardTiers: seq<RewardTier>,
    startDate: int,
    endDate: int,
    status: Status,
    reviewFeedback: Option<string>,
    cancelReason: Option<string>,
    canceledAt: Option<int>,
    faq: seq<Faq>,
    updates: seq<ProjectUpdate>,
    createdAt: int)

  /** Milliseconds in a day. */
  const DayMs: int := 1000 * 60 * 60 * 24

  /** Longest `shortDescription` the schema accepts. */
  const MaxShortDescription: nat := 200

  /** The category enum of the schema. */
  const Categories: set<string> := {"科技", "设计", "影视", "游戏", "音乐", "出版", "公益", "其他"}

  /** The field validators `save()` runs: required strings non-empty, the length
      bound, the category enum, `fundingGoal >= 1` and the status enum. */
  predicate SchemaValid(p: Project) {
    && p.title != "" && p.description != "" && p.shortDescription != ""
    && |p.shortDescription| <= MaxShortDescription
    && p.category in Categories
    && p.fundingGoal >= 1
    && InSchemaEnum(p.status)
  }

  /** `getProgressPercentage`: `min(100, Math.round(100 * current / goal))`, where
      `Math.round` rounds halves upwards. The goal is at least 1 by the schema. */
  function Progress(p: Project): (r: int)
    requires p.fundingGoal >= 1
    ensures r <= 100
    ensures p.currentFunding >= 0 ==> r >= 0
    ensures p.currentFunding >= p.fundingGoal ==> r == 100
    ensures r < 100 <==> 200 * p.currentFunding + p.fundingGoal < 200 * p.fundingGoal
    ensures r < 100 ==> -p.fundingGoal < 2 * r * p.fundingGoal - 200 * p.currentFunding <= p.fundingGoal
  {
    var g := p.fundingGoal;
    var rounded := (200 * p.currentFunding + g) / (2 * g);
    RoundingBounds(p.currentFunding, g);
    if rounded > 100 then 100 else rounded
  }

  /** `(200c + g) / (2g)` is the integer nearest to `100c/g`, ties going up. */
  lemma RoundingBounds(c: int, g: int)
    requires g >= 1
    ensures var q := (200 * c + g) / (2 * g);
      -g < 2 * q * g - 200 * c <= g
    ensures c >= g ==> (200 * c + g) / (2 * g) >= 100
    ensures c >= 0 ==> (200 * c + g) / (2 * g) >= 0
    ensures (200 * c + g) / (2 * g) < 100 <==> 200 * c + g < 200 * g
  {
    var n := 200 * c + g;
    var q := n / (2 * g);
    var m := n % (2 * g);
    var prod := q * (2 * g);
    assert n == prod + m && 0 <= m < 2 * g;
    assert 2 * q * g == prod;
    if q < 100 {
      MulMono(q, 99, 2 * g);
    }
    if q < 0 {
      MulMono(q, -1, 2 * g);
    }
    if q >= 100 {
      MulMono(100, q, 2 * g);
    }
  }

  lemma MulMono(a: int, b: int, k: int)
    requires a <= b && k >= 0
    ensures a * k <= b * k
  {
    assert b * k - a * k == (b - a) * k;
  }

  /** `isEnded`: strictly after the end date. */
  predicate IsEnded(p: Project, now: int) {
    now > p.endDate
  }

  /** `isSuccessful`: the goal has been reached. */
  predicate IsSuccessful(p: Project) {
    p.currentFunding >= p.fundingGoal
  }

  /** `getRemainingDays`: zero once ended, otherwise the number of started days
      until the end date. */
  function RemainingDays(p: Project, now: int): (r: int)
    ensures r >= 0
    ensures IsEnded(p, now) ==> r == 0
    ensures !IsEnded(p, now) ==> (r - 1) * DayMs < p.endDate - now <= r * DayMs
  {
    if IsEnded(p, now) then 0
    else
      var diff := p.endDate - now;
      var r := (diff + DayMs - 1) / DayMs;
      CeilBounds(diff, DayMs);
      r
  }

  lemma CeilBounds(d: int, k: int)
    requires d >= 0 && k >= 1
    ensures var r := (d + k - 1) / k;
      r >= 0 && (r - 1) * k < d <= r * k
  {
    var r := (d + k - 1) / k;
    var m := (d + k - 1) % k;
    assert d + k - 1 == r * k + m && 0 <= m < k;
    assert (r - 1) * k == r * k - k;
  }

  /** A project has no days left exactly when the clock has reached its end
      date: the day count is zero once ended, and also at the end instant. */
  lemma NoDaysLeftIffReached(p: Project, now: int)
    ensures RemainingDays(p, now) == 0 <==> now >= p.endDate
  {
    if now < p.endDate {
      CeilBounds(p.endDate - now, DayMs);
    }
  }

  /** Ending is permanent: a project ended at some instant is ended at every
      later one. */
  lemma EndedStaysEnded(p: Project, now: int, later: int)
    requires IsEnded(p, now) && now <= later
    ensures IsEnded(p, later) && RemainingDays(p, later) == 0
  {
  }

  /** A successful project shows full progress; a project that shows less
      than full progress has not reached its goal. The converse fails: funding
      at 99.5% of the goal rounds to 100. */
  lemma SuccessShowsFullProgress(p: Project)
    requires p.fundingGoal >= 1
    ensures IsSuccessful(p) ==> Progress(p) == 100
    ensures Progress(p) < 100 ==> !IsSuccessful(p)
    ensures Progress(p) == 100 && !IsSuccessful(p) <==>
      199 * p.fundingGoal <= 200 * p.currentFunding < 200 * p.fundingGoal
  {
  }

  /** Sum of the backer amounts, the quantity `currentFunding` must equal. */
  function SumBackers(bs: seq<Backer>): int {
    if |bs| == 0 then 0 else SumBackers(bs[..|bs| - 1]) + bs[|bs| - 1].amount
  }

  /** `rewardTiers.id(id)`: index of the first tier with that id. */
  function FindTier(tiers: seq<RewardTier>, id: TierId): (r: Option<nat>)
    ensures r.Some? ==> r.value < |tiers| && tiers[r.value].id == id
    ensures r.Some? ==> forall j :: 0 <= j < r.value ==> tiers[j].id != id
    ensures r.None? ==> forall j :: 0 <= j < |tiers| ==> tiers[j].id != id
  {
    if |tiers| == 0 then None
    else if tiers[0].id == id then Some(0)
    else match FindTier(tiers[1..], id)
      case None => None
      case Some(i) => Some(i + 1)
  }

  /** A tier is full when `maxBackers` is set (non-zero) and reached. */
  predicate TierFull(t: RewardTier) {
    t.maxBackers != 0 && t.currentBackers >= t.maxBackers
  }
}

=== FILE: rate_limiter.dfy ===
/** The login-attempt limiter of middleware/rateLimiter.js: one record per
    identifier counts attempts, and the fifth attempt locks the identifier for
    fifteen minutes. Every call to the middleware is one attempt. */
module RateLimiter {
  import opened Wrappers

  /** A stored `LoginAttempt`; `lockUntil` is absent until a first lock. */
  datatype LoginAttempt = LoginAttempt(identifier: string, ip: string, attempts: int, locked: bool, lockUntil: Option<int>)

  /** Attempts that trigger the lock. */
  const MaxAttempts: int := 5

  /** Length of a lock, in milliseconds. */
  const LockMs: int := 15 * 60 * 1000

  /** Whom the attempt is counted against: the email, else the phone number, else
      the client address. */
  function Identifier(email: Option<string>, phoneNumber: Option<string>, ip: string): (id: string)
    ensures Present(email) ==> id == email.value
    ensures !Present(email) && Present(phoneNumber) ==> id == phoneNumber.value
    ensures !Present(email) && !Present(phoneNumber) ==> id == ip
  {
    OrElse(email, OrElse(phoneNumber, ip))
  }

  datatype Verdict = Proceed | TooManyAttempts(lockUntil: int)

  /** Whether the lock on `a` is still running at `now`. An absent `lockUntil`
      compares false both ways, so such a lock neither rejects nor expires. */
  predicate LockActive(a: LoginAttempt, now: int) {
    a.locked && a.lockUntil.Some? && a.lockUntil.value > now
  }

  predicate LockExpired(a: LoginAttempt, now: int) {
    a.locked && a.lockUntil.Some? && a.lockUntil.value <= now
  }

  /** One pass through the middleware. `stored` is the record found for the
      identifier; the result is the verdict and the stored record afterwards. */
  function Attempt(stored: Option<LoginAttempt>, identifier: string, ip: string, now: int): (out: (Verdict, Option<LoginAttempt>))
    ensures out.1.Some?
    ensures stored.Some? ==> out.1.value.identifier == stored.value.identifier && out.1.value.ip == stored.value.ip
    ensures stored.Some? && LockActive(stored.value, now) ==>
      out == (TooManyAttempts(stored.value.lockUntil.value), stored)
    ensures stored.None? ==> out.1.Some? && out.1.value.attempts == 1 && out.0 == Proceed
    ensures stored.Some? && !LockActive(stored.value, now) ==>
      && out.1.Some?
      && out.1.value.attempts == 1 + (if LockExpired(stored.value, now) then 0 else stored.value.attempts)
    ensures out.1.Some? && out.1 != stored ==>
      (out.0.TooManyAttempts? <==> out.1.value.attempts >= MaxAttempts)
    ensures out.0.TooManyAttempts? && out.1 != stored ==>
      out.1.value.locked && out.1.value.lockUntil == Some(now + LockMs) && out.0.lockUntil == now + LockMs
  {
    var a := match stored
      case Some(s) => s
      case None => LoginAttempt(identifier, ip, 0, false, None);
    if LockActive(a, now) then (TooManyAttempts(a.lockUntil.value), stored)
    else
      var a1 := if LockExpired(a, now) then a.(locked := false, attempts := 0) else a;
      var a2 := a1.(attempts := a1.attempts + 1);
      if a2.attempts >= MaxAttempts then
        var a3 := a2.(locked := true, lockUntil := Some(now + LockMs));
        (TooManyAttempts(now + LockMs), Some(a3))
      else (Proceed, Some(a2))
  }

  /** The record invariant: the count stays within 0..5, a record is locked
      exactly when the count has reached 5, and a locked record has an end time. */
  predicate Bounded(a: LoginAttempt) {
    && 0 <= a.attempts <= MaxAttempts
    && (a.locked <==> a.attempts == MaxAttempts)
    && (a.locked ==> a.lockUntil.Some?)
  }

  lemma AttemptPreservesBounded(stored: Option<LoginAttempt>, identifier: string, ip: string, now: int)
    requires stored.Some? ==> Bounded(stored.value)
    ensures var out := Attempt(stored, identifier, ip, now);
      && out.1.Some? && Bounded(out.1.value)
      && (out.0 == Proceed ==> out.1.value.attempts <= MaxAttempts - 1)
  {
  }

  /** Five attempts at the same moment on a fresh identifier: four pass, the fifth
      is refused and starts a fifteen-minute lock; until it ends every attempt is
      refused without changing the record. */
  lemma FifthAttemptLocks(identifier: string, ip: string, now: int, later: int)
    requires now <= later < now + LockMs
    ensures var s1 := Attempt(None, identifier, ip, now);
      var s2 := Attempt(s1.1, identifier, ip, now);
      var s3 := Attempt(s2.1, identifier, ip, now);
      var s4 := Attempt(s3.1, identifier, ip, now);
      var s5 := Attempt(s4.1, identifier, ip, now);
      && s1.0 == Proceed && s2.0 == Proceed && s3.0 == Proceed && s4.0 == Proceed
      && s5.0 == TooManyAttempts(now + LockMs)
      && Attempt(s5.1, identifier, ip, later) == (TooManyAttempts(now + LockMs), s5.1)
  {
  }

  /** Once the lock has run out the count starts again from one. */
  lemma ExpiredLockRestartsCount(a: LoginAttempt, identifier: string, ip: string, now: int)
    requires Bounded(a) && a.locked && a.lockUntil.value <= now
    ensures Attempt(Some(a), identifier, ip, now) == (Proceed, Some(a.(locked := false, attempts := 1)))
  {
  }
}

=== FILE: recommendation.dfy ===
/** Project recommendations (services/recommendationService.js): a user's
    interests are the categories and tags of the projects they viewed or paid
    for in the last thirty days, ranked by frequency; recommendations are the
    active projects matching those interests, best funded first, topped up with
    popular projects. The project collection is a sequence in storage order;
    the activity log, the set of known users and the clock are parameters. */
module Recommendation {
  import opened Wrappers
  import opened ProjectModel
  import Users
  import opened Tallies

  // ---------------------------------------------------------------------------
  // Sequences

  /** `filter`: the kept elements in their order. */
  function Where<T(==,!new)>(xs: seq<T>, keep: T -> bool): (r: seq<T>)
    ensures |r| <= |xs|
    ensures forall y :: y in r <==> y in xs && keep(y)
    ensures NoDup(xs) ==> NoDup(r)
  {
    if |xs| == 0 then []
    else
      var rest := Where(xs[1..], keep);
      assert xs == [xs[0]] + xs[1..];
      if keep(xs[0]) then
        assert forall i :: 1 <= i < |xs| ==> xs[i] == xs[1..][i - 1];
        [xs[0]] + rest
      else rest
  }

  predicate SortedDesc<T>(xs: seq<T>, key: T -> int) {
    forall i, j :: 0 <= i < j < |xs| ==> key(xs[i]) >= key(xs[j])
  }

  /** Put `x` before the first element whose key is not larger, so that among
      equal keys the earlier element stays first. */
  function InsertDesc<T(==,!new)>(x: T, xs: seq<T>, key: T -> int): (r: seq<T>)
    ensures |r| == |xs| + 1 && multiset(r) == multiset(xs) + multiset{x}
    ensures forall y :: y in r <==> y == x || y in xs
    ensures SortedDesc(xs, key) ==> SortedDesc(r, key)
  {
    if |xs| == 0 || key(xs[0]) <= key(x) then [x] + xs
    else
      var rest := InsertDesc(x, xs[1..], key);
      assert xs == [xs[0]] + xs[1..];
      assert SortedDesc(xs, key) ==> SortedDesc([xs[0]] + rest, key) by {
        if SortedDesc(xs, key) {
          forall j | 0 <= j < |rest| ensures key(rest[j]) <= key(xs[0]) {
            assert rest[j] in rest;
            if rest[j] != x {
              var m :| 0 <= m < |xs[1..]| && xs[1..][m] == rest[j];
              assert xs[m + 1] == rest[j];
            }
          }
        }
      }
      [xs[0]] + rest
  }

  /** A stable sort by descending key, as `Array.prototype.sort` with a
      comparator `b - a` performs it. */
  function SortDesc<T(==,!new)>(xs: seq<T>, key: T -> int): (r: seq<T>)
    ensures |r| == |xs| && multiset(r) == multiset(xs)
    ensures forall y :: y in r <==> y in xs
    ensures SortedDesc(r, key)
  {
    if |xs| == 0 then []
    else
      var r := InsertDesc(xs[0], SortDesc(xs[1..], key), key);
      assert xs == [xs[0]] + xs[1..];
      assert forall y :: y in r <==> y in multiset(r);
      assert forall y :: y in xs <==> y in multiset(xs);
      r
  }

  /** A permutation of a sequence without repeats has none either. */
  lemma PermutationNoDup<T>(a: seq<T>, b: seq<T>)
    requires multiset(a) == multiset(b) && NoDup(a)
    ensures NoDup(b)
  {
    forall i, j | 0 <= i < |b| && 0 <= j < |b| && b[i] == b[j]
      ensures i == j
    {
      if i != j {
        var lo, hi := if i < j then i else j, if i < j then j else i;
        assert b == b[..lo] + [b[lo]] + b[lo + 1..hi] + [b[hi]] + b[hi + 1..];
        assert multiset(b)[b[i]] >= 2;
        TwiceMeansRepeat(a, b[i]);
      }
    }
  }

  /** An element occurring twice in the multiset sits at two positions. */
  lemma {:induction false} TwiceMeansRepeat<T>(a: seq<T>, x: T)
    requires multiset(a)[x] >= 2
    ensures !NoDup(a)
  {
    var i :| 0 <= i < |a| && a[i] == x;
    assert a == a[..i] + [a[i]] + a[i + 1..];
    assert multiset(a[..i] + a[i + 1..])[x] >= 1;
    var j :| 0 <= j < |a[..i] + a[i + 1..]| && (a[..i] + a[i + 1..])[j] == x;
    if j < i {
      assert a[j] == x;
    } else {
      assert a[j + 1] == x;
    }
  }

  /** `.limit(n)`: at most `n` elements, where `0` means no limit. */
  function Limit<T>(xs: seq<T>, n: nat): (r: seq<T>)
    ensures |r| <= |xs| && r == xs[..|r|]
    ensures n == 0 ==> r == xs
    ensures n > 0 ==> |r| == if |xs| <= n then |xs| else n
  {
    if n == 0 || |xs| <= n then xs else xs[..n]
  }

  /** What a ranked list cut at `n` leaves out: nothing unless the cut was
      reached, and then nothing ranked above a kept element. */
  lemma LimitDominates<T>(ranked: seq<T>, key: T -> int, n: nat, e: T)
    requires SortedDesc(ranked, key) && e in ranked && e !in Limit(ranked, n)
    ensures n > 0 && |Limit(ranked, n)| == n
    ensures forall x :: x in Limit(ranked, n) ==> key(x) >= key(e)
  {
    var r := Limit(ranked, n);
    var m :| 0 <= m < |ranked| && ranked[m] == e;
    assert m >= |r|;
    forall x | x in r
      ensures key(x) >= key(e)
    {
      var i :| 0 <= i < |r| && r[i] == x;
      assert ranked[i] == x;
    }
  }

  lemma PrefixNoDup<T>(xs: seq<T>, k: nat)
    requires k <= |xs| && NoDup(xs)
    ensures NoDup(xs[..k])
  {
  }

  // ---------------------------------------------------------------------------
  // Interests

  function Frequency(e: (string, nat)): int {
    e.1
  }

  /** `entries.sort((a, b) => b[1] - a[1])`. */
  function Ranked(t: Tally): (r: Tally)
    ensures |r| == |t| && multiset(r) == multiset(t)
    ensures forall e :: e in r <==> e in t
    ensures SortedDesc(r, Frequency)
  {
    SortDesc(t, Frequency)
  }

  /** `slice(0, n)`. */
  function Take<T>(xs: seq<T>, n: nat): (r: seq<T>)
    ensures |r| == (if |xs| <= n then |xs| else n) && r == xs[..|r|]
  {
    if |xs| <= n then xs else xs[..n]
  }

  /** The keys of a tally ranked by descending count, the first `n` of them. */
  function Top(t: Tally, n: nat): (r: seq<string>)
    ensures |r| <= n && |r| <= |t|
  {
    Firsts(Take(Ranked(t), n))
  }

  /** Ranking a tally keeps it a tally of the same keys. */
  lemma RankedTally(t: Tally, keys: seq<string>)
    requires TallyOf(t, keys)
    ensures TallyOf(Ranked(t), keys)
  {
    var ranked := Ranked(t);
    CountsOfMembers(t, ranked, keys);
    FirstsDistinct(t, ranked, keys);
    SameFirsts(t, ranked);
    assert forall i :: 0 <= i < |ranked| ==> ranked[i].1 == Occurrences(keys, ranked[i].0) by {
      forall i | 0 <= i < |ranked| ensures ranked[i].1 == Occurrences(keys, ranked[i].0) {
        assert ranked[i] in ranked;
      }
    }
  }

  /** Entries taken from a tally carry their keys' counts. */
  lemma CountsOfMembers(t: Tally, u: Tally, keys: seq<string>)
    requires TallyOf(t, keys) && forall e :: e in u ==> e in t
    ensures forall e :: e in u ==> e.1 == Occurrences(keys, e.0)
  {
    forall e | e in u ensures e.1 == Occurrences(keys, e.0) {
      var i :| 0 <= i < |t| && t[i] == e;
    }
  }

  /** Tallies with the same entries have the same keys. */
  lemma SameFirsts(t: Tally, u: Tally)
    requires forall e :: e in u <==> e in t
    ensures forall k :: k in Firsts(u) <==> k in Firsts(t)
  {
    forall k | k in Firsts(t) ensures k in Firsts(u) {
      var i :| 0 <= i < |t| && Firsts(t)[i] == k;
      assert t[i] in u;
      var j :| 0 <= j < |u| && u[j] == t[i];
      assert Firsts(u)[j] == k;
    }
    forall k | k in Firsts(u) ensures k in Firsts(t) {
      var j :| 0 <= j < |u| && Firsts(u)[j] == k;
      assert u[j] in t;
      var i :| 0 <= i < |t| && t[i] == u[j];
      assert Firsts(t)[i] == k;
    }
  }

  /** A permutation of a tally whose counts are determined by the key has
      distinct keys. */
  lemma FirstsDistinct(t: Tally, ranked: Tally, keys: seq<string>)
    requires NoDup(Firsts(t)) && multiset(ranked) == multiset(t)
    requires forall e :: e in ranked ==> e.1 == Occurrences(keys, e.0)
    ensures NoDup(Firsts(ranked))
  {
    assert NoDup(t) by {
      forall i, j | 0 <= i < |t| && 0 <= j < |t| && t[i] == t[j] ensures i == j {
        assert Firsts(t)[i] == Firsts(t)[j];
      }
    }
    PermutationNoDup(t, ranked);
    forall i, j | 0 <= i < |ranked| && 0 <= j < |ranked| && Firsts(ranked)[i] == Firsts(ranked)[j]
      ensures i == j
    {
      assert ranked[i] in ranked && ranked[j] in ranked;
      assert ranked[i] == ranked[j];
    }
  }

  /** The first `n` keys of a ranking: distinct, in order, and no key after
      them has a larger count than any of them. */
  lemma TopOfRanked(ranked: Tally, n: nat)
    requires NoDup(Firsts(ranked)) && SortedDesc(ranked, Frequency)
    ensures var r := Firsts(Take(ranked, n));
      && NoDup(r) && r == Firsts(ranked)[..|r|]
      && (forall i, j :: 0 <= i < j < |r| ==> ranked[i].1 >= ranked[j].1)
      && (forall m, i :: |r| <= m < |ranked| && 0 <= i < |r| ==> ranked[m].1 <= ranked[i].1)
  {
    var kept := Take(ranked, n);
    assert Firsts(kept) == Firsts(ranked)[..|kept|];
    PrefixNoDup(Firsts(ranked), |kept|);
    forall i, j | 0 <= i < j < |ranked| ensures ranked[i].1 >= ranked[j].1 {
      assert Frequency(ranked[i]) >= Frequency(ranked[j]);
    }
  }

  /** What `Top` of a count promises: distinct keys that occur, at most `n`,
      in non-increasing frequency, and every key left out occurs at most as
      often as every key kept. */
  lemma TopOfCount(keys: seq<string>, n: nat)
    ensures var r := Top(Count(keys), n);
      && |r| <= n && NoDup(r)
      && (forall k :: k in r ==> k in keys)
      && (forall i, j :: 0 <= i < j < |r| ==> Occurrences(keys, r[i]) >= Occurrences(keys, r[j]))
      && (forall k, i :: k in keys && k !in r && 0 <= i < |r| ==> Occurrences(keys, k) <= Occurrences(keys, r[i]))
      && (|r| < n ==> forall k :: k in keys ==> k in r)
  {
    TopOfTally(Count(keys), keys, n);
  }

  lemma TopOfTally(t: Tally, keys: seq<string>, n: nat)
    requires TallyOf(t, keys)
    ensures var r := Top(t, n);
      && |r| <= n && NoDup(r)
      && (forall k :: k in r ==> k in keys)
      && (forall i, j :: 0 <= i < j < |r| ==> Occurrences(keys, r[i]) >= Occurrences(keys, r[j]))
      && (forall k, i :: k in keys && k !in r && 0 <= i < |r| ==> Occurrences(keys, k) <= Occurrences(keys, r[i]))
      && (|r| < n ==> forall k :: k in keys ==> k in r)
  {
    TopKeys(t, keys, n);
    TopOrdered(t, keys, n);
    TopDominates(t, keys, n);
  }

  /** The kept keys of a tally are its first ranked keys, with their counts. */
  lemma TopIsRankedPrefix(t: Tally, keys: seq<string>, n: nat)
    requires TallyOf(t, keys)
    ensures var ranked := Ranked(t); var r := Top(t, n);
      && TallyOf(ranked, keys)
      && r == Firsts(ranked)[..|r|]
      && (forall i :: 0 <= i < |r| ==> r[i] == ranked[i].0 && Occurrences(keys, r[i]) == ranked[i].1)
      && (forall m, i :: |r| <= m < |ranked| && 0 <= i < |r| ==> ranked[m].1 <= ranked[i].1)
      && (forall i, j :: 0 <= i < j < |r| ==> ranked[i].1 >= ranked[j].1)
      && NoDup(r)
  {
    RankedTally(t, keys);
    TopOfRanked(Ranked(t), n);
  }

  lemma TopKeys(t: Tally, keys: seq<string>, n: nat)
    requires TallyOf(t, keys)
    ensures var r := Top(t, n);
      && NoDup(r)
      && (forall k :: k in r ==> k in keys)
      && (|r| < n ==> forall k :: k in keys ==> k in r)
  {
    TopIsRankedPrefix(t, keys, n);
    var fs := Firsts(Ranked(t));
    var r := Top(t, n);
    assert forall k :: k in r ==> k in keys by {
      forall k | k in r ensures k in keys {
        var i :| 0 <= i < |r| && r[i] == k;
        assert fs[i] == k;
      }
    }
    assert |r| < n ==> r == fs;
  }

  lemma TopOrdered(t: Tally, keys: seq<string>, n: nat)
    requires TallyOf(t, keys)
    ensures var r := Top(t, n);
      forall i, j :: 0 <= i < j < |r| ==> Occurrences(keys, r[i]) >= Occurrences(keys, r[j])
  {
    TopIsRankedPrefix(t, keys, n);
  }

  lemma TopDominates(t: Tally, keys: seq<string>, n: nat)
    requires TallyOf(t, keys)
    ensures var r := Top(t, n);
      forall k, i :: k in keys && k !in r && 0 <= i < |r| ==> Occurrences(keys, k) <= Occurrences(keys, r[i])
  {
    TopIsRankedPrefix(t, keys, n);
    var ranked := Ranked(t);
    var r := Top(t, n);
    forall k, i | k in keys && k !in r && 0 <= i < |r|
      ensures Occurrences(keys, k) <= Occurrences(keys, r[i])
    {
      assert k in Firsts(ranked);
      DominatedAfterPrefix(ranked, r, keys, k, i);
    }
  }

  /** A key of a ranking outside its kept prefix counts no more than a kept one. */
  lemma DominatedAfterPrefix(ranked: Tally, r: seq<string>, keys: seq<string>, k: string, i: nat)
    requires |r| <= |ranked| && r == Firsts(ranked)[..|r|]
    requires forall m, x :: |r| <= m < |ranked| && 0 <= x < |r| ==> ranked[m].1 <= ranked[x].1
    requires forall x :: 0 <= x < |ranked| ==> ranked[x].1 == Occurrences(keys, ranked[x].0)
    requires k in Firsts(ranked) && k !in r && i < |r|
    ensures Occurrences(keys, k) <= Occurrences(keys, r[i])
  {
    var fs := Firsts(ranked);
    var m :| 0 <= m < |fs| && fs[m] == k;
    if m < |r| {
      assert false;
    }
    assert ranked[m].1 <= ranked[i].1;
    assert r[i] == ranked[i].0;
  }

  /** An entry of the project collection with its id. */
  datatype Listed = Listed(id: ProjectId, project: Project)

  /** An activity log entry, as far as the interest query reads it. */
  datatype Activity = Activity(user: Users.UserId, activityType: string, targetType: string,
                               targetId: ProjectId, createdAt: int)

  datatype Interests = Interests(categories: seq<string>, tags: seq<string>)

  /** How far back activity counts: thirty days. */
  const Window: int := 30 * DayMs

  predicate Counted(a: Activity, userId: Users.UserId, now: int) {
    && a.user == userId
    && a.activityType in {"PROJECT_VIEW", "PAYMENT"}
    && a.targetType == "Project"
    && a.createdAt >= now - Window
  }

  function Targets(acts: seq<Activity>): (r: seq<ProjectId>)
    ensures |r| == |acts| && forall i :: 0 <= i < |acts| ==> r[i] == acts[i].targetId
  {
    if |acts| == 0 then [] else [acts[0].targetId] + Targets(acts[1..])
  }

  /** The fetched projects' categories, when set. */
  function CategoryKeys(ps: seq<Listed>): (r: seq<string>)
    ensures forall c :: c in r <==> c != "" && exists i :: 0 <= i < |ps| && ps[i].project.category == c
  {
    if |ps| == 0 then []
    else
      var rest := CategoryKeys(ps[1..]);
      assert forall i :: 1 <= i < |ps| ==> ps[i] == ps[1..][i - 1];
      (if ps[0].project.category != "" then [ps[0].project.category] else []) + rest
  }

  /** The fetched projects' tags, every tag of every project. */
  function TagKeys(ps: seq<Listed>): (r: seq<string>)
    ensures forall g :: g in r <==> exists i :: 0 <= i < |ps| && g in ps[i].project.tags
  {
    if |ps| == 0 then []
    else
      var rest := TagKeys(ps[1..]);
      assert forall i :: 1 <= i < |ps| ==> ps[i] == ps[1..][i - 1];
      ps[0].project.tags + rest
  }

  /** The projects the user recently viewed or paid for, each once, in
      storage order. */
  function Viewed(acts: seq<Activity>, catalog: seq<Listed>, userId: Users.UserId, now: int): seq<Listed> {
    var ids := Targets(Where(acts, (a: Activity) => Counted(a, userId, now)));
    Where(catalog, (e: Listed) => e.id in ids)
  }

  /** `getUserInterests`: no recent activity, no interests; otherwise the five
      most frequent categories and ten most frequent tags of the projects. */
  function UserInterests(acts: seq<Activity>, catalog: seq<Listed>, userId: Users.UserId, now: int): (r: Interests)
    ensures (forall a :: a in acts ==> !Counted(a, userId, now)) ==> r == Interests([], [])
    ensures |r.categories| <= 5 && |r.tags| <= 10
  {
    var recent := Where(acts, (a: Activity) => Counted(a, userId, now));
    if |recent| == 0 then Interests([], [])
    else
      assert recent[0] in recent;
      var ps := Viewed(acts, catalog, userId, now);
      Interests(Top(Count(CategoryKeys(ps)), 5), Top(Count(TagKeys(ps)), 10))
  }

  /** The interests rank the viewed projects' categories and tags by how many
      of those projects carry them. */
  lemma InterestsAreRanked(acts: seq<Activity>, catalog: seq<Listed>, userId: Users.UserId, now: int)
    ensures var r := UserInterests(acts, catalog, userId, now);
      var cats := CategoryKeys(Viewed(acts, catalog, userId, now));
      && NoDup(r.categories)
      && (forall c :: c in r.categories ==> c in cats)
      && (forall i, j :: 0 <= i < j < |r.categories| ==> Occurrences(cats, r.categories[i]) >= Occurrences(cats, r.categories[j]))
      && (forall c, i :: c in cats && c !in r.categories && 0 <= i < |r.categories| ==>
            Occurrences(cats, c) <= Occurrences(cats, r.categories[i]))
  {
    var recent := Where(acts, (a: Activity) => Counted(a, userId, now));
    var cats := CategoryKeys(Viewed(acts, catalog, userId, now));
    if |recent| > 0 {
      TopOfCount(cats, 5);
    }
  }

  // ---------------------------------------------------------------------------
  // Recommendations

  predicate Available(e: Listed, excludeIds: seq<ProjectId>) {
    e.project.status == Active && e.id !in excludeIds
  }

  /** The interest condition: the category is one of them, or a tag is. */
  predicate Matches(e: Listed, i: Interests) {
    e.project.category in i.categories || exists g :: g in e.project.tags && g in i.tags
  }

  function Funding(e: Listed): int {
    e.project.currentFunding
  }

  function Ids(xs: seq<Listed>): (r: seq<ProjectId>)
    ensures |r| == |xs| && forall i :: 0 <= i < |xs| ==> r[i] == xs[i].id
    ensures forall x :: x in xs ==> x.id in r
  {
    if |xs| == 0 then [] else [xs[0].id] + Ids(xs[1..])
  }

  predicate UniqueIds(xs: seq<Listed>) {
    forall i, j :: 0 <= i < |xs| && 0 <= j < |xs| && xs[i].id == xs[j].id ==> i == j
  }

  /** `getPopularProjects`: available projects, best funded first, at most
      `limit` of them. */
  function Popular(catalog: seq<Listed>, limit: nat, excludeIds: seq<ProjectId>): (r: seq<Listed>)
    ensures forall e :: e in r ==> e in catalog && Available(e, excludeIds)
    ensures limit > 0 ==> |r| <= limit
    ensures SortedDesc(r, Funding)
    ensures UniqueIds(catalog) ==> UniqueIds(r)
    ensures forall e :: e in catalog && Available(e, excludeIds) && e !in r ==>
      limit > 0 && |r| == limit && forall x :: x in r ==> Funding(x) >= Funding(e)
  {
    var candidates := Where(catalog, (e: Listed) => Available(e, excludeIds));
    var ranked := SortDesc(candidates, Funding);
    var r := Limit(ranked, limit);
    assert forall e :: e in r ==> e in ranked;
    forall e | e in catalog && Available(e, excludeIds) && e !in r
      ensures limit > 0 && |r| == limit && forall x :: x in r ==> Funding(x) >= Funding(e)
    {
      LimitDominates(ranked, Funding, limit, e);
    }
    if UniqueIds(catalog) then
      assert NoDup(catalog);
      PermutationNoDup(candidates, ranked);
      PrefixNoDup(ranked, |r|);
      UniqueFromCatalog(catalog, r);
      r
    else r
  }

  /** Entries taken without repeats from a catalog with unique ids have
      unique ids. */
  lemma UniqueFromCatalog(catalog: seq<Listed>, r: seq<Listed>)
    requires forall e :: e in r ==> e in catalog
    requires UniqueIds(catalog) && NoDup(r)
    ensures UniqueIds(r)
  {
    forall i, j | 0 <= i < |r| && 0 <= j < |r| && r[i].id == r[j].id
      ensures i == j
    {
      assert r[i] in catalog && r[j] in catalog;
      var a :| 0 <= a < |catalog| && catalog[a] == r[i];
      var b :| 0 <= b < |catalog| && catalog[b] == r[j];
      assert a == b;
    }
  }

  /** `getRecommendedProjects`. `fault` stands for a query that throws, which
      falls back to the popular list as well. */
  function RecommendedProjects(userId: Option<Users.UserId>, users: set<Users.UserId>, acts: seq<Activity>,
                               catalog: seq<Listed>, limit: nat, excludeIds: seq<ProjectId>, now: int,
                               fault: bool): (r: seq<Listed>)
    ensures !Present(userId) || userId.value !in users || fault ==> r == Popular(catalog, limit, excludeIds)
    ensures (Present(userId) && userId.value in users && !fault && UserInterests(acts, catalog, userId.value, now) == Interests([], []))
              ==> r == Popular(catalog, limit, excludeIds)
    ensures forall e :: e in r ==> e in catalog && Available(e, excludeIds)
    ensures limit > 0 ==> |r| <= limit
  {
    if !Present(userId) || userId.value !in users || fault then Popular(catalog, limit, excludeIds)
    else
      var interests := UserInterests(acts, catalog, userId.value, now);
      if |interests.categories| == 0 && |interests.tags| == 0 then Popular(catalog, limit, excludeIds)
      else
        TopUp(catalog, Matching(catalog, interests, limit, excludeIds), limit, excludeIds)
  }

  /** Padding a short list with popular projects not already on it. */
  function TopUp(catalog: seq<Listed>, rec: seq<Listed>, limit: nat, excludeIds: seq<ProjectId>): (r: seq<Listed>)
    requires limit > 0 ==> |rec| <= limit
    ensures |rec| <= |r| && r[..|rec|] == rec
    ensures forall k :: |rec| <= k < |r| ==> r[k] in catalog && Available(r[k], excludeIds) && r[k].id !in Ids(rec) && r[k] !in rec
    ensures limit > 0 ==> |r| <= limit
    ensures |rec| >= limit ==> r == rec
  {
    if |rec| < limit then
      var pop := Popular(catalog, limit - |rec|, excludeIds + Ids(rec));
      var r := rec + pop;
      assert forall k :: |rec| <= k < |r| ==> r[k] == pop[k - |rec|] && r[k] in pop;
      r
    else rec
  }

  /** The interest query: available projects matching the interests, best
      funded first, at most `limit`. */
  function Matching(catalog: seq<Listed>, interests: Interests, limit: nat, excludeIds: seq<ProjectId>): (r: seq<Listed>)
    ensures forall e :: e in r ==> e in catalog && Available(e, excludeIds) && Matches(e, interests)
    ensures limit > 0 ==> |r| <= limit
    ensures SortedDesc(r, Funding)
    ensures forall e :: e in catalog && Available(e, excludeIds) && Matches(e, interests) && e !in r ==>
      limit > 0 && |r| == limit && forall x :: x in r ==> Funding(x) >= Funding(e)
  {
    var found := Where(catalog, (e: Listed) => Available(e, excludeIds) && Matches(e, interests));
    var sorted := SortDesc(found, Funding);
    var r := Limit(sorted, limit);
    forall e | e in catalog && Available(e, excludeIds) && Matches(e, interests) && e !in r
      ensures limit > 0 && |r| == limit && forall x :: x in r ==> Funding(x) >= Funding(e)
    {
      LimitDominates(sorted, Funding, limit, e);
    }
    assert forall e :: e in r ==> e in sorted by {
      forall e | e in r ensures e in sorted {
        var i :| 0 <= i < |r| && r[i] == e;
        assert sorted[i] == e;
      }
    }
    assert SortedDesc(r, Funding) by {
      forall i, j | 0 <= i < j < |r| ensures Funding(r[i]) >= Funding(r[j]) {
        assert r[i] == sorted[i] && r[j] == sorted[j];
      }
    }
    r
  }

  /** When the user has interests, the list starts with the matching projects
      and the top-up never repeats one of them. */
  lemma TopUpIsDisjoint(userId: Users.UserId, users: set<Users.UserId>, acts: seq<Activity>,
                        catalog: seq<Listed>, limit: nat, excludeIds: seq<ProjectId>, now: int)
    requires userId != "" && userId in users
    requires var i := UserInterests(acts, catalog, userId, now); |i.categories| > 0 || |i.tags| > 0
    ensures var i := UserInterests(acts, catalog, userId, now);
      var rec := Matching(catalog, i, limit, excludeIds);
      var r := RecommendedProjects(Some(userId), users, acts, catalog, limit, excludeIds, now, false);
      && r[..|rec|] == rec
      && (forall e :: e in rec ==> Matches(e, i))
      && (forall k :: |rec| <= k < |r| ==> r[k] !in rec && r[k].id !in Ids(rec))
  {
  }
}

=== FILE: security.dfy ===
/** Account lockout and address blocking of services/securityService.js.

    The service reads and writes `loginAttempts`, `accountLocked` and `lockUntil`
    on the user; they are grouped here as an `AccountLock`, and a missing user is
    `None`. The user schema declares none of the three, which makes the lockout
    inert as written (`IncrementLoginAttemptsAsWritten`); the rest of the module
    models it with the fields declared. The security log is a sequence of
    entries. */
module Security {
  import opened Wrappers

  datatype AccountLock = AccountLock(loginAttempts: int, accountLocked: bool, lockUntil: Option<int>)

  datatype LogEntry = LogEntry(ipAddress: string, eventType: string, status: string, timestamp: int)

  /** Failed logins that block an address, and the window they are counted in. */
  const MaxFailures: nat := 5
  const FailureWindowMs: int := 30 * 60 * 1000

  /** Failed logins that lock an account, and the length of the lock. */
  const MaxLoginAttempts: int := 5
  const AccountLockMs: int := 30 * 60 * 1000

  /** The filter of `isIPBlocked`: a failed login attempt from `ip`, strictly
      inside the window ending at `now`. */
  predicate RecentFailure(e: LogEntry, ip: string, now: int) {
    e.ipAddress == ip && e.eventType == "LOGIN_ATTEMPT" && e.status == "FAILED"
    && e.timestamp > now - FailureWindowMs
  }

  /** `countDocuments` over the log. */
  function CountRecentFailures(log: seq<LogEntry>, ip: string, now: int): (n: nat)
    ensures n <= |log|
  {
    if |log| == 0 then 0
    else CountRecentFailures(log[..|log| - 1], ip, now) + (if RecentFailure(log[|log| - 1], ip, now) then 1 else 0)
  }

  /** The positions of the matching entries: the reference the count is measured
      against. */
  function MatchingPositions(log: seq<LogEntry>, ip: string, now: int): set<nat> {
    set i: nat | i < |log| && RecentFailure(log[i], ip, now)
  }

  lemma {:induction false} CountIsMatchingPositions(log: seq<LogEntry>, ip: string, now: int)
    ensures CountRecentFailures(log, ip, now) == |MatchingPositions(log, ip, now)|
  {
    if |log| > 0 {
      var init := log[..|log| - 1];
      CountIsMatchingPositions(init, ip, now);
      var last := |log| - 1;
      var before := MatchingPositions(init, ip, now);
      assert MatchingPositions(log, ip, now) ==
        before + (if RecentFailure(log[last], ip, now) then {last} else {});
    }
  }

  /** `isIPBlocked`: at least five recent failures; a failing query answers false. */
  function IsIPBlocked(log: Result<seq<LogEntry>, string>, ip: string, now: int): (blocked: bool)
    ensures log.Err? ==> !blocked
    ensures log.Ok? ==> (blocked <==> |MatchingPositions(log.value, ip, now)| >= MaxFailures)
  {
    match log
    case Err(_) => false
    case Ok(entries) =>
      CountIsMatchingPositions(entries, ip, now);
      CountRecentFailures(entries, ip, now) >= MaxFailures
  }

  /** `isAccountLocked`: the answer and the lock state afterwards. An expired lock
      is lifted on the spot; a lock without an end time holds forever. */
  function IsAccountLocked(acc: Option<AccountLock>, now: int): (out: (bool, Option<AccountLock>))
    ensures acc.None? ==> out == (false, None)
    ensures acc.Some? && !acc.value.accountLocked ==> out == (false, acc)
    ensures acc.Some? && acc.value.accountLocked && acc.value.lockUntil.Some? && acc.value.lockUntil.value < now ==>
      out == (false, Some(AccountLock(0, false, None)))
    ensures acc.Some? && acc.value.accountLocked && acc.value.lockUntil.None? ==> out == (true, acc)
    ensures out.0 ==> out.1 == acc && acc.Some? && acc.value.accountLocked
  {
    match acc
    case None => (false, None)
    case Some(a) =>
      if !a.accountLocked then (false, acc)
      else if a.lockUntil.Some? && a.lockUntil.value < now then (false, Some(AccountLock(0, false, None)))
      else (true, acc)
  }

  /** `incrementLoginAttempts`: one more failure; the fifth and every later one
      (re)starts a thirty-minute lock. Otherwise only the count changes. */
  function IncrementLoginAttempts(acc: Option<AccountLock>, now: int): (acc': Option<AccountLock>)
    ensures acc.None? <==> acc'.None?
    ensures acc.Some? ==> acc'.value.loginAttempts == acc.value.loginAttempts + 1
    ensures acc.Some? && acc.value.loginAttempts + 1 >= MaxLoginAttempts ==>
      acc'.value.accountLocked && acc'.value.lockUntil == Some(now + AccountLockMs)
    ensures acc.Some? && acc.value.loginAttempts + 1 < MaxLoginAttempts ==>
      acc' == Some(acc.value.(loginAttempts := acc.value.loginAttempts + 1))
  {
    match acc
    case None => None
    case Some(a) =>
      var n := a.loginAttempts + 1;
      if n >= MaxLoginAttempts then Some(AccountLock(n, true, Some(now + AccountLockMs)))
      else Some(a.(loginAttempts := n))
  }

  /** `resetLoginAttempts`: zero count, unlocked, no end time. */
  function ResetLoginAttempts(acc: Option<AccountLock>): (acc': Option<AccountLock>)
    ensures acc.None? ==> acc'.None?
    ensures acc.Some? ==> acc' == Some(AccountLock(0, false, None))
    ensures acc'.Some? ==> !IsAccountLocked(acc', 0).0
  {
    match acc
    case None => None
    case Some(_) => Some(AccountLock(0, false, None))
  }

  /** Applying `incrementLoginAttempts` `k` times at the same moment. */
  function Failures(acc: Option<AccountLock>, k: nat, now: int): Option<AccountLock>
    decreases k
  {
    if k == 0 then acc else IncrementLoginAttempts(Failures(acc, k - 1, now), now)
  }

  /** From a reset account, `k` failures count `k`, and lock from the fifth on. */
  lemma {:induction false} FailuresCount(k: nat, now: int)
    ensures var acc := Failures(Some(AccountLock(0, false, None)), k, now);
      && acc.Some? && acc.value.loginAttempts == k
      && (acc.value.accountLocked <==> k >= MaxLoginAttempts)
      && (k >= MaxLoginAttempts ==> acc.value.lockUntil == Some(now + AccountLockMs))
  {
    if k > 0 {
      FailuresCount(k - 1, now);
    }
  }

  /** After five failures the account reads as locked for the next thirty minutes,
      and the first check after the lock has run out unlocks it. */
  lemma FiveFailuresLock(now: int, later: int, after: int)
    requires now <= later <= now + AccountLockMs < after
    ensures IsAccountLocked(Failures(Some(AccountLock(0, false, None)), 5, now), later).0
    ensures IsAccountLocked(Failures(Some(AccountLock(0, false, None)), 5, now), after) == (false, Some(AccountLock(0, false, None)))
  {
    FailuresCount(5, now);
  }

  // ---------------------------------------------------------------------------
  // The lockout under the user schema as written

  /** A number as JavaScript computes `user.loginAttempts + 1`. */
  datatype JsNumber = NaN | Num(n: int)

  /** The three lockout paths of a loaded user document; a path the document
      does not hold reads as `undefined`, here `None`. */
  datatype LockFields = LockFields(loginAttempts: Option<JsNumber>, accountLocked: Option<bool>, lockUntil: Option<int>)

  /** A user as loaded under the schema as written, which declares none of the
      three paths. */
  const Undeclared := LockFields(None, None, None)

  /** The document of a user whose schema declares the three paths. */
  function Declared(acc: Option<AccountLock>): Option<LockFields> {
    match acc
    case None => None
    case Some(a) => Some(LockFields(Some(Num(a.loginAttempts)), Some(a.accountLocked), a.lockUntil))
  }

  /** `field + 1`: `undefined + 1` and `NaN + 1` are both NaN. */
  function PlusOne(field: Option<JsNumber>): (r: JsNumber)
    ensures r.Num? <==> field.Some? && field.value.Num?
    ensures r.Num? ==> r.n == field.value.n + 1
  {
    match field
    case Some(Num(k)) => Num(k + 1)
    case _ => NaN
  }

  /** `n >= 5`, which is false for NaN. */
  predicate ReachesLock(n: JsNumber) {
    n.Num? && n.n >= MaxLoginAttempts
  }

  /** `isAccountLocked` read against a loaded document: `undefined` is falsy,
      and a lock whose end has passed is lifted. */
  function IsAccountLockedIn(doc: Option<LockFields>, now: int): (locked: bool)
    ensures locked ==> doc.Some? && doc.value.accountLocked == Some(true)
    ensures doc.Some? && doc.value.accountLocked == Some(true) && doc.value.lockUntil.None? ==> locked
  {
    match doc
    case None => false
    case Some(d) => d.accountLocked == Some(true) && !(d.lockUntil.Some? && d.lockUntil.value < now)
  }

  /** With the paths declared, the document reader answers as `IsAccountLocked`. */
  lemma IsAccountLockedInAgrees(acc: Option<AccountLock>, now: int)
    ensures IsAccountLockedIn(Declared(acc), now) == IsAccountLocked(acc, now).0
  {
  }

  /** `incrementLoginAttempts` under the schema as written: the update it sends
      for a loaded document (its paths, `None` where the update leaves a path
      out), and the document stored afterwards. Strict mode drops from an update
      every path the schema does not declare, so none of the three is written. */
  function IncrementLoginAttemptsAsWritten(doc: Option<LockFields>, now: int): (r: (Option<LockFields>, Option<LockFields>))
    ensures doc.None? ==> r == (None, None)
    ensures doc.Some? ==>
      && r.0.Some? && r.0.value.loginAttempts == Some(PlusOne(doc.value.loginAttempts))
      && (r.0.value.accountLocked == Some(true) <==> ReachesLock(PlusOne(doc.value.loginAttempts)))
    ensures doc == Some(Undeclared) ==> r.0 == Some(LockFields(Some(NaN), None, None))
    ensures r.1 == doc
  {
    match doc
    case None => (None, None)
    case Some(d) =>
      var attempts := PlusOne(d.loginAttempts);
      var update := if ReachesLock(attempts) then LockFields(Some(attempts), Some(true), Some(now + AccountLockMs))
                    else LockFields(Some(attempts), None, None);
      (Some(update), Some(StrictUpdate(d, update)))
  }

  /** What an update leaves of a stored document when the schema declares none
      of the three paths: the document as it was. */
  function StrictUpdate(d: LockFields, update: LockFields): LockFields {
    d
  }

  /** Applying the as-written `incrementLoginAttempts` `k` times at one moment. */
  function FailuresAsWritten(doc: Option<LockFields>, k: nat, now: int): Option<LockFields>
    decreases k
  {
    if k == 0 then doc else IncrementLoginAttemptsAsWritten(FailuresAsWritten(doc, k - 1, now), now).1
  }

  /** However many failures are recorded as written, the stored document is the
      one loaded. */
  lemma {:induction false} FailuresAsWrittenKeep(doc: Option<LockFields>, k: nat, now: int)
    ensures FailuresAsWritten(doc, k, now) == doc
  {
    if k > 0 {
      FailuresAsWrittenKeep(doc, k - 1, now);
    }
  }

  /** With the paths declared, `k >= 5` failures lock the account; as written,
      every failure sends a NaN count that never locks, nothing is stored, and
      the account never reads as locked. */
  lemma LockNeverEngagesAsWritten(k: nat, now: int, later: int)
    requires k >= MaxLoginAttempts
    ensures IsAccountLocked(Failures(Some(AccountLock(0, false, None)), k, now), now).0
    ensures IsAccountLockedIn(Declared(Failures(Some(AccountLock(0, false, None)), k, now)), now)
    ensures FailuresAsWritten(Some(Undeclared), k, now) == Some(Undeclared)
    ensures !ReachesLock(PlusOne(FailuresAsWritten(Some(Undeclared), k, now).value.loginAttempts))
    ensures !IsAccountLockedIn(FailuresAsWritten(Some(Undeclared), k, now), later)
  {
    FailuresCount(k, now);
    IsAccountLockedInAgrees(Failures(Some(AccountLock(0, false, None)), k, now), now);
    FailuresAsWrittenKeep(Some(Undeclared), k, now);
  }
}

=== FILE: signing.dfy ===
/** The canonical signing strings of services/wechatPayService.js and
    utils/paymentGateway.js. The parameters are sorted by key, each kept one is
    written `k=v&`, and `key=<secret>` closes the string; the two files differ
    only in which parameters they keep. The MD5 digest of the string is a
    parameter of the modules that use it. */
module Signing {
  import opened Wrappers

  /** A request or notification parameter as the signing code sees it. */
  datatype Value = Undefined | Null | Str(s: string) | Num(n: int)

  /** The template-literal text `${v}` of a parameter. */
  function Text(v: Value): string {
    match v
    case Undefined => "undefined"
    case Null => "null"
    case Str(s) => s
    case Num(n) => if n < 0 then "-" + DecimalString(-n) else DecimalString(n)
  }

  /** An optional request field as a parameter value. */
  function Opt(o: Option<string>): (v: Value)
    ensures o.None? <==> v == Undefined
    ensures o.Some? ==> v == Str(o.value)
  {
    match o
    case None => Undefined
    case Some(s) => Str(s)
  }

  /** A parameter tested with `if (x)` or `x || ...`. */
  predicate Truthy(o: Option<Value>) {
    o.Some? && match o.value
      case Str(s) => s != ""
      case Num(n) => n != 0
      case _ => false
  }

  /** An object's own properties; keys are unique. */
  type Param = (string, Value)
  type Params = seq<Param>

  predicate UniqueKeys(ps: Params) {
    forall i, j :: 0 <= i < j < |ps| ==> ps[i].0 != ps[j].0
  }

  /** `obj[k]`, `None` when the key is not an own property. */
  function Lookup(ps: Params, k: string): (r: Option<Value>)
    ensures r.Some? ==> (k, r.value) in ps
    ensures r.None? <==> forall i :: 0 <= i < |ps| ==> ps[i].0 != k
  {
    if |ps| == 0 then None
    else if ps[0].0 == k then Some(ps[0].1)
    else
      var r := Lookup(ps[1..], k);
      assert forall i :: 1 <= i < |ps| ==> ps[i] == ps[1..][i - 1];
      r
  }

  /** In an object, a key's lookup finds the value stored under it. */
  lemma {:induction false} LookupUnique(ps: Params, i: int)
    requires UniqueKeys(ps) && 0 <= i < |ps|
    ensures Lookup(ps, ps[i].0) == Some(ps[i].1)
    decreases i
  {
    if i > 0 {
      LookupUnique(ps[1..], i - 1);
    }
  }

  /** A key no parameter carries is not found. */
  lemma LookupAbsent(ps: Params, k: string)
    requires forall i :: 0 <= i < |ps| ==> ps[i].0 != k
    ensures Lookup(ps, k).None?
  {
  }

  /** An appended fresh key is found. */
  lemma {:induction false} LookupAppend(ps: Params, e: Param)
    requires Lookup(ps, e.0).None?
    ensures Lookup(ps + [e], e.0) == Some(e.1)
    decreases |ps|
  {
    if |ps| > 0 {
      assert (ps + [e])[1..] == ps[1..] + [e];
      LookupAppend(ps[1..], e);
    }
  }

  /** Appending a fresh key keeps the keys unique, finds the new value under
      it and every other key's value as before. */
  lemma AppendFresh(ps: Params, e: Param)
    requires UniqueKeys(ps) && Lookup(ps, e.0).None?
    ensures UniqueKeys(ps + [e]) && Lookup(ps + [e], e.0) == Some(e.1)
    ensures forall k :: k != e.0 ==> Lookup(ps + [e], k) == Lookup(ps, k)
  {
    LookupAppend(ps, e);
    forall k | k != e.0 ensures Lookup(ps + [e], k) == Lookup(ps, k) {
      LookupAppendOther(ps, e, k);
    }
  }

  /** Appending leaves the other keys' values as they were. */
  lemma {:induction false} LookupAppendOther(ps: Params, e: Param, k: string)
    requires k != e.0
    ensures Lookup(ps + [e], k) == Lookup(ps, k)
    decreases |ps|
  {
    if |ps| > 0 {
      assert (ps + [e])[1..] == ps[1..] + [e];
      LookupAppendOther(ps[1..], e, k);
    }
  }

  /** The parameters that satisfy `f`, in their order. */
  function Filter(f: Param -> bool, ps: Params): (r: Params)
    ensures |r| <= |ps|
    ensures forall p :: p in r <==> p in ps && f(p)
  {
    if |ps| == 0 then []
    else (if f(ps[0]) then [ps[0]] else []) + Filter(f, ps[1..])
  }

  /** `delete obj[k]`. */
  function Without(ps: Params, k: string): (r: Params)
    ensures forall p :: p in r <==> p in ps && p.0 != k
    ensures Lookup(r, k).None?
  {
    Filter((p: Param) => p.0 != k, ps)
  }

  /** Deleting one key leaves every other key's value as it was. */
  lemma {:induction false} LookupWithout(ps: Params, gone: string, k: string)
    requires k != gone
    ensures Lookup(Without(ps, gone), k) == Lookup(ps, k)
    decreases |ps|
  {
    var f := (p: Param) => p.0 != gone;
    if |ps| > 0 {
      LookupWithout(ps[1..], gone, k);
      if f(ps[0]) {
        assert Without(ps, gone) == [ps[0]] + Without(ps[1..], gone);
      } else {
        assert Without(ps, gone) == Without(ps[1..], gone);
      }
    }
  }

  // ---------------------------------------------------------------------------
  // Key order

  /** The default order of `Array.prototype.sort` on strings: code units
      compared from the left, a proper prefix first. */
  predicate Below(a: string, b: string)
    decreases |a|
  {
    |b| > 0 && (|a| == 0 || a[0] < b[0] || (a[0] == b[0] && Below(a[1..], b[1..])))
  }

  lemma {:induction false} BelowIrreflexive(a: string)
    ensures !Below(a, a)
    decreases |a|
  {
    if |a| > 0 {
      BelowIrreflexive(a[1..]);
    }
  }

  lemma {:induction false} BelowAsymmetric(a: string, b: string)
    ensures Below(a, b) ==> !Below(b, a)
    decreases |a|
  {
    if |a| > 0 && |b| > 0 {
      BelowAsymmetric(a[1..], b[1..]);
    }
  }

  lemma {:induction false} BelowTransitive(a: string, b: string, c: string)
    ensures Below(a, b) && Below(b, c) ==> Below(a, c)
    decreases |a|
  {
    if |a| > 0 && |b| > 0 && |c| > 0 {
      BelowTransitive(a[1..], b[1..], c[1..]);
    }
  }

  lemma {:induction false} BelowTotal(a: string, b: string)
    ensures a == b || Below(a, b) || Below(b, a)
    decreases |a|
  {
    if |a| > 0 && |b| > 0 {
      BelowTotal(a[1..], b[1..]);
      if a[0] == b[0] && a[1..] == b[1..] {
        assert a == [a[0]] + a[1..] && b == [b[0]] + b[1..];
      }
    }
  }

  predicate StrictlySorted(ps: Params) {
    forall i, j :: 0 <= i < j < |ps| ==> Below(ps[i].0, ps[j].0)
  }

  lemma SortedUniqueKeys(ps: Params)
    requires StrictlySorted(ps)
    ensures UniqueKeys(ps)
  {
    forall i, j | 0 <= i < j < |ps|
      ensures ps[i].0 != ps[j].0
    {
      BelowIrreflexive(ps[i].0);
    }
  }

  /** One step of insertion sort. */
  function Insert(p: Param, ps: Params): (r: Params)
    ensures |r| == |ps| + 1
    ensures multiset(r) == multiset(ps) + multiset{p}
    ensures forall q :: q in r <==> q in ps || q == p
  {
    if |ps| == 0 then [p]
    else if Below(p.0, ps[0].0) then [p] + ps
    else
      var r := [ps[0]] + Insert(p, ps[1..]);
      assert ps == [ps[0]] + ps[1..];
      r
  }

  /** Inserting a parameter under a fresh key keeps the order strict. */
  lemma {:induction false} InsertSorted(p: Param, ps: Params)
    requires StrictlySorted(ps)
    requires forall i :: 0 <= i < |ps| ==> ps[i].0 != p.0
    ensures StrictlySorted(Insert(p, ps))
    decreases |ps|
  {
    if |ps| > 0 {
      if Below(p.0, ps[0].0) {
        forall j | 0 <= j < |ps|
          ensures Below(p.0, ps[j].0)
        {
          BelowTransitive(p.0, ps[0].0, ps[j].0);
        }
      } else {
        BelowTotal(p.0, ps[0].0);
        InsertSorted(p, ps[1..]);
        var r := Insert(p, ps[1..]);
        forall q | q in r
          ensures Below(ps[0].0, q.0)
        {
          if q != p {
            var j :| 0 <= j < |ps[1..]| && ps[1..][j] == q;
            assert ps[j + 1] == q;
          }
        }
      }
    }
  }

  /** `Object.keys(params).sort()`, carrying each value with its key. */
  function SortByKey(ps: Params): (r: Params)
    ensures |r| == |ps| && multiset(r) == multiset(ps)
    ensures forall q :: q in r <==> q in ps
  {
    if |ps| == 0 then []
    else
      var r := Insert(ps[0], SortByKey(ps[1..]));
      assert ps == [ps[0]] + ps[1..];
      r
  }

  /** Sorting an object's properties yields them in strictly ascending key order. */
  lemma {:induction false} SortSorted(ps: Params)
    requires UniqueKeys(ps)
    ensures StrictlySorted(SortByKey(ps))
    decreases |ps|
  {
    if |ps| > 0 {
      SortSorted(ps[1..]);
      var rest := SortByKey(ps[1..]);
      forall i | 0 <= i < |rest|
        ensures rest[i].0 != ps[0].0
      {
        assert rest[i] in ps[1..];
        var j :| 0 <= j < |ps[1..]| && ps[1..][j] == rest[i];
        assert ps[j + 1] == rest[i];
      }
      InsertSorted(ps[0], rest);
    }
  }

  lemma HeadIsMember(ps: Params)
    ensures |ps| > 0 ==> ps[0] in ps
  {
  }

  /** Two strictly sorted lists with the same members are the same list. */
  lemma {:induction false} SortedUnique(a: Params, b: Params)
    requires StrictlySorted(a) && StrictlySorted(b)
    requires forall p :: p in a <==> p in b
    ensures a == b
    decreases |a|
  {
    if |a| == 0 {
      HeadIsMember(b);
    } else {
      assert a[0] in b;
      assert b[0] in a;
      var k :| 0 <= k < |b| && b[k] == a[0];
      var m :| 0 <= m < |a| && a[m] == b[0];
      BelowAsymmetric(a[0].0, b[0].0);
      assert k == 0 || m == 0;
      assert a[0] == b[0];
      forall p
        ensures p in a[1..] <==> p in b[1..]
      {
        if p in a[1..] {
          var i :| 0 <= i < |a[1..]| && a[1..][i] == p;
          assert a[i + 1] == p;
          BelowIrreflexive(a[0].0);
          assert p in b && p != b[0];
          var j :| 0 <= j < |b| && b[j] == p;
          assert b[1..][j - 1] == p;
        }
        if p in b[1..] {
          var i :| 0 <= i < |b[1..]| && b[1..][i] == p;
          assert b[i + 1] == p;
          BelowIrreflexive(b[0].0);
          assert p in a && p != a[0];
          var j :| 0 <= j < |a| && a[j] == p;
          assert a[1..][j - 1] == p;
        }
      }
      SortedUnique(a[1..], b[1..]);
      assert a == [a[0]] + a[1..] && b == [b[0]] + b[1..];
    }
  }

  /** Keeping some of a strictly sorted list keeps it strictly sorted. */
  lemma {:induction false} FilterSorted(f: Param -> bool, ps: Params)
    requires StrictlySorted(ps)
    ensures StrictlySorted(Filter(f, ps))
    decreases |ps|
  {
    if |ps| > 0 {
      FilterSorted(f, ps[1..]);
      var rest := Filter(f, ps[1..]);
      forall q | q in rest
        ensures Below(ps[0].0, q.0)
      {
        var j :| 0 <= j < |ps[1..]| && ps[1..][j] == q;
        assert ps[j + 1] == q;
      }
    }
  }

  /** Keeping some of an object's properties leaves their keys unique. */
  lemma {:induction false} FilterUnique(f: Param -> bool, ps: Params)
    requires UniqueKeys(ps)
    ensures UniqueKeys(Filter(f, ps))
    decreases |ps|
  {
    if |ps| > 0 {
      FilterUnique(f, ps[1..]);
      var rest := Filter(f, ps[1..]);
      forall q | q in rest
        ensures q.0 != ps[0].0
      {
        var j :| 0 <= j < |ps[1..]| && ps[1..][j] == q;
        assert ps[j + 1] == q;
      }
    }
  }

  /** Dropping parameters before or after sorting gives the same list. */
  lemma SortFilterCommute(f: Param -> bool, ps: Params)
    requires UniqueKeys(ps)
    ensures Filter(f, SortByKey(ps)) == SortByKey(Filter(f, ps))
  {
    SortSorted(ps);
    FilterSorted(f, SortByKey(ps));
    FilterUnique(f, ps);
    SortSorted(Filter(f, ps));
    SortedUnique(Filter(f, SortByKey(ps)), SortByKey(Filter(f, ps)));
  }

  /** Two orderings of the same properties sort to the same list. */
  lemma SortIgnoresOrder(ps: Params, qs: Params)
    requires UniqueKeys(ps) && UniqueKeys(qs)
    requires forall p :: p in ps <==> p in qs
    ensures SortByKey(ps) == SortByKey(qs)
  {
    SortSorted(ps);
    SortSorted(qs);
    SortedUnique(SortByKey(ps), SortByKey(qs));
  }

  // ---------------------------------------------------------------------------
  // The signing strings

  /** The two omission rules. WeChat drops `undefined`, the empty string and
      the `sign` key; the gateway drops `undefined` and `null` only. */
  datatype Rule = Wechat | Gateway

  predicate Keeps(rule: Rule, p: Param) {
    match rule
    case Wechat => p.1 != Undefined && p.1 != Str("") && p.0 != "sign"
    case Gateway => p.1 != Undefined && p.1 != Null
  }

  function Kept(rule: Rule, ps: Params): (r: Params)
    ensures forall p :: p in r <==> p in ps && Keeps(rule, p)
  {
    Filter((p: Param) => Keeps(rule, p), ps)
  }

  /** `k=v&` for every parameter, in order. */
  function Pairs(ps: Params): string {
    if |ps| == 0 then "" else ps[0].0 + "=" + Text(ps[0].1) + "&" + Pairs(ps[1..])
  }

  /** `generateSign` up to the digest: sort, drop what the rule omits,
      serialise, and close with the secret. */
  function SignString(rule: Rule, ps: Params, secret: string): (r: string)
    ensures |r| >= 4 + |secret| && r[|r| - |secret| - 4..] == "key=" + secret
  {
    Pairs(Kept(rule, SortByKey(ps))) + ("key=" + secret)
  }

  /** The signing string depends on the set of properties only, not on the
      order they were written in. */
  lemma SignIgnoresOrder(rule: Rule, ps: Params, qs: Params, secret: string)
    requires UniqueKeys(ps) && UniqueKeys(qs)
    requires forall p :: p in ps <==> p in qs
    ensures SignString(rule, ps, secret) == SignString(rule, qs, secret)
  {
    SortIgnoresOrder(ps, qs);
  }

  /** Filtering twice with the stricter test last is filtering once with it. */
  lemma {:induction false} FilterAbsorb(f: Param -> bool, g: Param -> bool, ps: Params)
    requires forall p :: f(p) ==> g(p)
    ensures Filter(f, Filter(g, ps)) == Filter(f, ps)
    decreases |ps|
  {
    if |ps| > 0 {
      FilterAbsorb(f, g, ps[1..]);
      var gs := Filter(g, ps);
      if g(ps[0]) {
        assert gs == [ps[0]] + Filter(g, ps[1..]);
        assert gs[1..] == Filter(g, ps[1..]);
      } else {
        assert gs == Filter(g, ps[1..]);
      }
    }
  }

  /** The WeChat string never covers the `sign` field: deleting it, or giving it
      any value, leaves the string as it was. */
  lemma WechatIgnoresSign(ps: Params, secret: string)
    requires UniqueKeys(ps)
    ensures SignString(Wechat, Without(ps, "sign"), secret) == SignString(Wechat, ps, secret)
  {
    var keep := (p: Param) => Keeps(Wechat, p);
    var other := (p: Param) => p.0 != "sign";
    FilterUnique(other, ps);
    SortFilterCommute(keep, Without(ps, "sign"));
    SortFilterCommute(keep, ps);
    FilterAbsorb(keep, other, ps);
  }

  // ---------------------------------------------------------------------------
  // Reading a signing string back

  /** The text pairs a signing string is made of. */
  function Texts(ps: Params): (r: seq<(string, string)>)
    ensures |r| == |ps| && forall i :: 0 <= i < |ps| ==> r[i] == (ps[i].0, Text(ps[i].1))
  {
    seq(|ps|, i requires 0 <= i < |ps| => (ps[i].0, Text(ps[i].1)))
  }

  /** No key holds `&` or `=`, no value text holds `&`: the string can be cut
      back into its pairs. */
  predicate Separable(ps: Params) {
    forall i :: 0 <= i < |ps| ==> '&' !in ps[i].0 && '=' !in ps[i].0 && '&' !in Text(ps[i].1)
  }

  /** Cut at each `&`, then each piece at its first `=`; the piece after the
      last `&` is the closing `key=<secret>`. */
  function Parse(s: string): seq<(string, string)>
    decreases |s|
  {
    if '&' !in s then []
    else
      var piece := BeforeFirst(s, '&');
      var k := BeforeFirst(piece, '=');
      var v := if |k| < |piece| then piece[|k| + 1..] else "";
      [(k, v)] + Parse(s[|piece| + 1..])
  }

  /** One `k=v&` piece is read back as the pair it came from. */
  lemma ParseStep(k: string, v: string, rest: string)
    requires '&' !in k && '=' !in k && '&' !in v
    ensures Parse(k + "=" + v + "&" + rest) == [(k, v)] + Parse(rest)
  {
    var piece := k + "=" + v;
    var s := piece + "&" + rest;
    assert s == piece + ['&'] + rest;
    assert '&' !in piece;
    BeforeFirstAppend(piece, '&', rest);
    assert piece == k + ['='] + v;
    BeforeFirstAppend(k, '=', v);
    assert piece[|k| + 1..] == v;
    assert s[|piece| + 1..] == rest;
  }

  lemma SeparableTail(ps: Params)
    requires |ps| > 0 && Separable(ps)
    ensures Separable(ps[1..])
  {
    forall i | 0 <= i < |ps[1..]|
      ensures '&' !in ps[1..][i].0 && '=' !in ps[1..][i].0 && '&' !in Text(ps[1..][i].1)
    {
      assert ps[1..][i] == ps[i + 1];
    }
  }

  lemma TextsCons(ps: Params)
    requires |ps| > 0
    ensures Texts(ps) == [(ps[0].0, Text(ps[0].1))] + Texts(ps[1..])
  {
  }

  /** Reading the pairs of a serialisation back gives their texts. */
  lemma {:induction false} ParsePairs(ps: Params, tail: string)
    requires Separable(ps) && '&' !in tail
    ensures Parse(Pairs(ps) + tail) == Texts(ps)
    decreases |ps|
  {
    if |ps| == 0 {
      assert Pairs(ps) + tail == tail;
    } else {
      var k := ps[0].0;
      var v := Text(ps[0].1);
      var rest := Pairs(ps[1..]) + tail;
      assert Pairs(ps) + tail == k + "=" + v + "&" + rest;
      ParseStep(k, v, rest);
      SeparableTail(ps);
      ParsePairs(ps[1..], tail);
      TextsCons(ps);
    }
  }

  /** The serialisation depends on the texts only. */
  lemma {:induction false} PairsOfTexts(ps: Params, qs: Params)
    requires Texts(ps) == Texts(qs)
    ensures Pairs(ps) == Pairs(qs)
    decreases |ps|
  {
    if |ps| > 0 {
      assert Texts(ps[1..]) == Texts(qs[1..]) by {
        assert forall i :: 0 <= i < |ps| - 1 ==> Texts(ps[1..])[i] == Texts(ps)[i + 1];
        assert forall i :: 0 <= i < |qs| - 1 ==> Texts(qs[1..])[i] == Texts(qs)[i + 1];
      }
      assert Texts(ps)[0] == Texts(qs)[0];
      PairsOfTexts(ps[1..], qs[1..]);
    }
  }

  /** Serialisations followed by the same `&`-free tail are equal exactly when
      their texts are. */
  lemma PairsInjective(a: Params, b: Params, tail: string)
    requires Separable(a) && Separable(b) && '&' !in tail
    ensures Pairs(a) + tail == Pairs(b) + tail <==> Texts(a) == Texts(b)
  {
    ParsePairs(a, tail);
    ParsePairs(b, tail);
    if Texts(a) == Texts(b) {
      PairsOfTexts(a, b);
    }
  }

  /** With separable parameters and secret, two parameter sets share a signing
      string exactly when they keep the same keys with the same texts in key
      order: changing any signed field changes the string the digest sees. */
  lemma SignStringInjective(rule: Rule, ps: Params, qs: Params, secret: string)
    requires Separable(Kept(rule, SortByKey(ps))) && Separable(Kept(rule, SortByKey(qs)))
    requires '&' !in secret
    ensures SignString(rule, ps, secret) == SignString(rule, qs, secret) <==>
      Texts(Kept(rule, SortByKey(ps))) == Texts(Kept(rule, SortByKey(qs)))
  {
    var tail := "key=" + secret;
    assert '&' !in tail;
    assert SignString(rule, ps, secret) == Pairs(Kept(rule, SortByKey(ps))) + tail;
    assert SignString(rule, qs, secret) == Pairs(Kept(rule, SortByKey(qs))) + tail;
    PairsInjective(Kept(rule, SortByKey(ps)), Kept(rule, SortByKey(qs)), tail);
  }

  // ---------------------------------------------------------------------------
  // Adding one field

  lemma {:induction false} FilterAppend(f: Param -> bool, a: Params, b: Params)
    ensures Filter(f, a + b) == Filter(f, a) + Filter(f, b)
    decreases |a|
  {
    if |a| == 0 {
      assert a + b == b;
    } else {
      assert (a + b)[1..] == a[1..] + b;
      FilterAppend(f, a[1..], b);
    }
  }

  /** Deleting a key that was appended fresh gives back the original object. */
  lemma {:induction false} WithoutAppended(ps: Params, e: Param)
    requires Lookup(ps, e.0).None?
    ensures Without(ps + [e], e.0) == ps
    decreases |ps|
  {
    var f := (p: Param) => p.0 != e.0;
    FilterAppend(f, ps, [e]);
    FilterAll(f, ps);
  }

  lemma {:induction false} FilterAll(f: Param -> bool, ps: Params)
    requires forall i :: 0 <= i < |ps| ==> f(ps[i])
    ensures Filter(f, ps) == ps
    decreases |ps|
  {
    if |ps| > 0 {
      FilterAll(f, ps[1..]);
      assert ps == [ps[0]] + ps[1..];
    }
  }

  /** A field the rule omits leaves the signing string as it was. */
  lemma OmittedFieldIgnored(rule: Rule, ps: Params, e: Param, secret: string)
    requires UniqueKeys(ps) && Lookup(ps, e.0).None?
    requires !Keeps(rule, e)
    ensures SignString(rule, ps + [e], secret) == SignString(rule, ps, secret)
  {
    var keep := (p: Param) => Keeps(rule, p);
    AppendFresh(ps, e);
    SortFilterCommute(keep, ps + [e]);
    SortFilterCommute(keep, ps);
    FilterAppend(keep, ps, [e]);
    assert Filter(keep, [e]) == [];
    assert Filter(keep, ps + [e]) == Filter(keep, ps);
  }

  /** A field the rule keeps adds one pair to the string, so with separable
      text the string changes. */
  lemma KeptFieldCounts(rule: Rule, ps: Params, e: Param, secret: string)
    requires UniqueKeys(ps) && Lookup(ps, e.0).None?
    requires Keeps(rule, e)
    requires Separable(Kept(rule, SortByKey(ps))) && Separable(Kept(rule, SortByKey(ps + [e])))
    requires '&' !in secret
    ensures SignString(rule, ps + [e], secret) != SignString(rule, ps, secret)
  {
    var keep := (p: Param) => Keeps(rule, p);
    AppendFresh(ps, e);
    SortFilterCommute(keep, ps + [e]);
    SortFilterCommute(keep, ps);
    FilterAppend(keep, ps, [e]);
    assert Filter(keep, [e]) == [e];
    assert |Kept(rule, SortByKey(ps + [e]))| == |Kept(rule, SortByKey(ps))| + 1;
    SignStringInjective(rule, ps + [e], ps, secret);
  }
}

=== FILE: sms.dfy ===
/** SMS verification codes (utils/smsService.js): the range of a generated code
    and the expiry rule of `verifySmsCode`. The random draw is a parameter. */
module Sms {
  import opened Wrappers
  import Users

  /** `Math.floor(100000 + r * 900000)` for a draw `r` in [0, 1). */
  function GenerateCode(r: real): (code: int)
    requires 0.0 <= r < 1.0
    ensures 100000 <= code <= 999999
    ensures code as real <= 100000.0 + r * 900000.0 < code as real + 1.0
  {
    (100000.0 + r * 900000.0).Floor
  }

  /** Every six-digit code is reachable. */
  lemma EveryCodeReachable(code: int)
    requires 100000 <= code <= 999999
    ensures GenerateCode((code - 100000) as real / 900000.0) == code
  {
    var r := (code - 100000) as real / 900000.0;
    assert 100000.0 + r * 900000.0 == code as real;
  }

  /** `verifySmsCode`: a stored, non-empty code that has not expired, equal to the
      input. A code is still good at exactly `expiresAt`; a code without an
      expiry never expires. */
  function VerifySmsCode(pv: Option<Users.PhoneVerification>, code: string, now: int): (ok: bool)
    ensures pv.None? || !Present(pv.value.code) ==> !ok
    ensures pv.Some? && pv.value.expiresAt.Some? && now > pv.value.expiresAt.value ==> !ok
    ensures ok <==>
      && pv.Some? && Present(pv.value.code)
      && (pv.value.expiresAt.None? || now <= pv.value.expiresAt.value)
      && pv.value.code.value == code
  {
    if pv.None? || !Present(pv.value.code) then false
    else if pv.value.expiresAt.Some? && now > pv.value.expiresAt.value then false
    else pv.value.code.value == code
  }

  /** Accepted at some moment means accepted at every earlier moment. */
  lemma VerifyMonotoneInTime(pv: Option<Users.PhoneVerification>, code: string, earlier: int, now: int)
    requires earlier <= now && VerifySmsCode(pv, code, now)
    ensures VerifySmsCode(pv, code, earlier)
  {
  }

  /** A code issued with lifetime `ttl` is accepted for exactly that long and
      only for itself. */
  lemma IssuedCodeWindow(c: string, issued: int, ttl: int, now: int, guess: string)
    requires c != ""
    ensures var pv := Some(Users.PhoneVerification(Some(c), Some(issued + ttl)));
      VerifySmsCode(pv, guess, now) <==> guess == c && now <= issued + ttl
  {
  }
}

=== FILE: statistics.dfy ===
/** The daily statistics record (services/statisticsService.js): the day
    window, the status tallies of projects and payments, the payment-method
    tally, the user counts and the funding sums and averages. Each MongoDB
    `$group` stage is modelled as the tally of its grouping key over the
    collection; the clock and the server's time-zone offset are parameters. */
module Statistics {
  import opened Wrappers
  import opened Tallies
  import opened ProjectModel

  // ---------------------------------------------------------------------------
  // The day

  /** `getTodayDate`: local midnight of the day holding `now`, where local
      time is `now + offset` (the offset in milliseconds east of UTC). */
  function TodayStart(now: int, offset: int): (r: int)
    ensures r <= now < r + DayMs
    ensures (r + offset) % DayMs == 0
  {
    now - (now + offset) % DayMs
  }

  /** The window every "today" query uses: `[today, today + 24h)`. */
  predicate InDay(t: int, today: int) {
    today <= t < today + DayMs
  }

  /** Every instant of a day's window has that day as its today. */
  lemma SameDay(t: int, day: int, offset: int)
    requires (day + offset) % DayMs == 0 && InDay(t, day)
    ensures TodayStart(t, offset) == day
  {
    var q := (day + offset) / DayMs;
    var d := t - day;
    assert t + offset == q * DayMs + d && 0 <= d < DayMs;
    ModOfMultiplePlus(q, d);
  }

  lemma ModOfMultiplePlus(q: int, d: int)
    requires 0 <= d < DayMs
    ensures (q * DayMs + d) % DayMs == d
  {
  }

  /** The window of the day holding `now` is exactly the instants sharing its
      today. */
  lemma DayWindowIsToday(now: int, t: int, offset: int)
    ensures InDay(t, TodayStart(now, offset)) <==> TodayStart(t, offset) == TodayStart(now, offset)
  {
    var day := TodayStart(now, offset);
    if InDay(t, day) {
      SameDay(t, day, offset);
    }
  }

  // ---------------------------------------------------------------------------
  // The record

  /** `created` is the schema's `new` field (today's new projects or users). */
  datatype ProjectCounts = ProjectCounts(total: nat, active: nat, funded: nat, failed: nat, draft: nat, created: nat)
  datatype UserCounts = UserCounts(total: nat, created: nat, active: nat)
  /** The averages are divisions of JavaScript numbers, modelled as exact
      rationals. */
  datatype Funding = Funding(total: int, daily: int, avgPerProject: real, avgPerBacker: real)
  datatype MethodCounts = MethodCounts(alipay: nat, wechat: nat, creditCard: nat, bankTransfer: nat)
  datatype PaymentCounts = PaymentCounts(total: nat, successful: nat, failed: nat, byMethod: MethodCounts)
  datatype Daily = Daily(date: int, projects: ProjectCounts, users: UserCounts, funding: Funding, payments: PaymentCounts)

  /** `new Statistics({ date })`: every count and sum at its schema default 0. */
  function Fresh(date: int): Daily {
    Daily(date, ProjectCounts(0, 0, 0, 0, 0, 0), UserCounts(0, 0, 0), Funding(0, 0, 0.0, 0.0),
          PaymentCounts(0, 0, 0, MethodCounts(0, 0, 0, 0)))
  }

  /** The fields of the collections the statistics read. */
  datatype ProjectRow = ProjectRow(status: string, currentFunding: int, createdAt: int)
  datatype UserRow = UserRow(createdAt: int, lastLoginAt: Option<int>)
  datatype PaymentRow = PaymentRow(user: string, status: string, paymentMethod: string, amount: int, createdAt: int)

  // ---------------------------------------------------------------------------
  // Folding the groups

  /** The value a field holds after a loop that assigns it the count of every
      group whose key is `k`, starting from `init`: the last such count. */
  function LastOf(gs: Tally, k: string, init: nat): nat
    decreases |gs|
  {
    if |gs| == 0 then init
    else LastOf(gs[1..], k, if gs[0].0 == k then gs[0].1 else init)
  }

  /** With distinct group keys the last count for `k` is its only count. */
  lemma {:induction false} LastOfDistinct(gs: Tally, k: string, init: nat)
    requires NoDup(Firsts(gs))
    ensures LastOf(gs, k, init) == if k in Firsts(gs) then CountOf(gs, k) else init
    decreases |gs|
  {
    if |gs| > 0 {
      var rest := gs[1..];
      assert Firsts(gs) == [gs[0].0] + Firsts(rest);
      assert NoDup(Firsts(rest)) by {
        forall i, j | 0 <= i < |rest| && 0 <= j < |rest| && Firsts(rest)[i] == Firsts(rest)[j]
          ensures i == j
        {
          assert Firsts(gs)[i + 1] == Firsts(gs)[j + 1];
        }
      }
      var next := if gs[0].0 == k then gs[0].1 else init;
      LastOfDistinct(rest, k, next);
      if gs[0].0 == k {
        assert k !in Firsts(rest) by {
          forall i | 0 <= i < |rest| ensures Firsts(rest)[i] != k {
            assert Firsts(gs)[i + 1] != Firsts(gs)[0];
          }
        }
      } else {
        assert KeyIndex(gs, k) == match KeyIndex(rest, k) case None => None case Some(i) => Some(i + 1);
      }
    }
  }

  /** Counting from zero over a `$group` result gives each key its count. */
  lemma LastOfCount(keys: seq<string>, k: string)
    ensures LastOf(Count(keys), k, 0) == Occurrences(keys, k)
  {
    var t := Count(keys);
    LastOfDistinct(t, k, 0);
    CountOfTally(t, keys, k);
  }

  /** One iteration of the project loop: add the group to the total and, for
      the four known statuses, store its count in their field. */
  function ProjectStep(c: ProjectCounts, g: (string, nat)): ProjectCounts {
    var c := c.(total := c.total + g.1);
    if g.0 == "active" then c.(active := g.1)
    else if g.0 == "funded" then c.(funded := g.1)
    else if g.0 == "failed" then c.(failed := g.1)
    else if g.0 == "draft" then c.(draft := g.1)
    else c
  }

  /** `projectStats.forEach(...)`: the total grows by every group's count and
      the four status fields never add up to more than the total. */
  function TallyProjects(c: ProjectCounts, gs: Tally): (r: ProjectCounts)
    ensures r.total == c.total + Sum(gs) && r.created == c.created
    ensures c.active + c.funded + c.failed + c.draft <= c.total ==> r.active + r.funded + r.failed + r.draft <= r.total
    decreases |gs|
  {
    if |gs| == 0 then c else TallyProjects(ProjectStep(c, gs[0]), gs[1..])
  }

  /** Field by field, the project loop leaves the last count of its status. */
  lemma {:induction false} TallyProjectsFields(c: ProjectCounts, gs: Tally)
    ensures var r := TallyProjects(c, gs);
      && r.active == LastOf(gs, "active", c.active) && r.funded == LastOf(gs, "funded", c.funded)
      && r.failed == LastOf(gs, "failed", c.failed) && r.draft == LastOf(gs, "draft", c.draft)
    decreases |gs|
  {
    if |gs| > 0 {
      TallyProjectsFields(ProjectStep(c, gs[0]), gs[1..]);
    }
  }

  /** One iteration of the payment loop. */
  function PaymentStep(c: PaymentCounts, g: (string, nat)): PaymentCounts {
    var c := c.(total := c.total + g.1);
    if g.0 == "completed" then c.(successful := g.1)
    else if g.0 == "failed" then c.(failed := g.1)
    else c
  }

  /** `paymentStats.forEach(...)`: the total grows by every group's count,
      successful and failed together stay within it, and the method counts are
      not touched. */
  function TallyPayments(c: PaymentCounts, gs: Tally): (r: PaymentCounts)
    ensures r.total == c.total + Sum(gs) && r.byMethod == c.byMethod
    ensures c.successful + c.failed <= c.total ==> r.successful + r.failed <= r.total
    decreases |gs|
  {
    if |gs| == 0 then c else TallyPayments(PaymentStep(c, gs[0]), gs[1..])
  }

  lemma {:induction false} TallyPaymentsFields(c: PaymentCounts, gs: Tally)
    ensures var r := TallyPayments(c, gs);
      r.successful == LastOf(gs, "completed", c.successful) && r.failed == LastOf(gs, "failed", c.failed)
    decreases |gs|
  {
    if |gs| > 0 {
      TallyPaymentsFields(PaymentStep(c, gs[0]), gs[1..]);
    }
  }

  /** The four keys `byMethod` is reset to; `hasOwnProperty` holds for these
      and no other key. */
  predicate KnownMethod(k: string) {
    k in {"alipay", "wechat", "creditCard", "bankTransfer"}
  }

  /** One iteration of the method loop: a known key takes the count, an
      unknown one is ignored. */
  function MethodStep(m: MethodCounts, g: (string, nat)): (r: MethodCounts)
    ensures !KnownMethod(g.0) ==> r == m
  {
    if g.0 == "alipay" then m.(alipay := g.1)
    else if g.0 == "wechat" then m.(wechat := g.1)
    else if g.0 == "creditCard" then m.(creditCard := g.1)
    else if g.0 == "bankTransfer" then m.(bankTransfer := g.1)
    else m
  }

  function TallyMethods(m: MethodCounts, gs: Tally): MethodCounts
    decreases |gs|
  {
    if |gs| == 0 then m else TallyMethods(MethodStep(m, gs[0]), gs[1..])
  }

  /** Field by field, the method loop leaves the last count of its method;
      groups with any other key change nothing. */
  lemma {:induction false} TallyMethodsFields(m: MethodCounts, gs: Tally)
    ensures TallyMethods(m, gs) == MethodCounts(LastOf(gs, "alipay", m.alipay), LastOf(gs, "wechat", m.wechat),
                                                LastOf(gs, "creditCard", m.creditCard),
                                                LastOf(gs, "bankTransfer", m.bankTransfer))
    decreases |gs|
  {
    if |gs| > 0 {
      TallyMethodsFields(MethodStep(m, gs[0]), gs[1..]);
    }
  }

  /** Groups under unknown methods leave the method counts as they were. */
  lemma {:induction false} UnknownMethodsIgnored(m: MethodCounts, gs: Tally)
    requires forall i :: 0 <= i < |gs| ==> !KnownMethod(gs[i].0)
    ensures TallyMethods(m, gs) == m
    decreases |gs|
  {
    if |gs| > 0 {
      UnknownMethodsIgnored(m, gs[1..]);
    }
  }

  // ---------------------------------------------------------------------------
  // The collections

  function ProjectStatuses(ps: seq<ProjectRow>): (r: seq<string>)
    ensures |r| == |ps| && forall i :: 0 <= i < |ps| ==> r[i] == ps[i].status
  {
    if |ps| == 0 then [] else ProjectStatuses(ps[..|ps| - 1]) + [ps[|ps| - 1].status]
  }

  function PaymentStatuses(ps: seq<PaymentRow>): (r: seq<string>)
    ensures |r| == |ps| && forall i :: 0 <= i < |ps| ==> r[i] == ps[i].status
  {
    if |ps| == 0 then [] else PaymentStatuses(ps[..|ps| - 1]) + [ps[|ps| - 1].status]
  }

  /** The methods of the completed payments, `$match: { status: 'completed' }`
      before grouping by `paymentMethod`. */
  function CompletedMethods(ps: seq<PaymentRow>): (r: seq<string>)
    ensures |r| == Occurrences(PaymentStatuses(ps), "completed")
    decreases |ps|
  {
    if |ps| == 0 then []
    else
      var init := ps[..|ps| - 1];
      assert PaymentStatuses(ps)[..|ps| - 1] == PaymentStatuses(init);
      var rest := CompletedMethods(init);
      if ps[|ps| - 1].status == "completed" then rest + [ps[|ps| - 1].paymentMethod] else rest
  }

  /** `countDocuments({ createdAt: { $gte: today, $lt: tomorrow } })` over
      the projects. */
  function CountLaunched(ps: seq<ProjectRow>, today: int): (n: nat)
    ensures n <= |ps|
  {
    if |ps| == 0 then 0 else (if InDay(ps[0].createdAt, today) then 1 else 0) + CountLaunched(ps[1..], today)
  }

  /** The same count over the users' sign-up times. */
  function CountJoined(us: seq<UserRow>, today: int): (n: nat)
    ensures n <= |us|
  {
    if |us| == 0 then 0 else (if InDay(us[0].createdAt, today) then 1 else 0) + CountJoined(us[1..], today)
  }

  /** The users whose last login falls in today's window; a user who never
      logged in does not match the range filter. */
  function CountActive(us: seq<UserRow>, today: int): (n: nat)
    ensures n <= |us|
  {
    if |us| == 0 then 0
    else (if us[0].lastLoginAt.Some? && InDay(us[0].lastLoginAt.value, today) then 1 else 0) + CountActive(us[1..], today)
  }

  /** A count is the whole list exactly when every user logged in today, and
      nothing exactly when none did. */
  lemma {:induction false} CountActiveExtremes(us: seq<UserRow>, today: int)
    ensures CountActive(us, today) == |us| <==>
      forall i :: 0 <= i < |us| ==> us[i].lastLoginAt.Some? && InDay(us[i].lastLoginAt.value, today)
    ensures CountActive(us, today) == 0 <==>
      forall i :: 0 <= i < |us| ==> !(us[i].lastLoginAt.Some? && InDay(us[i].lastLoginAt.value, today))
  {
    if |us| > 0 {
      CountActiveExtremes(us[1..], today);
      assert forall i :: 1 <= i < |us| ==> us[i] == us[1..][i - 1];
    }
  }

  /** How Mongoose treats a filter condition on a path the schema does not
      declare: its `strictQuery` option either drops the condition (the default
      of Mongoose 6) or keeps it (the default of Mongoose 7). Which version the
      program runs on is not fixed, so both are modelled. */
  datatype StrictQuery = DropUnknown | KeepUnknown

  /** The users as stored, as written: the user schema declares no
      `lastLoginAt`, so strict mode strips the tracking service's write of it
      and no stored user carries a login time. */
  function StoredAsWritten(us: seq<UserRow>): (r: seq<UserRow>)
    ensures |r| == |us|
    ensures forall i :: 0 <= i < |r| ==> r[i].createdAt == us[i].createdAt && r[i].lastLoginAt.None?
  {
    seq(|us|, i requires 0 <= i < |us| => us[i].(lastLoginAt := None))
  }

  lemma {:induction false} NoLoginNoneActive(us: seq<UserRow>, today: int)
    requires forall i :: 0 <= i < |us| ==> us[i].lastLoginAt.None?
    ensures CountActive(us, today) == 0
  {
    if |us| > 0 {
      NoLoginNoneActive(us[1..], today);
    }
  }

  /** The active-user count as written, over the stored users: with the
      condition dropped the query is `countDocuments({})` and counts every
      user; with it kept, it matches no stored user. */
  function CountActiveAsWritten(us: seq<UserRow>, today: int, sq: StrictQuery): (n: nat)
    ensures sq == DropUnknown ==> n == |us|
    ensures sq == KeepUnknown ==> n == 0
  {
    var stored := StoredAsWritten(us);
    match sq
    case DropUnknown => |stored|
    case KeepUnknown =>
      NoLoginNoneActive(stored, today);
      CountActive(stored, today)
  }

  /** As written, the figure is right only at the extremes: every user logged
      in today when the condition is dropped, none when it is kept. */
  lemma ActiveAsWrittenRightOnlyAtExtremes(us: seq<UserRow>, today: int, sq: StrictQuery)
    ensures CountActiveAsWritten(us, today, sq) == CountActive(us, today) <==>
      if sq == DropUnknown
      then forall i :: 0 <= i < |us| ==> us[i].lastLoginAt.Some? && InDay(us[i].lastLoginAt.value, today)
      else forall i :: 0 <= i < |us| ==> !(us[i].lastLoginAt.Some? && InDay(us[i].lastLoginAt.value, today))
  {
    CountActiveExtremes(us, today);
  }

  /** One user logged in today and one who never did: one active user, while
      as written the figure is 2 or 0. */
  lemma ActiveAsWrittenMiscounts(today: int)
    ensures var us := [UserRow(today, Some(today)), UserRow(today, None)];
      && CountActive(us, today) == 1
      && CountActiveAsWritten(us, today, DropUnknown) == 2
      && CountActiveAsWritten(us, today, KeepUnknown) == 0
  {
    var us := [UserRow(today, Some(today)), UserRow(today, None)];
    assert us[1..] == [UserRow(today, None)];
    assert us[1..][1..] == [];
  }

  /** `$sum: '$currentFunding'` over all projects. */
  function TotalRaised(ps: seq<ProjectRow>): int {
    if |ps| == 0 then 0 else ps[0].currentFunding + TotalRaised(ps[1..])
  }

  /** `$sum: '$amount'` over the payments completed in today's window. */
  function PaidOn(ps: seq<PaymentRow>, today: int): int {
    if |ps| == 0 then 0
    else (if ps[0].status == "completed" && InDay(ps[0].createdAt, today) then ps[0].amount else 0) + PaidOn(ps[1..], today)
  }

  /** `$sum: '$amount'` over all completed payments. */
  function CompletedAmount(ps: seq<PaymentRow>): int {
    if |ps| == 0 then 0 else (if ps[0].status == "completed" then ps[0].amount else 0) + CompletedAmount(ps[1..])
  }

  /** The distinct users behind completed payments (`$addToSet: '$user'`). */
  function Backers(ps: seq<PaymentRow>): set<string> {
    set i | 0 <= i < |ps| && ps[i].status == "completed" :: ps[i].user
  }

  // ---------------------------------------------------------------------------
  // The update

  /** The project counts of the update: the four status fields and the total
      reset and refilled from the grouping by status, then today's new
      projects. */
  function ProjectFigures(projects: seq<ProjectRow>, today: int): (c: ProjectCounts)
    ensures var statuses := ProjectStatuses(projects);
      && c.total == |projects|
      && c.active == Occurrences(statuses, "active")
      && c.funded == Occurrences(statuses, "funded")
      && c.failed == Occurrences(statuses, "failed")
      && c.draft == Occurrences(statuses, "draft")
      && c.active + c.funded + c.failed + c.draft <= c.total
      && c.created <= c.total
  {
    var statuses := ProjectStatuses(projects);
    var groups := Count(statuses);
    var reset := ProjectCounts(0, 0, 0, 0, 0, 0);
    var tallied := TallyProjects(reset, groups);
    SumOfCount(statuses);
    TallyProjectsFields(reset, groups);
    LastOfCount(statuses, "active");
    LastOfCount(statuses, "funded");
    LastOfCount(statuses, "failed");
    LastOfCount(statuses, "draft");
    tallied.(created := CountLaunched(projects, today))
  }

  /** The payment counts of the update: total, successful and failed from the
      grouping by status, and `byMethod` reset to the four zero keys and refilled
      from the grouping of completed payments by method. */
  function PaymentFigures(payments: seq<PaymentRow>): (c: PaymentCounts)
    ensures var statuses := PaymentStatuses(payments);
      var methods := CompletedMethods(payments);
      && c.total == |payments|
      && c.successful == Occurrences(statuses, "completed")
      && c.failed == Occurrences(statuses, "failed")
      && c.byMethod == MethodCounts(Occurrences(methods, "alipay"), Occurrences(methods, "wechat"),
                                    Occurrences(methods, "creditCard"), Occurrences(methods, "bankTransfer"))
  {
    var statuses := PaymentStatuses(payments);
    var groups := Count(statuses);
    var reset := PaymentCounts(0, 0, 0, MethodCounts(0, 0, 0, 0));
    var tallied := TallyPayments(reset, groups);
    var methods := CompletedMethods(payments);
    var methodGroups := Count(methods);
    var byMethod := TallyMethods(MethodCounts(0, 0, 0, 0), methodGroups);
    SumOfCount(statuses);
    TallyPaymentsFields(reset, groups);
    LastOfCount(statuses, "completed");
    LastOfCount(statuses, "failed");
    TallyMethodsFields(MethodCounts(0, 0, 0, 0), methodGroups);
    LastOfCount(methods, "alipay");
    LastOfCount(methods, "wechat");
    LastOfCount(methods, "creditCard");
    LastOfCount(methods, "bankTransfer");
    tallied.(byMethod := byMethod)
  }

  /** The funding figures: the sum of all projects' funding, today's completed
      payments, and the two averages, each assigned only when its divisor is
      positive. */
  function FundingFigures(prev: Funding, projectTotal: nat, projects: seq<ProjectRow>, payments: seq<PaymentRow>,
                          today: int): (f: Funding)
    ensures f.total == TotalRaised(projects)
    ensures f.daily == PaidOn(payments, today)
    ensures projectTotal > 0 ==> f.avgPerProject * projectTotal as real == f.total as real
    ensures projectTotal == 0 ==> f.avgPerProject == prev.avgPerProject
    ensures |Backers(payments)| > 0 ==> f.avgPerBacker * |Backers(payments)| as real == CompletedAmount(payments) as real
    ensures |Backers(payments)| == 0 ==> f.avgPerBacker == prev.avgPerBacker
  {
    var total := TotalRaised(projects);
    var daily := PaidOn(payments, today);
    var backers := Backers(payments);
    Funding(total, daily,
            if projectTotal > 0 then total as real / projectTotal as real else prev.avgPerProject,
            if |backers| > 0 then CompletedAmount(payments) as real / |backers| as real else prev.avgPerBacker)
  }

  /** Occurrences of distinct keys together never exceed the number of keys. */
  lemma {:induction false} DistinctOccurrencesWithin(keys: seq<string>, a: string, b: string, c: string, d: string)
    requires a != b && a != c && a != d && b != c && b != d && c != d
    ensures Occurrences(keys, a) + Occurrences(keys, b) + Occurrences(keys, c) + Occurrences(keys, d) <= |keys|
    decreases |keys|
  {
    if |keys| > 0 {
      DistinctOccurrencesWithin(keys[..|keys| - 1], a, b, c, d);
    }
  }

  /** The four method counts together never exceed the successful payments:
      a completed payment under another method is counted under none. */
  lemma MethodsWithinSuccessful(payments: seq<PaymentRow>)
    ensures var c := PaymentFigures(payments);
      c.byMethod.alipay + c.byMethod.wechat + c.byMethod.creditCard + c.byMethod.bankTransfer <= c.successful
  {
    DistinctOccurrencesWithin(CompletedMethods(payments), "alipay", "wechat", "creditCard", "bankTransfer");
  }

  /** The record `updateDailyStatistics` writes for the day starting at
      `today`, with the averages falling back to those of `prev`. */
  function DailyFor(prev: Funding, today: int, projects: seq<ProjectRow>, users: seq<UserRow>,
                    payments: seq<PaymentRow>): (d: Daily)
    ensures d.date == today
    ensures d.projects == ProjectFigures(projects, today)
    ensures d.payments == PaymentFigures(payments)
    ensures d.funding == FundingFigures(prev, |projects|, projects, payments, today)
    ensures d.users.total == |users|
    ensures d.users.created == CountJoined(users, today)
    ensures d.users.active == CountActive(users, today)
    ensures d.users.created <= d.users.total && d.users.active <= d.users.total
  {
    var pc := ProjectFigures(projects, today);
    var uc := UserCounts(|users|, CountJoined(users, today),
                         CountActive(users, today));
    Daily(today, pc, uc, FundingFigures(prev, pc.total, projects, payments, today), PaymentFigures(payments))
  }

  /** The funding figures depend on the previous record only through the
      averages it falls back to, so recomputing them from their own result
      changes nothing. */
  lemma FundingFiguresStable(prev: Funding, projectTotal: nat, projects: seq<ProjectRow>, payments: seq<PaymentRow>,
                             today: int)
    ensures var f := FundingFigures(prev, projectTotal, projects, payments, today);
      FundingFigures(f, projectTotal, projects, payments, today) == f
  {
  }

  /** `updateDailyStatistics`: today's record, or a fresh one, with every
      figure recomputed from the collections, stored under today's date. */
  function UpdateDailyStatistics(store: map<int, Daily>, now: int, offset: int, projects: seq<ProjectRow>,
                                 users: seq<UserRow>, payments: seq<PaymentRow>): (r: (map<int, Daily>, Daily))
    ensures var today := TodayStart(now, offset);
      var prev := if today in store then store[today] else Fresh(today);
      && r.0 == store[today := r.1] && r.1.date == today
      && r.1.projects == ProjectFigures(projects, today)
      && r.1.payments == PaymentFigures(payments)
      && r.1.funding == FundingFigures(prev.funding, |projects|, projects, payments, today)
      && r.1.users.total == |users|
      && r.1.users.created == CountJoined(users, today)
      && r.1.users.active == CountActive(users, today)
      && r.1.users.created <= r.1.users.total && r.1.users.active <= r.1.users.total
  {
    UpdateOn(store, TodayStart(now, offset), projects, users, payments)
  }

  /** `updateDailyStatistics` as written: the same record, except that the
      active-user figure is the count over the stored users, which carry no
      login time. */
  function UpdateDailyStatisticsAsWritten(store: map<int, Daily>, now: int, offset: int, projects: seq<ProjectRow>,
                                          users: seq<UserRow>, payments: seq<PaymentRow>, sq: StrictQuery): (r: (map<int, Daily>, Daily))
    ensures var today := TodayStart(now, offset);
      var corrected := UpdateDailyStatistics(store, now, offset, projects, users, payments).1;
      && r.0 == store[today := r.1]
      && r.1.(users := corrected.users) == corrected
      && r.1.users.total == corrected.users.total && r.1.users.created == corrected.users.created
      && r.1.users.active == (if sq == DropUnknown then |users| else 0)
  {
    var today := TodayStart(now, offset);
    var prev := if today in store then store[today] else Fresh(today);
    var d := DailyFor(prev.funding, today, projects, users, payments);
    var s := d.(users := d.users.(active := CountActiveAsWritten(users, today, sq)));
    (store[today := s], s)
  }

  /** The update for the day starting at `today`: the day's record, or a
      fresh one, recomputed and stored under that date. */
  function UpdateOn(store: map<int, Daily>, today: int, projects: seq<ProjectRow>, users: seq<UserRow>,
                    payments: seq<PaymentRow>): (r: (map<int, Daily>, Daily))
    ensures r.0 == store[today := r.1] && r.0[today] == r.1
    ensures r.1 == DailyFor((if today in store then store[today] else Fresh(today)).funding, today, projects, users, payments)
  {
    var prev := if today in store then store[today] else Fresh(today);
    var s := DailyFor(prev.funding, today, projects, users, payments);
    (store[today := s], s)
  }

  /** Running the update again on the same day over the same collections
      stores the same record. */
  lemma RerunSameDay(store: map<int, Daily>, now: int, later: int, offset: int, projects: seq<ProjectRow>,
                     users: seq<UserRow>, payments: seq<PaymentRow>)
    requires TodayStart(later, offset) == TodayStart(now, offset)
    ensures var once := UpdateDailyStatistics(store, now, offset, projects, users, payments);
      UpdateDailyStatistics(once.0, later, offset, projects, users, payments) == once
  {
    RerunOn(store, TodayStart(now, offset), projects, users, payments);
  }

  /** Updating the same day twice over the same collections stores the same
      record as updating it once. */
  lemma RerunOn(store: map<int, Daily>, today: int, projects: seq<ProjectRow>, users: seq<UserRow>,
                payments: seq<PaymentRow>)
    ensures var once := UpdateOn(store, today, projects, users, payments);
      UpdateOn(once.0, today, projects, users, payments) == once
  {
    var once := UpdateOn(store, today, projects, users, payments);
    var prev := if today in store then store[today] else Fresh(today);
    var d := once.1;
    var twice := UpdateOn(once.0, today, projects, users, payments);
    assert twice.1 == d by {
      DailyForStable(prev.funding, today, projects, users, payments);
    }
    assert twice.0 == once.0 by {
      RestoreSame(once.0, today);
    }
  }

  /** Storing a key's own value again leaves the map as it was. */
  lemma RestoreSame(m: map<int, Daily>, k: int)
    requires k in m
    ensures m[k := m[k]] == m
  {
  }

  /** Recomputing a day's record from its own averages gives it back. */
  lemma DailyForStable(prev: Funding, today: int, projects: seq<ProjectRow>, users: seq<UserRow>,
                       payments: seq<PaymentRow>)
    ensures var d := DailyFor(prev, today, projects, users, payments);
      DailyFor(d.funding, today, projects, users, payments) == d
  {
    FundingFiguresStable(prev, |projects|, projects, payments, today);
  }
}

=== FILE: tallies.dfy ===
/** Counting keys the way the services do it with a plain object used as a
    dictionary (`count[k] = (count[k] || 0) + 1`) or with a MongoDB `$group`
    stage: one entry per distinct key, in the order the keys were first seen. */
module Tallies {
  import opened Wrappers

  predicate NoDup<T(==)>(xs: seq<T>) {
    forall i, j :: 0 <= i < |xs| && 0 <= j < |xs| && xs[i] == xs[j] ==> i == j
  }

  /** A dictionary of counts as its list of entries, in the order keys were
      first seen (the order `Object.entries` gives for such keys). */
  type Tally = seq<(string, nat)>

  function Firsts(t: Tally): (r: seq<string>)
    ensures |r| == |t| && forall i :: 0 <= i < |t| ==> r[i] == t[i].0
  {
    if |t| == 0 then [] else [t[0].0] + Firsts(t[1..])
  }

  /** How often `k` occurs in `keys`. */
  function Occurrences(keys: seq<string>, k: string): nat {
    if |keys| == 0 then 0
    else Occurrences(keys[..|keys| - 1], k) + (if keys[|keys| - 1] == k then 1 else 0)
  }

  lemma OccursIffPositive(keys: seq<string>, k: string)
    ensures Occurrences(keys, k) > 0 <==> k in keys
  {
    if |keys| > 0 {
      OccursIffPositive(keys[..|keys| - 1], k);
      assert keys == keys[..|keys| - 1] + [keys[|keys| - 1]];
    }
  }

  /** Where `k` sits among the keys of a tally, if it does. */
  function KeyIndex(t: Tally, k: string): (r: Option<nat>)
    ensures r.Some? ==> r.value < |t| && t[r.value].0 == k
    ensures r.None? <==> k !in Firsts(t)
  {
    if |t| == 0 then None
    else if t[0].0 == k then Some(0)
    else match KeyIndex(t[1..], k)
      case None =>
        assert Firsts(t) == [t[0].0] + Firsts(t[1..]);
        None
      case Some(i) => Some(i + 1)
  }

  /** `count[k] = (count[k] || 0) + 1`. */
  function Bump(t: Tally, k: string): (r: Tally)
    requires NoDup(Firsts(t))
    ensures NoDup(Firsts(r))
    ensures k in Firsts(t) ==> Firsts(r) == Firsts(t)
    ensures k !in Firsts(t) ==> Firsts(r) == Firsts(t) + [k]
    ensures forall i :: 0 <= i < |r| ==> r[i].1 == (if i < |t| then t[i].1 else 0) + (if r[i].0 == k then 1 else 0)
  {
    match KeyIndex(t, k)
    case Some(i) =>
      var r := t[i := (k, t[i].1 + 1)];
      assert Firsts(r) == Firsts(t);
      assert forall j :: 0 <= j < |t| && j != i ==> t[j].0 != k by {
        forall j | 0 <= j < |t| && j != i ensures t[j].0 != k {
          assert Firsts(t)[j] != Firsts(t)[i];
        }
      }
      r
    case None =>
      var r := t + [(k, 1)];
      assert Firsts(r) == Firsts(t) + [k];
      r
  }

  /** `t` holds one entry per distinct key of `keys`, with its number of
      occurrences. */
  ghost predicate TallyOf(t: Tally, keys: seq<string>) {
    && NoDup(Firsts(t))
    && (forall k :: k in Firsts(t) <==> k in keys)
    && (forall i :: 0 <= i < |t| ==> t[i].1 == Occurrences(keys, t[i].0))
  }

  /** The counting loop: one entry per distinct key, holding how often it
      occurs. */
  function Count(keys: seq<string>): (t: Tally)
    ensures TallyOf(t, keys)
    decreases |keys|
  {
    if |keys| == 0 then []
    else
      var init := keys[..|keys| - 1];
      var last := keys[|keys| - 1];
      var t := Count(init);
      assert keys == init + [last];
      var r := Bump(t, last);
      OccursIffPositive(init, last);
      assert forall k :: Occurrences(keys, k) == Occurrences(init, k) + (if last == k then 1 else 0);
      assert forall i :: 0 <= i < |r| ==> r[i].1 == Occurrences(keys, r[i].0) by {
        forall i | 0 <= i < |r| ensures r[i].1 == Occurrences(keys, r[i].0) {
          if i < |t| {
            assert Firsts(r)[i] == Firsts(t)[i];
          } else {
            assert r[i].0 == last && last !in Firsts(t);
          }
        }
      }
      r
  }

  /** The count a tally holds for `k`, zero when it holds none. */
  function CountOf(t: Tally, k: string): nat {
    match KeyIndex(t, k)
    case Some(i) => t[i].1
    case None => 0
  }

  /** Counting gives every key the number of its occurrences. */
  lemma CountOfTally(t: Tally, keys: seq<string>, k: string)
    requires TallyOf(t, keys)
    ensures CountOf(t, k) == Occurrences(keys, k)
  {
    OccursIffPositive(keys, k);
  }

  /** The sum of all counts. */
  function Sum(t: Tally): nat {
    if |t| == 0 then 0 else t[0].1 + Sum(t[1..])
  }

  lemma {:induction false} SumAppend(t: Tally, e: (string, nat))
    ensures Sum(t + [e]) == Sum(t) + e.1
  {
    if |t| > 0 {
      assert (t + [e])[1..] == t[1..] + [e];
      SumAppend(t[1..], e);
    }
  }

  lemma {:induction false} SumUpdate(t: Tally, i: nat, e: (string, nat))
    requires i < |t|
    ensures Sum(t[i := e]) + t[i].1 == Sum(t) + e.1
  {
    if i > 0 {
      assert t[i := e][1..] == t[1..][i - 1 := e];
      SumUpdate(t[1..], i - 1, e);
    }
  }

  /** The counts of a tally add up to the number of keys counted. */
  lemma {:induction false} SumOfCount(keys: seq<string>)
    ensures Sum(Count(keys)) == |keys|
    decreases |keys|
  {
    if |keys| > 0 {
      var init := keys[..|keys| - 1];
      var last := keys[|keys| - 1];
      var t := Count(init);
      SumOfCount(init);
      match KeyIndex(t, last)
      case Some(i) => SumUpdate(t, i, (last, t[i].1 + 1));
      case None => SumAppend(t, (last, 1));
    }
  }
}

=== FILE: translation_records.dfy ===
/** The translation collection of services/i18nService.js: a translation file
    is flattened into (language, namespace, dotted key, value) records, written
    with one upsert per record, and read back into the nested cache by
    splitting each key at its dots. */
module TranslationRecords {
  import opened Wrappers
  import opened TranslationTree

  /** A stored `Translation`. */
  datatype Record = Record(languageCode: string, namespace: string, key: string, value: string)

  /** The compound unique index of the collection. */
  predicate SameSlot(a: Record, b: Record) {
    a.languageCode == b.languageCode && a.namespace == b.namespace && a.key == b.key
  }

  predicate UniqueSlots(db: seq<Record>) {
    forall i, j :: 0 <= i < j < |db| ==> !SameSlot(db[i], db[j])
  }

  // ---------------------------------------------------------------------------
  // Flattening a translation file

  /** The records of one namespace. An object is flattened; a string namespace is
      visited by `for...in` character by character, one record per index. */
  function NsRecords(lang: string, ns: string, n: Node): (r: seq<Record>)
    ensures forall i :: 0 <= i < |r| ==> r[i].languageCode == lang && r[i].namespace == ns
  {
    match n
    case Branch(ds) => PairRecords(lang, ns, FlattenEntries(ds, ""))
    case Leaf(s) => CharRecords(lang, ns, s, |s|)
  }

  /** One record per flattened (dotted key, value) pair. */
  function PairRecords(lang: string, ns: string, f: seq<(string, string)>): (r: seq<Record>)
    ensures |r| == |f|
    ensures forall i :: 0 <= i < |f| ==> r[i] == Record(lang, ns, f[i].0, f[i].1)
  {
    if |f| == 0 then [] else PairRecords(lang, ns, f[..|f| - 1]) + [Record(lang, ns, f[|f| - 1].0, f[|f| - 1].1)]
  }

  /** One record per character among the first `n` of a string namespace,
      keyed by the character's decimal index. */
  function CharRecords(lang: string, ns: string, s: string, n: nat): (r: seq<Record>)
    requires n <= |s|
    ensures |r| == n
    ensures forall i :: 0 <= i < n ==> r[i] == Record(lang, ns, DecimalString(i), [s[i]])
  {
    if n == 0 then [] else CharRecords(lang, ns, s, n - 1) + [Record(lang, ns, DecimalString(n - 1), [s[n - 1]])]
  }

  /** `flattenTranslations` over every namespace of a file, in order. */
  function Flatten(lang: string, t: seq<Entry>): (r: seq<Record>)
    ensures forall i :: 0 <= i < |r| ==> r[i].languageCode == lang
    decreases t
  {
    if |t| == 0 then [] else NsRecords(lang, t[0].key, t[0].node) + Flatten(lang, t[1..])
  }

  // ---------------------------------------------------------------------------
  // Upserts

  /** The first record in the slot of `r`. */
  function FindSlot(db: seq<Record>, r: Record): (i: Option<nat>)
    ensures i.Some? ==> i.value < |db| && SameSlot(db[i.value], r)
    ensures i.None? <==> forall j :: 0 <= j < |db| ==> !SameSlot(db[j], r)
  {
    if |db| == 0 then None
    else if SameSlot(db[0], r) then Some(0)
    else match FindSlot(db[1..], r)
      case None =>
        assert forall j :: 1 <= j < |db| ==> db[j] == db[1..][j - 1];
        None
      case Some(i) => Some(i + 1)
  }

  /** `updateOne` with `upsert`: overwrite the value in the slot, or insert. */
  function Upsert(db: seq<Record>, r: Record): (db': seq<Record>)
    ensures |db| <= |db'| <= |db| + 1
    ensures forall x :: x in db' ==> x in db || x == r
    ensures UniqueSlots(db) ==> UniqueSlots(db')
    ensures exists j :: 0 <= j < |db'| && db'[j] == r
    ensures forall j :: 0 <= j < |db| && !SameSlot(db[j], r) ==> db'[j] == db[j]
    ensures forall j :: |db| <= j < |db'| ==> db'[j] == r
  {
    match FindSlot(db, r)
    case Some(i) =>
      var db' := db[i := r];
      assert db'[i] == r;
      db'
    case None =>
      var db' := db + [r];
      assert db'[|db|] == r;
      db'
  }

  /** `bulkWrite` of the upserts, in order. */
  function UpsertAll(db: seq<Record>, rs: seq<Record>): (r: seq<Record>)
    ensures forall x :: x in r ==> x in db || x in rs
    decreases |rs|
  {
    if |rs| == 0 then db else UpsertAll(Upsert(db, rs[0]), rs[1..])
  }

  /** `importTranslationsToDatabase`. */
  function Import(db: seq<Record>, lang: string, t: seq<Entry>): (r: seq<Record>)
    ensures forall x :: x in r ==> x in db || x.languageCode == lang
  {
    UpsertAll(db, Flatten(lang, t))
  }

  /** A run of upserts keeps the unique index. */
  lemma {:induction false} UpsertAllKeepsUnique(db: seq<Record>, rs: seq<Record>)
    requires UniqueSlots(db)
    ensures UniqueSlots(UpsertAll(db, rs))
    decreases |rs|
  {
    if |rs| > 0 {
      UpsertAllKeepsUnique(Upsert(db, rs[0]), rs[1..]);
    }
  }

  /** Records in distinct slots that are all new are simply appended. */
  lemma {:induction false} UpsertAllFresh(db: seq<Record>, rs: seq<Record>)
    requires UniqueSlots(db + rs)
    ensures UpsertAll(db, rs) == db + rs
    decreases |rs|
  {
    if |rs| == 0 {
      assert db + rs == db;
    } else {
      var all := db + rs;
      forall j | 0 <= j < |db| ensures !SameSlot(db[j], rs[0]) {
        assert all[j] == db[j] && all[|db|] == rs[0];
      }
      assert Upsert(db, rs[0]) == db + [rs[0]];
      assert (db + [rs[0]]) + rs[1..] == all;
      UpsertAllFresh(db + [rs[0]], rs[1..]);
    }
  }

  // ---------------------------------------------------------------------------
  // Loading

  /** The path each record is written at: language, namespace, then the key
      split at its dots. */
  function RecPaths(db: seq<Record>): (ps: seq<(seq<string>, string)>)
    ensures |ps| == |db|
    ensures forall i :: 0 <= i < |db| ==> ps[i] == ([db[i].languageCode, db[i].namespace] + Split(db[i].key), db[i].value)
    ensures AllPathsNonEmpty(ps)
  {
    if |db| == 0 then []
    else
      var last := db[|db| - 1];
      var r := RecPaths(db[..|db| - 1]) + [([last.languageCode, last.namespace] + Split(last.key), last.value)];
      AllPathsNonEmptyMeans(r);
      r
  }

  /** `loadTranslations`: the cache rebuilt from an empty object; `None` is the
      `TypeError` of writing below a string. */
  function LoadTranslations(db: seq<Record>): Option<Node> {
    InsertAll(Branch([]), RecPaths(db))
  }

  /** The forEach of `loadTranslations` as it runs: the cache built so far, and
      whether every record went in. A `TypeError` leaves the records before it
      in the cache. */
  function InsertUntil(n: Node, ps: seq<(seq<string>, string)>): (r: (Node, bool))
    requires AllPathsNonEmpty(ps)
    ensures r.1 <==> InsertAll(n, ps).Some?
    ensures r.1 ==> InsertAll(n, ps) == Some(r.0)
    decreases |ps|
  {
    if |ps| == 0 then (n, true)
    else match Insert(n, ps[0].0, ps[0].1)
      case None => (n, false)
      case Some(m) => InsertUntil(m, ps[1..])
  }

  lemma {:induction false} RecPathsAppend(a: seq<Record>, b: seq<Record>)
    ensures RecPaths(a + b) == RecPaths(a) + RecPaths(b)
  {
    assert forall i :: 0 <= i < |a + b| ==> RecPaths(a + b)[i] == (RecPaths(a) + RecPaths(b))[i];
  }

  // ---------------------------------------------------------------------------
  // Facts about the paths of a well-formed tree

  predicate DistinctPaths(ps: seq<(seq<string>, string)>) {
    forall i, j :: 0 <= i < j < |ps| ==> ps[i].0 != ps[j].0
  }

  predicate PathsDotFree(ps: seq<(seq<string>, string)>) {
    forall i :: 0 <= i < |ps| ==> DotFree(ps[i].0)
  }

  function KeySet(es: seq<Entry>): set<string> {
    set i | 0 <= i < |es| :: es[i].key
  }

  lemma {:induction false} UnderAppend(k: string, a: seq<(seq<string>, string)>, b: seq<(seq<string>, string)>)
    ensures Under(k, a + b) == Under(k, a) + Under(k, b)
  {
    assert forall i :: 0 <= i < |a + b| ==> Under(k, a + b)[i] == (Under(k, a) + Under(k, b))[i];
  }

  /** Every path of a tree starts with one of its top-level keys. */
  lemma {:induction false} FlatPathsHeads(es: seq<Entry>)
    ensures forall i :: 0 <= i < |FlatPaths(es)| ==> |FlatPaths(es)[i].0| >= 1 && FlatPaths(es)[i].0[0] in KeySet(es)
    decreases es
  {
    AllPathsNonEmptyMeans(FlatPaths(es));
    if |es| > 0 {
      FlatPathsCons(es);
      FlatPathsHeads(es[1..]);
      var a: seq<(seq<string>, string)> := EntryPaths(es[0]);
      var b: seq<(seq<string>, string)> := FlatPaths(es[1..]);
      AllPathsNonEmptyMeans(a);
      assert KeySet(es[1..]) <= KeySet(es) by {
        forall x | x in KeySet(es[1..]) ensures x in KeySet(es) {
          var i :| 0 <= i < |es[1..]| && es[1..][i].key == x;
          assert es[i + 1].key == x;
        }
      }
      forall i | 0 <= i < |a + b| ensures (a + b)[i].0[0] in KeySet(es) {
        if i < |a| {
          assert (a + b)[i] == a[i];
          assert a[i].0[0] == es[0].key;
        } else {
          assert (a + b)[i] == b[i - |a|];
        }
      }
    }
  }

  /** The paths of a well-formed tree are pairwise distinct. */
  lemma {:induction false} FlatPathsDistinct(es: seq<Entry>)
    requires WellFormed(es)
    ensures DistinctPaths(FlatPaths(es))
    decreases es
  {
    if |es| > 0 {
      WellFormedTail(es);
      FlatPathsCons(es);
      FlatPathsDistinct(es[1..]);
      FlatPathsHeads(es[1..]);
      if es[0].node.Branch? {
        FlatPathsDistinct(es[0].node.children);
      }
      EntryPathsDistinct(es[0]);
      forall i | 0 <= i < |es[1..]| ensures es[1..][i].key != es[0].key {
        assert es[1..][i] == es[i + 1];
      }
      assert es[0].key !in KeySet(es[1..]);
      AppendDistinct(EntryPaths(es[0]), FlatPaths(es[1..]), es[0].key, KeySet(es[1..]));
    }
  }

  /** The paths of one entry start with its key and are distinct when those of
      its subtree are. */
  lemma {:induction false} EntryPathsDistinct(e: Entry)
    requires e.node.Branch? ==> DistinctPaths(FlatPaths(e.node.children))
    ensures DistinctPaths(EntryPaths(e))
    ensures forall i :: 0 <= i < |EntryPaths(e)| ==> |EntryPaths(e)[i].0| >= 1 && EntryPaths(e)[i].0[0] == e.key
  {
    match e.node {
      case Leaf(_) =>
      case Branch(ds) =>
        var ps := FlatPaths(ds);
        forall i, j | 0 <= i < j < |ps| ensures Under(e.key, ps)[i].0 != Under(e.key, ps)[j].0 {
          assert Under(e.key, ps)[i].0[1..] == ps[i].0;
          assert Under(e.key, ps)[j].0[1..] == ps[j].0;
        }
    }
  }

  /** Two distinct path lists whose heads never meet concatenate to a distinct
      list. */
  lemma {:induction false} AppendDistinct(a: seq<(seq<string>, string)>, b: seq<(seq<string>, string)>, k: string, ks: set<string>)
    requires DistinctPaths(a) && DistinctPaths(b) && k !in ks
    requires forall i :: 0 <= i < |a| ==> |a[i].0| >= 1 && a[i].0[0] == k
    requires forall i :: 0 <= i < |b| ==> |b[i].0| >= 1 && b[i].0[0] in ks
    ensures DistinctPaths(a + b)
  {
    forall i, j | 0 <= i < j < |a + b| ensures (a + b)[i].0 != (a + b)[j].0 {
      if j < |a| {
        assert (a + b)[i] == a[i] && (a + b)[j] == a[j];
      } else if i >= |a| {
        assert (a + b)[i] == b[i - |a|] && (a + b)[j] == b[j - |a|];
      } else {
        assert (a + b)[i] == a[i] && (a + b)[j] == b[j - |a|];
      }
    }
  }

  /** The paths of a well-formed tree consist of dot-free keys. */
  lemma {:induction false} FlatPathsDotFree(es: seq<Entry>)
    requires WellFormed(es)
    ensures PathsDotFree(FlatPaths(es))
    decreases es
  {
    if |es| > 0 {
      WellFormedTail(es);
      FlatPathsCons(es);
      FlatPathsDotFree(es[1..]);
      var a: seq<(seq<string>, string)> := EntryPaths(es[0]);
      var b: seq<(seq<string>, string)> := FlatPaths(es[1..]);
      if es[0].node.Branch? {
        var ds := es[0].node.children;
        FlatPathsDotFree(ds);
        forall i | 0 <= i < |a| ensures DotFree(a[i].0) {
          var p := FlatPaths(ds)[i].0;
          assert a[i].0 == [es[0].key] + p;
          assert forall m :: 1 <= m < |a[i].0| ==> a[i].0[m] == p[m - 1];
        }
      }
      forall i | 0 <= i < |a + b| ensures DotFree((a + b)[i].0) {
        if i < |a| { assert (a + b)[i] == a[i]; } else { assert (a + b)[i] == b[i - |a|]; }
      }
    }
  }

  // ---------------------------------------------------------------------------
  // The round trip

  /** A file whose every namespace is an object. */
  predicate ObjectNamespaces(t: seq<Entry>) {
    forall i :: 0 <= i < |t| ==> t[i].node.Branch?
  }

  /** The records of an object namespace are keyed by the joined paths. */
  lemma {:induction false} NsRecordsPaths(lang: string, k: string, ds: seq<Entry>)
    requires WellFormed(ds)
    ensures RecPaths(NsRecords(lang, k, Branch(ds))) == Under(lang, Under(k, FlatPaths(ds)))
  {
    WellFormedNonEmptyKeys(ds);
    FlattenIsJoinedPaths(ds, "");
    FlatPathsDotFree(ds);
    var ps := FlatPaths(ds);
    var f := FlattenEntries(ds, "");
    var rs := PairRecords(lang, k, f);
    AllPathsNonEmptyMeans(ps);
    forall i | 0 <= i < |ps|
      ensures RecPaths(rs)[i] == Under(lang, Under(k, ps))[i]
    {
      assert f[i] == (Join(ps[i].0), ps[i].1);
      assert rs[i] == Record(lang, k, Join(ps[i].0), ps[i].1);
      RecPathOfJoined(lang, k, ps[i].0);
    }
  }

  /** The path a record keyed by a joined path is written at. */
  lemma RecPathOfJoined(lang: string, ns: string, p: seq<string>)
    requires |p| >= 1 && DotFree(p)
    ensures [lang, ns] + Split(Join(p)) == [lang] + ([ns] + p)
  {
    SplitJoin(p);
  }

  lemma {:induction false} FlattenPaths(lang: string, t: seq<Entry>)
    requires WellFormed(t) && ObjectNamespaces(t)
    ensures RecPaths(Flatten(lang, t)) == Under(lang, FlatPaths(t))
    decreases t
  {
    if |t| > 0 {
      WellFormedTail(t);
      FlattenPaths(lang, t[1..]);
      NsRecordsPaths(lang, t[0].key, t[0].node.children);
      RecPathsAppend(NsRecords(lang, t[0].key, t[0].node), Flatten(lang, t[1..]));
      FlatPathsCons(t);
      UnderAppend(lang, EntryPaths(t[0]), FlatPaths(t[1..]));
    }
  }

  /** The records of a well-formed file occupy distinct slots. */
  lemma {:induction false} FlattenUnique(lang: string, t: seq<Entry>)
    requires WellFormed(t) && ObjectNamespaces(t)
    ensures UniqueSlots(Flatten(lang, t))
  {
    var rs := Flatten(lang, t);
    FlattenPaths(lang, t);
    FlatPathsDistinct(t);
    var ps := FlatPaths(t);
    forall i, j | 0 <= i < j < |rs| ensures !SameSlot(rs[i], rs[j]) {
      assert Under(lang, ps)[i].0[1..] == ps[i].0;
      assert Under(lang, ps)[j].0[1..] == ps[j].0;
      assert RecPaths(rs)[i].0 != RecPaths(rs)[j].0;
    }
  }

  /** Importing a well-formed file of object namespaces into an empty collection
      and loading the collection gives back the file under its language. */
  lemma {:induction false} ImportLoadRoundTrip(lang: string, t: seq<Entry>)
    requires WellFormed(t) && ObjectNamespaces(t) && |t| > 0
    ensures LoadTranslations(Import([], lang, t)) == Some(Branch([Entry(lang, Branch(t))]))
  {
    ImportIntoEmpty(lang, t);
    FlattenPaths(lang, t);
    RebuildUnder(lang, t);
  }

  /** A well-formed file imported into an empty collection is stored as its
      records, in order. */
  lemma ImportIntoEmpty(lang: string, t: seq<Entry>)
    requires WellFormed(t) && ObjectNamespaces(t)
    ensures Import([], lang, t) == Flatten(lang, t)
  {
    var rs := Flatten(lang, t);
    FlattenUnique(lang, t);
    assert [] + rs == rs;
    UpsertAllFresh([], rs);
  }

  /** Inserting the paths of a non-empty well-formed tree below `lang` into an
      empty object rebuilds the tree under that one key. */
  lemma RebuildUnder(lang: string, t: seq<Entry>)
    requires WellFormed(t) && |t| > 0
    ensures InsertAll(Branch([]), Under(lang, FlatPaths(t))) == Some(Branch([Entry(lang, Branch(t))]))
  {
    FlatPathsNonEmpty(t);
    RebuildFlattened([], t);
    assert [] + t == t;
    InsertUnderNew([], lang, FlatPaths(t));
    assert [] + [Entry(lang, Branch(t))] == [Entry(lang, Branch(t))];
  }
}

=== FILE: translation_tree.dfy ===
/** Nested translation objects and their dotted-key records
    (services/i18nService.js): flattening a translation file into records,
    splitting a dotted key, and rebuilding the nested cache by inserting one
    record at a time.

    A JSON object is an association list (`Branch`), kept in insertion order as
    `for...in` visits it; a leaf is a string. */
module TranslationTree {
  import opened Wrappers

  datatype Node = Leaf(value: string) | Branch(children: seq<Entry>)
  datatype Entry = Entry(key: string, node: Node)

  /** JavaScript truthiness of a cached value: objects always, strings when non-empty. */
  predicate Truthy(n: Node) {
    n.Branch? || n.value != ""
  }

  // ---------------------------------------------------------------------------
  // Association lists

  /** Index of the entry for `k`. */
  function Find(cs: seq<Entry>, k: string): (r: Option<nat>)
    ensures r.Some? ==> r.value < |cs| && cs[r.value].key == k
    ensures r.Some? ==> forall j :: 0 <= j < r.value ==> cs[j].key != k
    ensures r.None? ==> forall j :: 0 <= j < |cs| ==> cs[j].key != k
  {
    if |cs| == 0 then None
    else if cs[0].key == k then Some(0)
    else match Find(cs[1..], k)
      case None => None
      case Some(i) => Some(i + 1)
  }

  /** `obj[k] = n`: replace the entry for `k` in place, or append a new one. */
  function Put(cs: seq<Entry>, k: string, n: Node): (r: seq<Entry>)
    ensures Find(cs, k).Some? ==> r == cs[Find(cs, k).value := Entry(k, n)]
    ensures Find(cs, k).None? ==> r == cs + [Entry(k, n)]
  {
    match Find(cs, k)
    case Some(i) => cs[i := Entry(k, n)]
    case None => cs + [Entry(k, n)]
  }

  /** After `Put`, the key is found where it was (or at the end) holding the new
      node, and every other key is found where it was. */
  lemma {:induction false} PutFind(cs: seq<Entry>, k: string, n: Node, j: string)
    ensures var r := Put(cs, k, n);
      && Find(r, k).Some? && r[Find(r, k).value].node == n
      && (Find(cs, k).Some? ==> Find(r, k) == Find(cs, k))
      && (Find(cs, k).None? ==> Find(r, k) == Some(|cs|))
      && (j != k ==> Find(r, j) == Find(cs, j))
  {
    var r := Put(cs, k, n);
    FindInvariant(cs, r, k);
    if j != k {
      FindInvariant(cs, r, j);
    }
  }

  /** `Find` only depends on the keys: a list that agrees with `cs` on whether
      each key is `k`, possibly with one more entry, finds `k` at the same place,
      or at that extra entry. */
  lemma {:induction false} FindInvariant(cs: seq<Entry>, r: seq<Entry>, k: string)
    requires |cs| <= |r| <= |cs| + 1
    requires forall i :: 0 <= i < |cs| ==> (cs[i].key == k <==> r[i].key == k)
    ensures Find(cs, k).Some? ==> Find(r, k) == Find(cs, k)
    ensures Find(cs, k).None? ==> Find(r, k) == if |r| > |cs| && r[|cs|].key == k then Some(|cs|) else None
    decreases |cs|
  {
    if |cs| > 0 && cs[0].key != k {
      FindInvariant(cs[1..], r[1..], k);
    }
  }

  // ---------------------------------------------------------------------------
  // Dotted keys

  /** `key.split('.')`. */
  function Split(s: string): (parts: seq<string>)
    ensures |parts| >= 1
    ensures forall i :: 0 <= i < |parts| ==> '.' !in parts[i]
  {
    if |s| == 0 then [""]
    else
      var rest := Split(s[1..]);
      if s[0] == '.' then [""] + rest
      else [[s[0]] + rest[0]] + rest[1..]
  }

  /** `parts.join('.')`. */
  function Join(parts: seq<string>): string {
    if |parts| == 0 then ""
    else if |parts| == 1 then parts[0]
    else parts[0] + "." + Join(parts[1..])
  }

  predicate DotFree(parts: seq<string>) {
    forall i :: 0 <= i < |parts| ==> '.' !in parts[i]
  }

  /** A dot-free word followed by a dot and more text splits at that dot. */
  lemma {:induction false} SplitAfterWord(a: string, b: string)
    requires '.' !in a
    ensures Split(a + "." + b) == [a] + Split(b)
    ensures Split(a) == [a]
    decreases |a|
  {
    if |a| > 0 {
      SplitAfterWord(a[1..], b);
      assert (a + "." + b)[0] == a[0] && a[0] != '.';
      assert (a + "." + b)[1..] == a[1..] + "." + b;
      assert a == [a[0]] + a[1..];
    } else {
      assert a + "." + b == "." + b;
      assert ("." + b)[1..] == b;
    }
  }

  /** Splitting undoes joining dot-free parts. */
  lemma {:induction false} SplitJoin(parts: seq<string>)
    requires |parts| >= 1 && DotFree(parts)
    ensures Split(Join(parts)) == parts
  {
    if |parts| == 1 {
      SplitAfterWord(parts[0], "");
    } else {
      SplitJoin(parts[1..]);
      SplitAfterWord(parts[0], Join(parts[1..]));
      assert parts == [parts[0]] + parts[1..];
    }
  }

  /** Joining undoes splitting. */
  lemma {:induction false} JoinSplit(s: string)
    ensures Join(Split(s)) == s
  {
    if |s| > 0 {
      JoinSplit(s[1..]);
      var rest := Split(s[1..]);
      if s[0] != '.' {
        if |rest| > 1 {
          assert Join(rest) == rest[0] + "." + Join(rest[1..]);
        }
      }
      assert s == [s[0]] + s[1..];
    }
  }

  // ---------------------------------------------------------------------------
  // Looking up and inserting by path

  /** The node at `path`, if every step finds an object holding the next key. */
  function LookupPath(n: Node, path: seq<string>): Option<Node>
    decreases |path|
  {
    if |path| == 0 then Some(n)
    else match n
      case Leaf(_) => None
      case Branch(cs) =>
        match Find(cs, path[0])
        case None => None
        case Some(i) => LookupPath(cs[i].node, path[1..])
  }

  /** Whether inserting at `path` is stopped by a truthy string met before the
      last step. */
  predicate Blocked(n: Node, path: seq<string>)
    decreases |path|
  {
    match n
    case Leaf(_) => true
    case Branch(cs) =>
      |path| > 1 && Find(cs, path[0]).Some? && Truthy(cs[Find(cs, path[0]).value].node)
      && Blocked(cs[Find(cs, path[0]).value].node, path[1..])
  }

  /** The nested-object write of `loadTranslations` and `updateTranslation`, for a
      path of at least one part. Each intermediate step keeps a truthy value and
      replaces a missing or falsy one by `{}`; the last step assigns the string.
      Writing a property of a string is silently ignored, and reading one that
      is not there gives `undefined`, whose use then throws: `None` is that
      `TypeError`. */
  function Insert(n: Node, path: seq<string>, v: string): (r: Option<Node>)
    requires |path| >= 1
    ensures n.Branch? && r.Some? ==> r.value.Branch?
    decreases |path|
  {
    match n
    case Leaf(_) => if |path| == 1 then Some(n) else None
    case Branch(cs) =>
      if |path| == 1 then Some(Branch(Put(cs, path[0], Leaf(v))))
      else
        var child := match Find(cs, path[0]) case Some(i) => cs[i].node case None => Branch([]);
        var start := if Truthy(child) then child else Branch([]);
        match Insert(start, path[1..], v)
        case None => None
        case Some(c) => Some(Branch(Put(cs, path[0], c)))
  }

  /** An unblocked insert stores the string at its path; a blocked one either
      throws or changes nothing. */
  lemma {:induction false} InsertSets(n: Node, path: seq<string>, v: string)
    requires |path| >= 1
    ensures !Blocked(n, path) ==> Insert(n, path, v).Some? && LookupPath(Insert(n, path, v).value, path) == Some(Leaf(v))
    ensures Blocked(n, path) ==> Insert(n, path, v).None? || Insert(n, path, v) == Some(n)
    decreases |path|
  {
    match n
    case Leaf(_) =>
    case Branch(cs) =>
      if |path| == 1 {
        PutFind(cs, path[0], Leaf(v), path[0]);
      } else {
        var child := match Find(cs, path[0]) case Some(i) => cs[i].node case None => Branch([]);
        var start := if Truthy(child) then child else Branch([]);
        InsertSets(start, path[1..], v);
        match Insert(start, path[1..], v)
        case None =>
        case Some(c) =>
          PutFind(cs, path[0], c, path[0]);
          if Find(cs, path[0]).Some? && Blocked(n, path) {
            assert c == child;
            assert Put(cs, path[0], c) == cs;
          }
      }
  }

  /** An insert leaves every path that is neither a prefix nor an extension of the
      inserted one as it was. */
  lemma {:induction false} InsertLeavesOthers(n: Node, path: seq<string>, v: string, q: seq<string>)
    requires |path| >= 1 && Insert(n, path, v).Some?
    requires !(|q| <= |path| && q == path[..|q|]) && !(|path| <= |q| && path == q[..|path|])
    ensures LookupPath(Insert(n, path, v).value, q) == LookupPath(n, q)
    decreases |path|
  {
    assert |q| > 0;
    match n
    case Leaf(_) =>
    case Branch(cs) =>
      if q[0] != path[0] {
        InsertLeavesOtherKey(cs, path, v, q);
      } else {
        assert |path| > 1 && |q| > 1;
        var child := match Find(cs, path[0]) case Some(i) => cs[i].node case None => Branch([]);
        var start := if Truthy(child) then child else Branch([]);
        var c := Insert(start, path[1..], v).value;
        PutFind(cs, path[0], c, path[0]);
        PrefixTail(q, path);
        PrefixTail(path, q);
        InsertLeavesOthers(start, path[1..], v, q[1..]);
        if Find(cs, path[0]).Some? {
          if !Truthy(child) {
            assert LookupPath(Branch([]), q[1..]).None?;
            assert LookupPath(child, q[1..]).None?;
          }
        } else {
          assert LookupPath(Branch([]), q[1..]).None?;
        }
      }
  }

  /** An insert leaves the entries under every other top-level key as they
      were. */
  lemma InsertLeavesOtherKey(cs: seq<Entry>, path: seq<string>, v: string, q: seq<string>)
    requires |path| >= 1 && |q| >= 1 && q[0] != path[0] && Insert(Branch(cs), path, v).Some?
    ensures LookupPath(Insert(Branch(cs), path, v).value, q) == LookupPath(Branch(cs), q)
  {
    if |path| == 1 {
      PutFind(cs, path[0], Leaf(v), q[0]);
    } else {
      var child := match Find(cs, path[0]) case Some(i) => cs[i].node case None => Branch([]);
      var start := if Truthy(child) then child else Branch([]);
      PutFind(cs, path[0], Insert(start, path[1..], v).value, q[0]);
      var k := Find(cs, q[0]);
      if k.Some? {
        var rs := Put(cs, path[0], Insert(start, path[1..], v).value);
        assert rs[k.value] == cs[k.value];
      }
    }
  }

  /** Two paths with the same first key are prefix-related exactly when their
      tails are. */
  lemma PrefixTail(q: seq<string>, p: seq<string>)
    requires |q| > 0 && |p| > 0 && q[0] == p[0]
    ensures !(|q| <= |p| && q == p[..|q|]) ==> !(|q[1..]| <= |p[1..]| && q[1..] == p[1..][..|q[1..]|])
  {
    if |q[1..]| <= |p[1..]| && q[1..] == p[1..][..|q[1..]|] {
      assert q == [q[0]] + q[1..];
      assert p[..|q|] == [p[0]] + p[1..][..|q[1..]|];
    }
  }

  // ---------------------------------------------------------------------------
  // Flattening

  /** `flattenTranslations(obj, namespace, prefix)`: one (dotted key, value) pair
      per string leaf, depth first in key order. A key joins its prefix with a dot
      unless the prefix is empty. */
  function FlattenEntries(es: seq<Entry>, prefix: string): seq<(string, string)>
    decreases es
  {
    if |es| == 0 then [] else FlattenEntry(es[0], prefix) + FlattenEntries(es[1..], prefix)
  }

  /** One key of the loop: a string is emitted under the full key, an object
      is flattened with the full key as its prefix. */
  function FlattenEntry(e: Entry, prefix: string): seq<(string, string)>
    decreases e
  {
    var full := if prefix == "" then e.key else prefix + "." + e.key;
    match e.node
    case Leaf(v) => [(full, v)]
    case Branch(ds) => FlattenEntries(ds, full)
  }

  /** The reference for flattening: every leaf with its full path of keys. */
  function FlatPaths(es: seq<Entry>): (r: seq<(seq<string>, string)>)
    ensures AllPathsNonEmpty(r)
    decreases es, 1
  {
    if |es| == 0 then []
    else
      var head := EntryPaths(es[0]);
      AllPathsAppend(head, FlatPaths(es[1..]));
      head + FlatPaths(es[1..])
  }

  /** Put one more key in front of every path. */
  function Under(k: string, ps: seq<(seq<string>, string)>): (r: seq<(seq<string>, string)>)
    ensures |r| == |ps|
    ensures forall i :: 0 <= i < |ps| ==> r[i] == ([k] + ps[i].0, ps[i].1)
    ensures AllPathsNonEmpty(r)
  {
    if |ps| == 0 then []
    else
      var r := Under(k, ps[..|ps| - 1]) + [([k] + ps[|ps| - 1].0, ps[|ps| - 1].1)];
      AllPathsNonEmptyMeans(r);
      r
  }

  /** The dotted key `flattenTranslations` builds for a path below `prefix`. */
  function JoinUnder(prefix: string, path: seq<string>): string {
    if prefix == "" then Join(path) else prefix + "." + Join(path)
  }

  function Keyed(prefix: string, ps: seq<(seq<string>, string)>): (r: seq<(string, string)>)
    ensures |r| == |ps|
    ensures forall i :: 0 <= i < |ps| ==> r[i] == (JoinUnder(prefix, ps[i].0), ps[i].1)
  {
    if |ps| == 0 then [] else Keyed(prefix, ps[..|ps| - 1]) + [(JoinUnder(prefix, ps[|ps| - 1].0), ps[|ps| - 1].1)]
  }

  /** Every key in the tree is non-empty. */
  predicate NonEmptyKeys(es: seq<Entry>)
    decreases es
  {
    forall i :: 0 <= i < |es| ==>
      es[i].key != "" && (es[i].node.Branch? ==> NonEmptyKeys(es[i].node.children))
  }

  /** With non-empty keys the dotted key of each leaf is its path joined by dots. */
  lemma {:induction false} FlattenIsJoinedPaths(es: seq<Entry>, prefix: string)
    requires NonEmptyKeys(es)
    ensures FlattenEntries(es, prefix) == Keyed(prefix, FlatPaths(es))
    decreases es
  {
    if |es| > 0 {
      NonEmptyKeysTail(es);
      FlattenIsJoinedPaths(es[1..], prefix);
      EntryIsJoinedPaths(es[0], prefix);
      FlatPathsCons(es);
      KeyedAppend(prefix, EntryPaths(es[0]), FlatPaths(es[1..]));
    }
  }

  lemma {:induction false} EntryIsJoinedPaths(e: Entry, prefix: string)
    requires e.key != "" && (e.node.Branch? ==> NonEmptyKeys(e.node.children))
    ensures FlattenEntry(e, prefix) == Keyed(prefix, EntryPaths(e))
    decreases e
  {
    var full := if prefix == "" then e.key else prefix + "." + e.key;
    match e.node {
      case Leaf(v) =>
      case Branch(ds) =>
        FlattenIsJoinedPaths(ds, full);
        KeyedUnder(prefix, e.key, FlatPaths(ds));
    }
  }

  lemma NonEmptyKeysTail(es: seq<Entry>)
    requires |es| > 0 && NonEmptyKeys(es)
    ensures NonEmptyKeys(es[1..])
  {
    forall i | 0 <= i < |es[1..]| ensures es[1..][i] == es[i + 1] { }
  }

  /** Keying paths below `k` under `prefix` is keying them under `prefix.k`. */
  lemma KeyedUnder(prefix: string, k: string, ps: seq<(seq<string>, string)>)
    requires k != "" && AllPathsNonEmpty(ps)
    ensures Keyed(if prefix == "" then k else prefix + "." + k, ps) == Keyed(prefix, Under(k, ps))
  {
    var full := if prefix == "" then k else prefix + "." + k;
    AllPathsNonEmptyMeans(ps);
    forall i | 0 <= i < |ps|
      ensures Keyed(full, ps)[i] == Keyed(prefix, Under(k, ps))[i]
    {
      JoinUnderCons(prefix, k, ps[i].0);
    }
  }

  /** One path of `KeyedUnder`. */
  lemma JoinUnderCons(prefix: string, k: string, p: seq<string>)
    requires k != "" && |p| >= 1
    ensures JoinUnder(if prefix == "" then k else prefix + "." + k, p) == JoinUnder(prefix, [k] + p)
  {
    var full := if prefix == "" then k else prefix + "." + k;
    JoinCons(k, p);
    assert full != "";
    assert JoinUnder(full, p) == full + "." + Join(p);
    if prefix != "" {
      assert JoinUnder(prefix, [k] + p) == prefix + "." + (k + "." + Join(p));
      assert prefix + "." + (k + "." + Join(p)) == (prefix + "." + k) + "." + Join(p);
    }
  }

  lemma JoinCons(k: string, p: seq<string>)
    requires |p| >= 1
    ensures Join([k] + p) == k + "." + Join(p)
  {
    assert ([k] + p)[1..] == p;
  }

  lemma KeyedAppend(prefix: string, a: seq<(seq<string>, string)>, b: seq<(seq<string>, string)>)
    ensures Keyed(prefix, a + b) == Keyed(prefix, a) + Keyed(prefix, b)
  {
    assert forall i :: 0 <= i < |a + b| ==> Keyed(prefix, a + b)[i] == (Keyed(prefix, a) + Keyed(prefix, b))[i];
  }

  // ---------------------------------------------------------------------------
  // Rebuilding

  /** Every path has at least one key (the precondition of `Insert`). */
  predicate AllPathsNonEmpty(ps: seq<(seq<string>, string)>)
    decreases |ps|
  {
    |ps| == 0 || (|ps[0].0| >= 1 && AllPathsNonEmpty(ps[1..]))
  }

  lemma {:induction false} AllPathsNonEmptyMeans(ps: seq<(seq<string>, string)>)
    ensures AllPathsNonEmpty(ps) <==> forall i :: 0 <= i < |ps| ==> |ps[i].0| >= 1
    decreases |ps|
  {
    if |ps| > 0 {
      AllPathsNonEmptyMeans(ps[1..]);
      assert forall i :: 0 < i < |ps| ==> ps[i] == ps[1..][i - 1];
    }
  }

  lemma {:induction false} AllPathsAppend(a: seq<(seq<string>, string)>, b: seq<(seq<string>, string)>)
    requires AllPathsNonEmpty(a) && AllPathsNonEmpty(b)
    ensures AllPathsNonEmpty(a + b)
    decreases |a|
  {
    if |a| > 0 {
      assert (a + b)[0] == a[0];
      assert (a + b)[1..] == a[1..] + b;
      AllPathsAppend(a[1..], b);
    } else {
      assert a + b == b;
    }
  }


  /** Insert each (path, value) in order; the first `TypeError` aborts. */
  function InsertAll(n: Node, ps: seq<(seq<string>, string)>): Option<Node>
    requires AllPathsNonEmpty(ps)
    decreases |ps|
  {
    if |ps| == 0 then Some(n)
    else match Insert(n, ps[0].0, ps[0].1)
      case None => None
      case Some(m) => InsertAll(m, ps[1..])
  }

  lemma {:induction false} InsertAllAppend(n: Node, a: seq<(seq<string>, string)>, b: seq<(seq<string>, string)>)
    requires AllPathsNonEmpty(a) && AllPathsNonEmpty(b)
    ensures AllPathsNonEmpty(a + b)
    ensures InsertAll(n, a + b) == match InsertAll(n, a) case None => None case Some(m) => InsertAll(m, b)
    decreases |a|
  {
    AllPathsAppend(a, b);
    if |a| > 0 {
      assert (a + b)[0] == a[0];
      assert (a + b)[1..] == a[1..] + b;
      match Insert(n, a[0].0, a[0].1)
      case None =>
      case Some(m) => InsertAllAppend(m, a[1..], b);
    } else {
      assert a + b == b;
    }
  }

  /** The trees the round trip restores: keys non-empty, dot-free and distinct
      within each object, and no empty object anywhere (an empty object has no
      leaf, so it leaves no record behind). */
  predicate WellFormed(es: seq<Entry>)
    decreases es
  {
    && (forall i, j :: 0 <= i < j < |es| ==> es[i].key != es[j].key)
    && (forall i :: 0 <= i < |es| ==>
          && es[i].key != "" && '.' !in es[i].key
          && (es[i].node.Branch? ==> |es[i].node.children| > 0 && WellFormed(es[i].node.children)))
  }

  lemma WellFormedTail(es: seq<Entry>)
    requires |es| > 0 && WellFormed(es)
    ensures WellFormed(es[1..])
  {
    forall i | 0 <= i < |es[1..]| ensures es[1..][i] == es[i + 1] { }
  }

  lemma {:induction false} WellFormedNonEmptyKeys(es: seq<Entry>)
    requires WellFormed(es)
    ensures NonEmptyKeys(es)
    decreases es
  {
    forall i | 0 <= i < |es| && es[i].node.Branch?
      ensures NonEmptyKeys(es[i].node.children)
    {
      WellFormedNonEmptyKeys(es[i].node.children);
    }
  }

  lemma {:induction false} FlatPathsNonEmpty(es: seq<Entry>)
    requires |es| > 0 && WellFormed(es)
    ensures |FlatPaths(es)| > 0
    decreases es
  {
    match es[0].node
    case Leaf(_) =>
    case Branch(ds) => FlatPathsNonEmpty(ds);
  }

  /** Inserting paths under an existing object entry `k` works inside that entry. */
  lemma {:induction false} InsertUnderExisting(cs: seq<Entry>, k: string, ps: seq<(seq<string>, string)>)
    requires Find(cs, k).Some? && cs[Find(cs, k).value].node.Branch?
    requires AllPathsNonEmpty(ps)
    ensures AllPathsNonEmpty(Under(k, ps))
    ensures InsertAll(Branch(cs), Under(k, ps)) ==
      match InsertAll(cs[Find(cs, k).value].node, ps)
      case None => None
      case Some(m) => Some(Branch(cs[Find(cs, k).value := Entry(k, m)]))
    decreases |ps|
  {
    var j := Find(cs, k).value;
    if |ps| == 0 {
      assert cs[j := Entry(k, cs[j].node)] == cs;
    } else {
      var path := [k] + ps[0].0;
      assert path[0] == k && path[1..] == ps[0].0;
      assert Under(k, ps)[1..] == Under(k, ps[1..]);
      match Insert(cs[j].node, ps[0].0, ps[0].1)
      case None =>
      case Some(c) =>
        PutFind(cs, k, c, k);
        var cs' := Put(cs, k, c);
        InsertUnderExisting(cs', k, ps[1..]);
        assert cs'[j := Entry(k, c)] == cs';
        match InsertAll(c, ps[1..])
        case None =>
        case Some(m) => assert cs'[j := Entry(k, m)] == cs[j := Entry(k, m)];
    }
  }

  /** Inserting paths under a key `k` that is not there yet creates its object
      at the end and fills it. */
  lemma {:induction false} InsertUnderNew(cs: seq<Entry>, k: string, ps: seq<(seq<string>, string)>)
    requires Find(cs, k).None? && |ps| > 0
    requires AllPathsNonEmpty(ps)
    ensures AllPathsNonEmpty(Under(k, ps))
    ensures InsertAll(Branch(cs), Under(k, ps)) ==
      match InsertAll(Branch([]), ps)
      case None => None
      case Some(m) => Some(Branch(cs + [Entry(k, m)]))
  {
    var path := [k] + ps[0].0;
    assert path[0] == k && path[1..] == ps[0].0;
    assert Under(k, ps)[1..] == Under(k, ps[1..]);
    match Insert(Branch([]), ps[0].0, ps[0].1)
    case None =>
    case Some(c) =>
      PutFind(cs, k, c, k);
      var cs' := cs + [Entry(k, c)];
      InsertUnderExisting(cs', k, ps[1..]);
      match InsertAll(c, ps[1..])
      case None =>
      case Some(m) => assert cs'[|cs| := Entry(k, m)] == cs + [Entry(k, m)];
  }

  /** Rebuilding from the flattened paths of a well-formed tree, into an object
      holding none of its keys, appends exactly that tree. */
  lemma {:induction false} RebuildFlattened(cs: seq<Entry>, es: seq<Entry>)
    requires WellFormed(es)
    requires forall i, j :: 0 <= i < |cs| && 0 <= j < |es| ==> cs[i].key != es[j].key
    ensures InsertAll(Branch(cs), FlatPaths(es)) == Some(Branch(cs + es))
    decreases es
  {
    if |es| == 0 {
      assert cs + es == cs;
    } else {
      var e := es[0];
      WellFormedTail(es);
      if e.node.Branch? {
        FlatPathsNonEmpty(e.node.children);
        RebuildFlattened([], e.node.children);
      }
      RebuildHead(cs, es);
      FreshKeysAfter(cs, es);
      RebuildFlattened(cs + [e], es[1..]);
      RebuildCons(cs, es);
    }
  }

  /** The step of `RebuildFlattened`: the head entry is rebuilt, then the rest. */
  lemma RebuildCons(cs: seq<Entry>, es: seq<Entry>)
    requires |es| > 0
    requires InsertAll(Branch(cs), EntryPaths(es[0])) == Some(Branch(cs + [es[0]]))
    requires InsertAll(Branch(cs + [es[0]]), FlatPaths(es[1..])) == Some(Branch(cs + [es[0]] + es[1..]))
    ensures InsertAll(Branch(cs), FlatPaths(es)) == Some(Branch(cs + es))
  {
    ConsSplit(cs, es);
    FlatPathsCons(es);
    InsertAllThen(Branch(cs), EntryPaths(es[0]), FlatPaths(es[1..]), FlatPaths(es), Branch(cs + [es[0]]), Branch(cs + es));
  }

  /** The paths `FlatPaths` contributes for one entry. */
  function EntryPaths(e: Entry): (r: seq<(seq<string>, string)>)
    ensures AllPathsNonEmpty(r)
    decreases e, 0
  {
    match e.node
    case Leaf(v) => [([e.key], v)]
    case Branch(ds) => Under(e.key, FlatPaths(ds))
  }

  /** The first entry of a well-formed list is rebuilt at the end of an object
      that does not hold its key, given that its own subtree rebuilds. */
  lemma {:induction false} RebuildHead(cs: seq<Entry>, es: seq<Entry>)
    requires |es| > 0 && WellFormed(es)
    requires forall i, j :: 0 <= i < |cs| && 0 <= j < |es| ==> cs[i].key != es[j].key
    requires es[0].node.Branch? ==> InsertAll(Branch([]), FlatPaths(es[0].node.children)) == Some(Branch([] + es[0].node.children))
    ensures AllPathsNonEmpty(EntryPaths(es[0]))
    ensures InsertAll(Branch(cs), EntryPaths(es[0])) == Some(Branch(cs + [es[0]]))
  {
    var e := es[0];
    assert Find(cs, e.key).None?;
    match e.node {
      case Leaf(v) =>
        RebuildLeaf(cs, e.key, v);
      case Branch(ds) =>
        FlatPathsNonEmpty(ds);
        RebuildBranch(cs, e.key, ds);
    }
  }

  lemma FlatPathsCons(es: seq<Entry>)
    requires |es| > 0
    ensures FlatPaths(es) == EntryPaths(es[0]) + FlatPaths(es[1..])
  {
  }

  lemma ConsSplit<T>(xs: seq<T>, ys: seq<T>)
    requires |ys| > 0
    ensures xs + [ys[0]] + ys[1..] == xs + ys
  {
    assert ys == [ys[0]] + ys[1..];
  }

  /** Two runs of inserts that both succeed make one run that succeeds. */
  lemma InsertAllThen(n: Node, a: seq<(seq<string>, string)>, b: seq<(seq<string>, string)>, ab: seq<(seq<string>, string)>, m: Node, r: Node)
    requires AllPathsNonEmpty(a) && AllPathsNonEmpty(b) && ab == a + b
    requires InsertAll(n, a) == Some(m) && InsertAll(m, b) == Some(r)
    ensures AllPathsNonEmpty(ab) && InsertAll(n, ab) == Some(r)
  {
    InsertAllAppend(n, a, b);
  }

  lemma RebuildLeaf(cs: seq<Entry>, k: string, v: string)
    requires Find(cs, k).None?
    ensures InsertAll(Branch(cs), [([k], v)]) == Some(Branch(cs + [Entry(k, Leaf(v))]))
  {
    assert [([k], v)][1..] == [];
  }

  lemma RebuildBranch(cs: seq<Entry>, k: string, ds: seq<Entry>)
    requires Find(cs, k).None? && |FlatPaths(ds)| > 0
    requires InsertAll(Branch([]), FlatPaths(ds)) == Some(Branch([] + ds))
    ensures InsertAll(Branch(cs), Under(k, FlatPaths(ds))) == Some(Branch(cs + [Entry(k, Branch(ds))]))
  {
    InsertUnderNew(cs, k, FlatPaths(ds));
    assert [] + ds == ds;
  }

  lemma FreshKeysAfter(cs: seq<Entry>, es: seq<Entry>)
    requires |es| > 0 && WellFormed(es)
    requires forall i, j :: 0 <= i < |cs| && 0 <= j < |es| ==> cs[i].key != es[j].key
    ensures forall i, j :: 0 <= i < |cs + [es[0]]| && 0 <= j < |es[1..]| ==> (cs + [es[0]])[i].key != es[1..][j].key
  {
    forall i, j | 0 <= i < |cs + [es[0]]| && 0 <= j < |es[1..]|
      ensures (cs + [es[0]])[i].key != es[1..][j].key
    {
      assert es[1..][j] == es[j + 1];
      if i == |cs| {
        assert (cs + [es[0]])[i] == es[0];
      } else {
        assert (cs + [es[0]])[i] == cs[i];
      }
    }
  }
}

=== FILE: two_factor.dfy ===
/** Two-factor set-up, enabling, disabling and one-use backup codes
    (controllers/twoFactorAuthController.js). The TOTP check and the password
    comparison are foreign; they arrive as the oracle `totp(secret, token)` and
    the boolean `passwordOk`. */
module TwoFactor {
  import opened Wrappers
  import Users

  datatype TwoFactorError = NotSetUp | InvalidToken | WrongPassword | UserNotFound | NotEnabled | InvalidBackupCode

  function HttpStatus(e: TwoFactorError): int {
    match e
    case NotSetUp => 400
    case InvalidToken => 401
    case WrongPassword => 401
    case UserNotFound => 404
    case NotEnabled => 400
    case InvalidBackupCode => 401
  }

  /** `setupTwoFactor`: a fresh secret and fresh codes, not yet enabled (this also
      switches off a previously enabled set-up). */
  function Setup(u: Users.User, secret: string, codes: seq<string>): (u': Users.User)
    ensures !u'.twoFactor.enabled && u'.twoFactor.secret == Some(secret) && u'.twoFactor.backupCodes == codes
    ensures u' == u.(twoFactor := u'.twoFactor)
  {
    u.(twoFactor := Users.TwoFactorAuth(false, Some(secret), codes))
  }

  /** `enableTwoFactor`: needs a stored secret and a token valid for it. */
  function Enable(u: Users.User, token: string, totp: (string, string) -> bool): (r: Result<Users.User, TwoFactorError>)
    ensures !Present(u.twoFactor.secret) ==> r == Err(NotSetUp)
    ensures r.Ok? <==> Present(u.twoFactor.secret) && totp(u.twoFactor.secret.value, token)
    ensures r.Ok? ==> r.value == u.(twoFactor := u.twoFactor.(enabled := true))
  {
    if !Present(u.twoFactor.secret) then Err(NotSetUp)
    else if !totp(u.twoFactor.secret.value, token) then Err(InvalidToken)
    else Ok(u.(twoFactor := u.twoFactor.(enabled := true)))
  }

  /** `disableTwoFactor`: needs the password, and a valid token while enabled; the
      set-up is then wiped. The oracle sees the stored secret, absent or not. */
  function Disable(u: Users.User, passwordOk: bool, token: string, totp: (Option<string>, string) -> bool): (r: Result<Users.User, TwoFactorError>)
    ensures !passwordOk ==> r == Err(WrongPassword)
    ensures r.Ok? <==> passwordOk && (u.twoFactor.enabled ==> totp(u.twoFactor.secret, token))
    ensures r.Ok? ==> r.value == u.(twoFactor := Users.TwoFactorAuth(false, None, []))
  {
    if !passwordOk then Err(WrongPassword)
    else if u.twoFactor.enabled && !totp(u.twoFactor.secret, token) then Err(InvalidToken)
    else Ok(u.(twoFactor := Users.TwoFactorAuth(false, None, [])))
  }

  /** `indexOf`: the first position of `x`. */
  function IndexOf(xs: seq<string>, x: string): (r: Option<nat>)
    ensures r.None? <==> x !in xs
    ensures r.Some? ==> r.value < |xs| && xs[r.value] == x && x !in xs[..r.value]
  {
    if |xs| == 0 then None
    else if xs[0] == x then Some(0)
    else match IndexOf(xs[1..], x)
      case None => None
      case Some(i) =>
        assert xs[..i + 1] == [xs[0]] + xs[1..][..i];
        Some(i + 1)
  }

  /** `splice(i, 1)`. */
  function RemoveAt(xs: seq<string>, i: nat): (r: seq<string>)
    requires i < |xs|
    ensures |r| == |xs| - 1
    ensures multiset(r) + multiset{xs[i]} == multiset(xs)
    ensures forall j :: 0 <= j < |r| ==> r[j] == if j < i then xs[j] else xs[j + 1]
  {
    assert xs == xs[..i] + [xs[i]] + xs[i + 1..];
    xs[..i] + xs[i + 1..]
  }

  /** `verifyBackupCode`: for the account found by email, with 2FA on, a listed
      code is accepted and its first occurrence removed; every other code keeps its
      place and order. */
  function UseBackupCode(found: Option<Users.User>, code: string): (r: Result<Users.User, TwoFactorError>)
    ensures found.None? ==> r == Err(UserNotFound)
    ensures found.Some? && !found.value.twoFactor.enabled ==> r == Err(NotEnabled)
    ensures r.Ok? <==> found.Some? && found.value.twoFactor.enabled && code in found.value.twoFactor.backupCodes
    ensures r.Ok? ==>
      var before := found.value.twoFactor.backupCodes;
      var after := r.value.twoFactor.backupCodes;
      && multiset(after) + multiset{code} == multiset(before)
      && |after| == |before| - 1
      && (exists i :: 0 <= i < |before| && before[i] == code && code !in before[..i] &&
            after == before[..i] + before[i + 1..])
      && r.value == found.value.(twoFactor := found.value.twoFactor.(backupCodes := after))
  {
    if found.None? then Err(UserNotFound)
    else
      var u := found.value;
      if !u.twoFactor.enabled then Err(NotEnabled)
      else match IndexOf(u.twoFactor.backupCodes, code)
        case None => Err(InvalidBackupCode)
        case Some(i) =>
          var codes := u.twoFactor.backupCodes;
          assert RemoveAt(codes, i) == codes[..i] + codes[i + 1..];
          Ok(u.(twoFactor := u.twoFactor.(backupCodes := RemoveAt(codes, i))))
  }

  /** A code listed once is accepted once: the second use is refused. */
  lemma BackupCodeSingleUse(u: Users.User, code: string)
    requires UseBackupCode(Some(u), code).Ok?
    requires multiset(u.twoFactor.backupCodes)[code] == 1
    ensures UseBackupCode(Some(UseBackupCode(Some(u), code).value), code) == Err(InvalidBackupCode)
  {
    var after := UseBackupCode(Some(u), code).value.twoFactor.backupCodes;
    assert multiset(after)[code] == 0;
  }

  /** Enabling requires a set-up; the codes handed out at set-up are the codes that
      work after enabling. */
  lemma SetupThenEnable(u: Users.User, secret: string, codes: seq<string>, token: string, totp: (string, string) -> bool, code: string)
    requires secret != "" && totp(secret, token)
    ensures var e := Enable(Setup(u, secret, codes), token, totp);
      && e.Ok? && e.value.twoFactor.enabled
      && (UseBackupCode(Some(e.value), code).Ok? <==> code in codes)
  {
  }

  /** After a disable, neither enabling nor a backup code works until the next set-up. */
  lemma DisableWipes(u: Users.User, passwordOk: bool, token: string, totp: (Option<string>, string) -> bool,
                     token2: string, totp2: (string, string) -> bool, code: string)
    requires Disable(u, passwordOk, token, totp).Ok?
    ensures Enable(Disable(u, passwordOk, token, totp).value, token2, totp2) == Err(NotSetUp)
    ensures UseBackupCode(Some(Disable(u, passwordOk, token, totp).value), code) == Err(NotEnabled)
  {
  }
}

=== FILE: users.dfy ===
/** The user record (models/User.js) and its instance helpers: permission checks,
    the bounded login history and device registration. Time is a parameter `now`. */
module Users {
  import opened Wrappers

  type UserId = string

  datatype Role = Member | Creator | Admin

  /** The role enum of User.js as strings: 'user', 'creator', 'admin'. */
  function RoleName(r: Role): string {
    match r
    case Member => "user"
    case Creator => "creator"
    case Admin => "admin"
  }

  /** Casting a request string to the role enum; `None` is a failed enum validation. */
  function ParseRole(s: string): (r: Option<Role>)
    ensures r.Some? <==> s in {"user", "creator", "admin"}
    ensures r.Some? ==> RoleName(r.value) == s
  {
    if s == "user" then Some(Member)
    else if s == "creator" then Some(Creator)
    else if s == "admin" then Some(Admin)
    else None
  }

  datatype AccountStatus = Active | Suspended | Deactivated

  datatype LoginRecord = LoginRecord(date: int, ip: string, device: string, location: string)

  datatype Platform = Ios | Android | Web

  datatype Device = Device(token: string, platform: Platform, lastActive: int)

  datatype TwoFactorAuth = TwoFactorAuth(enabled: bool, secret: Option<string>, backupCodes: seq<string>)

  datatype PhoneVerification = PhoneVerification(code: Option<string>, expiresAt: Option<int>)

  datatype DeactivationRequest = DeactivationRequest(requestedAt: int, reason: string, scheduledDate: Option<int>)

  datatype User = User(
    id: UserId,
    email: string,
    role: Role,
    status: AccountStatus,
    permissions: map<string, bool>,
    loginHistory: seq<LoginRecord>,
    devices: seq<Device>,
    twoFactor: TwoFactorAuth,
    phoneVerification: Option<PhoneVerification>,
    deactivationRequest: Option<DeactivationRequest>,
    supportedProjects: seq<string>,
    createdProjects: seq<string>)

  /** The permission keys the schema declares. */
  const PermissionKeys: set<string> := {"canCreateProjects", "canComment", "canDonate"}

  /** Most login records kept on a user. */
  const MaxLoginHistory: nat := 10

  /** The schema defaults: every declared permission is granted. */
  function DefaultPermissions(): (m: map<string, bool>)
    ensures m.Keys == PermissionKeys
    ensures forall k :: k in m ==> m[k]
  {
    map k | k in PermissionKeys :: true
  }

  /** A freshly registered account: role 'user', status 'active', default
      permissions, 2FA off, empty histories. */
  function NewUser(id: UserId, email: string): (u: User)
    ensures u.role == Member && u.status == Active
    ensures forall p :: p in PermissionKeys ==> HasPermission(u, p)
    ensures !u.twoFactor.enabled && u.loginHistory == [] && u.devices == []
  {
    User(id, email, Member, Active, DefaultPermissions(), [], [],
         TwoFactorAuth(false, None, []), None, None, [], [])
  }

  /** `hasPermission`: admins hold every permission; anyone else holds exactly the
      permissions stored as `true`. */
  predicate HasPermission(u: User, p: string) {
    u.role == Admin || (p in u.permissions && u.permissions[p])
  }

  lemma AdminHoldsEveryPermission(u: User, p: string)
    requires u.role == Admin
    ensures HasPermission(u, p)
  {
  }

  lemma NonAdminPermissionIsStoredFlag(u: User, p: string)
    requires u.role != Admin
    ensures HasPermission(u, p) <==> (p in u.permissions && u.permissions[p] == true)
    ensures p !in u.permissions ==> !HasPermission(u, p)
  {
  }

  /** The history after appending `rec` and keeping the most recent ten entries. */
  function KeepRecent(history: seq<LoginRecord>, rec: LoginRecord): (h: seq<LoginRecord>)
    ensures |h| == (if |history| + 1 > MaxLoginHistory then MaxLoginHistory else |history| + 1)
    ensures h == (history + [rec])[|history| + 1 - |h|..]
    ensures h[|h| - 1] == rec
  {
    var full := history + [rec];
    if |full| > MaxLoginHistory then full[|full| - MaxLoginHistory..] else full
  }

  /** `addLoginRecord`: append, then keep only the most recent ten entries; nothing
      else on the user changes. */
  function AddLoginRecord(u: User, ip: string, device: string, location: string, now: int): (u': User)
    ensures |u'.loginHistory| <= MaxLoginHistory
    ensures |u'.loginHistory| == (if |u.loginHistory| >= MaxLoginHistory then MaxLoginHistory else |u.loginHistory| + 1)
    ensures u'.loginHistory[|u'.loginHistory| - 1] == LoginRecord(now, ip, device, location)
    ensures forall i :: 0 <= i < |u'.loginHistory| - 1 ==>
      u'.loginHistory[i] == u.loginHistory[|u.loginHistory| + 1 - |u'.loginHistory| + i]
    ensures u' == u.(loginHistory := u'.loginHistory)
  {
    u.(loginHistory := KeepRecent(u.loginHistory, LoginRecord(now, ip, device, location)))
  }

  /** Index of the first device with `token`, if any. */
  function FindDevice(ds: seq<Device>, token: string): (r: Option<nat>)
    ensures r.Some? ==> r.value < |ds| && ds[r.value].token == token
    ensures r.Some? ==> forall j :: 0 <= j < r.value ==> ds[j].token != token
    ensures r.None? ==> forall j :: 0 <= j < |ds| ==> ds[j].token != token
  {
    if |ds| == 0 then None
    else if ds[0].token == token then Some(0)
    else match FindDevice(ds[1..], token)
      case None => None
      case Some(i) => Some(i + 1)
  }

  predicate UniqueTokens(ds: seq<Device>) {
    forall i, j :: 0 <= i < j < |ds| ==> ds[i].token != ds[j].token
  }

  /** `registerDevice`: a known token only refreshes that device's `lastActive`; an
      unknown token appends one device. */
  function RegisterDevice(u: User, token: string, platform: Platform, now: int): (u': User)
    ensures u' == u.(devices := u'.devices)
    ensures (exists i :: 0 <= i < |u.devices| && u.devices[i].token == token) ==>
      && |u'.devices| == |u.devices|
      && (forall j :: 0 <= j < |u.devices| ==>
            u'.devices[j] == if u.devices[j].token == token && FindDevice(u.devices, token) == Some(j)
                             then u.devices[j].(lastActive := now) else u.devices[j])
    ensures (forall i :: 0 <= i < |u.devices| ==> u.devices[i].token != token) ==>
      u'.devices == u.devices + [Device(token, platform, now)]
    ensures exists i :: 0 <= i < |u'.devices| && u'.devices[i].token == token && u'.devices[i].lastActive == now
  {
    match FindDevice(u.devices, token)
    case Some(i) => u.(devices := u.devices[i := u.devices[i].(lastActive := now)])
    case None =>
      var d := u.devices + [Device(token, platform, now)];
      assert d[|u.devices|].token == token;
      u.(devices := d)
  }

  lemma RegisterDeviceKeepsTokensUnique(u: User, token: string, platform: Platform, now: int)
    requires UniqueTokens(u.devices)
    ensures UniqueTokens(RegisterDevice(u, token, platform, now).devices)
  {
  }

  lemma RegisterDeviceTwiceAddsOnce(u: User, token: string, platform: Platform, now: int, later: int)
    ensures var d := RegisterDevice(RegisterDevice(u, token, platform, now), token, platform, later).devices;
      |d| == |RegisterDevice(u, token, platform, now).devices|
  {
  }
}

=== FILE: wechat_pay.dfy ===
/** WeChat Pay (services/wechatPayService.js): the unified-order request, the
    fen/yuan conversion, the checks on WeChat's replies and the acceptance rule
    of a payment notification. The HTTP calls and the XML layer are left out:
    a reply or notification is the object the XML parser produced. The MD5
    digest, the random nonces and the clock are parameters. */
module WechatPay {
  import opened Wrappers
  import opened Signing

  /** The merchant settings of `paymentConfig.wechat`; each may be unset. */
  datatype Config = Config(appId: Value, mchId: Value, notifyUrl: Value, apiKey: Value)

  /** The fields of `orderData` the service reads. */
  datatype Order = Order(orderId: Option<string>, amount: real, description: Option<string>,
                         clientIp: Option<string>, openid: Option<string>)

  // ---------------------------------------------------------------------------
  // Amounts

  /** `Math.floor(amount * 100)`: yuan to fen, rounding down. */
  function Fen(amount: real): (fee: int)
    ensures fee as real <= amount * 100.0 < fee as real + 1.0
  {
    (amount * 100.0).Floor
  }

  /** `fee / 100`: fen to yuan. */
  function Yuan(fee: int): real {
    fee as real / 100.0
  }

  /** Whole fen survive the trip to yuan and back. */
  lemma FenOfYuan(fee: int)
    ensures Fen(Yuan(fee)) == fee
  {
    assert Yuan(fee) * 100.0 == fee as real;
  }

  /** Converting to fen and back loses less than one fen, never more. */
  lemma YuanOfFen(amount: real)
    ensures Yuan(Fen(amount)) <= amount < Yuan(Fen(amount)) + 0.01
  {
  }

  // ---------------------------------------------------------------------------
  // Unified order

  /** `openid ? 'JSAPI' : 'NATIVE'`. */
  function TradeType(openid: Option<string>): (t: string)
    ensures t == "JSAPI" <==> Present(openid)
    ensures t == "JSAPI" || t == "NATIVE"
  {
    if Present(openid) then "JSAPI" else "NATIVE"
  }

  /** The unified-order parameters every order carries. */
  function BaseOrderParams(cfg: Config, nonce: string, o: Order): (ps: Params)
    ensures UniqueKeys(ps) && Lookup(ps, "sign").None? && Lookup(ps, "openid").None?
    ensures Lookup(ps, "trade_type") == Some(Str(TradeType(o.openid)))
    ensures Lookup(ps, "total_fee") == Some(Num(Fen(o.amount)))
    ensures Lookup(ps, "out_trade_no") == Some(Opt(o.orderId))
  {
    var ps := [("appid", cfg.appId), ("mch_id", cfg.mchId), ("nonce_str", Str(nonce)), ("body", Opt(o.description)),
               ("out_trade_no", Opt(o.orderId)), ("total_fee", Num(Fen(o.amount))), ("spbill_create_ip", Opt(o.clientIp)),
               ("notify_url", cfg.notifyUrl), ("trade_type", Str(TradeType(o.openid)))];
    assert UniqueKeys(ps);
    LookupAbsent(ps, "sign");
    LookupAbsent(ps, "openid");
    LookupUnique(ps, 4);
    LookupUnique(ps, 5);
    LookupUnique(ps, 8);
    ps
  }

  /** The unified-order parameters before signing; `openid` is added only for
      JSAPI payments. */
  function OrderParams(cfg: Config, nonce: string, o: Order): (ps: Params)
    ensures Lookup(ps, "sign").None?
    ensures Lookup(ps, "trade_type") == Some(Str(TradeType(o.openid)))
    ensures Lookup(ps, "openid").Some? <==> Present(o.openid)
    ensures Present(o.openid) ==> Lookup(ps, "openid") == Some(Str(o.openid.value))
    ensures Lookup(ps, "total_fee") == Some(Num(Fen(o.amount)))
    ensures Lookup(ps, "out_trade_no") == Some(Opt(o.orderId))
  {
    var base := BaseOrderParams(cfg, nonce, o);
    if Present(o.openid) then WithOpenid(base, o.openid.value) else base
  }

  /** `params.openid = openid` on parameters without one. */
  function WithOpenid(ps: Params, openid: string): (r: Params)
    requires Lookup(ps, "openid").None?
    ensures Lookup(r, "openid") == Some(Str(openid))
    ensures forall k :: k != "openid" ==> Lookup(r, k) == Lookup(ps, k)
    ensures Lookup(r, "sign") == Lookup(ps, "sign")
  {
    var e := ("openid", Str(openid));
    LookupAppend(ps, e);
    forall k | k != "openid" ensures Lookup(ps + [e], k) == Lookup(ps, k) {
      LookupAppendOther(ps, e, k);
    }
    ps + [e]
  }

  /** The unified order is an object: no key occurs twice. */
  lemma OrderParamsUnique(cfg: Config, nonce: string, o: Order)
    ensures UniqueKeys(OrderParams(cfg, nonce, o))
  {
    var base := BaseOrderParams(cfg, nonce, o);
    if Present(o.openid) {
      AppendFresh(base, ("openid", Str(o.openid.value)));
    }
  }

  /** `params.sign = generateSign(params)` on an object without a `sign`. */
  function Signed(ps: Params, key: Value, digest: string -> string): (r: Params)
    requires Lookup(ps, "sign").None?
    ensures Without(r, "sign") == ps
    ensures Lookup(r, "sign") == Some(Str(digest(SignString(Wechat, Without(r, "sign"), Text(key)))))
    ensures forall k :: k != "sign" ==> Lookup(r, k) == Lookup(ps, k)
  {
    var e := ("sign", Str(digest(SignString(Wechat, ps, Text(key)))));
    WithoutAppended(ps, e);
    LookupAppend(ps, e);
    forall k | k != "sign" ensures Lookup(ps + [e], k) == Lookup(ps, k) {
      LookupAppendOther(ps, e, k);
    }
    ps + [e]
  }

  /** Why a call failed: a message WeChat sent, or the handler's own fixed one. */
  datatype Failure = Reported(message: string) | Fallback

  /** `a || b || fixed` over two reply fields. */
  function FirstMessage(reply: Params, a: string, b: string): (f: Failure)
    ensures Truthy(Lookup(reply, a)) ==> f == Reported(Text(Lookup(reply, a).value))
    ensures f == Fallback <==> !Truthy(Lookup(reply, a)) && !Truthy(Lookup(reply, b))
  {
    if Truthy(Lookup(reply, a)) then Reported(Text(Lookup(reply, a).value))
    else if Truthy(Lookup(reply, b)) then Reported(Text(Lookup(reply, b).value))
    else Fallback
  }

  predicate Succeeded(reply: Params, field: string) {
    Lookup(reply, field) == Some(Str("SUCCESS"))
  }

  /** What `createOrder` hands back: a QR-code link for a NATIVE payment, the
      signed parameters of the in-app payment sheet for JSAPI. */
  datatype OrderReply =
    | NativePay(orderId: Option<string>, qrCodeUrl: Option<Value>, prepayId: Option<Value>)
    | JsapiPay(orderId: Option<string>, jsapiParams: Params, prepayId: Option<Value>)

  /** The payment-sheet parameters and their `paySign`. */
  function JsapiParams(cfg: Config, prepayId: Option<Value>, nowMs: nat, nonce: string, digest: string -> string): (r: Params)
    ensures Lookup(r, "paySign") == Some(Str(digest(SignString(Wechat, Without(r, "paySign"), Text(cfg.apiKey)))))
    ensures Lookup(r, "package") == Some(Str("prepay_id=" + Text(prepayId.GetOr(Undefined))))
  {
    var ps := [("appId", cfg.appId), ("timeStamp", Str(DecimalString(nowMs / 1000))), ("nonceStr", Str(nonce)),
               ("package", Str("prepay_id=" + Text(prepayId.GetOr(Undefined)))), ("signType", Str("MD5"))];
    var e := ("paySign", Str(digest(SignString(Wechat, ps, Text(cfg.apiKey)))));
    SheetShape(ps[0].1, ps[1].1, ps[2].1, ps[3].1, ps[4].1, e.1);
    WithoutAppended(ps, e);
    ps + [e]
  }

  lemma SheetShape(a: Value, b: Value, c: Value, d: Value, f: Value, sign: Value)
    ensures var ps := [("appId", a), ("timeStamp", b), ("nonceStr", c), ("package", d), ("signType", f)];
      && Lookup(ps, "paySign").None?
      && Lookup(ps + [("paySign", sign)], "paySign") == Some(sign)
      && Lookup(ps + [("paySign", sign)], "package") == Some(d)
  {
    var ps := [("appId", a), ("timeStamp", b), ("nonceStr", c), ("package", d), ("signType", f)];
    var r := ps + [("paySign", sign)];
    assert UniqueKeys(r);
    LookupUnique(r, 3);
    LookupUnique(r, 5);
  }

  /** The signed unified-order request. */
  function OrderRequest(cfg: Config, o: Order, nonce: string, digest: string -> string): (req: Params)
    ensures Without(req, "sign") == OrderParams(cfg, nonce, o)
    ensures Lookup(req, "sign") == Some(Str(digest(SignString(Wechat, OrderParams(cfg, nonce, o), Text(cfg.apiKey)))))
  {
    Signed(OrderParams(cfg, nonce, o), cfg.apiKey, digest)
  }

  /** `createOrder` once the signed request has been sent: what it returns or
      throws, given WeChat's reply. */
  function CreateOrder(cfg: Config, o: Order, nonce2: string, nowMs: nat, digest: string -> string,
                       reply: Params): (r: Result<OrderReply, Failure>)
    ensures r.Ok? <==> Succeeded(reply, "return_code") && Succeeded(reply, "result_code")
    ensures r.Err? ==> r.error == FirstMessage(reply, "return_msg", "err_code_des")
    ensures r.Ok? ==> (r.value.JsapiPay? <==> Present(o.openid)) && r.value.orderId == o.orderId
    ensures r.Ok? && r.value.NativePay? ==> r.value.qrCodeUrl == Lookup(reply, "code_url")
    ensures r.Ok? ==> r.value.prepayId == Lookup(reply, "prepay_id")
  {
    if !Succeeded(reply, "return_code") || !Succeeded(reply, "result_code") then
      Err(FirstMessage(reply, "return_msg", "err_code_des"))
    else if TradeType(o.openid) == "NATIVE" then
      Ok(NativePay(o.orderId, Lookup(reply, "code_url"), Lookup(reply, "prepay_id")))
    else
      var prepay := Lookup(reply, "prepay_id");
      Ok(JsapiPay(o.orderId, JsapiParams(cfg, prepay, nowMs, nonce2, digest), prepay))
  }

  // ---------------------------------------------------------------------------
  // Order query

  /** `parseInt(x) / 100`; `None` stands for `NaN`. */
  function ParsedYuan(v: Value): Option<real> {
    match ParseInt(Text(v))
    case None => None
    case Some(n) => Some(Yuan(n))
  }

  datatype QueryReply = QueryReply(orderId: Option<string>, transactionId: Option<Value>, status: Option<Value>,
                                   amount: Option<real>, paidAt: Option<Value>)

  /** The order-query parameters before signing. */
  function QueryParams(cfg: Config, orderId: Option<string>, nonce: string): (ps: Params)
    ensures Lookup(ps, "sign").None?
    ensures Lookup(ps, "out_trade_no") == Some(Opt(orderId))
  {
    var ps := [("appid", cfg.appId), ("mch_id", cfg.mchId), ("out_trade_no", Opt(orderId)), ("nonce_str", Str(nonce))];
    assert UniqueKeys(ps);
    LookupUnique(ps, 2);
    ps
  }

  /** The signed order-query request. */
  function QueryRequest(cfg: Config, orderId: Option<string>, nonce: string, digest: string -> string): (req: Params)
    ensures Lookup(req, "out_trade_no") == Some(Opt(orderId))
    ensures Lookup(req, "sign") == Some(Str(digest(SignString(Wechat, Without(req, "sign"), Text(cfg.apiKey)))))
  {
    var ps := QueryParams(cfg, orderId, nonce);
    Signed(ps, cfg.apiKey, digest)
  }

  /** `queryOrder`: the signed request, and the order state read from the
      reply. Only `return_code` is checked; a missing or empty fee reads as 0. */
  function QueryOrder(cfg: Config, orderId: Option<string>, nonce: string, digest: string -> string, reply: Params): (out: (Params, Result<QueryReply, Failure>))
    ensures Lookup(out.0, "out_trade_no") == Some(Opt(orderId))
    ensures Lookup(out.0, "sign") == Some(Str(digest(SignString(Wechat, Without(out.0, "sign"), Text(cfg.apiKey)))))
    ensures out.1.Ok? <==> Succeeded(reply, "return_code")
    ensures out.1.Err? ==> out.1.error == FirstMessage(reply, "return_msg", "return_msg")
    ensures out.1.Ok? && !Truthy(Lookup(reply, "total_fee")) ==> out.1.value.amount == Some(0.0)
    ensures out.1.Ok? && Truthy(Lookup(reply, "total_fee")) ==> out.1.value.amount == ParsedYuan(Lookup(reply, "total_fee").value)
    ensures out.1.Ok? ==> out.1.value.status == Lookup(reply, "trade_state")
  {
    var req := QueryRequest(cfg, orderId, nonce, digest);
    if !Succeeded(reply, "return_code") then (req, Err(FirstMessage(reply, "return_msg", "return_msg")))
    else
      var fee := Lookup(reply, "total_fee");
      var amount := if Truthy(fee) then ParsedYuan(fee.value) else Some(0.0);
      (req, Ok(QueryReply(orderId, Lookup(reply, "transaction_id"), Lookup(reply, "trade_state"), amount, Lookup(reply, "time_end"))))
  }

  /** The fee WeChat echoes back in fen reads as the yuan amount of the order,
      at most one fen below what was asked for. */
  lemma QueryReadsOrderedFee(cfg: Config, orderId: Option<string>, nonce: string, digest: string -> string, reply: Params, amount: real)
    requires amount >= 0.0
    requires Succeeded(reply, "return_code")
    requires Lookup(reply, "total_fee") == Some(Str(DecimalString(Fen(amount))))
    ensures var a := QueryOrder(cfg, orderId, nonce, digest, reply).1.value.amount;
      a == Some(Yuan(Fen(amount))) && a.value <= amount < a.value + 0.01
  {
    var f := Fen(amount);
    var text := DecimalString(f);
    ParseDecimal(f, "");
    assert text + "" == text;
    assert ParsedYuan(Str(text)) == Some(Yuan(f));
    assert Truthy(Lookup(reply, "total_fee"));
    var q := QueryOrder(cfg, orderId, nonce, digest, reply);
    assert q.1.Ok? && q.1.value.amount == Some(Yuan(f));
    YuanOfFen(amount);
  }

  // ---------------------------------------------------------------------------
  // Payment notification

  datatype Verdict =
    | Verified(orderId: Option<Value>, transactionId: Option<Value>, amount: Option<real>, paidAt: Option<Value>)
    | BadSignature
    | Unsuccessful(reason: Failure)

  /** The acceptance rule: the `sign` field is the digest of the signing string
      of every other field. */
  predicate SignatureMatches(notify: Params, key: Value, digest: string -> string) {
    Lookup(notify, "sign") == Some(Str(digest(SignString(Wechat, Without(notify, "sign"), Text(key)))))
  }

  /** `verifyNotification`: take `sign` out, recompute it over what remains,
      then require both result codes to be `SUCCESS`. */
  function VerifyNotification(notify: Params, key: Value, digest: string -> string): (v: Verdict)
    ensures v.Verified? <==>
      SignatureMatches(notify, key, digest) && Succeeded(notify, "return_code") && Succeeded(notify, "result_code")
    ensures v == BadSignature <==> !SignatureMatches(notify, key, digest)
    ensures v.Unsuccessful? ==> v.reason == FirstMessage(Without(notify, "sign"), "return_msg", "err_code_des")
    ensures v.Verified? ==>
      && v.orderId == Lookup(notify, "out_trade_no")
      && v.amount == ParsedYuan(Lookup(notify, "total_fee").GetOr(Undefined))
  {
    var rest := Without(notify, "sign");
    var sign := Lookup(notify, "sign");
    if sign != Some(Str(digest(SignString(Wechat, rest, Text(key))))) then BadSignature
    else
      LookupWithout(notify, "sign", "return_code");
      LookupWithout(notify, "sign", "result_code");
      LookupWithout(notify, "sign", "out_trade_no");
      LookupWithout(notify, "sign", "total_fee");
      if !Succeeded(rest, "return_code") || !Succeeded(rest, "result_code") then
        Unsuccessful(FirstMessage(rest, "return_msg", "err_code_des"))
      else
        Verified(Lookup(rest, "out_trade_no"), Lookup(rest, "transaction_id"),
                 ParsedYuan(Lookup(rest, "total_fee").GetOr(Undefined)), Lookup(rest, "time_end"))
  }
  /** `sign` set to the digest of WeChat's own signing string: whatever `sign`
      the fields held before, the object with it replaced. */
  function SignedBy(ps: Params, key: Value, digest: string -> string): Params {
    Without(ps, "sign") + [("sign", Str(digest(SignString(Wechat, ps, Text(key)))))]
  }

  /** A notification WeChat signed with the merchant key and marked successful
      is accepted, even if the fields it signed already carried a `sign`: the
      signing string never covers that field, so recomputing it over the
      remaining fields gives the same digest. */
  lemma SignedNotificationVerified(ps: Params, key: Value, digest: string -> string)
    requires UniqueKeys(ps)
    requires Succeeded(ps, "return_code") && Succeeded(ps, "result_code")
    ensures VerifyNotification(SignedBy(ps, key, digest), key, digest).Verified?
    ensures VerifyNotification(SignedBy(ps, key, digest), key, digest).orderId == Lookup(ps, "out_trade_no")
  {
    var rest := Without(ps, "sign");
    var e := ("sign", Str(digest(SignString(Wechat, ps, Text(key)))));
    var n := rest + [e];
    assert n == SignedBy(ps, key, digest);
    assert SignatureMatches(n, key, digest) by {
      WithoutAppended(rest, e);
      WechatIgnoresSign(ps, Text(key));
      LookupAppend(rest, e);
    }
    assert Succeeded(n, "return_code") && Succeeded(n, "result_code") by {
      LookupWithout(ps, "sign", "return_code");
      LookupWithout(ps, "sign", "result_code");
      LookupAppendOther(rest, e, "return_code");
      LookupAppendOther(rest, e, "result_code");
    }
    assert Lookup(n, "out_trade_no") == Lookup(ps, "out_trade_no") by {
      LookupWithout(ps, "sign", "out_trade_no");
      LookupAppendOther(rest, e, "out_trade_no");
    }
  }

  /** Forging a notification takes a digest collision: one that carries a
      genuine notification's `sign` but other field texts is accepted only when
      the digest maps two different signing strings to the same value. */
  lemma ForgeryNeedsCollision(genuine: Params, forged: Params, key: Value, digest: string -> string)
    requires VerifyNotification(genuine, key, digest).Verified?
    requires Lookup(forged, "sign") == Lookup(genuine, "sign")
    requires Separable(Kept(Wechat, SortByKey(Without(genuine, "sign"))))
    requires Separable(Kept(Wechat, SortByKey(Without(forged, "sign"))))
    requires '&' !in Text(key)
    requires Texts(Kept(Wechat, SortByKey(Without(forged, "sign")))) != Texts(Kept(Wechat, SortByKey(Without(genuine, "sign"))))
    ensures VerifyNotification(forged, key, digest).Verified? ==>
      var a := SignString(Wechat, Without(forged, "sign"), Text(key));
      var b := SignString(Wechat, Without(genuine, "sign"), Text(key));
      a != b && digest(a) == digest(b)
  {
    SignStringInjective(Wechat, Without(forged, "sign"), Without(genuine, "sign"), Text(key));
  }
}

=== FILE: wrappers.dfy ===
/** Failure-compatible result types shared by every module of the model, the
    JavaScript truthiness rule for the optional strings the handlers test with
    `if (x)`, and the few string conversions of the language the handlers rely
    on: `String(n)`, `parseInt(s)` and `s.split(c)[0]`. */
module Wrappers {

  datatype Option<+T> = None | Some(value: T) {
    predicate IsFailure() { None? }

    function PropagateFailure<U>(): Option<U>
      requires None?
    {
      None
    }

    function Extract(): T
      requires Some?
    {
      value
    }

    function GetOr(default: T): T {
      match this
      case Some(v) => v
      case None => default
    }
  }

  datatype Result<+R, +E> = Ok(value: R) | Err(error: E) {
    predicate IsFailure() { Err? }

    function PropagateFailure<U>(): Result<U, E>
      requires Err?
    {
      Err(error)
    }

    function Extract(): R
      requires Ok?
    {
      value
    }
  }

  /** A string-valued request field is "truthy" in JavaScript when it is present and
      not the empty string. */
  predicate Present(o: Option<string>) {
    o.Some? && o.value != ""
  }

  /** `x || fallback` for an optional string. */
  function OrElse(o: Option<string>, fallback: string): string {
    if Present(o) then o.value else fallback
  }

  // ---------------------------------------------------------------------------
  // Decimal text

  predicate IsDigit(c: char) {
    '0' <= c <= '9'
  }

  function Digit(d: nat): (c: char)
    requires d < 10
    ensures IsDigit(c) && c as int - '0' as int == d
  {
    ('0' as int + d) as char
  }

  function DigitValue(c: char): (d: nat)
    requires IsDigit(c)
    ensures d < 10 && Digit(d) == c
  {
    c as int - '0' as int
  }

  predicate AllDigits(s: string) {
    forall i :: 0 <= i < |s| ==> IsDigit(s[i])
  }

  /** `String(n)` for a non-negative integer: its decimal digits, without
      leading zeros. */
  function DecimalString(n: nat): (s: string)
    ensures |s| >= 1 && AllDigits(s)
    ensures |s| > 1 ==> s[0] != '0'
    decreases n
  {
    if n < 10 then [Digit(n)] else DecimalString(n / 10) + [Digit(n % 10)]
  }

  /** The number a string of decimal digits denotes. */
  function DigitsValue(s: string): nat
    requires AllDigits(s)
  {
    if |s| == 0 then 0 else 10 * DigitsValue(s[..|s| - 1]) + DigitValue(s[|s| - 1])
  }

  /** Reading the decimal text of a number gives the number back. */
  lemma {:induction false} DecimalRoundTrip(n: nat)
    ensures DigitsValue(DecimalString(n)) == n
    decreases n
  {
    var s := DecimalString(n);
    if n >= 10 {
      DecimalRoundTrip(n / 10);
      assert s[..|s| - 1] == DecimalString(n / 10);
    }
  }

  /** The longest prefix made of digits. */
  function LeadingDigits(s: string): (r: string)
    ensures |r| <= |s| && r == s[..|r|] && AllDigits(r)
    ensures |r| < |s| ==> !IsDigit(s[|r|])
  {
    if |s| == 0 || !IsDigit(s[0]) then ""
    else
      var rest := LeadingDigits(s[1..]);
      assert [s[0]] + rest == s[..|rest| + 1];
      [s[0]] + rest
  }

  /** `parseInt(s)`: an optional sign and the leading digits; `None` stands for
      `NaN`, the answer when no digit follows. */
  function ParseInt(s: string): (r: Option<int>)
    ensures r.None? <==> |LeadingDigits(if |s| > 0 && (s[0] == '-' || s[0] == '+') then s[1..] else s)| == 0
  {
    var signed := |s| > 0 && (s[0] == '-' || s[0] == '+');
    var ds := LeadingDigits(if signed then s[1..] else s);
    if |ds| == 0 then None
    else if signed && s[0] == '-' then Some(-(DigitsValue(ds) as int))
    else Some(DigitsValue(ds))
  }

  /** `parseInt` reads back a number written by `String`, whatever non-digit
      text follows it. */
  lemma ParseDecimal(n: nat, rest: string)
    requires |rest| == 0 || !IsDigit(rest[0])
    ensures ParseInt(DecimalString(n) + rest) == Some(n)
  {
    var d := DecimalString(n);
    LeadingDigitsStop(d, rest);
    DecimalRoundTrip(n);
  }

  lemma {:induction false} LeadingDigitsStop(d: string, rest: string)
    requires AllDigits(d) && (|rest| == 0 || !IsDigit(rest[0]))
    ensures LeadingDigits(d + rest) == d
    decreases |d|
  {
    if |d| > 0 {
      assert (d + rest)[1..] == d[1..] + rest;
      LeadingDigitsStop(d[1..], rest);
      assert d == [d[0]] + d[1..];
    } else {
      assert d + rest == rest;
    }
  }

  // ---------------------------------------------------------------------------
  // Splitting

  /** `s.split(c)[0]`: everything before the first `c`. */
  function BeforeFirst(s: string, c: char): (r: string)
    ensures |r| <= |s| && r == s[..|r|]
    ensures c !in r
    ensures c in s ==> s[|r|] == c
    ensures c !in s ==> r == s
  {
    if |s| == 0 then ""
    else if s[0] == c then ""
    else
      var rest := BeforeFirst(s[1..], c);
      assert [s[0]] + rest == s[..|rest| + 1];
      [s[0]] + rest
  }

  /** Cutting at the first `c` of a text that holds none before it. */
  lemma {:induction false} BeforeFirstAppend(a: string, c: char, b: string)
    requires c !in a
    ensures BeforeFirst(a + [c] + b, c) == a
    decreases |a|
  {
    if |a| > 0 {
      assert (a + [c] + b)[1..] == a[1..] + [c] + b;
      BeforeFirstAppend(a[1..], c, b);
      assert a == [a[0]] + a[1..];
    }
  }

  /** The ensures of BeforeFirst determine it: a prefix free of `c` that is
      either all of `s` or followed by a `c` is the part before the first `c`. */
  lemma BeforeFirstUnique(s: string, c: char, x: string)
    requires |x| <= |s| && x == s[..|x|] && c !in x
    requires |x| == |s| || s[|x|] == c
    ensures BeforeFirst(s, c) == x
  {
  }

  /** A `c`-free head is kept whole, and the cut happens in the tail. */
  lemma BeforeFirstAfterFree(u: string, v: string, c: char)
    requires c !in u
    ensures BeforeFirst(u + v, c) == u + BeforeFirst(v, c)
  {
    var x := u + BeforeFirst(v, c);
    assert x == (u + v)[..|x|];
    if c in v {
      assert (u + v)[|x|] == v[|BeforeFirst(v, c)|];
    }
    BeforeFirstUnique(u + v, c, x);
  }

  /** A prefix that already holds a `c` is cut at the same place as the whole. */
  lemma BeforeFirstOfPrefix(p: string, t: string, c: char)
    requires |p| <= |t| && p == t[..|p|] && c in p
    ensures BeforeFirst(p, c) == BeforeFirst(t, c)
  {
    var x := BeforeFirst(p, c);
    assert t[|x|] == p[|x|];
    BeforeFirstUnique(t, c, x);
  }
}
